=== FILE: README.md ===
# A Dafny model of the bookkeeping core of an LLVM taint and points-to analyser

The analysed system is a soundy, flow-sensitive, context-sensitive static analyser for kernel drivers (in the style of DR. CHECKER), together with a small Python script that pulls the warning records out of its log. It is built on LLVM. Underneath the IR plumbing, most of its logic is sequential bookkeeping over sets, maps and vectors. That bookkeeping is what this project models and proves properties about.

LLVM values, instructions, basic blocks, functions and alias objects are opaque identifiers (`nat`). A null pointer is `None`. An LLVM `Type` is the `TypeModel.Ty` datatype: type id, contained types, optional struct name, element count and opacity. Facts the analyser takes from LLVM are parameters of the model: block successors, intra-procedural reachability, dominance and post-dominance, value ranges, debug locations and names. C++ sets of pointers become sequences of records compared by value. For those records, pointer identity always implies the value comparison the source uses, so this loses nothing the source relies on. For types it does not: see `TypeModel.SameTypes` under Left out.

Modules, leaf first:

- `Wrappers`: `Option`, the nullable pointer.
- `Seqs`: facts about sequences of any element type that the proofs share, including the repetition-free predicate `Distinct`.
- `Text`: `rfind`, `find`, `std::stoi` on 32-bit `int` (leading white space, sign, at least one digit, range), and decimal printing.
- `JsonText`: `escapeJsonString` and the JSON string quoting built on it.
- `LogExtract`: `ext_warns.py`. The region toggle on `@@@@@@` lines and the stripped lines collected inside regions. The module-level `warns` list becomes an explicit accumulator.
- `InstLocs`: `InstLoc` (an instruction with its optional calling context), `same` and `hasCtx`.
- `TypeModel`: the type datatype, `trim_num_suffix`, `stripFuncNameSuffix`, `same_types`, `isIndexValid` and `isPrimitiveTy`.
- `FieldDescs`: `FieldDesc`, `TypeField`, `CandStructInf`, the two sorted look-ups into field-description vectors, `getHeadFieldDesc`, and the `findTy`/`findHostTy`/`getOutermostTy` queries.
- `Cfgs`: the worklist reachability search `isPotentiallyReachableFromMany`, `isPotentiallyReachable`, and the loop re-analysis count `getNumTimesToAnalyze`.
- `CallContexts`: context construction by the global visitor (each call appends two entries), the depth limit, the recursion guard, the truncation of type-inferred targets, the callee blacklist, the per-SCC analysis loop, `checkObjTainted`, and the proof that every context built is of odd length.
- `InterProc`: `InstLoc::reachable` and `InstLoc::postDom`, with the intra-procedural facts as an oracle.
- `EntryArgs`: the string `split` and the table of tainted and pointer arguments for each entry-point kind.
- `Taint`: taint tags and flags, trace extension, tag and flag equality, and `FieldTaint` with `addTf`, `resetTfs`, `getTf` and `doGetTf`.
- `TaintUtils`: the per-value taint map and its deduplicating insertion.
- `TaintVisitor`: the decisions of the taint visitor for copy, merge, store, argument tainting, GEP and return.
- `AliasObjects`: points-to records, their comparisons and constructors, points-to and points-from bookkeeping of an object, field counting and enumeration, and `getFieldTy`.
- `AliasVisitor`: duplicate filtering, update and merge of points-to sets, the multi-dimension GEP split, the `bit2Field` offset check, and the weak/strong decision of a store.
- `PointsToUtils`: points-to queries, alias-object collection, target objects, and function targets filtered by file and cached by type.
- `GlobalStates`: the context registry, taint history, full taint trace, hierarchy history, hierarchy-string rendering, the proper-prefix test, and per-instruction warning registration.
- `SwitchCases`: the `cmd` switch map and its memoised successor closure.
- `PathSearch`: the return-block search and the two path searches of `getPath.h`.
- `OverflowDetector`: the one-warning-per-instruction state machine of the integer-overflow detector.
- `WarningOutput`: `printInstlocJson` and `printInstlocTraceJson`, the `"warn_data"` JSON lines, and the complete text form of three warning kinds.

The script collects the stripped lines of each region, prints them, and leaves filtering and grouping of the collected records as a TODO (`ext_warns.py:19`). The model does the same. It collects every line of a region, not only `"warn_data"` lines, and it tests the marker on the raw line with `startswith`.

Two more points follow the code where a reader might expect otherwise. `InstLoc::postDom` and `FieldTaint::addTf` are modelled as written, next to corrected versions (see Findings). The assertions that contexts have odd length (`CFGUtils.cpp:396-397`, `530-531`) become preconditions of the model. `CallContexts` proves that every context the visitor builds meets them.

## Model

| member | source | states |
|---|---|---|
| Text.RFind | llvm_analysis/MainAnalysisPasses/Utils/src/InstructionUtils.cpp:229-233 | the position found holds the character and no later position does; None exactly when the character is absent (`npos`) |
| Text.Stoi | llvm_analysis/MainAnalysisPasses/Utils/src/InstructionUtils.cpp:508-513 | a successful conversion consumes at least one character, stops at a non-digit or the end, and yields a 32-bit `int`; text without any digit is `invalid_argument`; its exact outcome on every input is stated by `Text.StoiAt` |
| Text.StoiAt | llvm_analysis/MainAnalysisPasses/Utils/src/InstructionUtils.cpp:508-513 | for text made of leading white space, an optional sign and a maximal run of digits, `stoi` is `invalid_argument` when the run is empty, the signed decimal value with the position after the run when it fits in 32 bits, and `out_of_range` otherwise |
| Text.StoiOfIntToString | llvm_analysis/MainAnalysisPasses/Utils/src/InstructionUtils.cpp:506-517 | every `int` printed in decimal is read back by `stoi` to the same value, consuming the whole text, so a printed number counts as a numeric suffix |
| JsonText.UnescapeLetter | llvm_analysis/MainAnalysisPasses/Utils/src/InstructionUtils.cpp:66-94 | every letter the reader decodes is the letter the escaper writes for a character it rewrites |
| JsonText.EscapeJsonString | llvm_analysis/MainAnalysisPasses/Utils/src/InstructionUtils.cpp:62-97 | the output is one character longer than the input for each of the eight rewritten characters; an empty input is excluded because the function then returns nothing |
| JsonText.EscapeLengthIsSpecialCount | llvm_analysis/MainAnalysisPasses/Utils/src/InstructionUtils.cpp:66-94 | the escaping loop adds exactly one character per backslash, quote, slash, backspace, form feed, newline, carriage return or tab |
| JsonText.ReadEscaped | llvm_analysis/MainAnalysisPasses/Utils/src/InstructionUtils.cpp:66-94 | reading back the escaped text followed by a closing quote returns the original text and exactly the rest of the output |
| JsonText.EscapeJsonStringReadsBack | llvm_analysis/MainAnalysisPasses/Utils/src/InstructionUtils.cpp:62-97 | round trip: the escaped string, closed by a quote, decodes to the input |
| JsonText.EscapeIdentityWithoutSpecials | llvm_analysis/MainAnalysisPasses/Utils/src/InstructionUtils.cpp:91-93 | text with none of the eight characters is copied unchanged |
| LogExtract.Strip | llvm_analysis/MainAnalysisPasses/ext_warns.py:18 | the stripped line is the slice of the line left after cutting away whitespace (space, tab, line feed, carriage return, vertical tab, form feed, as Python 2 `strip()` on bytes) on both sides; it neither begins nor ends with whitespace, and a line without whitespace is unchanged |
| LogExtract.ExtWarns | llvm_analysis/MainAnalysisPasses/ext_warns.py:9-18 | the accumulated list is the earlier list followed by exactly what `Extracted` yields for the log; which lines those are (the non-marker lines while an odd number of markers has been seen, stripped) is stated by `LogExtract.LineCollectedIffRegionOpen` |
| LogExtract.ExtractFrom | llvm_analysis/MainAnalysisPasses/ext_warns.py:12-18 | at most one item is collected per line; which lines are collected, and how, is stated by `LogExtract.LineCollectedIffRegionOpen` and `LogExtract.ExtractFromAppend` |
| LogExtract.Extracted | llvm_analysis/MainAnalysisPasses/ext_warns.py:9-18 | at most one item is collected per line, the region flag starting cleared; the collected lines are characterised by `LogExtract.LineCollectedIffRegionOpen` |
| LogExtract.LineCollectedIffRegionOpen | llvm_analysis/MainAnalysisPasses/ext_warns.py:14-18 | line i contributes exactly its stripped text when it is not a marker and an odd number of markers precede it, and nothing otherwise, between what the earlier and the later lines give |
| LogExtract.ExtractFromAppend | llvm_analysis/MainAnalysisPasses/ext_warns.py:13-18 | reading two logs in sequence collects what the first gives, then what the second gives with the flag flipped once per marker of the first |
| LogExtract.OddMarkersIsOddCount | llvm_analysis/MainAnalysisPasses/ext_warns.py:14-15 | the flag left by reading a log from a cleared start is set iff the log holds an odd number of markers |
| LogExtract.OpenCollectsAll | llvm_analysis/MainAnalysisPasses/ext_warns.py:16-18 | inside an open region a run of non-marker lines is collected in full, each stripped, in order |
| LogExtract.NoMarkersNothingCollected | llvm_analysis/MainAnalysisPasses/ext_warns.py:11-16 | a log without marker lines yields nothing, since the flag starts false |
| LogExtract.ExtractedAppend | llvm_analysis/MainAnalysisPasses/ext_warns.py:13-18 | after an even number of markers, extracting two logs in sequence equals extracting each and concatenating |
| LogExtract.OpenRegionCollectsRest | llvm_analysis/MainAnalysisPasses/ext_warns.py:14-18 | after an odd number of markers, every following non-marker line is collected, stripped |
| WarningOutput.CtxItems | llvm_analysis/MainAnalysisPasses/Utils/src/CFGUtils.cpp:601-615 | one `{...}` item per context instruction, holding that instruction's JSON members, in context order |
| WarningOutput.InstLocJson | llvm_analysis/MainAnalysisPasses/Utils/src/CFGUtils.cpp:592-619 | an instruction's JSON members (or an `instr` member with the escaped value text) come first; without a context that is all for an instruction; with a context the text ends with the `ctx` array's closing bracket |
| WarningOutput.TraceJson | llvm_analysis/MainAnalysisPasses/Utils/src/CFGUtils.cpp:621-642 | the printed trace is `[`, the items of the non-null entries joined by commas, then `]`; an empty trace prints `[]` |
| WarningOutput.TraceLoop | llvm_analysis/MainAnalysisPasses/Utils/src/CFGUtils.cpp:628-639 | the loop writes nothing exactly when every entry is null; otherwise it starts with a comma once an item has been written and with an item's opening brace before that |
| WarningOutput.TraceLoopAfterComma | llvm_analysis/MainAnalysisPasses/Utils/src/CFGUtils.cpp:627-640 | once an item has been written, every later item is preceded by exactly one comma |
| WarningOutput.TraceLoopIsJoin | llvm_analysis/MainAnalysisPasses/Utils/src/CFGUtils.cpp:626-641 | whatever null entries the trace holds, the comma flag puts commas exactly between emitted items |
| WarningOutput.AllNullTraceIsEmptyArray | llvm_analysis/MainAnalysisPasses/Utils/src/CFGUtils.cpp:621-642 | a trace holding only null entries prints as `[]`, like an empty one |
| WarningOutput.ReadIntOfIntToString | llvm_analysis/MainAnalysisPasses/SoundyAliasAnalysis/src/bug_detectors/warnings/InvalidCastWarning.cpp:54-66 | a size printed in decimal and followed by a non-digit reads back as the same number |
| WarningOutput.ReadSizesBack | llvm_analysis/MainAnalysisPasses/SoundyAliasAnalysis/src/bug_detectors/warnings/InvalidCastWarning.cpp:54-66 | the size members read back as the two sizes, with the taint member present exactly for an unknown (-1) tainted size |
| WarningOutput.InvalidCastReadsBack | llvm_analysis/MainAnalysisPasses/SoundyAliasAnalysis/src/bug_detectors/warnings/InvalidCastWarning.cpp:40-71 | the JSON line reads back: detector name, fixed message, object text or `UNKNOWN OBJECT`, both sizes, the taint member exactly for an unknown tainted size, then instruction, trace and closing brace |
| WarningOutput.InvalidCastJson | llvm_analysis/MainAnalysisPasses/SoundyAliasAnalysis/src/bug_detectors/warnings/InvalidCastWarning.cpp:40-71 | the line starts with the `by` member holding the escaped detector name; every other member is read back by `WarningOutput.InvalidCastReadsBack` |
| WarningOutput.CallSitesTextAppend | llvm_analysis/MainAnalysisPasses/SoundyAliasAnalysis/src/bug_detectors/warnings/InvalidCastWarning.cpp:33-37 | the call-context section keeps call-site order: the text of a concatenated trace is the concatenation of the texts |
| WarningOutput.InvalidCastText | llvm_analysis/MainAnalysisPasses/SoundyAliasAnalysis/src/bug_detectors/warnings/InvalidCastWarning.cpp:12-38 | the complete form starts with the fixed cast message and, after the cast header, is exactly the call-site lines in order; every prefix of the call-site list, after the header, starts the text |
| WarningOutput.SitesInOrder | llvm_analysis/MainAnalysisPasses/SoundyAliasAnalysis/src/bug_detectors/warnings/InvalidCastWarning.cpp:34-37 | the call-site text of every prefix of the call-site list starts the text of the whole list, whatever precedes and follows it |
| WarningOutput.CallSiteLine | llvm_analysis/MainAnalysisPasses/SoundyAliasAnalysis/src/bug_detectors/warnings/InvalidCastWarning.cpp:34-37 | each call site adds exactly one indented line with its instruction text after the lines of the earlier call sites |
| WarningOutput.CastSizeTextMeaning | llvm_analysis/MainAnalysisPasses/SoundyAliasAnalysis/src/bug_detectors/warnings/InvalidCastWarning.cpp:19-28 | the complete form says "Unknown" exactly for size -1, and "(Also TAINTED)" exactly when that unknown size is tainted |
| WarningOutput.CastSizeTextAgreesWithJson | llvm_analysis/MainAnalysisPasses/SoundyAliasAnalysis/src/bug_detectors/warnings/InvalidCastWarning.cpp:19-63 | the complete form and the JSON line agree on the source size: "Unknown" exactly where the JSON reads -1, "(Also TAINTED)" exactly where it carries the taint member |
| WarningOutput.ObjWarningReadsBack | llvm_analysis/MainAnalysisPasses/SoundyAliasAnalysis/src/bug_detectors/warnings/KernelUninitMemoryLeakWarning.cpp:23-37 | the leak (and tainted-use) JSON line reads back the detector name and warning text, and its last member before the closing brace holds the object's value text |
| WarningOutput.UninitLeakJson | llvm_analysis/MainAnalysisPasses/SoundyAliasAnalysis/src/bug_detectors/warnings/KernelUninitMemoryLeakWarning.cpp:23-37 | the line reads back as the detector name, the warning text, and the member tail holding the instruction members, the `inst_trace` array and the `leaked_struct` member |
| WarningOutput.TaintedUseJson | llvm_analysis/MainAnalysisPasses/SoundyAliasAnalysis/src/bug_detectors/warnings/ImproperTaintedDataUseWarning.cpp:24-37 | the line reads back as the detector name, the warning text, and the member tail holding the instruction members, the `inst_trace` array and the `tainted_obj` member |
| WarningOutput.UninitLeakText | llvm_analysis/MainAnalysisPasses/SoundyAliasAnalysis/src/bug_detectors/warnings/KernelUninitMemoryLeakWarning.cpp:11-21 | the complete leak report starts with the leak message naming the detector, lists the call sites in order after its header, and ends with the leaked structure line |
| WarningOutput.TaintedUseText | llvm_analysis/MainAnalysisPasses/SoundyAliasAnalysis/src/bug_detectors/warnings/ImproperTaintedDataUseWarning.cpp:12-22 | the complete tainted-use report starts with the warning text and the detector name, lists the call sites in order after its header, and ends with the tainted object line |
| InstLocs.Same | llvm_analysis/MainAnalysisPasses/Utils/include/CFGUtils.h:45-65 | two locations are the same exactly when the other is non-null and has the same value and an equal context (both absent or element-wise equal); a different value or only one context present gives false |
| InstLocs.Ctx | llvm_analysis/MainAnalysisPasses/Utils/include/CFGUtils.h:67-69 | accessor for the context of a location that has one; its ensures only carries forward the non-empty context that `hasCtx` guarantees |
| TypeModel.StripFuncNameSuffix | llvm_analysis/MainAnalysisPasses/Utils/src/InstructionUtils.cpp:225-234 | the result is a prefix of the name ending just before its last dot; a name without a dot is unchanged |
| TypeModel.TrimNumSuffix | llvm_analysis/MainAnalysisPasses/Utils/src/InstructionUtils.cpp:502-519 | the name is cut at its last dot exactly when `stoi` consumes the whole remainder (or it is empty), and is unchanged otherwise |
| TypeModel.TrimNumSuffixRemovesNumber | llvm_analysis/MainAnalysisPasses/Utils/src/InstructionUtils.cpp:502-519 | a name followed by a dot and any `int`-range number is trimmed back to the name (`struct.A.123` to `struct.A`) |
| TypeModel.NoDotUnchanged | llvm_analysis/MainAnalysisPasses/Utils/src/InstructionUtils.cpp:225-234 | a name without a dot is unchanged by both suffix strippers |
| TypeModel.StripFuncNameSuffixRemovesLast | llvm_analysis/MainAnalysisPasses/Utils/src/InstructionUtils.cpp:225-234 | exactly the last dot-separated component is removed (`foo.cold.1` to `foo.cold`) |
| TypeModel.TrimKeepsWordSuffix | llvm_analysis/MainAnalysisPasses/Utils/src/InstructionUtils.cpp:506-517 | a suffix starting with a letter is not numeric, so the name is kept |
| TypeModel.SameTypes | llvm_analysis/MainAnalysisPasses/Utils/src/InstructionUtils.cpp:525-595 | identical types match; a null against a non-null never matches; matching types have the same type id and the same number of contained types; the full case analysis for distinct types is `TypeModel.SameTypesCompares` |
| TypeModel.SameTypesCompares | llvm_analysis/MainAnalysisPasses/Utils/src/InstructionUtils.cpp:565-595 | for distinct types of equal id and arity, outside the wildcard `i8*` case: structs match exactly when both are named and their names agree once a numeric suffix is trimmed; any other kind matches exactly when all contained types match pairwise, non-wildcard |
| TypeModel.SameContained | llvm_analysis/MainAnalysisPasses/Utils/src/InstructionUtils.cpp:589-595 | the contained-type loop succeeds exactly when every pair of contained types matches (without the `i8*` wildcard) |
| TypeModel.SameTypesSymmetric | llvm_analysis/MainAnalysisPasses/Utils/src/InstructionUtils.cpp:525-595 | the comparison is symmetric in its two types |
| TypeModel.IntegerWidthsIgnored | llvm_analysis/MainAnalysisPasses/Utils/src/InstructionUtils.cpp:536-544 | integer types of any two widths are the same, since only type ids and contained types are compared |
| TypeModel.ArrayLengthsIgnored | llvm_analysis/MainAnalysisPasses/Utils/src/InstructionUtils.cpp:589-595 | arrays of one element type match whatever their lengths |
| TypeModel.WildI8PtrMatchesAnyPointer | llvm_analysis/MainAnalysisPasses/Utils/src/InstructionUtils.cpp:545-552 | with the wildcard on, `i8*` matches every pointer type |
| TypeModel.RenamedStructsMatch | llvm_analysis/MainAnalysisPasses/Utils/src/InstructionUtils.cpp:566-578 | a struct renamed with a numeric suffix matches the original |
| TypeModel.UnnamedStructsNeedIdentity | llvm_analysis/MainAnalysisPasses/Utils/src/InstructionUtils.cpp:566-586 | an unnamed struct matches nothing but itself |
| TypeModel.IsIndexValid | llvm_analysis/MainAnalysisPasses/Utils/src/InstructionUtils.cpp:1112-1126 | null accepts no index; index 0 is always accepted; a non-composite type accepts exactly index 0; a struct accepts exactly 0 and the indices below its field count; an array exactly 0 and the indices below its length; a vector every index |
| TypeModel.ValidIndexHasType | llvm_analysis/MainAnalysisPasses/Utils/src/InstructionUtils.cpp:1112-1126 | a valid index into a composite type with contained types has a type there: a struct field index is below the field count, and the type at the index is one of the contained types |
| FieldDescs.OutermostTy | llvm_analysis/MainAnalysisPasses/Utils/src/InstructionUtils.cpp:1105-1110 | null exactly when there is no host type; otherwise one of the host types (the last, outermost one) |
| FieldDescs.FirstSameType | llvm_analysis/MainAnalysisPasses/Utils/src/InstructionUtils.cpp:1083-1092 | the index returned is the first whose type matches under `same_types`; -1 means a null type or no match at all |
| FieldDescs.FindTy | llvm_analysis/MainAnalysisPasses/Utils/src/InstructionUtils.cpp:1083-1092 | the result is -1 or the first index of a listed type matching the query; -1 exactly when the query is null or no listed type matches |
| FieldDescs.FindHostTy | llvm_analysis/MainAnalysisPasses/Utils/src/InstructionUtils.cpp:1094-1103 | the result is -1 or the first index of a host type matching the query; -1 exactly when the query is null or no host type matches |
| FieldDescs.FindHostTyIffPresent | llvm_analysis/MainAnalysisPasses/Utils/src/InstructionUtils.cpp:1094-1103 | for a non-null query, a host type is found exactly when some host type matches, and no earlier host type matches |
| FieldDescs.FindTyIffPresent | llvm_analysis/MainAnalysisPasses/Utils/src/InstructionUtils.cpp:1083-1092 | a type is found exactly when some listed type matches it, and then no earlier type matches |
| FieldDescs.Locate | llvm_analysis/MainAnalysisPasses/Utils/src/InstructionUtils.cpp:981-995 | a found index holds a non-null descriptor with the key, and every earlier non-null descriptor has a smaller key |
| FieldDescs.LocateFieldInTyDesc | llvm_analysis/MainAnalysisPasses/Utils/src/InstructionUtils.cpp:977-996 | a null or empty vector gives -1; a found index holds a descriptor whose outermost field id is the one asked for |
| FieldDescs.LocateBitsoffInTyDesc | llvm_analysis/MainAnalysisPasses/Utils/src/InstructionUtils.cpp:998-1013 | a null or empty vector gives -1; a found index holds a descriptor at the bit offset asked for |
| FieldDescs.LocateCompleteWhenSorted | llvm_analysis/MainAnalysisPasses/Utils/src/InstructionUtils.cpp:987-991 | on a vector sorted by key the early stop loses nothing: the lookup fails exactly when no descriptor holds the key |
| FieldDescs.LocateStopsAtLargerKey | llvm_analysis/MainAnalysisPasses/Utils/src/InstructionUtils.cpp:987-991 | on an unsorted vector a key behind a larger one is not found |
| FieldDescs.HeadChain | llvm_analysis/MainAnalysisPasses/Utils/src/InstructionUtils.cpp:851-861 | the chain starts at the type, ends at a non-composite type, and each next entry is the previous one's type at index 0 |
| FieldDescs.GetHeadFieldDesc | llvm_analysis/MainAnalysisPasses/Utils/src/InstructionUtils.cpp:840-864 | null exactly for a null type; otherwise bit offset 0, the types along the index-0 chain, one host type per composite type in innermost-first order, and field id 0 throughout |
| FieldDescs.HeadOutermostIsType | llvm_analysis/MainAnalysisPasses/Utils/src/InstructionUtils.cpp:851-861 | a composite type's chain has at least two entries; a non-composite type's chain is itself alone |
| FieldDescs.IsSameTy | llvm_analysis/MainAnalysisPasses/Utils/src/InstructionUtils.cpp:1397-1402 | null is never the same; otherwise the same exactly when the field ids are equal and the types match non-wildcard |
| FieldDescs.IsSameTySymmetric | llvm_analysis/MainAnalysisPasses/Utils/src/InstructionUtils.cpp:1397-1402 | `is_same_ty` is symmetric |
| FieldDescs.CandSame | llvm_analysis/MainAnalysisPasses/Utils/include/InstructionUtils.h:72-76 | two candidates are the same exactly when the other is non-null and equal in descriptor vector and indices |
| Cfgs.SearchExpand | llvm_analysis/MainAnalysisPasses/Utils/src/CFGUtils.cpp:139-152 | expanding a fresh block other than the stop block keeps the search invariant: everything pending or visited is reachable from the start blocks, and every successor of a visited block is visited or pending |
| Cfgs.FromMany | llvm_analysis/MainAnalysisPasses/Utils/src/CFGUtils.cpp:136-158 | with limit 0 the answer is true exactly when the stop block is reachable from some start block; a false answer is always exact; with a positive limit fewer than `limit` blocks are expanded, each at most once |
| Cfgs.ClosedUnderSucc | llvm_analysis/MainAnalysisPasses/Utils/src/CFGUtils.cpp:153-157 | when the worklist runs dry, the visited blocks hold the start blocks, are closed under successors and miss the stop block, so it is unreachable |
| Cfgs.IsPotentiallyReachable | llvm_analysis/MainAnalysisPasses/Utils/src/CFGUtils.cpp:162-209 | false across functions; true when B is at or after A in the same block; false when A and B are in the entry block with B before A; true when A is in the entry block and B elsewhere; false when B is in the entry block and A is not; otherwise, with limit 0, true exactly when B is reachable from A, and a false answer is always exact |
| Cfgs.SingleStartSteps | llvm_analysis/MainAnalysisPasses/Utils/src/CFGUtils.cpp:201-209 | between distinct blocks, a search that starts at A's block finds B's block exactly when a successor of A's block reaches it |
| Cfgs.UseDefChain | llvm_analysis/MainAnalysisPasses/Utils/src/CFGUtils.cpp:74-110 | the chain contains the block, lies in the SCC, is closed under operand uses within the SCC, and is the least such set |
| Cfgs.NumTimesToAnalyze | llvm_analysis/MainAnalysisPasses/Utils/src/CFGUtils.cpp:52-130 | the result is at least 1 and at most the number of SCC blocks, at least the size of every least use-def chain of an SCC block, and either 1 or the size of one of those chains: the largest chain size |
| Cfgs.UseDefLengths | llvm_analysis/MainAnalysisPasses/Utils/src/CFGUtils.cpp:63-117 | every recorded block lies in the SCC with a size bounded by the SCC, every SCC block is recorded, each size is that of some least use-def chain in the SCC, no least chain of a recorded block is longer, and the first block gets the size of its own chain |
| Cfgs.LargestLength | llvm_analysis/MainAnalysisPasses/Utils/src/CFGUtils.cpp:120-128 | the result is at least 1, no recorded size of an SCC block exceeds it, and it is 1 or one of those sizes |
| CallContexts.NewContext | llvm_analysis/MainAnalysisPasses/SoundyAliasAnalysis/src/GlobalVisitor.cpp:216-237 | the callee's context is the caller's context followed by the call and then the callee's first instruction, or the call again for a declaration |
| CallContexts.Descend | llvm_analysis/MainAnalysisPasses/SoundyAliasAnalysis/src/GlobalVisitor.cpp:140-146 | a descent happens exactly when the current context holds at most 13 entries (2 * MAX_CALLSITE_DEPTH - 1), and then yields the new context |
| CallContexts.ContextShape | llvm_analysis/MainAnalysisPasses/SoundyAliasAnalysis/src/GlobalVisitor.cpp:140-237 | every context built by descents from the top-level entry has length 2 * frames + 1 (odd) and at most 15 entries; it starts with the entry, and its odd positions hold the calls in order |
| CallContexts.SevenFramesAtMost | llvm_analysis/MainAnalysisPasses/SoundyAliasAnalysis/src/GlobalVisitor.cpp:14 | the depth limit admits a chain of descents exactly when it has at most seven calls |
| CallContexts.CallSites | llvm_analysis/MainAnalysisPasses/SoundyAliasAnalysis/src/GlobalVisitor.cpp:372-379 | the call sites of a context are exactly the entries at its odd positions |
| CallContexts.VisitCall | llvm_analysis/MainAnalysisPasses/SoundyAliasAnalysis/src/GlobalVisitor.cpp:352-384 | a call is followed exactly when not inside a loop and neither visited in this function nor a call site of the current context (declarations excepted); it is then added to the visited calls, and otherwise nothing changes |
| CallContexts.GuardedDescentKeepsCallsDistinct | llvm_analysis/MainAnalysisPasses/SoundyAliasAnalysis/src/GlobalVisitor.cpp:366-384 | a descent that passes the guard into a function with a body never repeats a call site in the new context |
| CallContexts.NonNull | llvm_analysis/MainAnalysisPasses/SoundyAliasAnalysis/src/GlobalVisitor.cpp:443-449 | the non-null targets are exactly the targets present, in order |
| CallContexts.CapTargets | llvm_analysis/MainAnalysisPasses/SoundyAliasAnalysis/src/GlobalVisitor.cpp:437-451 | at most three targets are kept as they are; more are cut to at most three, all non-null |
| CallContexts.Keep | llvm_analysis/MainAnalysisPasses/SoundyAliasAnalysis/src/GlobalVisitor.cpp:443-449 | the fill loop keeps at most `n` targets, all non-null |
| CallContexts.KeepIsPrefixOfNonNull | llvm_analysis/MainAnalysisPasses/SoundyAliasAnalysis/src/GlobalVisitor.cpp:443-449 | the kept targets are the first non-null ones of the inferred list, as many as the cap allows |
| CallContexts.Decide | llvm_analysis/MainAnalysisPasses/SoundyAliasAnalysis/src/GlobalVisitor.cpp:138-208 | a callee is analysed exactly when the context is within the depth limit and, in all-tainted mode, the name is not blacklisted, the call is not a recorded tainted indirect call, and some argument's pointee is tainted |
| CallContexts.SanitizerCallsSkipped | llvm_analysis/MainAnalysisPasses/SoundyAliasAnalysis/src/GlobalVisitor.cpp:159-171 | in all-tainted mode a callee whose name contains `asan_report` is never analysed |
| CallContexts.ProbeIsOneHop | llvm_analysis/MainAnalysisPasses/SoundyAliasAnalysis/src/GlobalVisitor.cpp:111-134 | the probe from an argument is true exactly when the pointee field is tainted or some points-to record of the pointee object points to a tainted field, since depth 2 answers false |
| CallContexts.CheckObjTainted | llvm_analysis/MainAnalysisPasses/SoundyAliasAnalysis/src/GlobalVisitor.cpp:111-135 | depth 2 and a null pointee answer false; above that, a tainted pointee field answers true |
| CallContexts.AnyTainted | llvm_analysis/MainAnalysisPasses/SoundyAliasAnalysis/src/GlobalVisitor.cpp:125-131 | the loop over the pointee's records answers true exactly when the probe one level down answers true for some record |
| CallContexts.AnyTaintedAtDepthOne | llvm_analysis/MainAnalysisPasses/SoundyAliasAnalysis/src/GlobalVisitor.cpp:125-131 | one level down, the probe finds taint exactly when some record points to a tainted field |
| CallContexts.AnyTaintedAtDepthTwo | llvm_analysis/MainAnalysisPasses/SoundyAliasAnalysis/src/GlobalVisitor.cpp:112-114 | at depth 2 the probe always answers false |
| CallContexts.LoopPasses | llvm_analysis/MainAnalysisPasses/SoundyAliasAnalysis/src/GlobalVisitor.cpp:659-665 | a loop gets at most MAX_LOOP_CNT (1) passes and no more than the use-def count, so exactly one pass when that count is at least 1 |
| CallContexts.Pass | llvm_analysis/MainAnalysisPasses/SoundyAliasAnalysis/src/GlobalVisitor.cpp:679-691 | one pass visits only live blocks of the SCC, all with the same loop flag |
| CallContexts.LoopVisitedOnce | llvm_analysis/MainAnalysisPasses/SoundyAliasAnalysis/src/GlobalVisitor.cpp:659-693 | under the hard loop limit a loop is analysed in one pass with the loop flag off, so calls in it are followed |
| CallContexts.LastPassOutsideLoop | llvm_analysis/MainAnalysisPasses/SoundyAliasAnalysis/src/GlobalVisitor.cpp:672-678 | over any number of passes, the last pass runs with the loop flag off and every earlier pass with it on |
| CallContexts.SccVisits | llvm_analysis/MainAnalysisPasses/SoundyAliasAnalysis/src/GlobalVisitor.cpp:640-697 | only live blocks of the SCC are visited; a single-block SCC is visited exactly when its block is live, and never as inside a loop |
| CallContexts.Passes | llvm_analysis/MainAnalysisPasses/SoundyAliasAnalysis/src/GlobalVisitor.cpp:673-691 | the remaining passes visit only live blocks of the SCC |
| EntryArgs.Split | llvm_analysis/MainAnalysisPasses/SoundyAliasAnalysis/src/SoundyAliasAnalysis.cpp:483-494 | every token is non-empty; an empty string gives no token; a string without the delimiter is its own single token |
| EntryArgs.Cut | llvm_analysis/MainAnalysisPasses/SoundyAliasAnalysis/src/SoundyAliasAnalysis.cpp:487-488 | the cut lies between the start and the end of the string, and a cut inside the string is an occurrence of the delimiter |
| EntryArgs.CutIsFirst | llvm_analysis/MainAnalysisPasses/SoundyAliasAnalysis/src/SoundyAliasAnalysis.cpp:487-488 | the cut is the first occurrence of the delimiter from the start position on |
| EntryArgs.CutAtEnd | llvm_analysis/MainAnalysisPasses/SoundyAliasAnalysis/src/SoundyAliasAnalysis.cpp:488 | without an occurrence the cut is the end of the string |
| EntryArgs.SplitJoin | llvm_analysis/MainAnalysisPasses/SoundyAliasAnalysis/src/SoundyAliasAnalysis.cpp:483-494 | splitting non-empty, delimiter-free tokens joined by a one-character delimiter gives back exactly those tokens |
| EntryArgs.ULong | llvm_analysis/MainAnalysisPasses/SoundyAliasAnalysis/src/SoundyAliasAnalysis.cpp:512 | unsigned long arithmetic: a value modulo 2^64, unchanged when already in range |
| EntryArgs.UserArgIndices | llvm_analysis/MainAnalysisPasses/SoundyAliasAnalysis/src/SoundyAliasAnalysis.cpp:522-527 | every token from the third on converts with stoi exactly when indices are returned, and then each converted value is among them |
| EntryArgs.RoleTableOf | llvm_analysis/MainAnalysisPasses/SoundyAliasAnalysis/src/SoundyAliasAnalysis.cpp:509-583 | FileRead and FileWrite taint arguments 1 and 2 and give objects to 0 and 3; IOCTL taints the last argument (wrapping for no arguments) and gives an object to 0; V4IOCTL taints the data of the last argument and gives objects to all; DEVSTORE taints the data of argument 1 with three arguments and of argument 2 otherwise, and gives objects to all but the last; NETDEVIOCTL taints the data of argument 1 and gives objects to all but the last; exactly the unknown types are not handled |
| EntryArgs.MyIoctlTable | llvm_analysis/MainAnalysisPasses/SoundyAliasAnalysis/src/SoundyAliasAnalysis.cpp:519-534 | every MY_IOCTL type is handled |
| EntryArgs.MyIoctlBranch | llvm_analysis/MainAnalysisPasses/SoundyAliasAnalysis/src/SoundyAliasAnalysis.cpp:509-578 | a type starting with MY_IOCTL passes only the MY_IOCTL test |
| EntryArgs.SetupFunctionArgs | llvm_analysis/MainAnalysisPasses/SoundyAliasAnalysis/src/SoundyAliasAnalysis.cpp:496-621 | an index that `stoi` rejects throws and an unknown type fails the handled assertion; otherwise the set-up succeeds exactly when every argument with tainted data is a pointer argument, and then each argument is user tainted, a pointer or data tainted exactly when the type's table says so |
| EntryArgs.FileRoles | llvm_analysis/MainAnalysisPasses/SoundyAliasAnalysis/src/SoundyAliasAnalysis.cpp:535-541 | for FileRead and FileWrite with at least four arguments, arguments 1 and 2 are user tainted, 0 and 3 are pointers, and no data is tainted |
| EntryArgs.V4IoctlRoles | llvm_analysis/MainAnalysisPasses/SoundyAliasAnalysis/src/SoundyAliasAnalysis.cpp:542-548 | for V4IOCTL with at least one argument every argument is a pointer, none is user tainted, and exactly the last one has tainted data |
| EntryArgs.DevShowRoles | llvm_analysis/MainAnalysisPasses/SoundyAliasAnalysis/src/SoundyAliasAnalysis.cpp:549-554 | for DEVSHOW every argument is a pointer and nothing is tainted |
| EntryArgs.DevStoreRoles | llvm_analysis/MainAnalysisPasses/SoundyAliasAnalysis/src/SoundyAliasAnalysis.cpp:555-567 | for DEVSTORE with three or four arguments, exactly the arguments before the last are pointers, none is user tainted, and exactly argument 1 (three arguments) or 2 (four) has tainted data |
| EntryArgs.NetdevIoctlRoles | llvm_analysis/MainAnalysisPasses/SoundyAliasAnalysis/src/SoundyAliasAnalysis.cpp:568-574 | for NETDEVIOCTL with at least three arguments, exactly the arguments before the last are pointers, none is user tainted, and exactly argument 1 has tainted data |
| EntryArgs.NullArgRoles | llvm_analysis/MainAnalysisPasses/SoundyAliasAnalysis/src/SoundyAliasAnalysis.cpp:576-578 | NULL_ARG is handled and gives every argument no role at all |
| EntryArgs.SubsetAssertionFailsOnlyForTwoArgNetdev | llvm_analysis/MainAnalysisPasses/SoundyAliasAnalysis/src/SoundyAliasAnalysis.cpp:556-618 | among handled types the final assertion fails exactly for a two-argument NETDEVIOCTL entry, whose data argument 1 is not a pointer argument |
| EntryArgs.IoctlRoles | llvm_analysis/MainAnalysisPasses/SoundyAliasAnalysis/src/SoundyAliasAnalysis.cpp:509-515 | for IOCTL only the last argument is a user pointer, and the first argument gets an object |
| EntryArgs.MyIoctlDefault | llvm_analysis/MainAnalysisPasses/SoundyAliasAnalysis/src/SoundyAliasAnalysis.cpp:528-531 | MY_IOCTL without indices taints the last argument |
| EntryArgs.MyIoctlNoIndex | llvm_analysis/MainAnalysisPasses/SoundyAliasAnalysis/src/SoundyAliasAnalysis.cpp:519-531 | any type starting with MY_IOCTL that splits into at most two tokens taints only the last argument |
| EntryArgs.MyIoctlIndex | llvm_analysis/MainAnalysisPasses/SoundyAliasAnalysis/src/SoundyAliasAnalysis.cpp:519-534 | MY_IOCTL_k taints exactly argument k |
| EntryArgs.MyIoctlTokens | llvm_analysis/MainAnalysisPasses/SoundyAliasAnalysis/src/SoundyAliasAnalysis.cpp:521 | MY_IOCTL_k splits into MY, IOCTL and the digits of k |
| EntryArgs.MyIoctlIndexParses | llvm_analysis/MainAnalysisPasses/SoundyAliasAnalysis/src/SoundyAliasAnalysis.cpp:523-527 | the digits of k convert back to k |
| InterProc.InstPostDom | llvm_analysis/MainAnalysisPasses/Utils/src/CFGUtils.cpp:323-346 | true only for two instructions of one function; a non-PHI instruction post-dominates itself |
| InterProc.CommonPrefix | llvm_analysis/MainAnalysisPasses/Utils/src/CFGUtils.cpp:396 | the index returned is the length of the longest common prefix: both contexts agree before it and differ at it when both extend past it |
| InterProc.CommonPrefixAfter | llvm_analysis/MainAnalysisPasses/Utils/src/CFGUtils.cpp:396 | contexts that share a prefix and then differ part exactly at the end of that prefix |
| InterProc.CommonPrefixOfExtension | llvm_analysis/MainAnalysisPasses/Utils/src/CFGUtils.cpp:396 | a context shares all of itself with any extension of it |
| InterProc.Reachable | llvm_analysis/MainAnalysisPasses/Utils/src/CFGUtils.cpp:508-590 | a null location reaches nothing; a location without context reaches everything; nothing with a context reaches a global; different top-level entries, or contexts that part at an even index (two callees of one call site), never reach |
| InterProc.ReachableSameContext | llvm_analysis/MainAnalysisPasses/Utils/src/CFGUtils.cpp:530-590 | within one context, reachability is the intra-procedural question between the two instructions |
| InterProc.ReachableSiblingCalls | llvm_analysis/MainAnalysisPasses/Utils/src/CFGUtils.cpp:566-575 | contexts that part at two call sites of one caller: the other location reaches exactly when its call site reaches this one's call site |
| InterProc.ReachableIntoCallee | llvm_analysis/MainAnalysisPasses/Utils/src/CFGUtils.cpp:556-565 | a location inside a callee is reached from the caller exactly when the caller's instruction reaches the call site leading to it |
| InterProc.PostDomCorrected | llvm_analysis/MainAnalysisPasses/Utils/src/CFGUtils.cpp:380-472 | the corrected routine decides the documented relation: the side of this location post-dominates the other side where the contexts part (never for two callees of one call site), and every later frame of this context is entered and left through the call site taken |
| InterProc.PostDomAsWritten | llvm_analysis/MainAnalysisPasses/Utils/src/CFGUtils.cpp:380-471 | a null `other` or a `this` without context never post-dominates; the routine can reach a failed assertion only when `other` is present and `this` has a context |
| InterProc.TailAsWritten | llvm_analysis/MainAnalysisPasses/Utils/src/CFGUtils.cpp:455-470 | the two assertions before the walk fail exactly when the walk would start at an odd index or past the end of `this` context |
| InterProc.WalkByOne | llvm_analysis/MainAnalysisPasses/Utils/src/CFGUtils.cpp:460-470 | the walk holds exactly when, from the start index on, each context entry is post-dominated by the next one, and the last entry by `this` instruction when that is an instruction |
| InterProc.WalkFrames | llvm_analysis/MainAnalysisPasses/Utils/src/CFGUtils.cpp:455-471 | true exactly when, from entry k on, in each frame the call site taken post-dominates the frame's entry, and the instruction (when it is one) post-dominates the last entry (the corrected two-step walk) |
| InterProc.AsWrittenFalseAtOddDivergence | llvm_analysis/MainAnalysisPasses/Utils/src/CFGUtils.cpp:444-447 | as written, contexts that part at two call sites of one caller never post-dominate |
| InterProc.WalkByOneFailsAcrossFrames | llvm_analysis/MainAnalysisPasses/Utils/src/CFGUtils.cpp:460-465 | as written, the walk answers false once two frames remain, since its second step compares instructions of different functions |
| InterProc.ParityCounterexample | llvm_analysis/MainAnalysisPasses/Utils/src/CFGUtils.cpp:444-447 | a concrete pair where this location post-dominates the other by the documented relation, yet the code as written answers false |
| InterProc.StepCounterexample | llvm_analysis/MainAnalysisPasses/Utils/src/CFGUtils.cpp:460-465 | a concrete pair (a global and a location two frames deep) where the documented relation holds, yet the code as written answers false |
| InterProc.PostDomOfItself | llvm_analysis/MainAnalysisPasses/Utils/src/CFGUtils.cpp:380-472 | a non-PHI instruction with a context post-dominates itself, both as written and as documented |
| InterProc.AsWrittenAgreesWithinOneFrame | llvm_analysis/MainAnalysisPasses/Utils/src/CFGUtils.cpp:380-472 | when the other context is a prefix of this one and this one goes at most one frame further, the code as written and the documented relation agree |
| Taint.TagEquals | llvm_analysis/MainAnalysisPasses/SoundyAliasAnalysis/include/TaintInfo.h:135-156 | a null tag is never equal, a tag always equals itself, and otherwise two tags are equal exactly when field, value, type, global-ness and private flag agree |
| Taint.TagEqualsIgnoresRecords | llvm_analysis/MainAnalysisPasses/SoundyAliasAnalysis/include/TaintInfo.h:135-156 | the recorded modifying instructions and compared constants play no part in tag equality |
| Taint.TagEqualsIsEquivalence | llvm_analysis/MainAnalysisPasses/SoundyAliasAnalysis/include/TaintInfo.h:135-156 | tag equality is symmetric and transitive |
| Taint.InsertModInst | llvm_analysis/MainAnalysisPasses/SoundyAliasAnalysis/include/TaintInfo.h:198-206 | a null instruction or context records nothing; otherwise the context is added to that instruction's set, no other instruction's set changes, and the compared members of the tag are untouched |
| Taint.InsertModInstIdempotent | llvm_analysis/MainAnalysisPasses/SoundyAliasAnalysis/include/TaintInfo.h:198-206 | recording the same modification a second time changes nothing |
| Taint.AddToTrace | llvm_analysis/MainAnalysisPasses/SoundyAliasAnalysis/include/TaintInfo.h:350-362 | a null location and a repeat of the last trace entry leave the trace as it is; otherwise the location is appended; a trace with no null entry and no back-to-back repeat stays so |
| Taint.CleanTraceSnoc | llvm_analysis/MainAnalysisPasses/SoundyAliasAnalysis/include/TaintInfo.h:350-362 | appending a location other than the last entry keeps a trace free of adjacent repeats |
| Taint.NewFlag | llvm_analysis/MainAnalysisPasses/SoundyAliasAnalysis/include/TaintInfo.h:259-267 | a new flag is active, not inherent, and its trace is exactly its own (non-null) location |
| Taint.CopyAt | llvm_analysis/MainAnalysisPasses/SoundyAliasAnalysis/include/TaintInfo.h:269-282 | a copy to a new location keeps taint, tag, weakness and activity, and its trace extends the source's by at most that location |
| Taint.CopyWithTag | llvm_analysis/MainAnalysisPasses/SoundyAliasAnalysis/include/TaintInfo.h:284-294 | a copy with a new tag keeps location, trace, taint, weakness and activity |
| Taint.TaintEquals | llvm_analysis/MainAnalysisPasses/SoundyAliasAnalysis/include/TaintInfo.h:307-348 | a null flag is never equal; otherwise two flags are equal exactly when location, taint, tag (under tag equality) and trace entry by entry agree |
| Taint.HasEqualIsTaintEquals | llvm_analysis/MainAnalysisPasses/SoundyAliasAnalysis/src/TaintUtils.cpp:74-76 | the membership test used for deduplication holds exactly when some flag of the set is `isTaintEquals` to the new one |
| Taint.TaintEqualsIsEquivalence | llvm_analysis/MainAnalysisPasses/SoundyAliasAnalysis/include/TaintInfo.h:307-348 | flag equality is reflexive, symmetric and transitive |
| Taint.TaintEqualsIgnoresState | llvm_analysis/MainAnalysisPasses/SoundyAliasAnalysis/include/TaintInfo.h:305-348 | weakness, activity and inherence play no part in flag equality |
| Taint.CopyAtRespectsTaintEquals | llvm_analysis/MainAnalysisPasses/SoundyAliasAnalysis/include/TaintInfo.h:269-282 | copying two equal flags to the same location gives equal flags |
| Taint.CopyAtOwnLocation | llvm_analysis/MainAnalysisPasses/SoundyAliasAnalysis/include/TaintInfo.h:269-282 | copying a well-formed flag to its own location leaves its trace unchanged and gives a flag equal to it |
| Taint.CopyWithOwnTag | llvm_analysis/MainAnalysisPasses/SoundyAliasAnalysis/include/TaintInfo.h:284-294 | re-tagging a flag with its own tag gives a flag equal to it |
| Taint.ResetTfs | llvm_analysis/MainAnalysisPasses/SoundyAliasAnalysis/include/TaintInfo.h:577-613 | the first entry seen, and the same entry again, change no flag; a new entry reactivates inherent and location-less flags and deactivates active flags of other entries; only activity ever changes, and the entry is remembered |
| Taint.ResetTfsIdempotent | llvm_analysis/MainAnalysisPasses/SoundyAliasAnalysis/include/TaintInfo.h:577-613 | resetting for the entry just reset to changes nothing |
| Taint.ResetTfsKeepsNoDup | llvm_analysis/MainAnalysisPasses/SoundyAliasAnalysis/include/TaintInfo.h:577-613 | a reset keeps a record free of equal flags |
| Taint.ResetFor | llvm_analysis/MainAnalysisPasses/SoundyAliasAnalysis/include/TaintInfo.h:486-488 | the reset happens only for a location that has a calling context; it changes only activity |
| Taint.ScanPointwise | llvm_analysis/MainAnalysisPasses/SoundyAliasAnalysis/include/TaintInfo.h:500-516 | the loop over the existing flags treats each flag on its own: only the first flag equal to the new one is brought up to date, and overridden flags are deactivated |
| Taint.Step | llvm_analysis/MainAnalysisPasses/SoundyAliasAnalysis/include/TaintInfo.h:495-532 | visiting one existing flag changes only its weakness and activity; it never becomes weak; a flag killed by the new strong flag ends inactive (in the corrected loop, unless it is the duplicate); an active result is the duplicate taking the new flag's activity or a flag that was active |
| Taint.Scan | llvm_analysis/MainAnalysisPasses/SoundyAliasAnalysis/include/TaintInfo.h:495-532 | the loop keeps one flag per existing flag; each position is the step of its own flag, as `Taint.ScanPointwise` states |
| Taint.AddTfWith | llvm_analysis/MainAnalysisPasses/SoundyAliasAnalysis/include/TaintInfo.h:473-537 | a null flag changes nothing and answers false; the field id is kept; the flags grow by one exactly when the answer is true, and then the new flag is the last one |
| Taint.AddTfWithResult | llvm_analysis/MainAnalysisPasses/SoundyAliasAnalysis/include/TaintInfo.h:473-537 | the answer is true exactly when no equal flag was present and the new flag is a taint or some taint is in effect after the reset; then exactly the new flag is appended; a kill with no taint in effect only resets |
| Taint.AddTfWithKeys | llvm_analysis/MainAnalysisPasses/SoundyAliasAnalysis/include/TaintInfo.h:473-537 | the existing flags keep their identity (location, taint, tag, trace) through an add |
| Taint.ScanKeys | llvm_analysis/MainAnalysisPasses/SoundyAliasAnalysis/include/TaintInfo.h:496-530 | the scan over stored flags changes only weakness and activity, never what flag equality compares |
| Taint.AddTfWithKills | llvm_analysis/MainAnalysisPasses/SoundyAliasAnalysis/include/TaintInfo.h:496-530 | a strong active new flag deactivates each active flag, not equal to it, whose location it post-dominates |
| Taint.AddTfAsWritten | llvm_analysis/MainAnalysisPasses/SoundyAliasAnalysis/include/TaintInfo.h:473-537 | the add as written: nothing for a null flag, and true exactly when no equal flag was present and the new flag taints or a taint is in effect |
| Taint.AddTf | llvm_analysis/MainAnalysisPasses/SoundyAliasAnalysis/include/TaintInfo.h:473-537 | the corrected add: nothing for a null flag, and after adding an active taint a flag equal to it is in effect |
| Taint.SparedDupStaysActive | llvm_analysis/MainAnalysisPasses/SoundyAliasAnalysis/include/TaintInfo.h:496-530 | with the duplicate spared, an active taint is in effect after the add, whether appended or already present |
| Taint.AddTfKeepsNoDup | llvm_analysis/MainAnalysisPasses/SoundyAliasAnalysis/include/TaintInfo.h:473-537 | the corrected add never lets two equal flags into a field's record |
| Taint.AddTfAsWrittenKeepsNoDup | llvm_analysis/MainAnalysisPasses/SoundyAliasAnalysis/include/TaintInfo.h:473-537 | the add as the program runs it never lets two equal flags into a field's record |
| Taint.AddTfWithKeepsNoDup | llvm_analysis/MainAnalysisPasses/SoundyAliasAnalysis/include/TaintInfo.h:493-524 | in either variant a flag is appended only when no stored flag equals it, so a record free of equal flags stays free of them |
| Taint.AddTfKillsOverridden | llvm_analysis/MainAnalysisPasses/SoundyAliasAnalysis/include/TaintInfo.h:496-530 | the corrected add still deactivates every active flag, not equal to the new one, that a strong active new flag post-dominates |
| Taint.ReAddDeactivatesCounterexample | llvm_analysis/MainAnalysisPasses/SoundyAliasAnalysis/include/TaintInfo.h:496-530 | a concrete record where re-adding, as written, an equal strong flag at a self-post-dominating location leaves no taint in effect, while the corrected add keeps one |
| Taint.Live | llvm_analysis/MainAnalysisPasses/SoundyAliasAnalysis/include/TaintInfo.h:694-714 | the flags kept are exactly the active taints reachable from the location past the blockers, or all active taints when the location is null |
| Taint.DoGetTf | llvm_analysis/MainAnalysisPasses/SoundyAliasAnalysis/include/TaintInfo.h:684-725 | only active taints of the record are returned; with a null location all of them; with a location every active taint reachable past the active strong flags' locations |
| Taint.GetTf | llvm_analysis/MainAnalysisPasses/SoundyAliasAnalysis/include/TaintInfo.h:617-626 | the record is first reset for the location's entry, then only active taints of the reset record are returned; a null location resets nothing |
| Taint.GetTfWithoutLocation | llvm_analysis/MainAnalysisPasses/SoundyAliasAnalysis/include/TaintInfo.h:617-626 | with no location a field reports some taint exactly when it has an active taint |
| TaintUtils.GetTaintInfo | llvm_analysis/MainAnalysisPasses/SoundyAliasAnalysis/src/TaintUtils.cpp:12-24 | the flags of a value are found exactly when the context's map has the value; otherwise null |
| TaintUtils.AddNewTaintFlag | llvm_analysis/MainAnalysisPasses/SoundyAliasAnalysis/src/TaintUtils.cpp:72-92 | the flag is appended and 1 answered exactly when no equal flag is in the set; otherwise the set is unchanged and 0 answered; either way an equal flag is in the result |
| TaintUtils.AddNewTaintFlagKeepsNoDup | llvm_analysis/MainAnalysisPasses/SoundyAliasAnalysis/src/TaintUtils.cpp:72-92 | adding through this function keeps a set free of equal flags |
| TaintUtils.HasEqualGrows | llvm_analysis/MainAnalysisPasses/SoundyAliasAnalysis/src/TaintUtils.cpp:57-68 | a set that only grows keeps an equal of every flag it already had one of |
| TaintUtils.AddNewTaintFlags | llvm_analysis/MainAnalysisPasses/SoundyAliasAnalysis/src/TaintUtils.cpp:54-65 | adding flags one by one keeps the old flags in place, leaves every added flag with an equal in the result, appends only flags from the input, grows by at most their number, and keeps a set free of equal flags |
| TaintUtils.UpdateTaintInfo | llvm_analysis/MainAnalysisPasses/SoundyAliasAnalysis/src/TaintUtils.cpp:26-70 | a value without flags takes the new set as it is; otherwise existing flags stay in place, every new flag has an equal in the result, each appended flag comes from the new set, and a duplicate-free set stays so; other values are untouched |
| TaintVisitor.CopyPassing | llvm_analysis/MainAnalysisPasses/SoundyAliasAnalysis/src/TaintAnalysisVisitor.cpp:58-96 | the copies at the instruction of exactly the flags that pass the path test (inherent, location-less, or reachable), deduplicated by flag equality; empty exactly when no flag passes |
| TaintVisitor.PassingCopiesSound | llvm_analysis/MainAnalysisPasses/SoundyAliasAnalysis/src/TaintAnalysisVisitor.cpp:63-85 | every copy made is the copy at the instruction of an input flag that passes the path test |
| TaintVisitor.PassingCopiesComplete | llvm_analysis/MainAnalysisPasses/SoundyAliasAnalysis/src/TaintAnalysisVisitor.cpp:63-85 | every input flag that passes the path test has its copy at the instruction among the copies |
| TaintVisitor.WithWeakness | llvm_analysis/MainAnalysisPasses/SoundyAliasAnalysis/src/TaintAnalysisVisitor.cpp:427-428 | each new flag keeps its position and everything but weakness, and all of them carry the store's weakness |
| TaintVisitor.WithWeaknessKeepsEquals | llvm_analysis/MainAnalysisPasses/SoundyAliasAnalysis/src/TaintAnalysisVisitor.cpp:427-428 | setting the weakness keeps every flag equality, since weakness is not compared |
| TaintVisitor.WithWeaknessMember | llvm_analysis/MainAnalysisPasses/SoundyAliasAnalysis/src/TaintAnalysisVisitor.cpp:427-428 | every flag after setting the weakness is an input flag with only its weakness changed |
| TaintVisitor.MakeTaintInfoCopy | llvm_analysis/MainAnalysisPasses/SoundyAliasAnalysis/src/TaintAnalysisVisitor.cpp:58-116 | null for a null source or when no flag passes; otherwise every passing flag has an equal copy in the result, which holds only copies and, when a destination is given, extends it |
| TaintVisitor.OperandTaint | llvm_analysis/MainAnalysisPasses/SoundyAliasAnalysis/src/TaintAnalysisVisitor.cpp:127-139 | an operand's own flags when it has any, otherwise those of the operand with pointer casts stripped |
| TaintVisitor.MergeTaintInfo | llvm_analysis/MainAnalysisPasses/SoundyAliasAnalysis/src/TaintAnalysisVisitor.cpp:127-150 | null exactly when no operand has a flag that passes; otherwise a non-empty set made only of copies at the instruction of the operands' passing flags, holding an equal of the copy of every passing flag of every operand |
| TaintVisitor.StoreFlags | llvm_analysis/MainAnalysisPasses/SoundyAliasAnalysis/src/TaintAnalysisVisitor.cpp:383-442 | no target means nothing is written; a tainted source gives copies of its passing flags (each with an equal in the result); an untainted source gives one kill flag for a single target and nothing for several; every flag is weak exactly when there are several targets |
| TaintVisitor.UserTag | llvm_analysis/MainAnalysisPasses/SoundyAliasAnalysis/src/TaintAnalysisVisitor.cpp:499 | the tag of user data is field 0, with no value or object, and not global |
| TaintVisitor.ArgumentTaints | llvm_analysis/MainAnalysisPasses/SoundyAliasAnalysis/src/TaintAnalysisVisitor.cpp:476-527 | null (the source's assertion fails) exactly when every pointee is null; otherwise one flag per distinct non-null (field, object) pair and a pair for every one, each a fresh tainting flag at the call with the user tag, weak exactly when there are several targets; field 0 taints all fields, another field only itself |
| TaintVisitor.TargetObjects | llvm_analysis/MainAnalysisPasses/SoundyAliasAnalysis/src/TaintAnalysisVisitor.cpp:476-487 | the targets are free of repetition and are exactly the (field, object) pairs of the non-null pointees |
| TaintVisitor.GepSources | llvm_analysis/MainAnalysisPasses/SoundyAliasAnalysis/src/TaintAnalysisVisitor.cpp:238-249 | the merged operands are exactly those whose value range is not bounded |
| TaintVisitor.AddReturnTaints | llvm_analysis/MainAnalysisPasses/SoundyAliasAnalysis/src/TaintAnalysisVisitor.cpp:743-761 | the existing return taints stay in place, every flag of the returned value has an equal among them afterwards, each appended flag comes from the returned value, and a duplicate-free set stays so |
| AliasObjects.NewObjectPtoAsWritten | llvm_analysis/MainAnalysisPasses/SoundyAliasAnalysis/include/AliasObject.h:90-98 | the five-argument constructor as written sets fields, target, location, a cleared flag and activity from its arguments, but the record is always strong whatever weakness is asked for |
| AliasObjects.NewObjectPto | llvm_analysis/MainAnalysisPasses/SoundyAliasAnalysis/include/AliasObject.h:90-98 | the constructor as intended: the record is weak exactly when asked to be, with the given fields, target and location, active and with a cleared flag |
| AliasObjects.NewPointerPtoAsWritten | llvm_analysis/MainAnalysisPasses/SoundyAliasAnalysis/include/AliasObject.h:154-158 | the pointer record holds the pointer and, as its base part, what the base constructor as written builds |
| AliasObjects.NewPointerPto | llvm_analysis/MainAnalysisPasses/SoundyAliasAnalysis/include/AliasObject.h:154-158 | the pointer record holds the pointer and, as its base part, what the intended base constructor builds |
| AliasObjects.WeakArgumentDropped | llvm_analysis/MainAnalysisPasses/SoundyAliasAnalysis/include/AliasObject.h:90-98 | a pointer record asked to be weak comes out strong through the constructor as written and weak through the intended one |
| AliasObjects.AsObject | llvm_analysis/MainAnalysisPasses/SoundyAliasAnalysis/include/AliasObject.h:144-156 | the base view of a record keeps fields, target, location, weakness, flag and activity |
| AliasObjects.CopyPto | llvm_analysis/MainAnalysisPasses/SoundyAliasAnalysis/include/AliasObject.h:80-102 | a copy differs from the source only in its cleared flag, and the two are identical to each other |
| AliasObjects.IsIdenticalPointsTo | llvm_analysis/MainAnalysisPasses/SoundyAliasAnalysis/include/AliasObject.h:105-113 | null is never identical; a base record compares target and both field ids with the other's base part; a pointer record also needs a pointer record with the same pointer; location, weakness, flag and activity are ignored |
| AliasObjects.PointsToSameObject | llvm_analysis/MainAnalysisPasses/SoundyAliasAnalysis/include/AliasObject.h:114-119 | null never matches; otherwise two records match exactly when they lead to the same field of the same object |
| AliasObjects.IdenticalPointsToSameObject | llvm_analysis/MainAnalysisPasses/SoundyAliasAnalysis/include/AliasObject.h:105-119 | identical records lead to the same field of the same object, both ways round |
| AliasObjects.PointerIdentityIsEquivalence | llvm_analysis/MainAnalysisPasses/SoundyAliasAnalysis/include/AliasObject.h:177-187 | among pointer records identity is reflexive, symmetric and transitive |
| AliasObjects.IdentityAsymmetric | llvm_analysis/MainAnalysisPasses/SoundyAliasAnalysis/include/AliasObject.h:105-113 | a base record is identical to a pointer record with the same fields and target, but not the other way round |
| AliasObjects.CountActive | llvm_analysis/MainAnalysisPasses/SoundyAliasAnalysis/include/AliasObject.h:319-325 | the loop counts at most as many records as there are; its exact value is fixed by `AliasObjects.CountActiveSplits` (active and inactive add up to all) and `AliasObjects.CountActiveAll` (all exactly when every record has that activity) |
| AliasObjects.CountActiveSplits | llvm_analysis/MainAnalysisPasses/SoundyAliasAnalysis/include/AliasObject.h:308-326 | active and inactive records together number all records |
| AliasObjects.CountActiveAll | llvm_analysis/MainAnalysisPasses/SoundyAliasAnalysis/include/AliasObject.h:308-326 | counting the records of one activity gives the full length exactly when all records have it |
| AliasObjects.CountObjectPointsTo | llvm_analysis/MainAnalysisPasses/SoundyAliasAnalysis/include/AliasObject.h:308-326 | a field without records counts 0; a negative selector counts all records of the field; any count is at most that |
| AliasObjects.CountObjectPointsToSplits | llvm_analysis/MainAnalysisPasses/SoundyAliasAnalysis/include/AliasObject.h:308-326 | the active and inactive counts of a field add up to the count of all its records, and any positive selector counts the active ones |
| AliasObjects.CountObjectPointsToAllActive | llvm_analysis/MainAnalysisPasses/SoundyAliasAnalysis/include/AliasObject.h:308-326 | the active count equals the full count exactly when every record of the field is active |
| AliasObjects.AddPointerPointsTo | llvm_analysis/MainAnalysisPasses/SoundyAliasAnalysis/include/AliasObject.h:328-354 | a null pointer adds nothing and answers 0; otherwise a strong, active record is appended and 1 answered exactly when no stored record has the same pointer, fields, target and location; afterwards such a record is stored |
| AliasObjects.DupIsSameRecord | llvm_analysis/MainAnalysisPasses/SoundyAliasAnalysis/include/AliasObject.h:337-346 | the duplicate test finds exactly the stored records with the same pointer, fields, target and location |
| AliasObjects.AddPointerPointsToIdempotent | llvm_analysis/MainAnalysisPasses/SoundyAliasAnalysis/include/AliasObject.h:328-354 | adding the same pointer record a second time answers 0 and changes nothing |
| AliasObjects.AddPointsFrom | llvm_analysis/MainAnalysisPasses/SoundyAliasAnalysis/include/AliasObject.h:357-376 | a null source or record, or one that does not target this object, answers false and records nothing; otherwise true, and the record is added for its source unless the source already has one with the same field pair; other sources are untouched |
| AliasObjects.AddPointsFromKeepsPairsDistinct | llvm_analysis/MainAnalysisPasses/SoundyAliasAnalysis/include/AliasObject.h:357-376 | after an add the source has a record with that field pair, and no source has two records with the same pair |
| AliasObjects.ErasePairs | llvm_analysis/MainAnalysisPasses/SoundyAliasAnalysis/include/AliasObject.h:379-398 | a negative selector removes exactly the records with the pair; otherwise those records get the selected activity and all others stay as they were |
| AliasObjects.ErasePointsFrom | llvm_analysis/MainAnalysisPasses/SoundyAliasAnalysis/include/AliasObject.h:379-398 | the answer is always true; a null argument or unknown source changes nothing; otherwise only the source's records with the pair are removed or re-activated |
| AliasObjects.EraseAfterAdd | llvm_analysis/MainAnalysisPasses/SoundyAliasAnalysis/include/AliasObject.h:357-398 | adding then removing a record leaves the source with no record of that pair and keeps every other record the source had |
| AliasObjects.DeactivateKeepsRecords | llvm_analysis/MainAnalysisPasses/SoundyAliasAnalysis/include/AliasObject.h:379-416 | deactivation keeps every record and its pair, keeps pairs distinct, turns the matching records inactive, and does not raise the active count |
| AliasObjects.DeactivateCountsFewer | llvm_analysis/MainAnalysisPasses/SoundyAliasAnalysis/include/AliasObject.h:379-398 | deactivation never increases the number of active records |
| AliasObjects.UInt | llvm_analysis/MainAnalysisPasses/SoundyAliasAnalysis/include/AliasObject.h:420-445 | a field id given to the 32-bit index routines is taken modulo 2^32 and is unchanged when already in range |
| AliasObjects.GetFieldTy | llvm_analysis/MainAnalysisPasses/SoundyAliasAnalysis/include/AliasObject.h:420-449 | no type gives error 1; a composite type gives 4 when opaque and 2 exactly when the index is invalid, and otherwise a contained type; a non-composite type gives itself for field 0 and error 3 for any other field |
| AliasObjects.GetFieldTyOfStruct | llvm_analysis/MainAnalysisPasses/SoundyAliasAnalysis/include/AliasObject.h:420-449 | a field of a defined struct in range has its declared type, and a negative field id is out of bounds |
| AliasObjects.GetFieldTyOfVector | llvm_analysis/MainAnalysisPasses/SoundyAliasAnalysis/include/AliasObject.h:420-449 | a vector object gives its element type for every field id, negative ones included |
| AliasObjects.Range | llvm_analysis/MainAnalysisPasses/SoundyAliasAnalysis/include/AliasObject.h:944-953 | the ids 0 to n-1 and nothing else |
| AliasObjects.GetAllAvailableFields | llvm_analysis/MainAnalysisPasses/SoundyAliasAnalysis/include/AliasObject.h:935-968 | a struct (seen through one pointer) has exactly its field indices; an array or vector exactly its element indices; otherwise the fields with non-empty record sets, or just field 0 when the object has no records |
| AliasObjects.AvailableFieldsHaveTypes | llvm_analysis/MainAnalysisPasses/SoundyAliasAnalysis/include/AliasObject.h:420-449 | every available field of a defined struct object has a type |
| AliasObjects.EmptyRecordSetsGiveNoFields | llvm_analysis/MainAnalysisPasses/SoundyAliasAnalysis/include/AliasObject.h:957-966 | a scalar object whose record sets are all empty has no available field, while one with no record sets has field 0 |
| PointsToUtils.AddTargets | llvm_analysis/MainAnalysisPasses/SoundyAliasAnalysis/src/PointsToUtils.cpp:97-105 | the targets of the records are added to the set, and the answer is true exactly when one of them was not there before |
| PointsToUtils.GetAllAliasObjects | llvm_analysis/MainAnalysisPasses/SoundyAliasAnalysis/src/PointsToUtils.cpp:91-108 | a pointer without an entry adds nothing; otherwise the targets of its records are added, and the answer is true exactly when the set grew |
| PointsToUtils.AddPairs | llvm_analysis/MainAnalysisPasses/SoundyAliasAnalysis/src/PointsToUtils.cpp:202-209 | the collected pairs keep the earlier ones in place, add only pairs not already present, end up holding exactly the earlier pairs and those of the records, and stay distinct |
| PointsToUtils.GetTargetObjects | llvm_analysis/MainAnalysisPasses/SoundyAliasAnalysis/src/PointsToUtils.cpp:198-211 | a null or empty record set answers false and collects nothing; otherwise true, with the records' pairs collected |
| PointsToUtils.TargetObjectsExactlyOnce | llvm_analysis/MainAnalysisPasses/SoundyAliasAnalysis/src/PointsToUtils.cpp:198-211 | collecting from nothing gives each (destination field, object) pair of the records exactly once |
| PointsToUtils.ParentFolder | llvm_analysis/MainAnalysisPasses/SoundyAliasAnalysis/src/PointsToUtils.cpp:177-179 | the caller's folder is the file name before its last slash, or the whole name when it has none |
| PointsToUtils.FilterPossibleFunctionsByLoc | llvm_analysis/MainAnalysisPasses/SoundyAliasAnalysis/src/PointsToUtils.cpp:169-196 | a call without a debug location empties the list; otherwise exactly the functions whose entry file contains the caller's folder are kept |
| PointsToUtils.KeepNear | llvm_analysis/MainAnalysisPasses/SoundyAliasAnalysis/src/PointsToUtils.cpp:181-189 | the kept functions are exactly those whose entry file has a location containing the folder |
| PointsToUtils.Candidates | llvm_analysis/MainAnalysisPasses/SoundyAliasAnalysis/src/PointsToUtils.cpp:127-159 | the candidates are exactly the defined functions of the call's type that some non-call instruction uses |
| PointsToUtils.GetPossibleFunctionTargets | llvm_analysis/MainAnalysisPasses/SoundyAliasAnalysis/src/PointsToUtils.cpp:110-167 | a cached (module, type) pair returns the cached list with success; otherwise the candidates are appended to the caller's list, filtered by location, and a non-empty result is cached and reported as success |
| PointsToUtils.RepeatedLookupIsCached | llvm_analysis/MainAnalysisPasses/SoundyAliasAnalysis/src/PointsToUtils.cpp:117-123 | after a successful lookup, the same module and type give the same list again, whatever the caller passes, and the cache is unchanged |
| PointsToUtils.ResolvedTargetsAreCandidates | llvm_analysis/MainAnalysisPasses/SoundyAliasAnalysis/src/PointsToUtils.cpp:124-167 | every freshly resolved target lies near the caller and is either from the caller's list or a same-typed defined function used outside calls |
| AliasVisitor.IsPtoDuplicated | llvm_analysis/MainAnalysisPasses/SoundyAliasAnalysis/src/AliasAnalysisVisitor.cpp:116-169 | two nulls are duplicates and a null and a record are not; two records are duplicates exactly when they share destination field and target object |
| AliasVisitor.DuplicateIsSameObject | llvm_analysis/MainAnalysisPasses/SoundyAliasAnalysis/src/AliasAnalysisVisitor.cpp:116-169 | the duplicate filter coincides with leading to the same object field, and is reflexive, symmetric and transitive |
| AliasVisitor.HasPointsToTestsDiffer | llvm_analysis/MainAnalysisPasses/SoundyAliasAnalysis/src/AliasAnalysisVisitor.cpp:370-380 | the visitor's test (a non-empty set) implies the utility's (an entry), and an empty entry tells the two apart |
| AliasVisitor.MergeNew | llvm_analysis/MainAnalysisPasses/SoundyAliasAnalysis/src/AliasAnalysisVisitor.cpp:336-359 | the existing records stay in place; each appended record is a new record with a target; every new record with a target then has a duplicate in the set; a duplicate-free set stays so |
| AliasVisitor.UpdatePointsToObjects | llvm_analysis/MainAnalysisPasses/SoundyAliasAnalysis/src/AliasAnalysisVisitor.cpp:314-368 | a null or empty new set changes nothing; otherwise the pointer gets an entry (empty when it had none) and the new records are merged into it, and no other pointer changes |
| AliasVisitor.UpdateOnlyGrows | llvm_analysis/MainAnalysisPasses/SoundyAliasAnalysis/src/AliasAnalysisVisitor.cpp:314-368 | the update keeps a pointer's old records in place, leaves other pointers alone, leaves a duplicate of every new record with a target, and keeps a duplicate-free set so |
| AliasVisitor.RecordsFor | llvm_analysis/MainAnalysisPasses/SoundyAliasAnalysis/src/AliasAnalysisVisitor.cpp:617-624 | one fresh record per pair, in order, carrying that pair, from field 0 of the pointer at the instruction, strong and active |
| AliasVisitor.MergePairs | llvm_analysis/MainAnalysisPasses/SoundyAliasAnalysis/src/AliasAnalysisVisitor.cpp:598-614 | the collected pairs are distinct and are exactly those of the records of each value, or of its stripped form when the value has no records |
| AliasVisitor.MergePointsTo | llvm_analysis/MainAnalysisPasses/SoundyAliasAnalysis/src/AliasAnalysisVisitor.cpp:589-628 | null exactly when no value contributes a pair; otherwise one strong, active record per distinct contributed pair, held by the target pointer (or the instruction) from field 0 at the instruction |
| AliasVisitor.CopyPointsToInfo | llvm_analysis/MainAnalysisPasses/SoundyAliasAnalysis/src/AliasAnalysisVisitor.cpp:630-656 | null exactly for an empty source; otherwise one record per distinct pair of the source, held by the instruction from field 0 at the instruction |
| AliasVisitor.CopyOfCopy | llvm_analysis/MainAnalysisPasses/SoundyAliasAnalysis/src/AliasAnalysisVisitor.cpp:630-656 | copying a copy gives the same records back |
| AliasVisitor.PairsOfDistinct | llvm_analysis/MainAnalysisPasses/SoundyAliasAnalysis/src/AliasAnalysisVisitor.cpp:637-643 | collecting the pairs of records whose pairs are already distinct gives those pairs back in order |
| AliasVisitor.SplitFlagged | llvm_analysis/MainAnalysisPasses/SoundyAliasAnalysis/src/AliasAnalysisVisitor.cpp:942-959 | records with a set flag go to the result with the flag cleared, the others are left for processing, and nothing is lost |
| AliasVisitor.StoreUpdates | llvm_analysis/MainAnalysisPasses/SoundyAliasAnalysis/src/AliasAnalysisVisitor.cpp:1533-1579 | nothing happens when the stored value or the destination points nowhere; otherwise each destination record names the field updated, weakly exactly when there are several destinations |
| AliasVisitor.SingleDestinationIsStrong | llvm_analysis/MainAnalysisPasses/SoundyAliasAnalysis/src/AliasAnalysisVisitor.cpp:1562-1579 | a store with one destination is a strong update, and with two every update is weak |
| AliasVisitor.Bit2FieldOffset | llvm_analysis/MainAnalysisPasses/SoundyAliasAnalysis/src/AliasAnalysisVisitor.cpp:1189-1255 | index 0 keeps the record; a missing layout or record loses it; otherwise the new offset is the field's offset plus index times width, inside the host exactly when it lies within the store size |
| AliasVisitor.StepsOutOfHost | llvm_analysis/MainAnalysisPasses/SoundyAliasAnalysis/src/AliasAnalysisVisitor.cpp:1240-1255 | stepping back from a host's first bit or forward from its end always leaves the host |
| GlobalStates.FindContext | llvm_analysis/MainAnalysisPasses/SoundyAliasAnalysis/include/ModuleState.h:463-467 | the search answers the first registered context with equal call sites from the given position on, and nothing exactly when none from there has them |
| GlobalStates.GetContext | llvm_analysis/MainAnalysisPasses/SoundyAliasAnalysis/include/ModuleState.h:456-467 | null call sites find nothing; a found context has equal call sites; nothing is found only when no registered context has them |
| GlobalStates.GetOrCreateContext | llvm_analysis/MainAnalysisPasses/SoundyAliasAnalysis/include/ModuleState.h:534-565 | an existing context with equal call sites is returned unchanged; otherwise exactly one context is registered, with a copy of the given points-to map (or the globals' records) and of the given taint map (or an empty one) |
| GlobalStates.GetOrCreateIdempotent | llvm_analysis/MainAnalysisPasses/SoundyAliasAnalysis/include/ModuleState.h:534-565 | a second call with the same call sites returns the same context and changes nothing, whatever maps it is given |
| GlobalStates.DistinctAfterCreate | llvm_analysis/MainAnalysisPasses/SoundyAliasAnalysis/include/ModuleState.h:534-546 | registering a context never lets two contexts share call sites |
| GlobalStates.GetContextTaintInfo | llvm_analysis/MainAnalysisPasses/SoundyAliasAnalysis/include/ModuleState.h:604-610 | the taint map of the context with these call sites, or null when there is no such context |
| GlobalStates.CreatedContextHasTaint | llvm_analysis/MainAnalysisPasses/SoundyAliasAnalysis/include/ModuleState.h:534-610 | a freshly created context is found again with exactly the taint map it was given |
| GlobalStates.InTaintHistoryUpdate | llvm_analysis/MainAnalysisPasses/SoundyAliasAnalysis/include/ModuleState.h:613-629 | null is always in the history; otherwise the answer is true exactly when an entry has the same owner and field, and a new entry is appended only when asked |
| GlobalStates.TaintHistoryRemembers | llvm_analysis/MainAnalysisPasses/SoundyAliasAnalysis/include/ModuleState.h:613-629 | once inserted, an entry is found by the next query, which adds nothing |
| GlobalStates.GetFullTaintTrace | llvm_analysis/MainAnalysisPasses/SoundyAliasAnalysis/include/ModuleState.h:631-646 | null exactly for an empty chain; otherwise the traces of the entries from the last down to the second, concatenated, with entry 0 and null entries contributing nothing |
| GlobalStates.TracesDownAppend | llvm_analysis/MainAnalysisPasses/SoundyAliasAnalysis/include/ModuleState.h:636-644 | one more entry at the end of the chain puts its trace first |
| GlobalStates.TracesDownLength | llvm_analysis/MainAnalysisPasses/SoundyAliasAnalysis/include/ModuleState.h:636-644 | the full trace is as long as the contributing traces together |
| GlobalStates.InHierarchyHistory | llvm_analysis/MainAnalysisPasses/SoundyAliasAnalysis/include/ModuleState.h:852-861 | the answer is true exactly when the (field, object) pair is in the history, and a new pair is appended only when asked |
| GlobalStates.HierarchyHistoryRemembers | llvm_analysis/MainAnalysisPasses/SoundyAliasAnalysis/include/ModuleState.h:852-861 | after adding, the pair is found by the next query, and the history grew by at most one |
| GlobalStates.HierarchyStrCb | llvm_analysis/MainAnalysisPasses/SoundyAliasAnalysis/include/ModuleState.h:935-962 | an empty chain adds nothing; a recursive chain adds its text prefixed with the recursion marker; a non-recursive chain adds its text exactly when some entry has an object, and nothing otherwise; at most one text is ever added |
| GlobalStates.HierarchyItemsEmpty | llvm_analysis/MainAnalysisPasses/SoundyAliasAnalysis/include/ModuleState.h:943-957 | the rendered items up to a position are empty exactly when no entry up to there has an object |
| GlobalStates.HierarchyItems | llvm_analysis/MainAnalysisPasses/SoundyAliasAnalysis/include/ModuleState.h:943-957 | the rendering up to an entry with an object starts with that object's type text, a colon and the entry's field number |
| GlobalStates.TwoEntryHierarchy | llvm_analysis/MainAnalysisPasses/SoundyAliasAnalysis/include/ModuleState.h:943-956 | two entries render as the outer object then the inner one, separated by a dot when the inner is embedded in the outer and by an arrow otherwise |
| GlobalStates.NullRecursiveChain | llvm_analysis/MainAnalysisPasses/SoundyAliasAnalysis/include/ModuleState.h:938-960 | a recursive chain of null objects still adds the bare recursion marker |
| GlobalStates.FindAtZeroIsPrefix | llvm_analysis/MainAnalysisPasses/SoundyAliasAnalysis/include/ModuleState.h:1028 | finding the first text at position 0 of the second holds exactly when the first is a prefix of the second |
| GlobalStates.IsPrefixHierarchyStr | llvm_analysis/MainAnalysisPasses/SoundyAliasAnalysis/include/ModuleState.h:1019-1038 | false when either set is null; otherwise true exactly when some text of the first set is a proper prefix of some text of the second |
| GlobalStates.PrefixIrreflexive | llvm_analysis/MainAnalysisPasses/SoundyAliasAnalysis/include/ModuleState.h:1019-1038 | a text is never a proper prefix of itself, and is one of every strict extension |
| GlobalStates.AddVulnerabilityWarningByInstr | llvm_analysis/MainAnalysisPasses/SoundyAliasAnalysis/include/ModuleState.h:1569-1583 | the instruction gets a list (empty when it had none); the warning is added unless a listed warning is the same vulnerability or it is already listed; other instructions are untouched |
| SwitchCases.StepFirst | llvm_analysis/MainAnalysisPasses/SoundyAliasAnalysis/src/SwitchAnalysisVisitor.cpp:53-66 | a block reachable from a successor is reachable from the block |
| SwitchCases.StepLast | llvm_analysis/MainAnalysisPasses/SoundyAliasAnalysis/src/SwitchAnalysisVisitor.cpp:53-66 | a successor of a reachable block is reachable |
| SwitchCases.ClosedComplete | llvm_analysis/MainAnalysisPasses/SoundyAliasAnalysis/src/SwitchAnalysisVisitor.cpp:53-66 | in a memo where every entry holds its successors and their entries, an entry holds every block reachable from its block |
| SwitchCases.UpdateTopKeepsClosed | llvm_analysis/MainAnalysisPasses/SoundyAliasAnalysis/src/SwitchAnalysisVisitor.cpp:59-64 | on an acyclic graph, changing the entry of the block being expanded keeps every other finished entry closed |
| SwitchCases.GetAllSuccessors | llvm_analysis/MainAnalysisPasses/SoundyAliasAnalysis/src/SwitchAnalysisVisitor.cpp:53-66 | a memoised block returns its entry and leaves the memo alone; otherwise every successor is in the result, existing entries never change, every returned block is reachable, and on an acyclic graph from a finished memo the result is exactly the set of reachable blocks |
| SwitchCases.AddValue | llvm_analysis/MainAnalysisPasses/SoundyAliasAnalysis/src/SwitchAnalysisVisitor.cpp:44-48 | the value is added to the entry of exactly the given blocks |
| SwitchCases.CaseReachesFrame | llvm_analysis/MainAnalysisPasses/SoundyAliasAnalysis/src/SwitchAnalysisVisitor.cpp:35-50 | entries of case blocks that do not change keep which values reach which blocks |
| SwitchCases.CaseReachesNext | llvm_analysis/MainAnalysisPasses/SoundyAliasAnalysis/src/SwitchAnalysisVisitor.cpp:35-50 | one more case adds its value to its block and to the blocks of its successor entry |
| SwitchCases.VisitSwitchInst | llvm_analysis/MainAnalysisPasses/SoundyAliasAnalysis/src/SwitchAnalysisVisitor.cpp:14-51 | only a switch on a value named cmd changes the map; then a block's values are exactly its old ones and the values of cases whose block it is or follows; every new value can be carried there by some case, and on an acyclic graph every such value is recorded |
| SwitchCases.AddCaseValues | llvm_analysis/MainAnalysisPasses/SoundyAliasAnalysis/src/SwitchAnalysisVisitor.cpp:36-49 | recording one more case adds its value to exactly its block and the blocks the memo lists after it, and every earlier case block stays in the memo |
| SwitchCases.CaseValuesFinal | llvm_analysis/MainAnalysisPasses/SoundyAliasAnalysis/src/SwitchAnalysisVisitor.cpp:36-50 | once all cases are recorded, every added value belongs to a case whose block is or reaches the block, and on an acyclic graph every such value is recorded |
| SwitchCases.CaseReachesCovers | llvm_analysis/MainAnalysisPasses/SoundyAliasAnalysis/src/SwitchAnalysisVisitor.cpp:44-49 | a value recorded through a sound memo belongs to a case whose block is or reaches the block in the CFG |
| SwitchCases.CaseCoversReaches | llvm_analysis/MainAnalysisPasses/SoundyAliasAnalysis/src/SwitchAnalysisVisitor.cpp:44-49 | on an acyclic graph with every case block in a closed memo, a case whose block reaches a block has its value recorded there |
| SwitchCases.SuccessorsTwice | llvm_analysis/MainAnalysisPasses/SoundyAliasAnalysis/src/SwitchAnalysisVisitor.cpp:53-66 | expanding blocks one after another from an empty memo gives each exactly its reachable blocks, and a second expansion returns the same set |
| SwitchCases.VisitCallInst | llvm_analysis/MainAnalysisPasses/SoundyAliasAnalysis/src/SwitchAnalysisVisitor.cpp:73-90 | a callee with a body gets a switch visitor of its own in the callee's context; a declaration gets none |
| PathSearch.RetWithinUnfold | llvm_analysis/MainAnalysisPasses/SoundyAliasAnalysis/include/getPath.h:37-53 | a return is within n branch edges of a block exactly when the block returns, or it branches and some successor has one within n-1 |
| PathSearch.RetVisit | llvm_analysis/MainAnalysisPasses/SoundyAliasAnalysis/include/getPath.h:37-53 | once a return is found, or past depth 20, nothing changes; otherwise a return is found exactly when a returning block is within the remaining depth along branch edges, and the one found is such a block's return |
| PathSearch.RetFoundThrough | llvm_analysis/MainAnalysisPasses/SoundyAliasAnalysis/include/getPath.h:46-51 | a return found below a successor lies within the bound of the branching block |
| PathSearch.RetVisitAll | llvm_analysis/MainAnalysisPasses/SoundyAliasAnalysis/include/getPath.h:46-51 | the successor loop finds a return exactly when some remaining successor has one within the remaining depth, and stops changing anything once one is found |
| PathSearch.FirstReturnWithinTwenty | llvm_analysis/MainAnalysisPasses/SoundyAliasAnalysis/include/getPath.h:37-53 | started at the entry at depth 0, a return is found exactly when one is within 20 branch edges, and a returning entry block gives its own return |
| PathSearch.ChainReachGrows | llvm_analysis/MainAnalysisPasses/SoundyAliasAnalysis/include/getPath.h:75-106 | a path along recorded edges survives any growth of the edge sets |
| PathSearch.AddEdgeLeads | llvm_analysis/MainAnalysisPasses/SoundyAliasAnalysis/include/getPath.h:93-102 | recording an edge to the destination, or to a block already known to lead there, keeps every recorded block leading to the destination |
| PathSearch.BBVisitor | llvm_analysis/MainAnalysisPasses/SoundyAliasAnalysis/include/getPath.h:75-106 | false and nothing recorded at depth 20; true at the destination; a block branching to the destination or to a recorded block is found; a found block is recorded; only branch edges leading to the destination are ever recorded, and records only grow; completeness within the depth bound is `PathSearch.BBVisitorFinds` |
| PathSearch.VisitSuccs | llvm_analysis/MainAnalysisPasses/SoundyAliasAnalysis/include/getPath.h:89-103 | the successor loop finds the block whenever some remaining successor is the destination or already recorded, records it when found, and only adds edges that lead to the destination; completeness is `PathSearch.VisitSuccsFinds` |
| PathSearch.BBVisitorFinds | llvm_analysis/MainAnalysisPasses/SoundyAliasAnalysis/include/getPath.h:75-106 | every block from which the destination or a recorded block is reached along branch edges within the remaining depth is found by the visitor |
| PathSearch.VisitSuccsFinds | llvm_analysis/MainAnalysisPasses/SoundyAliasAnalysis/include/getPath.h:89-103 | the successor loop succeeds when some remaining successor reaches the destination or a recorded block along branch edges within one step less than the remaining depth |
| PathSearch.RecordedThrough | llvm_analysis/MainAnalysisPasses/SoundyAliasAnalysis/include/getPath.h:121-128 | a path recorded below a successor, with the block pushed, is a path recorded from the block |
| PathSearch.DfsVisit | llvm_analysis/MainAnalysisPasses/SoundyAliasAnalysis/include/getPath.h:108-134 | the best size only falls, and when it does the recorded path is the stack followed by a simple path along recorded edges to the destination; every simple path avoiding the stack is no shorter than the best size afterwards |
| PathSearch.VisitSuccessors | llvm_analysis/MainAnalysisPasses/SoundyAliasAnalysis/include/getPath.h:122-129 | the best size only falls, and a fall records the stack and the source followed by a simple path to the destination; for every recorded path from a successor that repeats no block after the stack and the source, the best size is at most the length of the whole |
| PathSearch.ShortestPath | llvm_analysis/MainAnalysisPasses/SoundyAliasAnalysis/include/getPath.h:60-63 | started with an empty stack and size 99, the result is a shortest simple path along recorded edges shorter than 99, or none with size 99, and no simple path is shorter |
| OverflowDetector.FirstTainted | llvm_analysis/MainAnalysisPasses/SoundyAliasAnalysis/src/bug_detectors/IntegerOverflowDetector.cpp:67-85 | the position found holds a tainting flag and no earlier one does; nothing is found exactly when no flag taints |
| OverflowDetector.VisitBinaryOperator | llvm_analysis/MainAnalysisPasses/SoundyAliasAnalysis/src/bug_detectors/IntegerOverflowDetector.cpp:43-90 | a warned instruction, an opcode outside 13 to 18, or operands without a tainting flag change nothing; otherwise exactly one warning is appended, about this instruction, in this context, with the overflow message and the trace of a tainting operand flag, and the instruction is remembered |
| OverflowDetector.VisitKeepsConsistent | llvm_analysis/MainAnalysisPasses/SoundyAliasAnalysis/src/bug_detectors/IntegerOverflowDetector.cpp:43-90 | one visit keeps every raised warning about a remembered instruction, with no instruction warned about twice |
| OverflowDetector.AtMostOneWarningPerInstruction | llvm_analysis/MainAnalysisPasses/SoundyAliasAnalysis/src/bug_detectors/IntegerOverflowDetector.cpp:44-50 | over any run of visits the detector warns about each instruction at most once, its memory only grows, and earlier warnings stay |
| OverflowDetector.VisitCallInst | llvm_analysis/MainAnalysisPasses/SoundyAliasAnalysis/src/bug_detectors/IntegerOverflowDetector.cpp:92-104 | a callee with a body gets a detector of its own for the callee in its context, reporting to the same checker; a declaration gets none |

## Left out

- File and console I/O: reading the log, printing in `ext_warns.py` and its command line, `dbgs()` logging, timing, the JSON and file dumps of the global state, and the pass driver. The extractor is a function over a sequence of lines.
- LLVM-internal computations: DataLayout layouts (`getCompTyDesc`, `calcGEPTotalOffsetInBits`), debug-info look-ups, ASAN pattern recognition, `createSubGEP`, and dominator trees. Their results are parameters.
- `bit2Field`: the container-object walk and object creation, and `matchPtoTy`, depend on DataLayout. Only the index-0 case and the offset range check are modelled.
- AliasVisitor.Bit2FieldOffset: `index*bitWidth` is an unbounded integer, so a 64-bit overflow of the product is not modelled.
- SMT solving (`Constraint.h`, `PathAnalysisVisitor.cpp`) and the floating-point timing statistics of `time.py`.
- `AliasObject.cpp` and `ModAnalysisVisitor.cpp`: they are written against a different `AliasObject` interface than the one in `AliasObject.h`, so their behaviour is not determined.
- `InstHandler.h` (LLVM constant-offset stripping, global linked lists, command-line options), `ResType.h` (typedefs only), and `TaintedSizeWarning.cpp` (text only; its JSON printer is commented out).
- The benchmark C files: they are analysis inputs.
- `InstLoc::callable`, `returnable` and `reachableToEd` are unfinished in the source. `reachable` is modelled with no blocklist.
- Static memo caches (`getValueStr`, `printInst`, the tag-hierarchy caches) are pure functions of their arguments. Names and printed forms are parameters.
- Object-graph traversals (`traverseHierarchy`, `getAllUserTaintPaths`, `getAllEquivelantObjs`, `getAllObjsForPath`), `hierarchyTyCb` (no return), and `dumpTaintInfo` (erases from a set while iterating it).
- Memory management (`delete`, `free`).
- Taint.ResetTfs: the call to `collectWinnerTfs` before a reset is left out. It records which flags are still in effect at the returns of the previous entry function. Finding those returns needs the CFG, and the record is read only by the user-taint-path traversals, which are left out. `getInherentTf` is a plain filter on inherent flags and is not modelled.
- Taint.InsertModInst and the flag constructors: a null flag-set pointer is not modelled. The model always has a (possibly empty) set.
- Building an `InstLoc` from a null instruction is not modelled. Locations are always built from an instruction id.
- InterProc.Reachable and InterProc.PostDomAsWritten: the intra-procedural facts (same entry, block order, post-dominance) come from an oracle. An odd context length is a precondition; it is an assertion in the source.
- PointsToUtils.FilterPossibleFunctionsByLoc: a null call instruction is not modelled. `getTargetFunctions` is left out; it only chains the function-pointer queries.
- AliasObjects.GetFieldTy: a valid index can still have no element. An example is field 0 of a struct without fields. LLVM's `getTypeAtIndex` is outside this model, so that case is the separate outcome `NoTypeAtIndex`.
- GlobalStates.GetContext: the debug search over all registered contexts is left out.
- GlobalStates.GetOrCreateContext: null call sites are not modelled. A context is always a sequence.
- GlobalStates.AddVulnerabilityWarningByInstr: `isSameVulWarning` is a parameter, because each warning class defines it differently. The checker tag of a warning is not carried.
- FieldDescs.CandSame: `CandStructInf`'s score and matched-name members are not compared by `same` and are not modelled.
- JsonText.EscapeJsonString: non-empty input is required. On an empty string the routine never reaches a `return`.
- PathSearch.DfsVisit: successor order comes from an unordered set in the source. It is a parameter, so the model states which path is recorded only relative to that order.
- PathSearch.BBVisitor: depth is at most 20 in the precondition. The local `visitedBB` sets of `getPath.h` never take effect, as the model shows, so they are not kept.
- OverflowDetector.VisitBinaryOperator: pointer-set iteration order decides which tainting flag's trace the warning carries. The contract states that it is the trace of some tainting operand flag.
- OverflowDetector.Run: whether one `warnedInstructions` set is shared between a detector and its children is left open, because `IntegerOverflowDetector.h` is not part of this model. The per-detector property is proved.
- CallContexts.VisitCall: the call-trace and top-call-site bookkeeping of the global visitor is left out. Only the descent decisions and the context built are modelled.
- LogExtract.ExtWarns: the final loop that prints each collected line is output and is not modelled. The result is the collected list.
- LogExtract.ExtractFrom and LogExtract.Extracted: their own contracts only bound the number of collected items. What is collected is stated by the lemmas about them (`LineCollectedIffRegionOpen`, `ExtractFromAppend`, `OpenCollectsAll`), which keeps the recursive definitions cheap to verify.
- WarningOutput.InvalidCastJson: its own contract fixes only the leading `by` member. The full read-back of the line is `InvalidCastReadsBack`.
- WarningOutput.InstLocJson: a context is a sequence of instruction ids, so the null entries that `printInstlocJson` skips inside a context cannot occur in the model. Null entries of a trace are modelled and skipped.
- TypeModel.SameTypes: `Ty` has no identity for identified structs and no packed flag, so two unnamed identified structs with the same body, or a packed and a plain literal struct with the same body, are one value in the model. `same_types` answers false for them (different pointers, struct, no names), while `SameTypes` answers true through the identity case. Recursive types such as a self-referencing list node cannot be represented at all.
- TypeModel.UnnamedStructsNeedIdentity: for the same reason, "only itself" means an equal `Ty` value, not the same LLVM type object.
- TaintVisitor.ArgumentTaints: the targets are in order of first appearance, where the source iterates a `std::set` ordered by field and object address. The set of targets and each target's flag are the same.
- AliasVisitor.StoreUpdates: the `assert(false)` of `visitStoreInst` (AliasAnalysisVisitor.cpp:1565-1576), reached when a destination record's target pointer is neither the store's pointer nor its cast-stripped form or its field id is not 0, is not modelled; every destination record is updated.
- AliasObjects.ErasePointsFrom: the source shares one `PointerPointsTo` record between the target's points-from entry and the source object's own points-to entry, so re-activating it (act >= 0) also changes the source object; the value model updates only the target's copy.

## Findings

| source | as written | input that shows it | evidently intended | confidence | as-written member | corrected member |
|---|---|---|---|---|---|---|
| llvm_analysis/MainAnalysisPasses/Utils/src/CFGUtils.cpp:444-447 | `postDom` returns false when the contexts part at an odd index inside both, and compares the entries at an even index | `this` = instruction 5 in context [0, 2, 3], `other` = instruction 6 in context [0, 1, 4]; call site 2 post-dominates call site 1, yet the result is false (`InterProc.ParityCounterexample`) | odd divergence means two call sites of one caller and must be compared; even divergence means unrelated callees and gives false, as `reachable` does (`CFGUtils.cpp:570-581`) | not executed | InterProc.PostDomAsWritten | InterProc.PostDomCorrected |
| llvm_analysis/MainAnalysisPasses/Utils/src/CFGUtils.cpp:460-465 | the walk over the rest of `this` context steps one index at a time, so it asks whether a callee entry post-dominates the call site in the caller | `this` = instruction 5 in context [0, 2, 3], `other` a global; every frame is entered and left through its call site, yet the result is false (`InterProc.StepCounterexample`) | step two indices at a time, comparing each frame's entry with the call site taken in that frame | not executed | InterProc.PostDomAsWritten | InterProc.PostDomCorrected |
| llvm_analysis/MainAnalysisPasses/SoundyAliasAnalysis/include/TaintInfo.h:496-530 | a strong active flag equal to a stored one first refreshes the stored flag, then deactivates it as overridden by the new flag, and is not appended | a field holding one strong active flag at a self-post-dominating location, given the same flag again, ends with no active taint (`Taint.ReAddDeactivatesCounterexample`) | the stored duplicate stands for the new flag and stays in effect | not executed | Taint.AddTfAsWritten | Taint.AddTf |
| llvm_analysis/MainAnalysisPasses/SoundyAliasAnalysis/include/AliasObject.h:90-98 | the five-argument constructor assigns `is_weak` from itself, so the `is_Weak` argument is dropped and the record stays strong | any call with `is_Weak` true, such as the weak store record (`AliasObjects.WeakArgumentDropped`) | `is_weak` takes the argument's value | not executed | AliasObjects.NewObjectPtoAsWritten | AliasObjects.NewObjectPto |

=== FILE: alias_object.dfy ===
/** Points-to records and the per-object bookkeeping of the alias analysis
    (AliasObject.h): record comparison, the records of pointers that point to an
    object, the "points-from" records of the objects that point to it, counting
    and enumerating the fields an object has records for, and the type of a
    field. `AliasObject*` is an opaque identifier; a null one is `None`. */
module AliasObjects {
  import opened Wrappers
  import opened InstLocs
  import opened TypeModel

  /** An `AliasObject*`. */
  type ObjId = nat

  /** A points-to record: field `fieldId` of the source points to field
      `dstfieldId` of object `target`, as set up by instruction `inst`.
      `ObjectPto` is `ObjectPointsTo`; `PointerPto` is its subclass
      `PointerPointsTo`, which also names the pointer value holding the
      address. */
  datatype PointsTo =
    | ObjectPto(fieldId: int, dstfieldId: int, target: Option<ObjId>, inst: Option<InstLoc>,
                isWeak: bool, flag: int, isActive: bool)
    | PointerPto(pointer: Option<ValueId>, fieldId: int, dstfieldId: int, target: Option<ObjId>,
                 inst: Option<InstLoc>, isWeak: bool, flag: int, isActive: bool)

  /** The five-argument constructor as written: the weak-update argument is
      ignored, since the member is assigned from itself and keeps its default
      `false`. */
  function NewObjectPtoAsWritten(fieldId: int, target: Option<ObjId>, dstfieldId: int,
                                 inst: Option<InstLoc>, isWeakArg: bool): (r: PointsTo)
    ensures r.ObjectPto? && r.fieldId == fieldId && r.target == target && r.dstfieldId == dstfieldId
    ensures r.inst == inst && r.flag == 0 && r.isActive
    ensures !r.isWeak
  {
    ObjectPto(fieldId, dstfieldId, target, inst, false, 0, true)
  }

  /** The constructor as intended: the record is weak iff asked to be. */
  function NewObjectPto(fieldId: int, target: Option<ObjId>, dstfieldId: int,
                        inst: Option<InstLoc>, isWeakArg: bool): (r: PointsTo)
    ensures r.ObjectPto? && r.fieldId == fieldId && r.target == target && r.dstfieldId == dstfieldId
    ensures r.inst == inst && r.flag == 0 && r.isActive
    ensures r.isWeak == isWeakArg
  {
    ObjectPto(fieldId, dstfieldId, target, inst, isWeakArg, 0, true)
  }

  /** The `PointerPointsTo` constructor, which hands its arguments to the
      five-argument base constructor as written. */
  function NewPointerPtoAsWritten(pointer: Option<ValueId>, fieldId: int, target: Option<ObjId>,
                                  dstfieldId: int, inst: Option<InstLoc>, isWeakArg: bool): (r: PointsTo)
    ensures r.PointerPto? && r.pointer == pointer
    ensures AsObject(r) == NewObjectPtoAsWritten(fieldId, target, dstfieldId, inst, isWeakArg)
  {
    var b := NewObjectPtoAsWritten(fieldId, target, dstfieldId, inst, isWeakArg);
    PointerPto(pointer, b.fieldId, b.dstfieldId, b.target, b.inst, b.isWeak, b.flag, b.isActive)
  }

  /** The `PointerPointsTo` constructor over the intended base constructor. */
  function NewPointerPto(pointer: Option<ValueId>, fieldId: int, target: Option<ObjId>,
                         dstfieldId: int, inst: Option<InstLoc>, isWeakArg: bool): (r: PointsTo)
    ensures r.PointerPto? && r.pointer == pointer
    ensures AsObject(r) == NewObjectPto(fieldId, target, dstfieldId, inst, isWeakArg)
  {
    var b := NewObjectPto(fieldId, target, dstfieldId, inst, isWeakArg);
    PointerPto(pointer, b.fieldId, b.dstfieldId, b.target, b.inst, b.isWeak, b.flag, b.isActive)
  }

  /** A weak store record built through the constructor as written comes out
      strong; the intended constructor keeps it weak. */
  lemma WeakArgumentDropped(p: Option<ValueId>, fid: int, obj: Option<ObjId>, dfid: int, loc: Option<InstLoc>)
    ensures !NewPointerPtoAsWritten(p, fid, obj, dfid, loc, true).isWeak
    ensures NewPointerPto(p, fid, obj, dfid, loc, true).isWeak
  {
    assert AsObject(NewPointerPtoAsWritten(p, fid, obj, dfid, loc, true)).isWeak
      == NewPointerPtoAsWritten(p, fid, obj, dfid, loc, true).isWeak;
  }

  /** The base-class view of a record. */
  function AsObject(p: PointsTo): (r: PointsTo)
    ensures r.ObjectPto?
    ensures r.fieldId == p.fieldId && r.dstfieldId == p.dstfieldId && r.target == p.target
    ensures r.inst == p.inst && r.isWeak == p.isWeak && r.flag == p.flag && r.isActive == p.isActive
  {
    ObjectPto(p.fieldId, p.dstfieldId, p.target, p.inst, p.isWeak, p.flag, p.isActive)
  }

  /** The record with the properties identity comparison ignores (location,
      weakness, flag, activity) set to fixed values. */
  function Core(p: PointsTo): PointsTo
  {
    p.(inst := None, isWeak := false, flag := 0, isActive := true)
  }

  /** `makeCopy`: a copy of the record whose customised flag is cleared. */
  function CopyPto(src: PointsTo): (r: PointsTo)
    ensures r == src.(flag := 0)
    ensures IsIdenticalPointsTo(r, Some(src)) && IsIdenticalPointsTo(src, Some(r))
    ensures r.inst == src.inst && r.isWeak == src.isWeak && r.isActive == src.isActive
  {
    match src
    case ObjectPto(f, d, t, i, w, _, a) => ObjectPto(f, d, t, i, w, 0, a)
    case PointerPto(v, f, d, t, i, w, _, a) => PointerPto(v, f, d, t, i, w, 0, a)
  }

  /** `isIdenticalPointsTo`: false for null. A base record compares target,
      source field and destination field with the base part of `that`; a
      pointer record additionally needs `that` to be a pointer record with the
      same pointer. Location, weakness, flag and activity are ignored. */
  function IsIdenticalPointsTo(a: PointsTo, that: Option<PointsTo>): (r: bool)
    ensures that.None? ==> !r
    ensures a.ObjectPto? && that.Some? ==> (r <==> Core(AsObject(that.value)) == Core(a))
    ensures a.PointerPto? && that.Some? ==> (r <==> Core(that.value) == Core(a))
  {
    match that
    case None => false
    case Some(b) =>
      if a.ObjectPto? then
        a.target == b.target && a.fieldId == b.fieldId && a.dstfieldId == b.dstfieldId
      else
        b.PointerPto? && a.pointer == b.pointer && a.target == b.target &&
        a.fieldId == b.fieldId && a.dstfieldId == b.dstfieldId
  }

  /** `pointsToSameObject`: false for null; otherwise the two records lead to
      the same field of the same object. */
  function PointsToSameObject(a: PointsTo, that: Option<PointsTo>): (r: bool)
    ensures that.None? ==> !r
    ensures that.Some? ==> (r <==> (that.value.target, that.value.dstfieldId) == (a.target, a.dstfieldId))
  {
    that.Some? && a.target == that.value.target && a.dstfieldId == that.value.dstfieldId
  }

  /** Identical records lead to the same place. */
  lemma IdenticalPointsToSameObject(a: PointsTo, b: PointsTo)
    requires IsIdenticalPointsTo(a, Some(b))
    ensures PointsToSameObject(a, Some(b)) && PointsToSameObject(b, Some(a))
  {
    assert Core(a).target == a.target && Core(a).dstfieldId == a.dstfieldId;
  }

  /** Among pointer records identity is an equivalence. */
  lemma PointerIdentityIsEquivalence(a: PointsTo, b: PointsTo, c: PointsTo)
    requires a.PointerPto? && b.PointerPto?
    ensures IsIdenticalPointsTo(a, Some(a))
    ensures IsIdenticalPointsTo(a, Some(b)) == IsIdenticalPointsTo(b, Some(a))
    ensures IsIdenticalPointsTo(a, Some(b)) && IsIdenticalPointsTo(b, Some(c)) ==> IsIdenticalPointsTo(a, Some(c))
  {
  }

  /** The comparison is not symmetric across the two classes: a base record is
      identical to a pointer record with the same fields, but not conversely. */
  lemma IdentityAsymmetric()
    ensures var o := ObjectPto(0, 0, Some(1), None, false, 0, true);
            var p := PointerPto(Some(2), 0, 0, Some(1), None, false, 0, true);
            IsIdenticalPointsTo(o, Some(p)) && !IsIdenticalPointsTo(p, Some(o))
  {
  }

  /** The parts of an `AliasObject` this model follows: its type, the records of
      the pointers that point to it (in insertion order), its points-from
      records keyed by source object, and its own points-to records keyed by
      source field. */
  datatype AliasObject = AliasObject(id: ObjId, targetType: Option<Ty>,
                                     pointersPointsTo: seq<PointsTo>,
                                     pointsFrom: map<ObjId, seq<PointsTo>>,
                                     pointsTo: map<int, seq<PointsTo>>)

  /** The number of records in `s` whose activity is `b`. */
  function CountActive(s: seq<PointsTo>, b: bool): (r: nat)
    ensures r <= |s|
  {
    if s == [] then 0
    else CountActive(s[..|s| - 1], b) + (if s[|s| - 1].isActive == b then 1 else 0)
  }

  /** Active and inactive records together are all records. */
  lemma {:induction false} CountActiveSplits(s: seq<PointsTo>)
    ensures CountActive(s, true) + CountActive(s, false) == |s|
  {
    if s != [] {
      CountActiveSplits(s[..|s| - 1]);
    }
  }

  /** The count is the full length exactly when every record has that activity. */
  lemma {:induction false} CountActiveAll(s: seq<PointsTo>, b: bool)
    ensures CountActive(s, b) == |s| <==> forall i :: 0 <= i < |s| ==> s[i].isActive == b
  {
    if s != [] {
      CountActiveAll(s[..|s| - 1], b);
      assert forall i :: 0 <= i < |s| - 1 ==> s[..|s| - 1][i] == s[i];
    }
  }

  /** `countObjectPointsTo`: 0 for a field without records; all its records
      when `act` is negative; otherwise those whose activity is `act != 0`. */
  function CountObjectPointsTo(o: AliasObject, srcfieldId: int, act: int): (r: nat)
    ensures srcfieldId !in o.pointsTo ==> r == 0
    ensures srcfieldId in o.pointsTo ==> r <= |o.pointsTo[srcfieldId]|
    ensures act < 0 && srcfieldId in o.pointsTo ==> r == |o.pointsTo[srcfieldId]|
  {
    if srcfieldId !in o.pointsTo then 0
    else if act < 0 then |o.pointsTo[srcfieldId]|
    else CountActive(o.pointsTo[srcfieldId], act != 0)
  }

  /** Counting the active and the inactive records of a field adds up to the
      number of its records; any non-zero `act` selects the active ones. */
  lemma CountObjectPointsToSplits(o: AliasObject, f: int, act: int)
    requires act > 0
    ensures CountObjectPointsTo(o, f, act) + CountObjectPointsTo(o, f, 0) == CountObjectPointsTo(o, f, -1)
    ensures CountObjectPointsTo(o, f, act) == CountObjectPointsTo(o, f, 1)
  {
    if f in o.pointsTo {
      CountActiveSplits(o.pointsTo[f]);
    }
  }

  /** A field with records has all of them active iff counting the active
      ones counts them all. */
  lemma CountObjectPointsToAllActive(o: AliasObject, f: int)
    requires f in o.pointsTo
    ensures CountObjectPointsTo(o, f, 1) == CountObjectPointsTo(o, f, -1)
            <==> forall i :: 0 <= i < |o.pointsTo[f]| ==> o.pointsTo[f][i].isActive
  {
    CountActiveAll(o.pointsTo[f], true);
  }

  /** Whether stored record `pto` makes the new pointer record `n` at `loc` a
      duplicate in `addPointerPointsTo`. */
  predicate DupOf(n: PointsTo, loc: Option<InstLoc>, pto: PointsTo)
  {
    loc.None? == pto.inst.None? && IsIdenticalPointsTo(n, Some(pto)) &&
    (loc.None? || Same(loc.value, pto.inst))
  }

  /** The record `addPointerPointsTo` builds for pointer `p`. */
  function PointerRecord(o: AliasObject, p: ValueId, loc: Option<InstLoc>, fid: int, dfid: int): PointsTo
  {
    NewPointerPto(Some(p), fid, Some(o.id), dfid, loc, false)
  }

  /** Whether a stored record has the same pointer, fields and target as the
      one built for `p`, and the same location. */
  predicate HasPointerRecord(o: AliasObject, p: ValueId, loc: Option<InstLoc>, fid: int, dfid: int)
  {
    exists i :: 0 <= i < |o.pointersPointsTo| &&
      Core(o.pointersPointsTo[i]) == Core(PointerRecord(o, p, loc, fid, dfid)) && o.pointersPointsTo[i].inst == loc
  }

  /** `addPointerPointsTo`: nothing for a null pointer (0). Otherwise a strong,
      active record of the pointer at `loc` is appended (1) unless a stored
      record already has the same pointer, fields, target and location (0). */
  function AddPointerPointsTo(o: AliasObject, p: Option<ValueId>, loc: Option<InstLoc>,
                              fid: int, dfid: int): (r: (AliasObject, int))
    ensures p.None? ==> r == (o, 0)
    ensures p.Some? ==> (r.1 == 1 <==> !HasPointerRecord(o, p.value, loc, fid, dfid))
    ensures r.1 == 0 ==> r.0 == o
    ensures r.1 == 1 ==> r.0 == o.(pointersPointsTo := o.pointersPointsTo + [PointerRecord(o, p.value, loc, fid, dfid)])
    ensures p.Some? ==> HasPointerRecord(r.0, p.value, loc, fid, dfid)
  {
    if p.None? then (o, 0)
    else
      var n := PointerRecord(o, p.value, loc, fid, dfid);
      if exists i :: 0 <= i < |o.pointersPointsTo| && DupOf(n, loc, o.pointersPointsTo[i]) then
        DupIsSameRecord(o, p.value, loc, fid, dfid);
        (o, 0)
      else
        DupIsSameRecord(o, p.value, loc, fid, dfid);
        var o' := o.(pointersPointsTo := o.pointersPointsTo + [n]);
        assert o'.pointersPointsTo[|o.pointersPointsTo|] == n;
        (o', 1)
  }

  /** The duplicate test of `addPointerPointsTo` finds exactly the stored
      records equal to the new one up to weakness, flag and activity. */
  lemma DupIsSameRecord(o: AliasObject, p: ValueId, loc: Option<InstLoc>, fid: int, dfid: int)
    ensures (exists i :: 0 <= i < |o.pointersPointsTo| && DupOf(PointerRecord(o, p, loc, fid, dfid), loc, o.pointersPointsTo[i]))
            <==> HasPointerRecord(o, p, loc, fid, dfid)
  {
    var n := PointerRecord(o, p, loc, fid, dfid);
    forall i | 0 <= i < |o.pointersPointsTo|
      ensures DupOf(n, loc, o.pointersPointsTo[i])
              <==> Core(o.pointersPointsTo[i]) == Core(n) && o.pointersPointsTo[i].inst == loc
    {
      var s := o.pointersPointsTo[i];
      if loc.Some? {
        assert Same(loc.value, s.inst) <==> s.inst == loc;
      }
    }
  }

  /** Adding the same pointer record twice changes nothing the second time. */
  lemma AddPointerPointsToIdempotent(o: AliasObject, p: ValueId, loc: Option<InstLoc>, fid: int, dfid: int)
    ensures var r := AddPointerPointsTo(o, Some(p), loc, fid, dfid);
            AddPointerPointsTo(r.0, Some(p), loc, fid, dfid) == (r.0, 0)
  {
    var r := AddPointerPointsTo(o, Some(p), loc, fid, dfid);
    assert r.0.id == o.id;
    assert PointerRecord(r.0, p, loc, fid, dfid) == PointerRecord(o, p, loc, fid, dfid);
  }

  /** Records of one source are told apart by their (source field, destination
      field) pair. */
  predicate SamePair(a: PointsTo, b: PointsTo)
  {
    a.fieldId == b.fieldId && a.dstfieldId == b.dstfieldId
  }

  /** No two records of one source share a field pair. */
  predicate PairsDistinct(s: seq<PointsTo>)
  {
    forall i, j :: 0 <= i < j < |s| ==> !SamePair(s[i], s[j])
  }

  /** Whether some record of `s` has `pto`'s field pair. */
  predicate HasPair(s: seq<PointsTo>, pto: PointsTo)
  {
    exists i :: 0 <= i < |s| && SamePair(s[i], pto)
  }

  /** A non-null source and a non-null record that targets object `o`. */
  predicate Targets(o: AliasObject, src: Option<ObjId>, pto: Option<PointsTo>)
  {
    src.Some? && pto.Some? && pto.value.target == Some(o.id)
  }

  /** `addPointsFrom`: false, and nothing recorded, for a null source or
      record, or for a record that does not target this object. Otherwise true;
      a source seen for the first time gets the record, and a known one gets it
      unless it already has a record with the same field pair. */
  function AddPointsFrom(o: AliasObject, src: Option<ObjId>, pto: Option<PointsTo>): (r: (AliasObject, bool))
    ensures src.None? || pto.None? || pto.value.target != Some(o.id) ==> r == (o, false)
    ensures Targets(o, src, pto) ==> r.1 && src.value in r.0.pointsFrom && r.0 == o.(pointsFrom := r.0.pointsFrom)
    ensures Targets(o, src, pto) ==> forall s :: s != src.value ==> (s in r.0.pointsFrom <==> s in o.pointsFrom)
    ensures Targets(o, src, pto) ==> forall s :: s != src.value && s in o.pointsFrom ==> r.0.pointsFrom[s] == o.pointsFrom[s]
    ensures Targets(o, src, pto) && src.value !in o.pointsFrom ==> r.0.pointsFrom[src.value] == [pto.value]
    ensures Targets(o, src, pto) && src.value in o.pointsFrom && HasPair(o.pointsFrom[src.value], pto.value) ==> r.0 == o
    ensures Targets(o, src, pto) && src.value in o.pointsFrom && !HasPair(o.pointsFrom[src.value], pto.value) ==>
      r.0.pointsFrom[src.value] == o.pointsFrom[src.value] + [pto.value]
  {
    if src.None? || pto.None? then (o, false)
    else if pto.value.target != Some(o.id) then (o, false)
    else if src.value !in o.pointsFrom then
      (o.(pointsFrom := o.pointsFrom[src.value := [pto.value]]), true)
    else
      var s := o.pointsFrom[src.value];
      if HasPair(s, pto.value) then (o, true)
      else (o.(pointsFrom := o.pointsFrom[src.value := s + [pto.value]]), true)
  }

  /** After a successful `addPointsFrom` the source has a record with the
      record's field pair, and the pairs of every source stay distinct. */
  lemma AddPointsFromKeepsPairsDistinct(o: AliasObject, src: ObjId, pto: PointsTo)
    requires pto.target == Some(o.id)
    requires forall s :: s in o.pointsFrom ==> PairsDistinct(o.pointsFrom[s])
    ensures var r := AddPointsFrom(o, Some(src), Some(pto)).0;
            (forall s :: s in r.pointsFrom ==> PairsDistinct(r.pointsFrom[s])) &&
            exists i :: 0 <= i < |r.pointsFrom[src]| && SamePair(r.pointsFrom[src][i], pto)
  {
    var r := AddPointsFrom(o, Some(src), Some(pto)).0;
    if src !in o.pointsFrom {
      assert r.pointsFrom[src][0] == pto;
    } else {
      var s := o.pointsFrom[src];
      if exists i :: 0 <= i < |s| && SamePair(s[i], pto) {
      } else {
        var t := s + [pto];
        assert r.pointsFrom[src] == t;
        assert t[|s|] == pto;
        forall i, j | 0 <= i < j < |t|
          ensures !SamePair(t[i], t[j])
        {
          if j < |s| {
            assert t[i] == s[i] && t[j] == s[j];
          } else {
            assert t[i] == s[i];
          }
        }
      }
    }
  }

  /** The points-from records of one source after `erasePointsFrom` of the
      records with `pto`'s field pair. */
  function ErasePairs(s: seq<PointsTo>, pto: PointsTo, act: int): (r: seq<PointsTo>)
    ensures act < 0 ==> forall x :: x in r <==> x in s && !SamePair(x, pto)
    ensures act >= 0 ==> |r| == |s|
    ensures act >= 0 ==>
      forall i :: 0 <= i < |s| ==> r[i] == if SamePair(s[i], pto) then s[i].(isActive := act != 0) else s[i]
    decreases |s|
  {
    if s == [] then []
    else
      var rest := ErasePairs(s[1..], pto, act);
      assert forall x :: x in s <==> x == s[0] || x in s[1..];
      if !SamePair(s[0], pto) then [s[0]] + rest
      else if act < 0 then rest
      else [s[0].(isActive := act != 0)] + rest
  }

  /** `erasePointsFrom` (always true): nothing happens for a null argument or
      an unknown source. Otherwise the source's records with `pto`'s field pair
      are removed when `act` is negative, or get activity `act != 0`; every
      other record is left as it was. */
  function ErasePointsFrom(o: AliasObject, src: Option<ObjId>, pto: Option<PointsTo>, act: int): (r: (AliasObject, bool))
    ensures r.1
    ensures src.None? || pto.None? || src.value !in o.pointsFrom ==> r.0 == o
    ensures src.Some? && pto.Some? && src.value in o.pointsFrom ==>
      r.0 == o.(pointsFrom := o.pointsFrom[src.value := ErasePairs(o.pointsFrom[src.value], pto.value, act)])
  {
    if src.None? || pto.None? || src.value !in o.pointsFrom then (o, true)
    else (o.(pointsFrom := o.pointsFrom[src.value := ErasePairs(o.pointsFrom[src.value], pto.value, act)]), true)
  }

  /** Erasing undoes `addPointsFrom`: after a removal no record of the source
      has the pair, and a source it left with distinct pairs keeps them. */
  lemma EraseAfterAdd(o: AliasObject, src: ObjId, pto: PointsTo)
    requires pto.target == Some(o.id)
    requires forall s :: s in o.pointsFrom ==> PairsDistinct(o.pointsFrom[s])
    ensures var r := ErasePointsFrom(AddPointsFrom(o, Some(src), Some(pto)).0, Some(src), Some(pto), -1).0;
            src in r.pointsFrom &&
            (forall x :: x in r.pointsFrom[src] ==> !SamePair(x, pto)) &&
            (src in o.pointsFrom ==> forall x :: x in o.pointsFrom[src] && !SamePair(x, pto) ==> x in r.pointsFrom[src])
  {
    AddPointsFromKeepsPairsDistinct(o, src, pto);
    var a := AddPointsFrom(o, Some(src), Some(pto)).0;
    if src in o.pointsFrom {
      forall x | x in o.pointsFrom[src] && !SamePair(x, pto)
        ensures x in a.pointsFrom[src]
      {
        var s := o.pointsFrom[src];
        var k :| 0 <= k < |s| && s[k] == x;
        if exists i :: 0 <= i < |s| && SamePair(s[i], pto) {
        } else {
          assert (s + [pto])[k] == x;
        }
      }
    }
  }

  /** Deactivating through `erasePointsFrom` keeps every record and its field
      pairs, so a source's pairs stay distinct, and turns exactly the records
      with the pair inactive. */
  lemma DeactivateKeepsRecords(s: seq<PointsTo>, pto: PointsTo)
    requires PairsDistinct(s)
    ensures var r := ErasePairs(s, pto, 0);
            PairsDistinct(r) && CountActive(r, true) <= CountActive(s, true) &&
            forall i :: 0 <= i < |r| ==> SamePair(r[i], s[i]) && (SamePair(s[i], pto) ==> !r[i].isActive)
  {
    var r := ErasePairs(s, pto, 0);
    assert forall i :: 0 <= i < |r| ==> SamePair(r[i], s[i]);
    assert PairsDistinct(r) by {
      forall i, j | 0 <= i < j < |r|
        ensures !SamePair(r[i], r[j])
      {
        assert !SamePair(s[i], s[j]);
      }
    }
    DeactivateCountsFewer(s, pto);
  }

  /** Deactivation never increases the number of active records. */
  lemma {:induction false} DeactivateCountsFewer(s: seq<PointsTo>, pto: PointsTo)
    ensures CountActive(ErasePairs(s, pto, 0), true) <= CountActive(s, true)
  {
    if s != [] {
      var r := ErasePairs(s, pto, 0);
      var init := s[..|s| - 1];
      DeactivateCountsFewer(init, pto);
      var ri := ErasePairs(init, pto, 0);
      assert r[..|r| - 1] == ri by {
        assert forall i :: 0 <= i < |ri| ==> r[i] == ri[i];
      }
    }
  }

  /** `unsigned` (32-bit) conversion of a `long`: taken modulo 2^32. */
  function UInt(x: int): (r: nat)
    ensures r < 0x1_0000_0000
    ensures 0 <= x < 0x1_0000_0000 ==> r == x
  {
    x % 0x1_0000_0000
  }

  /** The outcome of `getFieldTy`: the field type, an error code (1 no type,
      4 opaque struct, 2 index out of bounds, 3 non-zero field of a
      non-composite), or the case where LLVM's `getTypeAtIndex` has no such
      field (a struct without fields asked for field 0). */
  datatype FieldTyOutcome = FieldTy(ty: Ty) | FieldTyError(code: nat) | NoTypeAtIndex

  /** `getFieldTy`: the field id reaches `isIndexValid` and `getTypeAtIndex`
      converted to a 32-bit unsigned number. */
  function GetFieldTy(o: AliasObject, fid: int): (r: FieldTyOutcome)
    ensures o.targetType.None? <==> r == FieldTyError(1)
    ensures r.FieldTyError? ==> r.code in {1, 2, 3, 4}
    ensures o.targetType.Some? && IsComposite(o.targetType.value) ==>
      (IsOpaqueSt(o.targetType) <==> r == FieldTyError(4)) &&
      (!IsOpaqueSt(o.targetType) && !IsIndexValid(o.targetType, UInt(fid)) <==> r == FieldTyError(2)) &&
      (r.FieldTy? ==> r.ty in o.targetType.value.contained)
    ensures o.targetType.Some? && !IsComposite(o.targetType.value) ==>
      r == if fid != 0 then FieldTyError(3) else FieldTy(o.targetType.value)
  {
    match o.targetType
    case None => FieldTyError(1)
    case Some(t) =>
      if IsComposite(t) then
        if IsOpaqueSt(o.targetType) then FieldTyError(4)
        else if !IsIndexValid(o.targetType, UInt(fid)) then FieldTyError(2)
        else if |t.contained| == 0 || (t.kind == StructTy && UInt(fid) >= |t.contained|) then NoTypeAtIndex
        else FieldTy(TypeAtIndex(t, UInt(fid)))
      else if fid != 0 then FieldTyError(3)
      else FieldTy(t)
  }

  /** A field of a defined struct in range has its declared type; a negative
      field id is out of bounds (it converts to a large unsigned number). */
  lemma GetFieldTyOfStruct(o: AliasObject, t: Ty, fid: int)
    requires o.targetType == Some(t) && t.kind == StructTy && !t.isOpaque
    requires |t.contained| < 0x1_0000_0000
    requires -0x1_0000_0000 < fid && -0x1_0000_0000 + |t.contained| <= fid < |t.contained|
    ensures fid >= 0 ==> GetFieldTy(o, fid) == FieldTy(t.contained[fid])
    ensures fid < 0 ==> GetFieldTy(o, fid) == FieldTyError(2)
  {
    if fid < 0 {
      assert UInt(fid) == fid + 0x1_0000_0000;
    }
  }

  /** A vector accepts every field id, negative ones included. */
  lemma GetFieldTyOfVector(o: AliasObject, t: Ty, fid: int)
    requires o.targetType == Some(t) && t.kind == VectorTy && |t.contained| == 1
    ensures GetFieldTy(o, fid) == FieldTy(t.contained[0])
  {
  }

  /** Indices `0 .. n-1` as field ids. */
  function Range(n: nat): (r: set<int>)
    ensures forall i: int :: i in r <==> 0 <= i < n
  {
    if n == 0 then {} else Range(n - 1) + {n - 1}
  }

  /** The type whose layout decides the fields: the pointee of a pointer type,
      otherwise the type itself. */
  function LayoutTy(t: Ty): Ty
  {
    if t.kind == PointerTy && |t.contained| > 0 then t.contained[0] else t
  }

  /** `getAllAvailableFields`: every field of a struct, every element of an
      array or vector (seen through one pointer level); for other objects the
      fields with a non-empty set of points-to records, or just field 0 when
      the object has no points-to records at all. */
  function GetAllAvailableFields(o: AliasObject): (r: set<int>)
    ensures o.targetType.Some? && LayoutTy(o.targetType.value).kind == StructTy ==>
      forall i: int :: i in r <==> 0 <= i < |LayoutTy(o.targetType.value).contained|
    ensures o.targetType.Some? && LayoutTy(o.targetType.value).kind in {ArrayTy, VectorTy} ==>
      forall i: int :: i in r <==> 0 <= i < LayoutTy(o.targetType.value).numElements
    ensures (o.targetType.None? || LayoutTy(o.targetType.value).kind !in {StructTy, ArrayTy, VectorTy}) ==>
      if |o.pointsTo| == 0 then r == {0}
      else forall f: int :: f in r <==> f in o.pointsTo && |o.pointsTo[f]| > 0
  {
    var layout := if o.targetType.Some? then Some(LayoutTy(o.targetType.value)) else None;
    if layout.Some? && layout.value.kind == StructTy then Range(|layout.value.contained|)
    else if layout.Some? && layout.value.kind in {ArrayTy, VectorTy} then Range(layout.value.numElements)
    else if |o.pointsTo| > 0 then set f | f in o.pointsTo && |o.pointsTo[f]| > 0
    else {0}
  }

  /** Every available field of a defined struct object has a type. */
  lemma AvailableFieldsHaveTypes(o: AliasObject, t: Ty)
    requires o.targetType == Some(t) && t.kind == StructTy && !t.isOpaque
    requires |t.contained| < 0x1_0000_0000
    ensures forall f :: f in GetAllAvailableFields(o) ==> GetFieldTy(o, f).FieldTy?
  {
    forall f | f in GetAllAvailableFields(o)
      ensures GetFieldTy(o, f).FieldTy?
    {
      GetFieldTyOfStruct(o, t, f);
    }
  }

  /** A scalar object whose records all sit in empty sets has no available
      field, unlike one with no records, which has field 0. */
  lemma EmptyRecordSetsGiveNoFields(o: AliasObject)
    requires o.targetType == Some(Int(32))
    requires |o.pointsTo| > 0 && forall f :: f in o.pointsTo ==> o.pointsTo[f] == []
    ensures GetAllAvailableFields(o) == {}
    ensures GetAllAvailableFields(o.(pointsTo := map[])) == {0}
  {
    var r := GetAllAvailableFields(o);
    assert forall f :: !(f in o.pointsTo && |o.pointsTo[f]| > 0);
  }
}

=== FILE: alias_visitor.dfy ===
/** The bookkeeping decisions of the points-to visitor (AliasAnalysisVisitor.cpp):
    the duplicate filter for new records, the growing update of a pointer's
    record set, the (destination field, object) merging that builds fresh
    records, the flag split before a multi-index GEP, the weak/strong decision
    of a store, and the offset check of `bit2Field`. */
module AliasVisitor {
  import opened Wrappers
  import opened InstLocs
  import opened TypeModel
  import opened AliasObjects
  import opened PointsToUtils

  /** `isPtoDuplicated` with the aggressive filter off: two nulls are
      duplicates, a null and a record are not, and two records are duplicates
      iff they lead to the same field of the same object. */
  function IsPtoDuplicated(p0: Option<PointsTo>, p1: Option<PointsTo>): (r: bool)
    ensures p0.None? && p1.None? ==> r
    ensures p0.None? != p1.None? ==> !r
    ensures p0.Some? && p1.Some? ==> (r <==> PairOf(p0.value) == PairOf(p1.value))
  {
    if p0.None? && p1.None? then true
    else if p0.None? != p1.None? then false
    else if p0.value.dstfieldId != p1.value.dstfieldId then false
    else
      var o0 := p0.value.target;
      var o1 := p1.value.target;
      if o0.None? != o1.None? then false
      else o0 == o1
  }

  /** The duplicate filter is `pointsToSameObject`, and so an equivalence. */
  lemma DuplicateIsSameObject(p0: PointsTo, p1: PointsTo, p2: PointsTo)
    ensures IsPtoDuplicated(Some(p0), Some(p1)) == PointsToSameObject(p0, Some(p1))
    ensures IsPtoDuplicated(Some(p0), Some(p0))
    ensures IsPtoDuplicated(Some(p0), Some(p1)) == IsPtoDuplicated(Some(p1), Some(p0))
    ensures IsPtoDuplicated(Some(p0), Some(p1)) && IsPtoDuplicated(Some(p1), Some(p2)) ==> IsPtoDuplicated(Some(p0), Some(p2))
  {
  }

  /** `hasPointsToObjects` of the visitor: the pointer has a non-empty set. */
  predicate VisitorHasPointsTo(m: PtoMap, v: ValueId)
  {
    v in m && |m[v]| > 0
  }

  /** The visitor's test implies the utility's; an entry with no records tells
      them apart. */
  lemma HasPointsToTestsDiffer(m: PtoMap, v: ValueId)
    ensures VisitorHasPointsTo(m, v) ==> HasPointsToObjects(m, v)
    ensures HasPointsToObjects(m[v := []], v) && !VisitorHasPointsTo(m[v := []], v)
  {
  }

  /** Whether `s` has a record duplicating `p`. */
  predicate HasDuplicate(s: seq<PointsTo>, p: PointsTo)
  {
    exists i :: 0 <= i < |s| && IsPtoDuplicated(Some(p), Some(s[i]))
  }

  /** No two records of `s` are duplicates. */
  predicate NoDuplicates(s: seq<PointsTo>)
  {
    forall i, j :: 0 <= i < j < |s| ==> !IsPtoDuplicated(Some(s[i]), Some(s[j]))
  }

  /** The loop of `updatePointsToObjects` over the new records: null records
      and records without a target are skipped, a record duplicated by one
      already in the set is dropped, any other is appended. */
  function MergeNew(existing: seq<PointsTo>, news: seq<Option<PointsTo>>): (r: seq<PointsTo>)
    ensures |existing| <= |r| && r[..|existing|] == existing
    ensures forall k :: |existing| <= k < |r| ==> Some(r[k]) in news && r[k].target.Some?
    ensures forall i :: 0 <= i < |news| && news[i].Some? && news[i].value.target.Some? ==> HasDuplicate(r, news[i].value)
    ensures NoDuplicates(existing) ==> NoDuplicates(r)
  {
    if news == [] then existing
    else
      var init := news[..|news| - 1];
      var last := news[|news| - 1];
      var r := MergeNew(existing, init);
      assert forall i :: 0 <= i < |init| ==> init[i] == news[i];
      if last.None? || last.value.target.None? then r
      else if HasDuplicate(r, last.value) then r
      else
        var r' := r + [last.value];
        assert r'[..|existing|] == existing;
        assert forall k :: 0 <= k < |r| ==> r'[k] == r[k];
        assert HasDuplicate(r', last.value) by {
          assert IsPtoDuplicated(Some(last.value), Some(r'[|r|]));
        }
        assert forall i :: 0 <= i < |news| - 1 && news[i].Some? && news[i].value.target.Some? ==>
          HasDuplicate(r', news[i].value) by {
          forall i | 0 <= i < |news| - 1 && news[i].Some? && news[i].value.target.Some?
            ensures HasDuplicate(r', news[i].value)
          {
            assert HasDuplicate(r, init[i].value);
            var k :| 0 <= k < |r| && IsPtoDuplicated(Some(init[i].value), Some(r[k]));
            assert r'[k] == r[k];
          }
        }
        assert NoDuplicates(r) ==> NoDuplicates(r') by {
          if NoDuplicates(r) {
            forall i, j | 0 <= i < j < |r'|
              ensures !IsPtoDuplicated(Some(r'[i]), Some(r'[j]))
            {
              if j == |r| {
                assert !IsPtoDuplicated(Some(last.value), Some(r[i]));
              }
            }
          }
        }
        r'
  }

  /** `updatePointsToObjects`: a null or empty new set changes nothing;
      otherwise the pointer gets an entry (empty if it had none), and the new
      records are merged into it. No other pointer's records change. The
      adjustment of an appended record's type (`matchPtoTy`) is not part of
      this model. */
  function UpdatePointsToObjects(m: PtoMap, src: ValueId, news: Option<seq<Option<PointsTo>>>): (r: PtoMap)
    ensures news.None? || news.value == [] ==> r == m
    ensures news.Some? && news.value != [] ==>
      src in r && r == m[src := MergeNew(if src in m then m[src] else [], news.value)]
  {
    if news.None? || news.value == [] then m
    else m[src := MergeNew(if src in m then m[src] else [], news.value)]
  }

  /** The update only grows a pointer's set: its old records stay, in place,
      every new record with a target is then duplicated in it, and a set
      without duplicates stays without. */
  lemma UpdateOnlyGrows(m: PtoMap, src: ValueId, news: seq<Option<PointsTo>>)
    requires news != []
    ensures var r := UpdatePointsToObjects(m, src, Some(news));
            src in r && (src in m ==> |m[src]| <= |r[src]| && r[src][..|m[src]|] == m[src]) &&
            (forall v :: v != src ==> (v in r <==> v in m) && (v in m ==> r[v] == m[v])) &&
            (forall i :: 0 <= i < |news| && news[i].Some? && news[i].value.target.Some? ==> HasDuplicate(r[src], news[i].value)) &&
            (src in m && NoDuplicates(m[src]) ==> NoDuplicates(r[src]))
  {
  }

  /** The pairs of the records of `s`, in order. */
  function PairsOf(s: seq<PointsTo>): (r: seq<Pair>)
    ensures |r| == |s| && forall i :: 0 <= i < |s| ==> r[i] == PairOf(s[i])
  {
    seq(|s|, i requires 0 <= i < |s| => PairOf(s[i]))
  }

  /** Fresh records for pairs: one `PointerPointsTo` per pair, from field 0 of
      `pointer`, at `loc`, strong and active. */
  function RecordsFor(pairs: seq<Pair>, pointer: ValueId, loc: InstLoc): (r: seq<PointsTo>)
    ensures |r| == |pairs|
    ensures PairsOf(r) == pairs
    ensures forall i :: 0 <= i < |r| ==>
      r[i] == NewPointerPto(Some(pointer), 0, pairs[i].1, pairs[i].0, Some(loc), false)
  {
    seq(|pairs|, i requires 0 <= i < |pairs| => NewPointerPto(Some(pointer), 0, pairs[i].1, pairs[i].0, Some(loc), false))
  }

  /** The pairs `mergePointsTo` collects: for each value (replaced by its
      stripped form when it has no records), the pairs of its records. */
  function MergePairs(m: PtoMap, vals: seq<ValueId>, strip: ValueId -> ValueId): (r: seq<Pair>)
    ensures Distinct(r)
    ensures forall x :: x in r <==> exists i :: 0 <= i < |vals| && Contributes(m, vals[i], strip, x)
  {
    if vals == [] then []
    else
      var init := vals[..|vals| - 1];
      var v := vals[|vals| - 1];
      var acc := MergePairs(m, init, strip);
      assert forall i :: 0 <= i < |init| ==> init[i] == vals[i];
      var w := if VisitorHasPointsTo(m, v) then v else strip(v);
      if VisitorHasPointsTo(m, w) then
        var r := AddPairs(acc, m[w]);
        assert forall x :: x in r <==> exists i :: 0 <= i < |vals| && Contributes(m, vals[i], strip, x) by {
          forall x
            ensures x in r <==> exists i :: 0 <= i < |vals| && Contributes(m, vals[i], strip, x)
          {
            if x in r && x !in acc {
              assert Contributes(m, vals[|vals| - 1], strip, x);
            }
          }
        }
        r
      else acc
  }

  /** Whether value `v`, or its stripped form when `v` itself has no records,
      has a record with pair `x`. */
  predicate Contributes(m: PtoMap, v: ValueId, strip: ValueId -> ValueId, x: Pair)
  {
    var w := if VisitorHasPointsTo(m, v) then v else strip(v);
    VisitorHasPointsTo(m, w) && exists p :: p in m[w] && PairOf(p) == x
  }

  /** `mergePointsTo`: null when no value contributes a pair; otherwise one
      fresh record per distinct pair, held by `targetPtr` (or the instruction
      itself when there is none) at the instruction. */
  function MergePointsTo(m: PtoMap, vals: seq<ValueId>, strip: ValueId -> ValueId,
                         inst: ValueId, ctx: Option<seq<ValueId>>, targetPtr: Option<ValueId>): (r: Option<seq<PointsTo>>)
    ensures r.None? <==> forall i, x :: 0 <= i < |vals| ==> !Contributes(m, vals[i], strip, x)
    ensures r.Some? ==> |r.value| > 0 && NoDuplicates(r.value)
    ensures r.Some? ==> Distinct(PairsOf(r.value))
    ensures r.Some? ==> forall x :: x in PairsOf(r.value) <==> exists i :: 0 <= i < |vals| && Contributes(m, vals[i], strip, x)
    ensures r.Some? ==> forall k :: 0 <= k < |r.value| ==>
      r.value[k].PointerPto? && r.value[k].pointer == Some(targetPtr.GetOr(inst)) && r.value[k].fieldId == 0 &&
      r.value[k].inst == Some(InstLoc(inst, ctx)) && !r.value[k].isWeak && r.value[k].isActive
  {
    var pairs := MergePairs(m, vals, strip);
    if pairs == [] then
      assert forall i, x :: 0 <= i < |vals| ==> !Contributes(m, vals[i], strip, x) by {
        forall i, x | 0 <= i < |vals|
          ensures !Contributes(m, vals[i], strip, x)
        {
          assert x !in pairs;
        }
      }
      None
    else
      var recs := RecordsFor(pairs, targetPtr.GetOr(inst), InstLoc(inst, ctx));
      assert pairs[0] in pairs;
      var i :| 0 <= i < |vals| && Contributes(m, vals[i], strip, pairs[0]);
      Some(recs)
  }

  /** `copyPointsToInfo`: the same merging over one record set, the new
      records held by the instruction itself. */
  function CopyPointsToInfo(inst: ValueId, ctx: Option<seq<ValueId>>, src: seq<PointsTo>): (r: Option<seq<PointsTo>>)
    ensures r.None? <==> src == []
    ensures r.Some? ==> NoDuplicates(r.value)
    ensures r.Some? ==> Distinct(PairsOf(r.value))
    ensures r.Some? ==> forall x :: x in PairsOf(r.value) <==> exists p :: p in src && PairOf(p) == x
    ensures r.Some? ==> forall k :: 0 <= k < |r.value| ==>
      r.value[k].PointerPto? && r.value[k].pointer == Some(inst) && r.value[k].inst == Some(InstLoc(inst, ctx)) && r.value[k].fieldId == 0
  {
    var pairs := AddPairs([], src);
    if src == [] then None
    else
      Some(RecordsFor(pairs, inst, InstLoc(inst, ctx)))
  }

  /** Copying a copy gives the same records back: the merging is idempotent. */
  lemma CopyOfCopy(inst: ValueId, ctx: Option<seq<ValueId>>, src: seq<PointsTo>)
    requires src != []
    ensures var c := CopyPointsToInfo(inst, ctx, src);
            c.Some? && CopyPointsToInfo(inst, ctx, c.value) == c
  {
    var c := CopyPointsToInfo(inst, ctx, src).value;
    var pairs := AddPairs([], src);
    assert forall k :: 0 <= k < |c| ==> PairOf(c[k]) == pairs[k];
    var again := AddPairs([], c);
    PairsOfDistinct(c, pairs);
    assert again == pairs;
  }

  /** Collecting the pairs of records whose pairs are already distinct gives
      back those pairs, in order. */
  lemma {:induction false} PairsOfDistinct(c: seq<PointsTo>, pairs: seq<Pair>)
    requires |c| == |pairs| && Distinct(pairs)
    requires forall k :: 0 <= k < |c| ==> PairOf(c[k]) == pairs[k]
    ensures AddPairs([], c) == pairs
  {
    if c != [] {
      var n := |c| - 1;
      PairsOfDistinct(c[..n], pairs[..n]);
      assert PairOf(c[n]) !in pairs[..n];
      assert pairs[..n] + [pairs[n]] == pairs;
    }
  }

  /** The flag split at the start of `processMultiDimensionGEP`: records with a
      set flag go straight to the result with the flag cleared (it is for one
      use only); the others are left for index-by-index processing. */
  function SplitFlagged(ptos: seq<PointsTo>): (r: (seq<PointsTo>, seq<PointsTo>))
    ensures |r.0| + |r.1| == |ptos|
    ensures forall x :: x in r.1 <==> x in ptos && x.flag == 0
    ensures forall x :: x in r.0 <==> exists p :: p in ptos && p.flag != 0 && x == p.(flag := 0)
    ensures forall x :: x in r.0 || x in r.1 ==> x.flag == 0
  {
    if ptos == [] then ([], [])
    else
      var rest := SplitFlagged(ptos[1..]);
      var p := ptos[0];
      assert forall x :: x in ptos <==> x == p || x in ptos[1..];
      if p.flag != 0 then ([p.(flag := 0)] + rest.0, rest.1)
      else (rest.0, [p] + rest.1)
  }

  /** The update a store makes to one destination field. */
  datatype FieldUpdate = FieldUpdate(obj: Option<ObjId>, field: int, isWeak: bool)

  /** The store decision of `visitStoreInst`: nothing when the stored value or
      the destination points to nothing; otherwise every destination record
      names a field updated with the stored value's records, weakly iff there
      is more than one destination. */
  function StoreUpdates(srcPtos: seq<PointsTo>, dstPtos: seq<PointsTo>): (r: seq<FieldUpdate>)
    ensures srcPtos == [] || dstPtos == [] ==> r == []
    ensures srcPtos != [] ==> |r| == |dstPtos|
    ensures forall i :: 0 <= i < |r| ==> r[i].obj == dstPtos[i].target && r[i].field == dstPtos[i].dstfieldId
    ensures forall i :: 0 <= i < |r| ==> (r[i].isWeak <==> |dstPtos| > 1)
  {
    if srcPtos == [] || dstPtos == [] then []
    else
      var weak := |dstPtos| > 1;
      seq(|dstPtos|, i requires 0 <= i < |dstPtos| => FieldUpdate(dstPtos[i].target, dstPtos[i].dstfieldId, weak))
  }

  /** A store through a pointer with exactly one destination is a strong
      update; with two or more every update is weak. */
  lemma SingleDestinationIsStrong(srcPtos: seq<PointsTo>, d: PointsTo, e: PointsTo)
    requires srcPtos != []
    ensures StoreUpdates(srcPtos, [d]) == [FieldUpdate(d.target, d.dstfieldId, false)]
    ensures forall u :: u in StoreUpdates(srcPtos, [d, e]) ==> u.isWeak
  {
  }

  /** The outcome of the first step of `bit2Field`: an index of 0 keeps the
      record (result 0); a missing layout or record loses it (-1); otherwise
      the new bit offset, inside the host object or outside it (the
      `container_of` case). */
  datatype Bit2FieldStep = KeepsRecord | LosesRecord | InsideHost(resOffset: int) | OutsideHost(resOffset: int)

  /** The offset step of `bit2Field` for a host whose destination field
      starts at bit `dstOffset` and whose store size is `storeBits`: moving
      `index` elements of `bitWidth` bits. */
  function Bit2FieldOffset(index: int, bitWidth: nat, hasLayout: bool, hasPto: bool,
                           dstOffset: int, storeBits: nat): (r: Bit2FieldStep)
    ensures index == 0 <==> r == KeepsRecord
    ensures index != 0 && !(hasLayout && hasPto) <==> r == LosesRecord
    ensures r.InsideHost? ==> r.resOffset == dstOffset + index * bitWidth && 0 <= r.resOffset < storeBits
    ensures r.OutsideHost? ==> r.resOffset == dstOffset + index * bitWidth && (r.resOffset < 0 || r.resOffset >= storeBits)
  {
    if index == 0 then KeepsRecord
    else if !hasLayout || !hasPto then LosesRecord
    else
      var resOffset := dstOffset + index * bitWidth;
      if resOffset < 0 || resOffset >= storeBits then OutsideHost(resOffset) else InsideHost(resOffset)
  }

  /** Stepping back from the first field of a host always leaves it, as does
      stepping forward past its end. */
  lemma StepsOutOfHost(bitWidth: nat, storeBits: nat)
    requires bitWidth > 0
    ensures Bit2FieldOffset(-1, bitWidth, true, true, 0, storeBits).OutsideHost?
    ensures Bit2FieldOffset(1, bitWidth, true, true, storeBits, storeBits).OutsideHost?
  {
  }
}

=== FILE: call_context.dfy ===
/** How the global visitor descends into callees (GlobalVisitor.cpp): building
    the callee's calling context, the depth limit, the call-graph cycle guard,
    the function-pointer target cap, the blacklist used in all-tainted mode,
    the shallow taint probe of call arguments, and the order in which the blocks
    of a function are visited. */
module CallContexts {
  import opened Wrappers
  import opened Text
  import opened InstLocs

  /** `MAX_CALLSITE_DEPTH`: call frames kept in a context. */
  const MaxCallsiteDepth: nat := 7
  /** `MAX_FUNC_PTR`: targets kept for an inferred indirect call. */
  const MaxFuncPtr: nat := 3
  /** `MAX_LOOP_CNT`: passes over a loop under `HARD_LOOP_LIMIT`. */
  const MaxLoopCnt: nat := 1

  // ------------------------------------------------------------- contexts

  /** The context of a callee: the caller's context, the call, and the callee's
      first non-PHI instruction, or the call once more for a declaration. */
  function NewContext(cur: seq<ValueId>, call: ValueId, calleeEntry: Option<ValueId>): (c: seq<ValueId>)
    ensures |c| == |cur| + 2 && c[..|cur|] == cur
    ensures c[|cur|] == call && c[|cur| + 1] == calleeEntry.GetOr(call)
  {
    cur + [call, calleeEntry.GetOr(call)]
  }

  /** `processCalledFunction` declines to descend once the context holds more
      than `2 * MAX_CALLSITE_DEPTH - 1` entries. */
  predicate DepthExceeded(cur: seq<ValueId>)
  {
    |cur| > 2 * MaxCallsiteDepth - 1
  }

  /** One step of descent, when the depth limit allows it. */
  function Descend(cur: seq<ValueId>, call: ValueId, calleeEntry: Option<ValueId>): (r: Option<seq<ValueId>>)
    ensures r.Some? <==> |cur| <= 13
    ensures r.Some? ==> r.value == NewContext(cur, call, calleeEntry)
  {
    if DepthExceeded(cur) then None else Some(NewContext(cur, call, calleeEntry))
  }

  /** A call and the entry it leads to, as recorded by one descent. */
  datatype Frame = Frame(call: ValueId, calleeEntry: Option<ValueId>)

  /** The context reached from the top-level entry instruction by a sequence of
      descents that the depth limit allowed, or None once it refuses one. */
  function ContextOf(entry: ValueId, frames: seq<Frame>): (r: Option<seq<ValueId>>)
    decreases |frames|
  {
    if |frames| == 0 then Some([entry])
    else
      match ContextOf(entry, frames[..|frames| - 1])
      case None => None
      case Some(cur) =>
        var f := frames[|frames| - 1];
        Descend(cur, f.call, f.calleeEntry)
  }

  /** Every context built from the one-entry top-level context has odd length
      (one entry plus two per call), so `reachable` and `postDom` may assert it;
      the depth limit keeps it at most `2 * MAX_CALLSITE_DEPTH + 1` long; the odd
      positions hold the calls, in order. */
  lemma {:induction false} ContextShape(entry: ValueId, frames: seq<Frame>)
    requires ContextOf(entry, frames).Some?
    ensures var c := ContextOf(entry, frames).value;
      |c| == 2 * |frames| + 1 && |c| % 2 == 1 && |c| <= 2 * MaxCallsiteDepth + 1 && c[0] == entry
      && forall k :: 0 <= k < |frames| ==> c[2 * k + 1] == frames[k].call
  {
    if |frames| > 0 {
      var init := frames[..|frames| - 1];
      ContextShape(entry, init);
      var cur := ContextOf(entry, init).value;
      var c := ContextOf(entry, frames).value;
      assert c == NewContext(cur, frames[|frames| - 1].call, frames[|frames| - 1].calleeEntry);
      forall k | 0 <= k < |frames|
        ensures c[2 * k + 1] == frames[k].call
      {
        if k < |frames| - 1 {
          assert c[2 * k + 1] == cur[2 * k + 1] == init[k].call;
        }
      }
    }
  }

  /** The depth limit admits exactly seven nested calls. */
  lemma SevenFramesAtMost(entry: ValueId, frames: seq<Frame>)
    ensures ContextOf(entry, frames).Some? <==> |frames| <= MaxCallsiteDepth
  {
    if |frames| > 0 {
      SevenFramesAtMost(entry, frames[..|frames| - 1]);
      if ContextOf(entry, frames[..|frames| - 1]).Some? {
        ContextShape(entry, frames[..|frames| - 1]);
      }
    }
  }

  // ------------------------------------------------------------- cycle guard

  /** `visitCallInst`: a call to a function with a body (or to an unresolved
      target) is skipped when it was already visited in this function, or when it
      is one of the call sites (odd positions) of the current context. Calls to
      declarations are never skipped by this guard. */
  predicate CallSkipped(visited: set<ValueId>, cur: seq<ValueId>, call: ValueId, calleeIsDeclaration: bool)
  {
    !calleeIsDeclaration && (call in visited || call in CallSites(cur))
  }

  /** The odd positions of a context. */
  function CallSites(cur: seq<ValueId>): (r: set<ValueId>)
    ensures forall i :: 0 <= i < |cur| && i % 2 == 1 ==> cur[i] in r
    ensures forall x :: x in r ==> exists i :: 0 <= i < |cur| && i % 2 == 1 && cur[i] == x
  {
    set i | 0 <= i < |cur| && i % 2 == 1 :: cur[i]
  }

  /** Whether `visitCallInst` goes on with a call: not while a loop is being
      pre-analysed, and not when the cycle guard skips it. */
  function VisitCall(insideLoop: bool, visited: set<ValueId>, cur: seq<ValueId>, call: ValueId, calleeIsDeclaration: bool)
    : (r: (bool, set<ValueId>))
    ensures r.0 ==> r.1 == visited + {call}
    ensures !r.0 ==> r.1 == visited
    ensures r.0 <==> !insideLoop && !CallSkipped(visited, cur, call, calleeIsDeclaration)
  {
    if insideLoop || CallSkipped(visited, cur, call, calleeIsDeclaration) then (false, visited)
    else (true, visited + {call})
  }

  /** A descent past the guard into a function with a body never repeats a call
      site: every call site of the new context is distinct from the others when
      those of the current context were. */
  lemma GuardedDescentKeepsCallsDistinct(visited: set<ValueId>, cur: seq<ValueId>, call: ValueId, entry: ValueId)
    requires |cur| % 2 == 1
    requires forall i, j :: 0 <= i < j < |cur| && i % 2 == 1 && j % 2 == 1 ==> cur[i] != cur[j]
    requires !CallSkipped(visited, cur, call, false)
    ensures var c := NewContext(cur, call, Some(entry));
      forall i, j :: 0 <= i < j < |c| && i % 2 == 1 && j % 2 == 1 ==> c[i] != c[j]
  {
    var c := NewContext(cur, call, Some(entry));
    forall i, j | 0 <= i < j < |c| && i % 2 == 1 && j % 2 == 1
      ensures c[i] != c[j]
    {
      if j == |cur| {
        assert c[i] == cur[i] && cur[i] in CallSites(cur);
      } else {
        assert c[i] == cur[i] && c[j] == cur[j];
      }
    }
  }

  // ------------------------------------------------------------- indirect targets

  /** The non-null entries of a target list, in order. */
  function NonNull(ts: seq<Option<nat>>): (r: seq<nat>)
    ensures |r| <= |ts|
    ensures forall f :: f in r <==> Some(f) in ts
  {
    if |ts| == 0 then []
    else
      var rest := NonNull(ts[1..]);
      assert forall f :: Some(f) in ts <==> ts[0] == Some(f) || Some(f) in ts[1..];
      if ts[0].Some? then [ts[0].value] + rest else rest
  }

  /** `SMART_FUNCTION_PTR_RESOLVING`: more than `MAX_FUNC_PTR` inferred targets
      are cut down to the first three non-null ones in set order; three or fewer
      are kept as they are. */
  function CapTargets(ts: seq<Option<nat>>): (r: seq<Option<nat>>)
    ensures |ts| <= MaxFuncPtr ==> r == ts
    ensures |ts| > MaxFuncPtr ==> |r| <= MaxFuncPtr && forall i :: 0 <= i < |r| ==> r[i].Some?
  {
    if |ts| <= MaxFuncPtr then ts else Keep(ts, MaxFuncPtr)
  }

  /** The loop filling the capped set: skip nulls, stop after `n` insertions. */
  function Keep(ts: seq<Option<nat>>, n: nat): (r: seq<Option<nat>>)
    ensures |r| <= n && forall i :: 0 <= i < |r| ==> r[i].Some?
  {
    if |ts| == 0 || n == 0 then []
    else if ts[0].Some? then [ts[0]] + Keep(ts[1..], n - 1)
    else Keep(ts[1..], n)
  }

  /** The kept targets are the first non-null ones of the inferred list. */
  lemma {:induction false} KeepIsPrefixOfNonNull(ts: seq<Option<nat>>, n: nat)
    ensures var k := Keep(ts, n);
      var nn := NonNull(ts);
      |k| == (if |nn| < n then |nn| else n) && forall i :: 0 <= i < |k| ==> k[i] == Some(nn[i])
  {
    if |ts| > 0 && n > 0 {
      KeepIsPrefixOfNonNull(ts[1..], if ts[0].Some? then n - 1 else n);
    }
  }

  // ------------------------------------------------------------- blacklist

  /** `black_funcs` under `FUNC_BLACKLIST`. */
  const BlackFuncs: set<string> := {
    "__kasan_check_read", "__kasan_check_write", "kasan_report_double_free", "kasan_check_read",
    "kasan_check_write", "kasan_unpoison_shadow", "queue_delayed_work_on", "pvclock_read_wallclock",
    "mutex_lock", "__mutex_lock", "mutex_unlock", "__mutex_unlock", "record_times", "kfree",
    "update_rq_clock", "sched_clock_idle_sleep_event", "__warn_printk", "srm_printk", "snd_printk",
    "dbgp_printk", "ql4_printk", "printk", "vprintk", "__dump_page", "irq_stack_union",
    "queued_spin_lock_slowpath", "__pv_queued_spin_lock_slowpath", "queued_read_lock_slowpath",
    "queued_write_lock_slowpath"}

  /** `black_funcs_inc`: names containing one of these are skipped. */
  const BlackFuncsInc: seq<string> := ["asan_report", "llvm.dbg", "__sanitizer_cov_trace_pc"]

  predicate Blacklisted(name: string)
  {
    name in BlackFuncs || exists k :: 0 <= k < |BlackFuncsInc| && Contains(name, BlackFuncsInc[k])
  }

  /** What `processCalledFunction` does with a resolved callee. */
  datatype CallDecision = TooDeep | Blacklist | TaintedIndirect | NoTaintedArg | Analyse

  /** The checks in order: the depth limit; then, in all-tainted mode only, the
      exact-name blacklist, calls recorded as tainted indirect calls, the
      substring blacklist, and whether some argument's pointee carries taint. */
  function Decide(cur: seq<ValueId>, taintedAll: bool, name: string, isTaintedIndirect: bool, someArgTainted: bool)
    : (d: CallDecision)
    ensures d == Analyse <==> |cur| <= 13 && (taintedAll ==> !Blacklisted(name) && !isTaintedIndirect && someArgTainted)
    ensures taintedAll && |cur| <= 13 && Blacklisted(name) ==> d != Analyse
  {
    if DepthExceeded(cur) then TooDeep
    else if !taintedAll then Analyse
    else if name in BlackFuncs then Blacklist
    else if isTaintedIndirect then TaintedIndirect
    else if exists k :: 0 <= k < |BlackFuncsInc| && Contains(name, BlackFuncsInc[k]) then Blacklist
    else if !someArgTainted then NoTaintedArg
    else Analyse
  }

  /** Memory-sanitizer callbacks are never analysed in all-tainted mode. */
  lemma SanitizerCallsSkipped(cur: seq<ValueId>, pre: string, post: string, t: bool, s: bool)
    ensures Decide(cur, true, pre + "asan_report" + post, t, s) != Analyse
  {
    var name := pre + "asan_report" + post;
    assert name[|pre|..|pre| + |"asan_report"|] == "asan_report";
    assert OccursAt(name, "asan_report", |pre|);
    assert Contains(name, BlackFuncsInc[0]);
  }

  // ------------------------------------------------------------- argument probe

  /** A points-to record as far as the probe needs it. */
  datatype Pto = Pto(target: Option<nat>, dstField: int)

  /** The probe's view of the heap: whether an object's field carries a tainted
      flag, and every points-to record held by any field of an object. */
  datatype Heap = Heap(fieldTainted: (nat, int) -> bool, pointsTo: nat -> seq<Pto>)

  predicate TaintedAt(h: Heap, p: Pto)
  {
    p.target.Some? && h.fieldTainted(p.target.value, p.dstField)
  }

  /** `checkObjTainted`: the pointee field is tainted, or (one level further
      down) some record of the pointee object is; depth 2 answers false. */
  function CheckObjTainted(h: Heap, p: Pto, depth: nat): (r: bool)
    ensures depth >= 2 || p.target.None? ==> !r
    ensures depth < 2 && p.target.Some? && h.fieldTainted(p.target.value, p.dstField) ==> r
    decreases 2 - depth, 0
  {
    if depth >= 2 then false
    else if p.target.None? then false
    else h.fieldTainted(p.target.value, p.dstField) || AnyTainted(h, h.pointsTo(p.target.value), depth + 1)
  }

  /** The loop over a pointee object's records in `checkObjTainted`: true when
      the probe answers true for some record. */
  function AnyTainted(h: Heap, ps: seq<Pto>, depth: nat): (r: bool)
    requires depth <= 2
    ensures r <==> exists i :: 0 <= i < |ps| && CheckObjTainted(h, ps[i], depth)
    decreases 2 - depth, |ps|
  {
    if |ps| == 0 then false
    else
      assert forall i :: 0 < i < |ps| ==> ps[i] == ps[1..][i - 1];
      CheckObjTainted(h, ps[0], depth) || AnyTainted(h, ps[1..], depth)
  }

  /** Seen from an argument, the probe looks at most one hop deep: the pointee
      itself or a pointee of the pointee object. */
  lemma ProbeIsOneHop(h: Heap, p: Pto)
    ensures CheckObjTainted(h, p, 0) <==>
      TaintedAt(h, p) || (p.target.Some? && exists q :: q in h.pointsTo(p.target.value) && TaintedAt(h, q))
  {
    if p.target.Some? {
      AnyTaintedAtDepthOne(h, h.pointsTo(p.target.value));
    }
  }

  lemma {:induction false} AnyTaintedAtDepthOne(h: Heap, ps: seq<Pto>)
    ensures AnyTainted(h, ps, 1) <==> exists q :: q in ps && TaintedAt(h, q)
  {
    if |ps| > 0 {
      AnyTaintedAtDepthOne(h, ps[1..]);
      assert forall q :: q in ps <==> q == ps[0] || q in ps[1..];
      assert CheckObjTainted(h, ps[0], 1) == TaintedAt(h, ps[0]) by {
        if ps[0].target.Some? {
          AnyTaintedAtDepthTwo(h, h.pointsTo(ps[0].target.value));
        }
      }
    }
  }

  lemma {:induction false} AnyTaintedAtDepthTwo(h: Heap, ps: seq<Pto>)
    ensures !AnyTainted(h, ps, 2)
  {
    if |ps| > 0 {
      AnyTaintedAtDepthTwo(h, ps[1..]);
    }
  }

  // ------------------------------------------------------------- analyze

  /** One block visit and the `inside_loop` flag in force during it. */
  datatype Visit = Visit(block: nat, insideLoop: bool)

  /** Passes over a loop: `getNumTimesToAnalyze`, capped by `MAX_LOOP_CNT`. */
  function LoopPasses(numTimes: nat): (n: nat)
    ensures n <= MaxLoopCnt && n <= numTimes
    ensures numTimes >= 1 ==> n == 1
  {
    if MaxLoopCnt < numTimes then MaxLoopCnt else numTimes
  }

  /** One pass over the blocks of an SCC in order, skipping dead ones. */
  function Pass(scc: seq<nat>, dead: nat -> bool, insideLoop: bool): (r: seq<Visit>)
    ensures |r| <= |scc|
    ensures forall v :: v in r ==> v.block in scc && !dead(v.block) && v.insideLoop == insideLoop
  {
    if |scc| == 0 then []
    else (if dead(scc[0]) then [] else [Visit(scc[0], insideLoop)]) + Pass(scc[1..], dead, insideLoop)
  }

  /** Passes `l .. n-1`; `inside_loop` is dropped for the last one. */
  function Passes(scc: seq<nat>, dead: nat -> bool, n: nat, l: nat): (r: seq<Visit>)
    ensures forall v :: v in r ==> v.block in scc && !dead(v.block)
    decreases n - l
  {
    if l >= n then [] else Pass(scc, dead, l < n - 1) + Passes(scc, dead, n, l + 1)
  }

  /** The visits `analyze` makes for one SCC: a single block once (with
      `inside_loop` false) unless it is dead; a larger SCC `LoopPasses` times. */
  function SccVisits(scc: seq<nat>, numTimes: nat, dead: nat -> bool): (r: seq<Visit>)
    ensures forall v :: v in r ==> v.block in scc && !dead(v.block)
    ensures |scc| == 1 ==> (r == [] <==> dead(scc[0])) && forall v :: v in r ==> !v.insideLoop
  {
    if |scc| == 1 then (if dead(scc[0]) then [] else [Visit(scc[0], false)])
    else Passes(scc, dead, LoopPasses(numTimes), 0)
  }

  /** With the hard loop limit, a loop is analysed in exactly one pass, outside
      loop mode, so every live block of it is visited once and calls in it are
      followed. */
  lemma LoopVisitedOnce(scc: seq<nat>, numTimes: nat, dead: nat -> bool)
    requires |scc| != 1 && numTimes >= 1
    ensures SccVisits(scc, numTimes, dead) == Pass(scc, dead, false)
    ensures forall v :: v in SccVisits(scc, numTimes, dead) ==> !v.insideLoop
  {
    assert Passes(scc, dead, 1, 1) == [];
  }

  /** Over any number of passes, every visit of the last pass is outside loop
      mode and every earlier one inside it. */
  lemma {:induction false} LastPassOutsideLoop(scc: seq<nat>, dead: nat -> bool, n: nat, l: nat)
    requires l < n
    decreases n - l
    ensures var r := Passes(scc, dead, n, l);
      var last := Pass(scc, dead, false);
      |r| >= |last| && r[|r| - |last|..] == last
      && forall i :: 0 <= i < |r| - |last| ==> r[i].insideLoop
  {
    if l + 1 < n {
      LastPassOutsideLoop(scc, dead, n, l + 1);
      var head: seq<Visit> := Pass(scc, dead, true);
      var tail: seq<Visit> := Passes(scc, dead, n, l + 1);
      assert Passes(scc, dead, n, l) == head + tail;
      forall i | 0 <= i < |head + tail| - |Pass(scc, dead, false)|
        ensures (head + tail)[i].insideLoop
      {
        if i < |head| {
          assert head[i] in head;
        }
      }
    } else {
      assert Passes(scc, dead, n, l + 1) == [];
      assert Passes(scc, dead, n, l) == Pass(scc, dead, false) + [];
    }
  }
}

=== FILE: cfg_search.dfy ===
/** Intra-procedural control-flow searches of CFGUtils.cpp: the worklist
    reachability test LLVM's `isPotentiallyReachable` is built on, and the number
    of times the analyser re-visits a loop. Blocks and instructions are opaque
    identifiers; the successor lists, the block and function of each instruction
    and its position in the block are given by the program. */
module Cfgs {
  import opened Seqs

  type Block = nat
  type Inst = nat
  type FuncId = nat

  /** The control-flow facts the searches consult. */
  datatype Program = Program(
    succ: Block -> seq<Block>,
    blockOf: Inst -> Block,
    posOf: Inst -> nat,
    funcOfBlock: Block -> FuncId,
    entryOf: FuncId -> Block,
    blocksOf: FuncId -> set<Block>)

  /** Each function's blocks hold its entry block and the successors of its
      blocks, and belong to that function. */
  ghost predicate WellFormed(p: Program)
  {
    (forall f :: p.entryOf(f) in p.blocksOf(f))
    && (forall f, b :: b in p.blocksOf(f) ==> p.funcOfBlock(b) == f)
    && (forall f, b :: b in p.blocksOf(f) ==> SuccsIn(p.succ, b, p.blocksOf(f)))
  }

  /** Every successor of `b` lies in `blocks`. */
  ghost predicate SuccsIn(succ: Block -> seq<Block>, b: Block, blocks: set<Block>)
  {
    forall i :: 0 <= i < |succ(b)| ==> succ(b)[i] in blocks
  }

  function FuncOf(p: Program, i: Inst): FuncId
  {
    p.funcOfBlock(p.blockOf(i))
  }

  // ------------------------------------------------------------- paths

  /** `path` is a walk along successor edges from `a` to `b`. */
  ghost predicate IsPath(succ: Block -> seq<Block>, path: seq<Block>, a: Block, b: Block)
  {
    |path| > 0 && path[0] == a && path[|path| - 1] == b
    && forall i :: 0 <= i < |path| - 1 ==> path[i + 1] in succ(path[i])
  }

  /** `b` is reachable from `a` in zero or more steps. */
  ghost predicate Reaches(succ: Block -> seq<Block>, a: Block, b: Block)
  {
    exists path :: IsPath(succ, path, a, b)
  }

  /** `b` is reachable from some block of `from`. */
  ghost predicate ReachesFromAny(succ: Block -> seq<Block>, from: seq<Block>, b: Block)
  {
    exists i :: 0 <= i < |from| && Reaches(succ, from[i], b)
  }

  lemma ReachesRefl(succ: Block -> seq<Block>, a: Block)
    ensures Reaches(succ, a, a)
  {
    assert IsPath(succ, [a], a, a);
  }

  lemma ReachesStep(succ: Block -> seq<Block>, a: Block, b: Block, c: Block)
    requires Reaches(succ, a, b) && c in succ(b)
    ensures Reaches(succ, a, c)
  {
    var path :| IsPath(succ, path, a, b);
    assert IsPath(succ, path + [c], a, c);
  }

  /** A set holding `a`, closed under successors, holds every block reachable
      from `a`. */
  lemma {:induction false} ClosedSetHoldsReachable(succ: Block -> seq<Block>, s: set<Block>, path: seq<Block>, a: Block, b: Block)
    requires a in s
    requires forall x, i :: x in s && 0 <= i < |succ(x)| ==> succ(x)[i] in s
    requires IsPath(succ, path, a, b)
    ensures b in s
    decreases |path|
  {
    if |path| > 1 {
      var init := path[..|path| - 1];
      assert IsPath(succ, init, a, path[|path| - 2]);
      ClosedSetHoldsReachable(succ, s, init, a, path[|path| - 2]);
      var k :| 0 <= k < |succ(path[|path| - 2])| && succ(path[|path| - 2])[k] == b;
    }
  }

  // --------------------------------------------------- isPotentiallyReachableFromMany

  /** The search state: the visited blocks and the worklist lie inside the
      function's blocks and are reachable from the start blocks; every start
      block and every successor of a visited block is visited or still pending;
      `stop` has not been visited. */
  ghost predicate SearchInv(p: Program, blocks: set<Block>, worklist: seq<Block>, wl: seq<Block>, visited: set<Block>, stop: Block)
  {
    visited <= blocks && stop !in visited
    && (forall i :: 0 <= i < |wl| ==> wl[i] in blocks && ReachesFromAny(p.succ, worklist, wl[i]))
    && (forall x :: x in visited ==> ReachesFromAny(p.succ, worklist, x))
    && (forall i :: 0 <= i < |worklist| ==> worklist[i] in visited || worklist[i] in wl)
    && (forall x, i :: x in visited && 0 <= i < |p.succ(x)| ==> p.succ(x)[i] in visited || p.succ(x)[i] in wl)
  }

  lemma SearchStart(p: Program, blocks: set<Block>, worklist: seq<Block>, stop: Block)
    requires forall i :: 0 <= i < |worklist| ==> worklist[i] in blocks
    ensures SearchInv(p, blocks, worklist, worklist, {}, stop)
  {
    forall i | 0 <= i < |worklist|
      ensures ReachesFromAny(p.succ, worklist, worklist[i])
    {
      ReachesRefl(p.succ, worklist[i]);
    }
  }

  /** Popping a block already visited keeps the state. */
  lemma SearchSkip(p: Program, blocks: set<Block>, worklist: seq<Block>, wl: seq<Block>, visited: set<Block>, stop: Block)
    requires SearchInv(p, blocks, worklist, wl, visited, stop)
    requires |wl| > 0 && wl[|wl| - 1] in visited
    ensures SearchInv(p, blocks, worklist, wl[..|wl| - 1], visited, stop)
  {
    var w := wl[..|wl| - 1];
    forall x, i | x in visited && 0 <= i < |p.succ(x)|
      ensures p.succ(x)[i] in visited || p.succ(x)[i] in w
    {
      if p.succ(x)[i] !in visited {
        var k :| 0 <= k < |wl| && wl[k] == p.succ(x)[i];
        assert k < |wl| - 1;
        assert w[k] == wl[k];
      }
    }
    forall i | 0 <= i < |worklist|
      ensures worklist[i] in visited || worklist[i] in w
    {
      if worklist[i] !in visited {
        var k :| 0 <= k < |wl| && wl[k] == worklist[i];
        assert w[k] == wl[k];
      }
    }
  }

  /** Expanding a fresh block other than `stop` marks it visited and pushes its
      successors. */
  lemma SearchExpand(p: Program, f: FuncId, worklist: seq<Block>, wl: seq<Block>, visited: set<Block>, stop: Block)
    requires WellFormed(p)
    requires SearchInv(p, p.blocksOf(f), worklist, wl, visited, stop)
    requires |wl| > 0 && wl[|wl| - 1] !in visited && wl[|wl| - 1] != stop
    ensures var bb := wl[|wl| - 1];
      SearchInv(p, p.blocksOf(f), worklist, wl[..|wl| - 1] + p.succ(bb), visited + {bb}, stop)
  {
    var bb := wl[|wl| - 1];
    assert bb in p.blocksOf(f);
    assert SuccsIn(p.succ, bb, p.blocksOf(f));
    ExpandKeepsPending(p, p.blocksOf(f), worklist, wl, visited, stop);
    ExpandKeepsClosed(p, p.blocksOf(f), worklist, wl, visited, stop);
  }

  /** After expanding the top block, every pending block still lies in the
      function and is reachable from a start block. */
  lemma ExpandKeepsPending(p: Program, blocks: set<Block>, worklist: seq<Block>, wl: seq<Block>, visited: set<Block>, stop: Block)
    requires SearchInv(p, blocks, worklist, wl, visited, stop)
    requires |wl| > 0 && SuccsIn(p.succ, wl[|wl| - 1], blocks)
    ensures var w2 := wl[..|wl| - 1] + p.succ(wl[|wl| - 1]);
      forall i :: 0 <= i < |w2| ==> w2[i] in blocks && ReachesFromAny(p.succ, worklist, w2[i])
  {
    var bb := wl[|wl| - 1];
    var w := wl[..|wl| - 1];
    var w2 := w + p.succ(bb);
    forall i | 0 <= i < |w2|
      ensures w2[i] in blocks && ReachesFromAny(p.succ, worklist, w2[i])
    {
      if i < |w| {
        assert w2[i] == wl[i];
      } else {
        var s := p.succ(bb)[i - |w|];
        assert w2[i] == s;
        var k :| 0 <= k < |worklist| && Reaches(p.succ, worklist[k], bb);
        ReachesStep(p.succ, worklist[k], bb, s);
      }
    }
  }

  /** After expanding the top block, the start blocks and the successors of
      every visited block are visited or pending. */
  lemma ExpandKeepsClosed(p: Program, blocks: set<Block>, worklist: seq<Block>, wl: seq<Block>, visited: set<Block>, stop: Block)
    requires SearchInv(p, blocks, worklist, wl, visited, stop)
    requires |wl| > 0
    ensures var bb := wl[|wl| - 1];
      var w2 := wl[..|wl| - 1] + p.succ(bb);
      var v2 := visited + {bb};
      (forall i :: 0 <= i < |worklist| ==> worklist[i] in v2 || worklist[i] in w2) &&
      (forall x, i :: x in v2 && 0 <= i < |p.succ(x)| ==> p.succ(x)[i] in v2 || p.succ(x)[i] in w2)
  {
    var bb := wl[|wl| - 1];
    var w := wl[..|wl| - 1];
    var w2 := w + p.succ(bb);
    var v2 := visited + {bb};
    forall x, i | x in v2 && 0 <= i < |p.succ(x)|
      ensures p.succ(x)[i] in v2 || p.succ(x)[i] in w2
    {
      if x == bb {
        assert w2[|w| + i] == p.succ(x)[i];
      } else if p.succ(x)[i] !in v2 {
        var k :| 0 <= k < |wl| && wl[k] == p.succ(x)[i];
        assert k < |wl| - 1;
        assert w2[k] == wl[k];
      }
    }
    forall i | 0 <= i < |worklist|
      ensures worklist[i] in v2 || worklist[i] in w2
    {
      if worklist[i] !in v2 {
        var k :| 0 <= k < |wl| && wl[k] == worklist[i];
        assert w2[k] == wl[k];
      }
    }
  }

  ghost predicate ExpandedWithin(s: seq<Block>, visited: set<Block>)
  {
    Distinct(s) && forall y :: y in s ==> y in visited
  }

  lemma AppendFresh(s: seq<Block>, x: Block, visited: set<Block>)
    requires ExpandedWithin(s, visited) && x !in visited
    ensures ExpandedWithin(s + [x], visited + {x})
  {
    DistinctPush(s, x);
  }

  lemma RemainingShrinks(blocks: set<Block>, visited: set<Block>, bb: Block)
    requires bb in blocks && bb !in visited
    ensures |blocks - (visited + {bb})| < |blocks - visited|
  {
    assert blocks - visited == (blocks - (visited + {bb})) + {bb};
  }

  /** `isPotentiallyReachableFromMany(Worklist, StopBB, limit)`: a depth-first
      worklist search that expands each block at most once. With `limit` 0 the
      answer is exact; with a positive `limit` the search answers true once it
      has expanded `limit` blocks without meeting `StopBB`, so only a false answer
      is exact then. `expanded` lists the blocks whose successors were pushed. The
      worklist must be non-empty (the C++ pops before testing) and lie inside the
      function's blocks. */
  method FromMany(p: Program, f: FuncId, worklist: seq<Block>, stop: Block, limit: nat)
    returns (r: bool, ghost expanded: seq<Block>)
    requires WellFormed(p)
    requires |worklist| > 0 && forall i :: 0 <= i < |worklist| ==> worklist[i] in p.blocksOf(f)
    ensures limit == 0 ==> (r <==> ReachesFromAny(p.succ, worklist, stop))
    ensures !r ==> !ReachesFromAny(p.succ, worklist, stop)
    ensures limit > 0 ==> |expanded| < limit
    ensures Distinct(expanded)
  {
    var blocks := p.blocksOf(f);
    var wl := worklist;
    var visited: set<Block> := {};
    var budget := limit;
    expanded := [];
    SearchStart(p, blocks, worklist, stop);
    while |wl| > 0
      invariant SearchInv(p, blocks, worklist, wl, visited, stop)
      invariant limit > 0 ==> 0 < budget && |expanded| + budget == limit
      invariant limit == 0 ==> budget == 0
      invariant ExpandedWithin(expanded, visited)
      decreases |blocks - visited|, |wl|
    {
      var bb := wl[|wl| - 1];
      if bb in visited {
        SearchSkip(p, blocks, worklist, wl, visited, stop);
        wl := wl[..|wl| - 1];
        continue;
      }
      if bb == stop {
        assert ReachesFromAny(p.succ, worklist, wl[|wl| - 1]);
        return true, expanded;
      }
      if limit > 0 {
        budget := budget - 1;
        if budget == 0 {
          return true, expanded;
        }
      }
      SearchExpand(p, f, worklist, wl, visited, stop);
      RemainingShrinks(blocks, visited, bb);
      AppendFresh(expanded, bb, visited);
      visited := visited + {bb};
      wl := wl[..|wl| - 1] + p.succ(bb);
      expanded := expanded + [bb];
    }
    assert SearchInv(p, blocks, worklist, [], visited, stop);
    ClosedUnderSucc(p, worklist, visited, stop);
    return false, expanded;
  }

  /** When the worklist runs dry, the visited blocks contain the start blocks and
      are closed under successors but miss `stop`, so `stop` is unreachable. */
  lemma ClosedUnderSucc(p: Program, worklist: seq<Block>, visited: set<Block>, stop: Block)
    requires stop !in visited
    requires forall i :: 0 <= i < |worklist| ==> worklist[i] in visited
    requires forall x, i :: x in visited && 0 <= i < |p.succ(x)| ==> p.succ(x)[i] in visited
    ensures !ReachesFromAny(p.succ, worklist, stop)
  {
    if ReachesFromAny(p.succ, worklist, stop) {
      var k :| 0 <= k < |worklist| && Reaches(p.succ, worklist[k], stop);
      var path :| IsPath(p.succ, path, worklist[k], stop);
      ClosedSetHoldsReachable(p.succ, visited, path, worklist[k], stop);
    }
  }

  // -------------------------------------------------------- isPotentiallyReachable

  /** `stop` is reachable from a successor of `a`: a walk of at least one step. */
  ghost predicate ReachesInSteps(succ: Block -> seq<Block>, a: Block, b: Block)
  {
    ReachesFromAny(succ, succ(a), b)
  }

  /** Outside the entry block: `B` is at or after `A` in the same block, or `B`'s
      block, when not the entry block, is reached from `A`'s block in one or more
      steps. */
  ghost predicate InstReaches(p: Program, a: Inst, b: Inst)
  {
    (p.blockOf(a) == p.blockOf(b) && p.posOf(b) >= p.posOf(a))
    || (p.blockOf(b) != p.entryOf(FuncOf(p, a)) && ReachesInSteps(p.succ, p.blockOf(a), p.blockOf(b)))
  }

  /** `isPotentiallyReachable(A, B, limit)` without a blocklist: false across
      functions; within one block, true when `B` is at or after `A`, and
      otherwise, outside the entry block, a search from the block's successors;
      across blocks, true when `A` is in the entry block, false when `B` is, and
      otherwise a search from `A`'s block. */
  method IsPotentiallyReachable(p: Program, a: Inst, b: Inst, limit: nat) returns (r: bool)
    requires WellFormed(p)
    requires p.blockOf(a) in p.blocksOf(FuncOf(p, a)) && p.blockOf(b) in p.blocksOf(FuncOf(p, b))
    ensures FuncOf(p, a) != FuncOf(p, b) ==> !r
    ensures FuncOf(p, a) == FuncOf(p, b) && p.blockOf(a) == p.blockOf(b) && p.posOf(b) >= p.posOf(a) ==> r
    ensures p.blockOf(a) == p.blockOf(b) && p.blockOf(a) == p.entryOf(FuncOf(p, a)) && p.posOf(b) < p.posOf(a) ==> !r
    ensures FuncOf(p, a) == FuncOf(p, b) && p.blockOf(a) != p.blockOf(b) && p.blockOf(a) == p.entryOf(FuncOf(p, a)) ==> r
    ensures p.blockOf(a) != p.blockOf(b) && p.blockOf(a) != p.entryOf(FuncOf(p, a)) && p.blockOf(b) == p.entryOf(FuncOf(p, a)) ==> !r
    ensures FuncOf(p, a) == FuncOf(p, b) && p.blockOf(a) != p.entryOf(FuncOf(p, a)) && limit == 0 ==>
      (r <==> InstReaches(p, a, b))
    ensures FuncOf(p, a) == FuncOf(p, b) && p.blockOf(a) != p.entryOf(FuncOf(p, a)) && !r ==>
      !InstReaches(p, a, b)
  {
    var f := FuncOf(p, a);
    if f != FuncOf(p, b) {
      return false;
    }
    var ba := p.blockOf(a);
    var bb := p.blockOf(b);
    var entry := p.entryOf(f);
    var worklist: seq<Block>;
    if ba == bb {
      if p.posOf(b) >= p.posOf(a) {
        return true;
      }
      if ba == entry {
        return false;
      }
      worklist := p.succ(ba);
      if |worklist| == 0 {
        return false;
      }
    } else {
      worklist := [ba];
    }
    if ba == entry {
      return true;
    }
    if bb == entry {
      return false;
    }
    if ba != bb {
      SingleStartSteps(p, ba, bb);
    }
    ghost var expanded;
    r, expanded := FromMany(p, f, worklist, bb, limit);
  }

  /** Between distinct blocks, a search from `A`'s block finds `B`'s block exactly
      when some successor of `A`'s block reaches it. */
  lemma SingleStartSteps(p: Program, a: Block, b: Block)
    requires a != b
    ensures ReachesFromAny(p.succ, [a], b) <==> ReachesInSteps(p.succ, a, b)
  {
    if ReachesFromAny(p.succ, [a], b) {
      var path :| IsPath(p.succ, path, a, b);
      assert |path| > 1;
      var k :| 0 <= k < |p.succ(a)| && p.succ(a)[k] == path[1];
      assert IsPath(p.succ, path[1..], path[1], b);
    }
    if ReachesInSteps(p.succ, a, b) {
      var k :| 0 <= k < |p.succ(a)| && Reaches(p.succ, p.succ(a)[k], b);
      var path :| IsPath(p.succ, path, p.succ(a)[k], b);
      assert IsPath(p.succ, [a] + path, a, b);
      assert Reaches(p.succ, [a][0], b);
    }
  }

  // -------------------------------------------------------- getNumTimesToAnalyze

  /** `c` contains every block of the SCC that an instruction of a block of `c`
      uses a value from. */
  ghost predicate ClosedUnderUses(uses: Block -> set<Block>, scc: set<Block>, c: set<Block>)
  {
    forall x, y :: x in c && y in uses(x) && y in scc ==> y in c
  }

  /** The use-def chain of `b`: rounds that add, for every block not yet
      examined, the SCC blocks defining its operands, until no new block
      appears. The result is the least set holding `b` that is closed under
      uses within the SCC. */
  method UseDefChain(uses: Block -> set<Block>, scc: set<Block>, b: Block) returns (chain: set<Block>)
    requires b in scc
    ensures b in chain && chain <= scc
    ensures ClosedUnderUses(uses, scc, chain)
    ensures forall c :: ClosedUnderUses(uses, scc, c) && b in c ==> chain <= c
  {
    var toAnalyze := {b};
    var visited: set<Block> := {};
    chain := {b};
    while toAnalyze != {}
      invariant b in chain && chain <= scc && visited <= chain
      invariant toAnalyze == chain - visited
      invariant forall x, y :: x in visited && y in uses(x) && y in scc ==> y in chain
      invariant forall c :: ClosedUnderUses(uses, scc, c) && b in c ==> chain <= c
      decreases |scc - visited|
    {
      var found := set x, y | x in toAnalyze && y in uses(x) && y in scc :: y;
      forall x, y | x in toAnalyze && y in uses(x) && y in scc
        ensures y in found
      {
      }
      assert found <= scc;
      assert |scc - (visited + toAnalyze)| < |scc - visited| by {
        var z :| z in toAnalyze;
        SubsetCard(scc - (visited + toAnalyze), (scc - visited) - {z});
      }
      visited := visited + toAnalyze;
      chain := chain + found;
      toAnalyze := chain - visited;
    }
  }

  function Members(s: seq<Block>): set<Block>
  {
    set b | b in s
  }

  /** `c` is the use-def chain of `b`: the least set holding `b` that is closed
      under uses within the SCC. */
  ghost predicate LeastChain(uses: Block -> set<Block>, scc: set<Block>, b: Block, c: set<Block>)
  {
    b in c && c <= scc && ClosedUnderUses(uses, scc, c)
    && forall d :: ClosedUnderUses(uses, scc, d) && b in d ==> c <= d
  }

  /** `len` is the size of the use-def chain of some block of `scc`, the
      blocks tried in order. */
  ghost predicate ChainSizeOf(uses: Block -> set<Block>, sccSet: set<Block>, scc: seq<Block>, len: nat)
    decreases |scc|
  {
    |scc| > 0
    && ((exists c :: LeastChain(uses, sccSet, scc[0], c) && |c| == len)
        || ChainSizeOf(uses, sccSet, scc[1..], len))
  }

  /** The size of the chain of any block of `scc` is a chain size of `scc`. */
  lemma {:induction false} ChainSizeOfAt(uses: Block -> set<Block>, sccSet: set<Block>, scc: seq<Block>, k: nat, c: set<Block>)
    requires k < |scc| && LeastChain(uses, sccSet, scc[k], c)
    ensures ChainSizeOf(uses, sccSet, scc, |c|)
    decreases k
  {
    if k > 0 {
      assert scc[1..][k - 1] == scc[k];
      ChainSizeOfAt(uses, sccSet, scc[1..], k - 1, c);
    }
  }

  /** A chain size of `scc` is the size of the chain of one of its blocks. */
  lemma {:induction false} ChainSizeOfMeans(uses: Block -> set<Block>, sccSet: set<Block>, scc: seq<Block>, len: nat)
    requires ChainSizeOf(uses, sccSet, scc, len)
    ensures exists k, c :: 0 <= k < |scc| && LeastChain(uses, sccSet, scc[k], c) && |c| == len
    decreases |scc|
  {
    if !(exists c :: LeastChain(uses, sccSet, scc[0], c) && |c| == len) {
      ChainSizeOfMeans(uses, sccSet, scc[1..], len);
      var k, c :| 0 <= k < |scc[1..]| && LeastChain(uses, sccSet, scc[1..][k], c) && |c| == len;
      assert scc[k + 1] == scc[1..][k];
    }
  }

  /** Every recorded size bounds the use-def chain of the block it is recorded
      for. */
  ghost predicate MeasuredBounds(uses: Block -> set<Block>, sccSet: set<Block>, lengths: map<Block, nat>)
  {
    forall x, c :: x in lengths && LeastChain(uses, sccSet, x, c) ==> |c| <= lengths[x]
  }

  /** `lengths` with `size` recorded for every block of `chain` it does not
      measure yet. */
  function WithChainSize(lengths: map<Block, nat>, chain: set<Block>, size: nat): (r: map<Block, nat>)
    ensures r.Keys == lengths.Keys + chain
    ensures forall x :: x in lengths ==> r[x] == lengths[x]
    ensures forall x :: x in chain && x !in lengths ==> r[x] == size
  {
    lengths + map x | x in chain && x !in lengths :: size
  }

  /** Recording the size of `b`'s use-def chain for every block of it not yet
      measured keeps every recorded size an upper bound, and measures exactly
      the blocks of the chain in addition: each block of the chain has a chain
      inside it. */
  lemma RecordChain(uses: Block -> set<Block>, sccSet: set<Block>, lengths: map<Block, nat>, b: Block, chain: set<Block>)
    requires MeasuredBounds(uses, sccSet, lengths) && LeastChain(uses, sccSet, b, chain)
    ensures MeasuredBounds(uses, sccSet, WithChainSize(lengths, chain, |chain|))
  {
    var next := WithChainSize(lengths, chain, |chain|);
    forall x, c | x in next && LeastChain(uses, sccSet, x, c)
      ensures |c| <= next[x]
    {
      if x !in lengths {
        assert c <= chain;
        SubsetCard(c, chain);
      }
    }
  }

  /** What the measuring loop keeps once it has gone through the first `i`
      SCC blocks: only SCC blocks are measured, each with the size of some
      block's chain, which bounds its own chain, and the first `i` blocks are
      all measured. */
  ghost predicate LengthsInv(uses: Block -> set<Block>, scc: seq<Block>, i: nat, lengths: map<Block, nat>)
    requires i <= |scc|
  {
    (forall x :: x in lengths ==> x in Members(scc) && lengths[x] <= |Members(scc)|)
    && (forall x :: x in lengths ==> ChainSizeOf(uses, Members(scc), scc, lengths[x]))
    && MeasuredBounds(uses, Members(scc), lengths)
    && Members(scc[..i]) <= lengths.Keys
  }

  /** Measuring the chain of an unmeasured block keeps `LengthsInv`. */
  lemma MeasureStep(uses: Block -> set<Block>, scc: seq<Block>, i: nat, lengths: map<Block, nat>, chain: set<Block>)
    requires i < |scc| && LengthsInv(uses, scc, i, lengths)
    requires LeastChain(uses, Members(scc), scc[i], chain)
    ensures LengthsInv(uses, scc, i + 1, WithChainSize(lengths, chain, |chain|))
  {
    RecordChain(uses, Members(scc), lengths, scc[i], chain);
    MeasuredKeys(uses, scc, i, lengths, chain);
    MeasuredSizes(uses, scc, i, lengths, chain);
  }

  /** Measuring the chain of `scc[i]` measures only SCC blocks, with sizes
      bounded by the SCC, and measures `scc[i]`. */
  lemma MeasuredKeys(uses: Block -> set<Block>, scc: seq<Block>, i: nat, lengths: map<Block, nat>, chain: set<Block>)
    requires i < |scc| && LengthsInv(uses, scc, i, lengths)
    requires LeastChain(uses, Members(scc), scc[i], chain)
    ensures var next := WithChainSize(lengths, chain, |chain|);
      (forall x :: x in next ==> x in Members(scc) && next[x] <= |Members(scc)|)
      && Members(scc[..i + 1]) <= next.Keys
  {
    SubsetCard(chain, Members(scc));
    MembersNext(scc, i);
  }

  /** Measuring the chain of `scc[i]` records only chain sizes of the SCC. */
  lemma MeasuredSizes(uses: Block -> set<Block>, scc: seq<Block>, i: nat, lengths: map<Block, nat>, chain: set<Block>)
    requires i < |scc| && LengthsInv(uses, scc, i, lengths)
    requires LeastChain(uses, Members(scc), scc[i], chain)
    ensures var next := WithChainSize(lengths, chain, |chain|);
      forall x :: x in next ==> ChainSizeOf(uses, Members(scc), scc, next[x])
  {
    ChainSizeOfAt(uses, Members(scc), scc, i, chain);
  }

  /** Passing over a measured block keeps `LengthsInv`. */
  lemma MeasureSkip(uses: Block -> set<Block>, scc: seq<Block>, i: nat, lengths: map<Block, nat>)
    requires i < |scc| && LengthsInv(uses, scc, i, lengths) && scc[i] in lengths
    ensures LengthsInv(uses, scc, i + 1, lengths)
  {
    MembersNext(scc, i);
  }

  /** The blocks of one more element of `scc`. */
  lemma MembersNext(scc: seq<Block>, i: nat)
    requires i < |scc|
    ensures Members(scc[..i + 1]) == Members(scc[..i]) + {scc[i]}
  {
    TakeNext(scc, i);
  }

  /** The first half of `getNumTimesToAnalyze`: every SCC block not yet
      measured gets a use-def chain, and every block of that chain not yet
      measured records the chain's size. So every SCC block is measured, each
      recorded size is that of some block's chain and bounds the chain of the
      block it is recorded for, and the first block records its own. */
  method UseDefLengths(uses: Block -> set<Block>, scc: seq<Block>) returns (lengths: map<Block, nat>)
    ensures forall x :: x in lengths ==> x in Members(scc) && lengths[x] <= |Members(scc)|
    ensures forall k :: 0 <= k < |scc| ==> scc[k] in lengths
    ensures forall x :: x in lengths ==> ChainSizeOf(uses, Members(scc), scc, lengths[x])
    ensures forall x, c :: x in lengths && LeastChain(uses, Members(scc), x, c) ==> |c| <= lengths[x]
    ensures |scc| > 0 ==> exists c :: LeastChain(uses, Members(scc), scc[0], c) && |c| == lengths[scc[0]]
  {
    var sccSet := Members(scc);
    lengths := map[];
    ghost var firstChain: set<Block> := {};
    var i := 0;
    while i < |scc|
      invariant 0 <= i <= |scc|
      invariant i == 0 ==> lengths == map[]
      invariant LengthsInv(uses, scc, i, lengths)
      invariant i > 0 ==> scc[0] in lengths && LeastChain(uses, sccSet, scc[0], firstChain) && |firstChain| == lengths[scc[0]]
    {
      var b := scc[i];
      if b !in lengths {
        var chain := UseDefChain(uses, sccSet, b);
        MeasureStep(uses, scc, i, lengths, chain);
        lengths := WithChainSize(lengths, chain, |chain|);
        if i == 0 {
          firstChain := chain;
        }
      } else {
        MeasureSkip(uses, scc, i, lengths);
      }
      i := i + 1;
    }
    assert scc[..i] == scc;
  }

  /** `getNumTimesToAnalyze`: the largest recorded use-def chain size, and at
      least 1. So it lies between 1 and the number of SCC blocks, is at least
      the chain size of every SCC block, and is 1 or the chain size of some
      block. */
  method NumTimesToAnalyze(uses: Block -> set<Block>, scc: seq<Block>) returns (n: nat)
    ensures 1 <= n && (n <= |Members(scc)| || n == 1)
    ensures forall k, c :: 0 <= k < |scc| && LeastChain(uses, Members(scc), scc[k], c) ==> |c| <= n
    ensures n == 1 || exists k, c :: 0 <= k < |scc| && LeastChain(uses, Members(scc), scc[k], c) && |c| == n
  {
    var lengths := UseDefLengths(uses, scc);
    n := LargestLength(scc, lengths);
    if n != 1 {
      var k :| 0 <= k < |scc| && lengths[scc[k]] == n;
      ChainSizeOfMeans(uses, Members(scc), scc, lengths[scc[k]]);
    }
  }

  /** The second half of `getNumTimesToAnalyze`: the largest size recorded for
      an SCC block, and at least 1. */
  method LargestLength(scc: seq<Block>, lengths: map<Block, nat>) returns (n: nat)
    requires forall k :: 0 <= k < |scc| ==> scc[k] in lengths
    ensures 1 <= n
    ensures forall k :: 0 <= k < |scc| ==> lengths[scc[k]] <= n
    ensures n == 1 || exists k :: 0 <= k < |scc| && lengths[scc[k]] == n
  {
    n := 1;
    var i := 0;
    while i < |scc|
      invariant 0 <= i <= |scc|
      invariant 1 <= n
      invariant forall k :: 0 <= k < i ==> lengths[scc[k]] <= n
      invariant n == 1 || exists k :: 0 <= k < i && lengths[scc[k]] == n
    {
      if n < lengths[scc[i]] {
        n := lengths[scc[i]];
      }
      i := i + 1;
    }
  }

  lemma SubsetCard<T>(a: set<T>, b: set<T>)
    requires a <= b
    ensures |a| <= |b|
  {
    assert b == a + (b - a);
  }
}

=== FILE: entry_args.dfy ===
/** The roles the analysis gives to the arguments of the entry function
    (SoundyAliasAnalysis.cpp `setupFunctionArgs`), chosen by the `functionType`
    option, and the `split` helper that parses `MY_IOCTL_i_j` types. */
module EntryArgs {
  import opened Wrappers
  import opened Text

  // ------------------------------------------------------------- split

  /** `split(str, delim)`: the do-while loop cuts at the next occurrence of
      `delim` (or at the end), keeps the piece when it is non-empty, and goes on
      after the delimiter while the cut was inside the string and something
      follows it. Searching from `prev` in `str` is searching the rest of the
      string, which is how the loop is written here. */
  function Split(s: string, delim: string): (r: seq<string>)
    requires |delim| > 0
    ensures forall k :: 0 <= k < |r| ==> |r[k]| > 0
    ensures |s| == 0 ==> r == []
    ensures |s| > 0 && (forall j :: 0 <= j < |s| ==> !OccursAt(s, delim, j)) ==> r == [s]
    decreases |s|
  {
    var pos := Cut(s, delim, 0);
    var head := if pos > 0 then [s[..pos]] else [];
    if pos < |s| && pos + |delim| < |s| then head + Split(s[pos + |delim|..], delim)
    else
      if |s| > 0 && (forall j :: 0 <= j < |s| ==> !OccursAt(s, delim, j)) then
        CutAtEnd(s, delim, 0);
        assert s[..|s|] == s;
        head
      else head
  }

  /** Where the piece starting at `prev` ends: the next occurrence of `delim`
      (`str.find(delim, prev)`), or the end of the string for `npos`. */
  function Cut(s: string, delim: string, prev: nat): (pos: nat)
    requires prev <= |s|
    ensures prev <= pos <= |s|
    ensures pos < |s| ==> OccursAt(s, delim, pos)
    decreases |s| - prev
  {
    if prev == |s| then |s| else if OccursAt(s, delim, prev) then prev else Cut(s, delim, prev + 1)
  }

  /** `Cut` is the first occurrence from `prev` on. */
  lemma {:induction false} CutIsFirst(s: string, d: string, prev: nat, q: nat)
    requires prev <= q < |s| && OccursAt(s, d, q)
    requires forall j :: prev <= j < q ==> !OccursAt(s, d, j)
    ensures Cut(s, d, prev) == q
    decreases q - prev
  {
    if prev < q {
      CutIsFirst(s, d, prev + 1, q);
    }
  }

  /** Without an occurrence from `prev` on, `Cut` is the end of the string. */
  lemma {:induction false} CutAtEnd(s: string, d: string, prev: nat)
    requires prev <= |s|
    requires forall j :: prev <= j < |s| ==> !OccursAt(s, d, j)
    ensures Cut(s, d, prev) == |s|
    decreases |s| - prev
  {
    if prev < |s| {
      CutAtEnd(s, d, prev + 1);
    }
  }

  /** Tokens joined by a one-character delimiter. */
  function Join(ts: seq<string>, c: char): (r: string)
    ensures |ts| > 0 && |ts[0]| > 0 ==> |r| > 0
  {
    if |ts| == 0 then "" else if |ts| == 1 then ts[0] else ts[0] + [c] + Join(ts[1..], c)
  }

  /** The first delimiter of `t + [c] + rest` is right after `t` when `t` has no
      `c`. */
  lemma FirstDelimiter(t: string, c: char, rest: string)
    requires forall j :: 0 <= j < |t| ==> t[j] != c
    ensures Cut(t + [c] + rest, [c], 0) == |t|
  {
    var s := t + [c] + rest;
    assert OccursAt(s, [c], |t|) by {
      assert s[|t|..|t| + 1] == [c];
    }
    forall j | 0 <= j < |t|
      ensures !OccursAt(s, [c], j)
    {
      assert s[j..j + 1][0] == t[j];
    }
    CutIsFirst(s, [c], 0, |t|);
  }

  /** `split` inverts joining non-empty tokens free of the delimiter. */
  lemma {:induction false} SplitJoin(ts: seq<string>, c: char)
    requires forall k :: 0 <= k < |ts| ==> |ts[k]| > 0
    requires forall k, j :: 0 <= k < |ts| && 0 <= j < |ts[k]| ==> ts[k][j] != c
    ensures Split(Join(ts, c), [c]) == ts
  {
    if |ts| == 1 {
      forall j | 0 <= j < |ts[0]|
        ensures !OccursAt(ts[0], [c], j)
      {
        assert ts[0][j..j + 1][0] == ts[0][j];
      }
    } else if |ts| > 1 {
      var t := ts[0];
      var rest := Join(ts[1..], c);
      var s := t + [c] + rest;
      FirstDelimiter(t, c, rest);
      assert s[..|t|] == t;
      assert s[|t| + 1..] == rest;
      SplitJoin(ts[1..], c);
      assert [t] + ts[1..] == ts;
    }
  }

  // ------------------------------------------------------------- role table

  /** `unsigned long` arithmetic: values are taken modulo 2^64. */
  const ULongMod: nat := 0x1_0000_0000_0000_0000

  function ULong(x: int): (r: nat)
    ensures r < ULongMod
    ensures 0 <= x < ULongMod ==> r == x
  {
    x % ULongMod
  }

  /** Indices `0 .. k-1`. */
  function Upto(k: nat): (r: set<nat>)
    ensures forall i: nat :: i in r <==> i < k
  {
    if k == 0 then {} else Upto(k - 1) + {k - 1}
  }

  /** The three index sets of `setupFunctionArgs`: arguments that are tainted user
      pointers, arguments whose pointee data is tainted, arguments given a fresh
      argument object. */
  datatype RoleTable = RoleTable(tainted: set<nat>, taintedData: set<nat>, pointer: set<nat>)

  datatype TableOutcome = Table(t: RoleTable) | StoiThrows | NotHandled

  /** Indices parsed by `std::stoi` from the tokens at positions `i..`, each
      stored in a `set<unsigned long>`; None when a conversion throws. */
  function UserArgIndices(tks: seq<string>, i: nat): (r: Option<set<nat>>)
    requires i <= |tks|
    ensures r.Some? <==> forall k :: i <= k < |tks| ==> Stoi(tks[k]).StoiOk?
    ensures r.Some? ==> forall k :: i <= k < |tks| ==> ULong(Stoi(tks[k]).value) in r.value
    decreases |tks| - i
  {
    if i == |tks| then Some({})
    else
      match Stoi(tks[i])
      case StoiOk(v, _) =>
        (match UserArgIndices(tks, i + 1)
         case Some(rest) => Some({ULong(v)} + rest)
         case None => None)
      case _ => None
  }

  predicate StartsWith(s: string, p: string)
  {
    |p| <= |s| && s[..|p|] == p
  }

  /** The role table for a function type and an entry function of `n`
      arguments. `arg_size() - 1` is unsigned, so it wraps for `n == 0`. The
      tests are independent `if`s in the source; no two of them hold together. */
  function RoleTableOf(ft: string, n: nat): (r: TableOutcome)
    ensures ft == "FileRead" || ft == "FileWrite" ==> r == Table(RoleTable({1, 2}, {}, {0, 3}))
    ensures ft == "IOCTL" ==> r == Table(RoleTable({ULong(n - 1)}, {}, {0}))
    ensures ft == "V4IOCTL" ==> r == Table(RoleTable({}, {ULong(n - 1)}, Upto(n)))
    ensures ft == "DEVSTORE" && n == 3 ==> r == Table(RoleTable({}, {1}, Upto(2)))
    ensures ft == "DEVSTORE" && n != 3 ==> r == Table(RoleTable({}, {2}, Upto(ULong(n - 1))))
    ensures ft == "NETDEVIOCTL" ==> r == Table(RoleTable({}, {1}, Upto(ULong(n - 1))))
    ensures r == NotHandled <==> !Handled(ft)
  {
    if ft == "IOCTL" then Table(RoleTable({ULong(n - 1)}, {}, {0}))
    else if ft == "FileRead" || ft == "FileWrite" then Table(RoleTable({1, 2}, {}, {0, 3}))
    else if ft == "V4IOCTL" then Table(RoleTable({}, {ULong(n - 1)}, Upto(n)))
    else if ft == "DEVSHOW" then Table(RoleTable({}, {}, Upto(n)))
    else if ft == "DEVSTORE" then Table(RoleTable({}, if n == 3 then {1} else {2}, Upto(ULong(n - 1))))
    else if ft == "NETDEVIOCTL" then Table(RoleTable({}, {1}, Upto(ULong(n - 1))))
    else if ft == "NULL_ARG" then Table(RoleTable({}, {}, {}))
    else if StartsWith(ft, "MY_IOCTL") then MyIoctlTable(ft, n)
    else NotHandled
  }

  /** `MY_IOCTL...`: the `_`-separated tokens from the third on are the indices
      of the user arguments; without such tokens the last argument is. */
  function MyIoctlTable(ft: string, n: nat): (r: TableOutcome)
    ensures r != NotHandled
  {
    var tks := Split(ft, "_");
    if |tks| > 2 then
      match UserArgIndices(tks, 2)
      case Some(idx) => Table(RoleTable(idx, {}, {}))
      case None => StoiThrows
    else Table(RoleTable({ULong(n - 1)}, {}, {}))
  }

  /** The `MY_IOCTL` test is the only one a type with that prefix passes. */
  lemma MyIoctlBranch(ft: string, n: nat)
    requires StartsWith(ft, "MY_IOCTL")
    ensures RoleTableOf(ft, n) == MyIoctlTable(ft, n)
  {
    assert ft[0] == 'M';
  }

  /** The function types `setupFunctionArgs` knows. */
  predicate Handled(ft: string)
  {
    ft in {"IOCTL", "FileRead", "FileWrite", "V4IOCTL", "DEVSHOW", "DEVSTORE", "NETDEVIOCTL", "NULL_ARG"}
    || StartsWith(ft, "MY_IOCTL")
  }

  /** What the argument loop does with argument `i`. */
  datatype ArgRole = ArgRole(userTainted: bool, pointer: bool, dataTainted: bool)

  datatype SetupOutcome = Args(roles: seq<ArgRole>) | AssertionFails | Throws

  /** `setupFunctionArgs`: an unknown type fails `assert(is_handled)`; a failed
      `std::stoi` throws; otherwise each argument is marked, and an argument with
      tainted data that is not a pointer argument fails the final assertion. */
  function SetupFunctionArgs(ft: string, n: nat): (r: SetupOutcome)
    ensures r.Args? ==> |r.roles| == n
    ensures r.Args? ==> forall i :: 0 <= i < n ==> r.roles[i].dataTainted ==> r.roles[i].pointer
    ensures r == Throws <==> RoleTableOf(ft, n) == StoiThrows
    ensures RoleTableOf(ft, n) == NotHandled ==> r == AssertionFails
    ensures r.Args? <==>
      RoleTableOf(ft, n).Table?
      && forall i :: 0 <= i < n && i in RoleTableOf(ft, n).t.taintedData ==> i in RoleTableOf(ft, n).t.pointer
    ensures r.Args? ==> forall i :: 0 <= i < n ==>
      var t := RoleTableOf(ft, n).t;
      r.roles[i] == ArgRole(i in t.tainted, i in t.pointer, i in t.taintedData)
  {
    match RoleTableOf(ft, n)
    case NotHandled => AssertionFails
    case StoiThrows => Throws
    case Table(t) =>
      if exists i :: 0 <= i < n && i in t.taintedData && i !in t.pointer then AssertionFails
      else Args(seq(n, i requires 0 <= i => ArgRole(i in t.tainted, i in t.pointer, i in t.pointer && i in t.taintedData)))
  }

  /** The subset assertion at the end of the argument loop fails for exactly one
      known type and arity: a two-argument `NETDEVIOCTL` entry, whose data
      argument 1 is beyond the pointer arguments `0 .. n-2`. */
  lemma SubsetAssertionFailsOnlyForTwoArgNetdev(ft: string, n: nat)
    requires n < ULongMod
    requires RoleTableOf(ft, n).Table?
    ensures SetupFunctionArgs(ft, n) == AssertionFails <==> ft == "NETDEVIOCTL" && n == 2
  {
    var t := RoleTableOf(ft, n).t;
    if ft == "NETDEVIOCTL" && n == 2 {
      assert 1 in t.taintedData && 1 !in t.pointer;
    } else {
      if n > 0 {
        assert ULong(n - 1) == n - 1;
      }
      if StartsWith(ft, "MY_IOCTL") {
        MyIoctlBranch(ft, n);
      }
      forall i | 0 <= i < n && i in t.taintedData
        ensures i in t.pointer
      {
      }
    }
  }

  /** `V4IOCTL`: every argument gets an argument object and the last one's
      data is tainted; no argument is a user pointer. */
  lemma V4IoctlRoles(n: nat)
    requires 1 <= n < ULongMod
    ensures var r := SetupFunctionArgs("V4IOCTL", n);
      r.Args? && r.roles[n - 1].dataTainted
      && forall i :: 0 <= i < n ==>
        r.roles[i].pointer && !r.roles[i].userTainted && (r.roles[i].dataTainted <==> i == n - 1)
  {
    assert ULong(n - 1) == n - 1;
  }

  /** `DEVSHOW`: every argument gets an argument object, nothing is tainted. */
  lemma DevShowRoles(n: nat)
    ensures var r := SetupFunctionArgs("DEVSHOW", n);
      r.Args? && forall i :: 0 <= i < n ==> r.roles[i] == ArgRole(false, true, false)
  {
  }

  /** `DEVSTORE`: all arguments but the last get argument objects; the data of
      argument 1 (a driver attribute, three arguments) or 2 (a device
      attribute, four arguments) is tainted. */
  lemma DevStoreRoles(n: nat)
    requires n == 3 || n == 4
    ensures var r := SetupFunctionArgs("DEVSTORE", n);
      var data := if n == 3 then 1 else 2;
      r.Args? && r.roles[data].dataTainted
      && forall i :: 0 <= i < n ==>
        !r.roles[i].userTainted && (r.roles[i].pointer <==> i < n - 1) && (r.roles[i].dataTainted <==> i == data)
  {
    assert ULong(n - 1) == n - 1;
  }

  /** `NETDEVIOCTL` with three or more arguments: all but the last get argument
      objects, and the data of argument 1 is tainted. */
  lemma NetdevIoctlRoles(n: nat)
    requires 3 <= n < ULongMod
    ensures var r := SetupFunctionArgs("NETDEVIOCTL", n);
      r.Args? && r.roles[1].dataTainted
      && forall i :: 0 <= i < n ==>
        !r.roles[i].userTainted && (r.roles[i].pointer <==> i < n - 1) && (r.roles[i].dataTainted <==> i == 1)
  {
    assert ULong(n - 1) == n - 1;
  }

  /** `NULL_ARG`: no argument plays any role. */
  lemma NullArgRoles(n: nat)
    ensures var r := SetupFunctionArgs("NULL_ARG", n);
      r.Args? && forall i :: 0 <= i < n ==> r.roles[i] == ArgRole(false, false, false)
  {
  }

  /** `FileRead` and `FileWrite` with four or more arguments: arguments 1 and 2
      are user pointers, arguments 0 and 3 get argument objects. */
  lemma FileRoles(ft: string, n: nat)
    requires ft == "FileRead" || ft == "FileWrite"
    requires 4 <= n
    ensures var r := SetupFunctionArgs(ft, n);
      r.Args? && forall i :: 0 <= i < n ==>
        r.roles[i] == ArgRole(i == 1 || i == 2, i == 0 || i == 3, false)
  {
  }

  /** `IOCTL`: the last argument is the user pointer and the first one (the file)
      gets an argument object. */
  lemma IoctlRoles(n: nat)
    requires 1 <= n < ULongMod
    ensures var r := SetupFunctionArgs("IOCTL", n);
      r.Args? && r.roles[n - 1].userTainted && r.roles[0].pointer
      && forall i :: 0 <= i < n - 1 ==> !r.roles[i].userTainted
  {
    assert ULong(n - 1) == n - 1;
  }

  /** `MY_IOCTL` without indices taints the last argument, as `IOCTL` does. */
  lemma MyIoctlDefault(n: nat)
    requires 1 <= n < ULongMod
    ensures RoleTableOf("MY_IOCTL", n) == Table(RoleTable({n - 1}, {}, {}))
  {
    MyIoctlBareTokens();
    assert StartsWith("MY_IOCTL", "MY_IOCTL");
    MyIoctlNoIndex("MY_IOCTL", n);
  }

  /** A `MY_IOCTL` type with no index token taints the last argument. */
  lemma MyIoctlNoIndex(ft: string, n: nat)
    requires StartsWith(ft, "MY_IOCTL") && |Split(ft, "_")| <= 2 && 1 <= n < ULongMod
    ensures RoleTableOf(ft, n) == Table(RoleTable({n - 1}, {}, {}))
  {
    MyIoctlBranch(ft, n);
    assert ULong(n - 1) == n - 1;
  }

  /** `MY_IOCTL` splits into two tokens, so no index follows. */
  lemma MyIoctlBareTokens()
    ensures Split("MY_IOCTL", "_") == ["MY", "IOCTL"]
  {
    var ts := ["MY", "IOCTL"];
    assert Join(ts, '_') == "MY_IOCTL";
    SplitJoin(ts, '_');
  }

  /** `MY_IOCTL_<k>` makes argument `k` the user pointer. */
  lemma MyIoctlIndex(n: nat, k: nat)
    requires k <= IntMax
    ensures RoleTableOf("MY_IOCTL_" + NatToString(k), n) == Table(RoleTable({k}, {}, {}))
  {
    var ft := "MY_IOCTL_" + NatToString(k);
    MyIoctlTokens(k);
    MyIoctlIndexParses(k);
    assert StartsWith(ft, "MY_IOCTL") by {
      assert ft[..8] == "MY_IOCTL";
    }
    MyIoctlBranch(ft, n);
  }

  lemma MyIoctlTokens(k: nat)
    ensures Split("MY_IOCTL_" + NatToString(k), "_") == ["MY", "IOCTL", NatToString(k)]
  {
    var ks := NatToString(k);
    var ts := ["MY", "IOCTL", ks];
    assert Join(ts, '_') == "MY_IOCTL_" + ks by {
      assert Join(ts[1..], '_') == "IOCTL" + "_" + ks;
    }
    assert forall j :: 0 <= j < |ks| ==> ks[j] != '_' by {
      assert AllDigits(ks);
    }
    SplitJoin(ts, '_');
  }

  lemma MyIoctlIndexParses(k: nat)
    requires k <= IntMax
    ensures UserArgIndices(["MY", "IOCTL", NatToString(k)], 2) == Some({k})
  {
    var ks := NatToString(k);
    var ts := ["MY", "IOCTL", ks];
    StoiOfIntToString(k);
    assert Stoi(ks) == StoiOk(k, |ks|);
    assert ts[2] == ks && ULong(k) == k;
    assert UserArgIndices(ts, 3) == Some({});
    assert UserArgIndices(ts, 2) == Some({k} + {});
    assert {k} + {} == {k};
  }
}

=== FILE: field_desc.dfy ===
/** Field descriptors (InstructionUtils.h): for one bit offset of a (nested)
    composite type, the types found there (`tys`, outermost first) and the host
    types with the field index taken in each (`hostTys`, `fid`, innermost first).
    A type descriptor is a vector of field descriptors in ascending field order. */
module FieldDescs {
  import opened Wrappers
  import opened TypeModel

  datatype FieldDesc = FieldDesc(bitoff: int, tys: seq<Ty>, hostTys: seq<Ty>, fid: seq<nat>)

  /** The default `FieldDesc()`; also what the copy constructor leaves for a null
      source. */
  const DefaultFieldDesc: FieldDesc := FieldDesc(0, [], [], [])

  /** The field index in the outermost host type. */
  function OuterFid(fd: FieldDesc): nat
    requires |fd.fid| > 0
  {
    fd.fid[|fd.fid| - 1]
  }

  /** `getOutermostTy`: the last host type, or null without host types. */
  function OutermostTy(fd: FieldDesc): (r: Option<Ty>)
    ensures r.None? <==> |fd.hostTys| == 0
    ensures r.Some? ==> r.value in fd.hostTys
  {
    if |fd.hostTys| > 0 then Some(fd.hostTys[|fd.hostTys| - 1]) else None
  }

  /** Index of the first type in `xs` that `same_types` matches with `ty`, or -1;
      -1 for a null `ty`. */
  function FirstSameType(xs: seq<Ty>, ty: Option<Ty>, i: nat): (r: int)
    requires i <= |xs|
    ensures -1 <= r < |xs|
    ensures r >= 0 ==> i <= r && ty.Some? && SameTypes(Some(xs[r]), ty, false)
    ensures r >= 0 ==> forall j :: i <= j < r ==> !SameTypes(Some(xs[j]), ty, false)
    ensures r == -1 ==> ty.None? || forall j :: i <= j < |xs| ==> !SameTypes(Some(xs[j]), ty, false)
    decreases |xs| - i
  {
    if ty.None? || i == |xs| then -1
    else if SameTypes(Some(xs[i]), ty, false) then i
    else FirstSameType(xs, ty, i + 1)
  }

  /** `FieldDesc::findTy`. */
  function FindTy(fd: FieldDesc, ty: Option<Ty>): (r: int)
    ensures -1 <= r < |fd.tys|
    ensures r >= 0 ==> SameTypes(Some(fd.tys[r]), ty, false)
    ensures r >= 0 ==> forall j :: 0 <= j < r ==> !SameTypes(Some(fd.tys[j]), ty, false)
    ensures r == -1 <==> ty.None? || forall j :: 0 <= j < |fd.tys| ==> !SameTypes(Some(fd.tys[j]), ty, false)
  {
    FirstSameType(fd.tys, ty, 0)
  }

  /** `FieldDesc::findHostTy`. */
  function FindHostTy(fd: FieldDesc, ty: Option<Ty>): (r: int)
    ensures -1 <= r < |fd.hostTys|
    ensures r >= 0 ==> SameTypes(Some(fd.hostTys[r]), ty, false)
    ensures r >= 0 ==> forall j :: 0 <= j < r ==> !SameTypes(Some(fd.hostTys[j]), ty, false)
    ensures r == -1 <==> ty.None? || forall j :: 0 <= j < |fd.hostTys| ==> !SameTypes(Some(fd.hostTys[j]), ty, false)
  {
    FirstSameType(fd.hostTys, ty, 0)
  }

  /** `findTy` finds a type exactly when some listed type matches it, and then
      the first such one. */
  lemma FindTyIffPresent(fd: FieldDesc, ty: Ty)
    ensures FindTy(fd, Some(ty)) >= 0 <==> exists j :: 0 <= j < |fd.tys| && SameTypes(Some(fd.tys[j]), Some(ty), false)
    ensures FindTy(fd, Some(ty)) >= 0 ==>
      forall j :: 0 <= j < FindTy(fd, Some(ty)) ==> !SameTypes(Some(fd.tys[j]), Some(ty), false)
  {
  }

  /** `findHostTy` finds a host type exactly when some listed host type
      matches it, and then the first such one. */
  lemma FindHostTyIffPresent(fd: FieldDesc, ty: Ty)
    ensures FindHostTy(fd, Some(ty)) >= 0 <==> exists j :: 0 <= j < |fd.hostTys| && SameTypes(Some(fd.hostTys[j]), Some(ty), false)
    ensures FindHostTy(fd, Some(ty)) >= 0 ==>
      forall j :: 0 <= j < FindHostTy(fd, Some(ty)) ==> !SameTypes(Some(fd.hostTys[j]), Some(ty), false)
  {
  }

  /** The key a lookup scans: the outermost field id or the bit offset of each
      non-null descriptor. */
  datatype LookupKey = ByFid | ByBitoff

  predicate WellFormedDesc(d: seq<Option<FieldDesc>>)
  {
    forall i :: 0 <= i < |d| && d[i].Some? ==> |d[i].value.fid| > 0
  }

  function KeyOf(fd: FieldDesc, keyBy: LookupKey): int
    requires |fd.fid| > 0
  {
    if keyBy == ByFid then OuterFid(fd) else fd.bitoff
  }

  /** The scan shared by `locateFieldInTyDesc` and `locateBitsoffInTyDesc`: the
      first index from `i` holding the key, or -1, stopping early at a larger key
      because the vector is meant to be sorted; null entries are skipped. */
  function Locate(d: seq<Option<FieldDesc>>, keyBy: LookupKey, key: int, i: nat): (r: int)
    requires WellFormedDesc(d) && i <= |d|
    ensures -1 <= r < |d|
    ensures r >= 0 ==> i <= r && d[r].Some? && KeyOf(d[r].value, keyBy) == key
    ensures r >= 0 ==> forall j :: i <= j < r && d[j].Some? ==> KeyOf(d[j].value, keyBy) < key
    decreases |d| - i
  {
    if i == |d| then -1
    else if d[i].None? then Locate(d, keyBy, key, i + 1)
    else if KeyOf(d[i].value, keyBy) == key then i
    else if KeyOf(d[i].value, keyBy) > key then -1
    else Locate(d, keyBy, key, i + 1)
  }

  /** `locateFieldInTyDesc`: -1 for a null or empty vector. */
  function LocateFieldInTyDesc(d: Option<seq<Option<FieldDesc>>>, fid: nat): (r: int)
    requires d.Some? ==> WellFormedDesc(d.value)
    ensures d.None? || |d.value| == 0 ==> r == -1
    ensures r >= 0 ==> d.Some? && r < |d.value| && d.value[r].Some? && OuterFid(d.value[r].value) == fid
  {
    if d.None? || |d.value| == 0 then -1 else Locate(d.value, ByFid, fid, 0)
  }

  /** `locateBitsoffInTyDesc`: -1 for a null or empty vector. */
  function LocateBitsoffInTyDesc(d: Option<seq<Option<FieldDesc>>>, boff: int): (r: int)
    requires d.Some? ==> WellFormedDesc(d.value)
    ensures d.None? || |d.value| == 0 ==> r == -1
    ensures r >= 0 ==> d.Some? && r < |d.value| && d.value[r].Some? && d.value[r].value.bitoff == boff
  {
    if d.None? || |d.value| == 0 then -1 else Locate(d.value, ByBitoff, boff, 0)
  }

  /** The non-null keys are in ascending order. */
  predicate SortedBy(d: seq<Option<FieldDesc>>, keyBy: LookupKey)
    requires WellFormedDesc(d)
  {
    forall i, j :: 0 <= i < j < |d| && d[i].Some? && d[j].Some? ==> KeyOf(d[i].value, keyBy) <= KeyOf(d[j].value, keyBy)
  }

  /** On a sorted descriptor the early stop loses nothing: the lookup fails
      exactly when no non-null entry holds the key. */
  lemma {:induction false} LocateCompleteWhenSorted(d: seq<Option<FieldDesc>>, keyBy: LookupKey, key: int, i: nat)
    requires WellFormedDesc(d) && SortedBy(d, keyBy) && i <= |d|
    ensures Locate(d, keyBy, key, i) == -1 <==>
      forall j :: i <= j < |d| && d[j].Some? ==> KeyOf(d[j].value, keyBy) != key
    decreases |d| - i
  {
    if i < |d| {
      LocateCompleteWhenSorted(d, keyBy, key, i + 1);
    }
  }

  /** An unsorted descriptor can hide a key behind a larger one. */
  lemma LocateStopsAtLargerKey(a: FieldDesc, b: FieldDesc)
    requires a.fid == [5] && b.fid == [3]
    ensures LocateFieldInTyDesc(Some([Some(a), Some(b)]), 3) == -1
  {
  }

  /** The chain of types at offset 0: `ty`, then field 0 of each composite type,
      down to the first non-composite one. */
  function HeadChain(t: Ty): (c: seq<Ty>)
    requires HeadChainDefined(t)
    ensures |c| > 0 && c[0] == t && !IsComposite(c[|c| - 1])
    ensures forall i :: 0 <= i < |c| - 1 ==> StepsToField0(c, i)
  {
    if IsComposite(t) then
      var rest := HeadChain(TypeAtIndex(t, 0));
      StepsToField0Cons(t, rest);
      [t] + rest
    else [t]
  }

  /** Entry `i` of the chain is composite and entry `i + 1` is its type at
      index 0. */
  predicate StepsToField0(c: seq<Ty>, i: nat)
    requires i + 1 < |c|
  {
    IsComposite(c[i]) && |c[i].contained| > 0 && c[i + 1] == c[i].contained[0]
  }

  lemma StepsToField0Cons(t: Ty, rest: seq<Ty>)
    requires IsComposite(t) && |t.contained| > 0 && |rest| > 0 && rest[0] == t.contained[0]
    requires forall i :: 0 <= i < |rest| - 1 ==> StepsToField0(rest, i)
    ensures forall i :: 0 <= i < |rest| ==> StepsToField0([t] + rest, i)
  {
    var c := [t] + rest;
    forall i | 0 <= i < |rest|
      ensures StepsToField0(c, i)
    {
      if i > 0 {
        assert StepsToField0(rest, i - 1);
        assert c[i] == rest[i - 1] && c[i + 1] == rest[i];
      }
    }
  }

  /** Every composite type met on the way has a type at index 0 (the C++ reads
      `getTypeAtIndex(0)` of each). */
  predicate HeadChainDefined(t: Ty)
  {
    IsComposite(t) ==> |t.contained| > 0 && HeadChainDefined(TypeAtIndex(t, 0))
  }

  /** A position of a head chain holds a composite type exactly when the chain
      goes on past it, to the type at index 0. */
  lemma ChainGoesOn(c: seq<Ty>, k: nat)
    requires |c| > 0 && !IsComposite(c[|c| - 1]) && k < |c|
    requires forall i :: 0 <= i < |c| - 1 ==> StepsToField0(c, i)
    ensures IsComposite(c[k]) <==> k < |c| - 1
    ensures IsComposite(c[k]) ==> |c[k].contained| > 0 && c[k + 1] == TypeAtIndex(c[k], 0)
  {
    if k < |c| - 1 {
      assert StepsToField0(c, k);
    }
  }

  /** The state of the walk down the head chain after `|tys|` steps: the types
      met, the composite ones among them outermost last, and a zero field id for
      each. */
  predicate HeadSoFar(chain: seq<Ty>, tys: seq<Ty>, hostTys: seq<Ty>, fid: seq<nat>)
  {
    |tys| <= |chain| && |hostTys| == |fid| == |tys| &&
    (forall i :: 0 <= i < |tys| ==> tys[i] == chain[i]) &&
    (forall i :: 0 <= i < |fid| ==> fid[i] == 0) &&
    (forall i :: 0 <= i < |hostTys| ==> hostTys[i] == chain[|tys| - 1 - i])
  }

  /** One step of the walk: the next type is recorded, and a composite one is
      also recorded as the new outermost host type. */
  lemma HeadStep(chain: seq<Ty>, tys: seq<Ty>, hostTys: seq<Ty>, fid: seq<nat>)
    requires HeadSoFar(chain, tys, hostTys, fid) && |tys| < |chain|
    ensures HeadSoFar(chain, tys + [chain[|tys|]], [chain[|tys|]] + hostTys, fid + [0])
  {
  }

  /** The last step of the walk: the chain is complete and each host type sits
      opposite its position in the chain. */
  lemma HeadDone(chain: seq<Ty>, tys: seq<Ty>, hostTys: seq<Ty>, fid: seq<nat>)
    requires HeadSoFar(chain, tys, hostTys, fid) && |tys| + 1 == |chain|
    ensures tys + [chain[|tys|]] == chain
    ensures forall i :: 0 <= i < |hostTys| ==> hostTys[i] == chain[|chain| - 2 - i]
  {
    assert tys == chain[..|tys|];
  }

  /** `getHeadFieldDesc`, without its memo table; null for a null type. */
  method GetHeadFieldDesc(ty: Option<Ty>) returns (r: Option<FieldDesc>)
    requires ty.Some? ==> HeadChainDefined(ty.value)
    ensures ty.None? <==> r.None?
    ensures r.Some? ==> r.value.bitoff == 0 && r.value.tys == HeadChain(ty.value)
    ensures r.Some? ==> |r.value.hostTys| == |r.value.fid| == |r.value.tys| - 1
    ensures r.Some? ==> forall i :: 0 <= i < |r.value.fid| ==> r.value.fid[i] == 0
    ensures r.Some? ==> forall i :: 0 <= i < |r.value.hostTys| ==>
      r.value.hostTys[i] == r.value.tys[|r.value.tys| - 2 - i]
  {
    if ty.None? {
      return None;
    }
    var chain := HeadChain(ty.value);
    var tys: seq<Ty> := [];
    var hostTys: seq<Ty> := [];
    var fid: seq<nat> := [];
    var ety := ty.value;
    while true
      invariant |tys| < |chain| && chain[|tys|] == ety
      invariant HeadSoFar(chain, tys, hostTys, fid)
      decreases |chain| - |tys|
    {
      ChainGoesOn(chain, |tys|);
      if IsComposite(ety) {
        HeadStep(chain, tys, hostTys, fid);
        tys := tys + [ety];
        hostTys := [ety] + hostTys;
        fid := fid + [0];
        ety := TypeAtIndex(ety, 0);
      } else {
        HeadDone(chain, tys, hostTys, fid);
        tys := tys + [ety];
        return Some(FieldDesc(0, tys, hostTys, fid));
      }
    }
  }

  /** The head descriptor of a composite type has that type as its outermost host
      type; a non-composite type has no host type at all. */
  lemma HeadOutermostIsType(t: Ty)
    requires HeadChainDefined(t)
    ensures IsComposite(t) ==> |HeadChain(t)| >= 2
    ensures !IsComposite(t) ==> HeadChain(t) == [t]
  {
  }

  /** `TypeField`: a type with a field index and an optional owner (`priv`,
      the object the field belongs to); the default is a null type, field 0 and
      no owner. */
  datatype TypeField = TypeField(ty: Option<Ty>, fid: int, priv: Option<nat>)

  const DefaultTypeField: TypeField := TypeField(None, 0, None)

  /** `TypeField::is_same_ty`: false for null, otherwise equal field ids and
      `same_types`. */
  function IsSameTy(a: TypeField, tf: Option<TypeField>): (r: bool)
    ensures tf.None? ==> !r
    ensures tf.Some? && tf.value == a ==> r
    ensures r ==> tf.Some? && tf.value.fid == a.fid && SameTypes(a.ty, tf.value.ty, false)
    ensures tf.Some? && tf.value.fid == a.fid && SameTypes(a.ty, tf.value.ty, false) ==> r
  {
    tf.Some? && a.fid == tf.value.fid && SameTypes(a.ty, tf.value.ty, false)
  }

  /** `is_same_ty` is symmetric. */
  lemma IsSameTySymmetric(a: TypeField, b: TypeField)
    ensures IsSameTy(a, Some(b)) == IsSameTy(b, Some(a))
  {
    SameTypesSymmetric(a.ty, b.ty, false);
  }

  /** `CandStructInf`: a candidate container, identified by the descriptor
      vector it points into (`fds`, compared as a pointer) and the indices. */
  datatype CandStructInf = CandStructInf(fds: nat, ind: seq<int>)

  /** `CandStructInf::same`: false for null; otherwise the same `fds` pointer and
      equal index vectors, which is equality of the two candidates. */
  function CandSame(c: CandStructInf, other: Option<CandStructInf>): (r: bool)
    ensures r <==> other == Some(c)
  {
    other.Some? && c.fds == other.value.fds && c.ind == other.value.ind
  }
}

=== FILE: get_path.dfy ===
/** The block-level path searches of getPath.h: finding a return reachable
    from a block within a depth bound (`getRet`), recording the edges that lead
    to a destination block (`getPath::BBvisitor`) and the shortest simple path
    along those edges (`getPath::DFSvisit`). */
module PathSearch {
  import opened Wrappers
  import opened Seqs
  import opened InstLocs

  type Block = int

  /** What ends a basic block: a return instruction, a branch with its
      successors, or anything else. */
  datatype Terminator = Ret(inst: ValueId) | Br(succs: seq<Block>) | OtherTerm

  /** The blocks of a function, by number, with their terminators. */
  predicate ValidTerms(t: seq<Terminator>)
  {
    forall b, i :: 0 <= b < |t| && t[b].Br? && 0 <= i < |t[b].succs| ==> 0 <= t[b].succs[i] < |t|
  }

  /** The depth bound of both searches. */
  const MaxDepth: nat := 20

  /** `x` is reached from `b` following at most `n` branch edges. */
  ghost predicate BrWithin(t: seq<Terminator>, b: Block, x: Block, n: nat)
    decreases n
  {
    b == x || (n > 0 && 0 <= b < |t| && t[b].Br? && exists y :: y in t[b].succs && BrWithin(t, y, x, n - 1))
  }

  /** A block ending in a return is reached from `b` within `n` branch edges. */
  ghost predicate RetWithin(t: seq<Terminator>, b: Block, n: nat)
  {
    exists x :: 0 <= x < |t| && t[x].Ret? && BrWithin(t, b, x, n)
  }

  lemma RetWithinUnfold(t: seq<Terminator>, b: Block, n: nat)
    requires 0 <= b < |t|
    ensures RetWithin(t, b, n) <==>
            t[b].Ret? || (n > 0 && t[b].Br? && exists y :: y in t[b].succs && RetWithin(t, y, n - 1))
  {
    if RetWithin(t, b, n) && !t[b].Ret? {
      var x :| 0 <= x < |t| && t[x].Ret? && BrWithin(t, b, x, n);
      var y :| y in t[b].succs && BrWithin(t, y, x, n - 1);
      assert RetWithin(t, y, n - 1);
    }
    if n > 0 && t[b].Br? && exists y :: y in t[b].succs && RetWithin(t, y, n - 1) {
      var y :| y in t[b].succs && RetWithin(t, y, n - 1);
      var x :| 0 <= x < |t| && t[x].Ret? && BrWithin(t, y, x, n - 1);
      assert BrWithin(t, b, x, n);
    }
    if t[b].Ret? {
      assert BrWithin(t, b, b, n);
    }
  }

  /** The remaining depth budget at `depth`. */
  function Budget(depth: nat): nat
  {
    if depth > MaxDepth then 0 else MaxDepth - depth
  }

  /** `getRet::BBvisit`: once a return has been found (`ret`), or past depth
      20, nothing changes. Otherwise a return terminating `bb` is taken, and the
      successors of a branch are visited in order one level deeper. The
      `visitedBB` set is never filled, so its check never fires and is not
      modelled. A return is found iff some return block is within `20 - depth`
      branch edges of `bb`. */
  function RetVisit(t: seq<Terminator>, bb: Block, depth: nat, ret: Option<ValueId>): (r: Option<ValueId>)
    requires ValidTerms(t) && 0 <= bb < |t|
    ensures ret.Some? || depth > MaxDepth ==> r == ret
    ensures ret.None? && depth <= MaxDepth ==> (r.Some? <==> RetWithin(t, bb, MaxDepth - depth))
    ensures ret.None? && r.Some? ==> exists x :: 0 <= x < |t| && t[x] == Ret(r.value) && BrWithin(t, bb, x, MaxDepth - depth)
    decreases Budget(depth), 1, 0
  {
    if ret.Some? || depth > MaxDepth then ret
    else
      RetWithinUnfold(t, bb, MaxDepth - depth);
      if t[bb].Ret? then
        assert BrWithin(t, bb, bb, MaxDepth - depth);
        Some(t[bb].inst)
      else if t[bb].Br? then
        var r := RetVisitAll(t, t[bb].succs, 0, depth + 1, None);
        RetFoundThrough(t, bb, depth, r);
        r
      else None
  }

  /** A return found among the successors is within the bound of `bb`. */
  lemma RetFoundThrough(t: seq<Terminator>, bb: Block, depth: nat, r: Option<ValueId>)
    requires ValidTerms(t) && 0 <= bb < |t| && t[bb].Br? && depth <= MaxDepth
    requires depth == MaxDepth ==> r.None?
    requires r.Some? ==> exists k, x :: 0 <= k < |t[bb].succs| && 0 <= x < |t| && t[x] == Ret(r.value) &&
                                        BrWithin(t, t[bb].succs[k], x, Budget(depth + 1))
    ensures r.Some? ==> exists x :: 0 <= x < |t| && t[x] == Ret(r.value) && BrWithin(t, bb, x, MaxDepth - depth)
  {
    if r.Some? {
      var k, x :| 0 <= k < |t[bb].succs| && 0 <= x < |t| && t[x] == Ret(r.value) &&
                  BrWithin(t, t[bb].succs[k], x, Budget(depth + 1));
      assert t[bb].succs[k] in t[bb].succs;
      assert BrWithin(t, bb, x, MaxDepth - depth);
    }
  }

  /** The successor loop of `getRet::BBvisit` from the `i`-th successor, the
      children being at `depth`. */
  function RetVisitAll(t: seq<Terminator>, succs: seq<Block>, i: nat, depth: nat, ret: Option<ValueId>): (r: Option<ValueId>)
    requires ValidTerms(t) && i <= |succs| && 0 < depth <= MaxDepth + 1
    requires forall k :: 0 <= k < |succs| ==> 0 <= succs[k] < |t|
    ensures ret.Some? || depth > MaxDepth ==> r == ret
    ensures ret.None? && depth <= MaxDepth ==>
      (r.Some? <==> exists k :: i <= k < |succs| && RetWithin(t, succs[k], MaxDepth - depth))
    ensures ret.None? && r.Some? ==>
      exists k, x :: i <= k < |succs| && 0 <= x < |t| && t[x] == Ret(r.value) && BrWithin(t, succs[k], x, Budget(depth))
    decreases Budget(depth - 1), 0, |succs| - i
  {
    if i == |succs| || depth > MaxDepth then ret
    else
      var r0 := RetVisit(t, succs[i], depth, ret);
      var r := RetVisitAll(t, succs, i + 1, depth, r0);
      assert ret.None? && depth <= MaxDepth && r0.None? ==>
        ((exists k :: i <= k < |succs| && RetWithin(t, succs[k], MaxDepth - depth)) <==>
         (exists k :: i + 1 <= k < |succs| && RetWithin(t, succs[k], MaxDepth - depth)));
      r
  }

  /** `getRet` started at the entry block at depth 0: a return is found iff one
      is within 20 branch edges. */
  lemma FirstReturnWithinTwenty(t: seq<Terminator>, entry: Block)
    requires ValidTerms(t) && 0 <= entry < |t|
    ensures RetVisit(t, entry, 0, None).Some? <==> RetWithin(t, entry, MaxDepth)
    ensures t[entry].Ret? ==> RetVisit(t, entry, 0, None) == Some(t[entry].inst)
  {
  }

  /** `BBChain`: for each block, the successors found to lead to the
      destination. */
  type Chain = map<Block, set<Block>>

  /** Every recorded edge is a branch edge of the function. */
  predicate EdgesValid(t: seq<Terminator>, c: Chain)
  {
    forall a, s :: a in c && s in c[a] ==> 0 <= a < |t| && t[a].Br? && s in t[a].succs
  }

  /** `a` reaches `dst` along recorded edges in `k + 1` steps. */
  ghost predicate ChainReach(c: Chain, a: Block, dst: Block, k: nat)
    decreases k
  {
    a in c && if k == 0 then dst in c[a] else exists y :: y in c[a] && ChainReach(c, y, dst, k - 1)
  }

  /** Every block with recorded edges reaches `dst` along them. */
  ghost predicate LeadsToDst(c: Chain, dst: Block)
  {
    forall a :: a in c ==> exists k: nat :: ChainReach(c, a, dst, k)
  }

  /** Edge sets only grow. */
  predicate Grows(c: Chain, c': Chain)
  {
    forall a :: a in c ==> a in c' && c[a] <= c'[a]
  }

  lemma {:induction false} ChainReachGrows(c: Chain, c': Chain, a: Block, dst: Block, k: nat)
    requires Grows(c, c') && ChainReach(c, a, dst, k)
    ensures ChainReach(c', a, dst, k)
    decreases k
  {
    if k > 0 {
      var y :| y in c[a] && ChainReach(c, y, dst, k - 1);
      ChainReachGrows(c, c', y, dst, k - 1);
    }
  }

  function AddEdge(c: Chain, a: Block, s: Block): Chain
  {
    c[a := (if a in c then c[a] else {}) + {s}]
  }

  /** Recording an edge to the destination or to a block that leads to it
      keeps every block with edges leading to the destination. */
  lemma AddEdgeLeads(c: Chain, a: Block, s: Block, dst: Block)
    requires LeadsToDst(c, dst) && (s == dst || s in c)
    ensures LeadsToDst(AddEdge(c, a, s), dst)
  {
    var c' := AddEdge(c, a, s);
    assert Grows(c, c');
    forall b | b in c'
      ensures exists k: nat :: ChainReach(c', b, dst, k)
    {
      if b == a {
        if s == dst {
          assert ChainReach(c', a, dst, 0);
        } else {
          var k: nat :| ChainReach(c, s, dst, k);
          ChainReachGrows(c, c', s, dst, k);
          assert ChainReach(c', a, dst, k + 1);
        }
      } else {
        var k: nat :| ChainReach(c, b, dst, k);
        ChainReachGrows(c, c', b, dst, k);
      }
    }
  }

  /** `getPath::BBvisitor`: false at depth 20 (the `visitedBB` set is local
      to each call and empty when checked, so its test never fires); true at
      the destination; otherwise the successors of a branch are examined in
      order, and an edge to each that is the destination, already has recorded
      edges, or leads to the destination from one level deeper is recorded.
      Recorded edges are branch edges, and every block with recorded edges
      leads to the destination along them. A false answer records nothing. */
  function BBVisitor(t: seq<Terminator>, c: Chain, src: Block, dst: Block, depth: nat): (r: (Chain, bool))
    requires ValidTerms(t) && 0 <= src < |t| && depth <= MaxDepth
    requires EdgesValid(t, c) && LeadsToDst(c, dst)
    ensures EdgesValid(t, r.0) && LeadsToDst(r.0, dst) && Grows(c, r.0)
    ensures depth == MaxDepth ==> r == (c, false)
    ensures depth < MaxDepth && src == dst ==> r == (c, true)
    ensures !r.1 ==> r.0 == c
    ensures r.1 ==> src == dst || src in r.0
    ensures depth < MaxDepth && t[src].Br? && (exists k :: 0 <= k < |t[src].succs| && (t[src].succs[k] == dst || t[src].succs[k] in c)) ==> r.1
    decreases MaxDepth - depth, 1, 0
  {
    if depth == MaxDepth then (c, false)
    else if src == dst then (c, true)
    else if t[src].Br? then VisitSuccs(t, c, src, 0, dst, depth, false)
    else (c, false)
  }

  /** The successor loop of `BBvisitor` from the `i`-th successor of `src`. */
  function VisitSuccs(t: seq<Terminator>, c: Chain, src: Block, i: nat, dst: Block, depth: nat, found: bool): (r: (Chain, bool))
    requires ValidTerms(t) && 0 <= src < |t| && t[src].Br? && i <= |t[src].succs| && depth < MaxDepth
    requires EdgesValid(t, c) && LeadsToDst(c, dst)
    requires found ==> src in c
    ensures EdgesValid(t, r.0) && LeadsToDst(r.0, dst) && Grows(c, r.0)
    ensures !r.1 ==> r.0 == c
    ensures found ==> r.1
    ensures r.1 ==> src in r.0
    ensures (exists k :: i <= k < |t[src].succs| && (t[src].succs[k] == dst || t[src].succs[k] in c)) ==> r.1
    decreases MaxDepth - depth, 0, |t[src].succs| - i
  {
    if i == |t[src].succs| then (c, found)
    else
      var s := t[src].succs[i];
      if s in c || s == dst then
        AddEdgeLeads(c, src, s, dst);
        var c1 := AddEdge(c, src, s);
        var r := VisitSuccs(t, c1, src, i + 1, dst, depth, true);
        assert Grows(c, c1);
        r
      else
        var (c', f) := BBVisitor(t, c, s, dst, depth + 1);
        if f then
          AddEdgeLeads(c', src, s, dst);
          var c1 := AddEdge(c', src, s);
          var r := VisitSuccs(t, c1, src, i + 1, dst, depth, true);
          assert Grows(c, c1);
          r
        else VisitSuccs(t, c', src, i + 1, dst, depth, found)
  }

  /** Completeness of `BBvisitor`: a block from which the destination, or a
      block with recorded edges, is reached within the remaining depth is
      found. */
  lemma {:induction false} BBVisitorFinds(t: seq<Terminator>, c: Chain, src: Block, dst: Block, depth: nat, x: Block)
    requires ValidTerms(t) && 0 <= src < |t| && depth < MaxDepth
    requires EdgesValid(t, c) && LeadsToDst(c, dst)
    requires x == dst || x in c
    requires BrWithin(t, src, x, MaxDepth - depth)
    ensures BBVisitor(t, c, src, dst, depth).1
    decreases MaxDepth - depth, 1, 0
  {
    if src != dst {
      if src == x {
        var k: nat :| ChainReach(c, src, dst, k);
        var y :| y in c[src] && (y == dst || y in c) by {
          if k == 0 {
            assert dst in c[src];
          } else {
            var y :| y in c[src] && ChainReach(c, y, dst, k - 1);
          }
        }
        var j :| 0 <= j < |t[src].succs| && t[src].succs[j] == y;
      } else {
        var y :| y in t[src].succs && BrWithin(t, y, x, MaxDepth - depth - 1);
        var j :| 0 <= j < |t[src].succs| && t[src].succs[j] == y;
        VisitSuccsFinds(t, c, src, 0, dst, depth, false, j, x);
      }
    }
  }

  /** Completeness of the successor loop: a remaining successor from which the
      destination, or a block with recorded edges, is reached within one level
      less than the remaining depth makes the loop succeed. */
  lemma {:induction false} VisitSuccsFinds(t: seq<Terminator>, c: Chain, src: Block, i: nat, dst: Block, depth: nat,
                                           found: bool, k: nat, x: Block)
    requires ValidTerms(t) && 0 <= src < |t| && t[src].Br? && i <= |t[src].succs| && depth < MaxDepth
    requires EdgesValid(t, c) && LeadsToDst(c, dst)
    requires found ==> src in c
    requires i <= k < |t[src].succs| && (x == dst || x in c)
    requires BrWithin(t, t[src].succs[k], x, MaxDepth - depth - 1)
    ensures VisitSuccs(t, c, src, i, dst, depth, found).1
    decreases MaxDepth - depth, 0, |t[src].succs| - i
  {
    var s := t[src].succs[i];
    if s !in c && s != dst {
      var (c', f) := BBVisitor(t, c, s, dst, depth + 1);
      if i == k {
        BBVisitorFinds(t, c, s, dst, depth + 1, x);
      } else if !f {
        VisitSuccsFinds(t, c', src, i + 1, dst, depth, found, k, x);
      }
    }
  }

  /** `p` goes from `src` to `dst` along recorded edges. */
  predicate ChainPathFrom(c: Chain, p: seq<Block>, src: Block, dst: Block)
  {
    |p| > 0 && p[0] == src && p[|p| - 1] == dst &&
    forall i :: 0 <= i < |p| - 1 ==> p[i] in c && p[i + 1] in c[p[i]]
  }

  /** `r` is the stack `stack` followed by a simple path from `src` to `dst`. */
  predicate Recorded(c: Chain, r: seq<Block>, stack: seq<Block>, src: Block, dst: Block)
  {
    |stack| < |r| && r[..|stack|] == stack && ChainPathFrom(c, r[|stack|..], src, dst) && Distinct(r)
  }

  /** A path recorded below a successor is a path from its predecessor. */
  lemma RecordedThrough(c: Chain, r: seq<Block>, stack: seq<Block>, src: Block, next: Block, dst: Block)
    requires src in c && next in c[src]
    requires Recorded(c, r, stack + [src], next, dst)
    ensures Recorded(c, r, stack, src, dst)
  {
    var q := r[|stack| + 1..];
    assert r[|stack|..] == [src] + q;
    assert r[..|stack|] == (stack + [src])[..|stack|];
  }

  /** What a run of `DFSvisit` promises: the best size only falls, and when it
      does a path of that size was recorded. */
  predicate Improves(c: Chain, stack: seq<Block>, src: Block, dst: Block,
                     best: nat, path: Option<seq<Block>>, best': nat, path': Option<seq<Block>>)
  {
    (best' == best && path' == path) ||
    (best' < best && path'.Some? && |path'.value| == best' && Recorded(c, path'.value, stack, src, dst))
  }

  /** The iteration order of the unordered edge sets: `order(b)` lists
      exactly the recorded successors of `b`. */
  ghost predicate Enumerates(c: Chain, order: Block -> seq<Block>)
  {
    forall b, x :: b in c ==> (x in order(b) <==> x in c[b])
  }

  /** `getPath::DFSvisit` on the edges of `BBChain`: `src` is pushed on the
      stack; at the destination the stack is recorded when it is shorter than
      the best so far; otherwise each recorded successor not on the stack is
      visited, in the set's iteration order (`order`). The stack is passed by
      value, so it is the caller's again on return. Every simple path from
      `src` that avoids the stack is no shorter than the best size on return. */
  method DfsVisit(c: Chain, order: Block -> seq<Block>, src: Block, dst: Block, stack: seq<Block>,
                  best: nat, path: Option<seq<Block>>)
    returns (best': nat, path': Option<seq<Block>>)
    requires Enumerates(c, order) && Distinct(stack) && src !in stack
    ensures Improves(c, stack, src, dst, best, path, best', path')
    ensures forall p {:trigger ChainPathFrom(c, p, src, dst)} :: ChainPathFrom(c, p, src, dst) && Distinct(stack + p) ==> best' <= |stack| + |p|
    decreases c.Keys - set x | x in stack, 1
  {
    var stack' := stack + [src];
    if src == dst {
      DistinctPush(stack, src);
      forall p | ChainPathFrom(c, p, src, dst) && Distinct(stack + p)
        ensures |stack'| <= |stack| + |p|
      {
      }
      if |stack'| < best {
        assert Recorded(c, stack', stack, src, dst) by {
          assert stack'[|stack|..] == [src];
        }
        return |stack'|, Some(stack');
      }
      return best, path;
    }
    best', path' := best, path;
    if src in c {
      best', path' := VisitSuccessors(c, order, src, dst, stack, best, path);
    }
    forall p | ChainPathFrom(c, p, src, dst) && Distinct(stack + p)
      ensures best' <= |stack| + |p|
    {
      assert |p| > 1;
      ConsSplit(stack, p);
      assert ChainPathFrom(c, p[1..], p[1], dst);
      var k :| 0 <= k < |order(src)| && order(src)[k] == p[1];
    }
  }

  /** The successor loop of `DFSvisit`, with `src` pushed on `stack`: every
      simple path avoiding the stack from a successor is no shorter than the
      best size on return. */
  method VisitSuccessors(c: Chain, order: Block -> seq<Block>, src: Block, dst: Block, stack: seq<Block>,
                         best: nat, path: Option<seq<Block>>)
    returns (best': nat, path': Option<seq<Block>>)
    requires Enumerates(c, order) && Distinct(stack) && src !in stack && src in c
    ensures Improves(c, stack, src, dst, best, path, best', path')
    ensures forall k, q {:trigger ChainPathFrom(c, q, order(src)[k], dst)} :: 0 <= k < |order(src)| && ChainPathFrom(c, q, order(src)[k], dst) && Distinct(stack + [src] + q) ==>
              best' <= |stack| + 1 + |q|
    decreases c.Keys - set x | x in stack, 0
  {
    var stack' := stack + [src];
    DistinctPush(stack, src);
    assert (c.Keys - set x | x in stack') < (c.Keys - set x | x in stack) by {
      assert src in c.Keys - set x | x in stack;
    }
    var succs := order(src);
    best', path' := best, path;
    var i := 0;
    while i < |succs|
      invariant 0 <= i <= |succs|
      invariant Improves(c, stack, src, dst, best, path, best', path')
      invariant forall k, q {:trigger ChainPathFrom(c, q, succs[k], dst)} :: 0 <= k < i && ChainPathFrom(c, q, succs[k], dst) && Distinct(stack' + q) ==> best' <= |stack'| + |q|
    {
      var next := succs[i];
      if next !in stack' {
        var b2, p2 := DfsVisit(c, order, next, dst, stack', best', path');
        if b2 < best' {
          RecordedThrough(c, p2.value, stack, src, next, dst);
        }
        best', path' := b2, p2;
      } else {
        forall q | ChainPathFrom(c, q, next, dst)
          ensures !Distinct(stack' + q)
        {
          RepeatsHead(stack', q);
        }
      }
      i := i + 1;
    }
  }

  /** The search as the analysis starts it: an empty stack and a best size of
      99. A recorded path runs from `src` to `dst` along recorded edges without
      repeating a block, and no such path is shorter; when nothing is recorded,
      no such path is shorter than 99 blocks. */
  method ShortestPath(c: Chain, order: Block -> seq<Block>, src: Block, dst: Block) returns (size: nat, path: Option<seq<Block>>)
    requires Enumerates(c, order)
    ensures path.Some? ==> ChainPathFrom(c, path.value, src, dst) && Distinct(path.value) && |path.value| == size < 99
    ensures path.None? ==> size == 99
    ensures forall p :: ChainPathFrom(c, p, src, dst) && Distinct(p) ==> size <= |p|
  {
    size, path := DfsVisit(c, order, src, dst, [], 99, None);
    if path.Some? {
      assert path.value[0..] == path.value;
    }
    forall p | ChainPathFrom(c, p, src, dst) && Distinct(p)
      ensures size <= |p|
    {
      assert [] + p == p;
    }
  }
}

=== FILE: inst_loc.dfy ===
/** `InstLoc` (CFGUtils.h): an LLVM value together with the calling context in
    which the analysis met it. A context is the list
    `[entry0, call1, entry1, call2, entry2, ...]`: even positions hold the first
    instruction of a function entered, odd positions the call site in that
    function that entered the next one. LLVM values are opaque identifiers; a null
    context pointer is `None`. */
module InstLocs {
  import opened Wrappers

  /** An LLVM `Value*` (instruction, argument, global, ...). */
  type ValueId = nat

  datatype InstLoc = InstLoc(inst: ValueId, ctx: Option<seq<ValueId>>)

  /** `InstLoc::same`: false for a null argument, for a different value, or when
      exactly one side has a context pointer; true when the context pointers
      coincide or the contexts are element-wise equal. Since equal pointers imply
      equal contents, this is structural equality of the two locations. */
  function Same(a: InstLoc, other: Option<InstLoc>): (r: bool)
    ensures r <==> other == Some(a)
    ensures other.Some? && a.inst != other.value.inst ==> !r
    ensures other.Some? && a.ctx.None? != other.value.ctx.None? ==> !r
  {
    match other
    case None => false
    case Some(o) =>
      if a.inst != o.inst then false
      else if a.ctx.None? != o.ctx.None? then false
      else if a.ctx.None? then true
      else a.ctx.value == o.ctx.value
  }

  /** `InstLoc::hasCtx`: the context pointer is set and the context is non-empty. */
  predicate HasCtx(a: InstLoc)
  {
    a.ctx.Some? && |a.ctx.value| > 0
  }

  /** The context of a location that has one. */
  function Ctx(a: InstLoc): (c: seq<ValueId>)
    requires HasCtx(a)
    ensures |c| > 0
  {
    a.ctx.value
  }
}

=== FILE: inter_proc.dfy ===
/** Inter-procedural questions about two `InstLoc`s (CFGUtils.cpp): whether one
    can reach the other and whether one post-dominates the other, decided by
    locating where their calling contexts diverge and asking an intra-procedural
    question there. Intra-procedural facts (function, block and position of an
    instruction, block post-dominance, `isPotentiallyReachable`) are oracles. */
module InterProc {
  import opened Wrappers
  import opened InstLocs

  /** What the inter-procedural logic asks of the IR. `isInst` tells whether a
      value is an instruction (`dyn_cast<Instruction>`); `blockPostDom(b, a)`
      is the post-dominator tree's `dominates(b, a)`; `reach(src, end)` is
      `isPotentiallyReachable(src, end)`. */
  datatype Oracle = Oracle(
    isInst: ValueId -> bool,
    funcOf: ValueId -> nat,
    blockOf: ValueId -> nat,
    posOf: ValueId -> nat,
    isPhi: ValueId -> bool,
    blockPostDom: (nat, nat) -> bool,
    reach: (ValueId, ValueId) -> bool)

  /** `dyn_cast<Instruction>(v)`. */
  function AsInst(o: Oracle, v: ValueId): Option<ValueId>
  {
    if o.isInst(v) then Some(v) else None
  }

  /** `instPostDom(src, end)`: false for a null side or different functions;
      across blocks, the post-dominator tree; two PHI nodes of a block are
      unordered; otherwise `end` post-dominates `src` when `src` comes first. */
  function InstPostDom(o: Oracle, src: Option<ValueId>, end: Option<ValueId>): (r: bool)
    ensures r ==> src.Some? && end.Some? && o.funcOf(src.value) == o.funcOf(end.value)
    ensures src.Some? && src == end && !o.isPhi(src.value) ==> r
  {
    if end.None? || src.None? || o.funcOf(end.value) != o.funcOf(src.value) then false
    else if o.blockOf(src.value) != o.blockOf(end.value) then o.blockPostDom(o.blockOf(end.value), o.blockOf(src.value))
    else if o.isPhi(src.value) && o.isPhi(end.value) then false
    else o.posOf(src.value) <= o.posOf(end.value)
  }

  /** Length of the common prefix of two contexts: the first index where they
      differ, or the shorter length. */
  function CommonPrefix(a: seq<ValueId>, b: seq<ValueId>): (ip: nat)
    ensures ip <= |a| && ip <= |b| && a[..ip] == b[..ip]
    ensures ip < |a| && ip < |b| ==> a[ip] != b[ip]
  {
    if |a| == 0 || |b| == 0 || a[0] != b[0] then 0
    else
      var n := CommonPrefix(a[1..], b[1..]);
      assert a[..n + 1] == [a[0]] + a[1..][..n];
      assert b[..n + 1] == [b[0]] + b[1..][..n];
      n + 1
  }

  /** The common prefix of `p + x` and `p + y` is at least `p`, and exactly `p`
      when `x` and `y` start differently. */
  lemma {:induction false} CommonPrefixAfter(p: seq<ValueId>, x: seq<ValueId>, y: seq<ValueId>)
    requires |x| > 0 && |y| > 0 && x[0] != y[0]
    ensures CommonPrefix(p + x, p + y) == |p|
  {
    if |p| > 0 {
      assert (p + x)[1..] == p[1..] + x && (p + y)[1..] == p[1..] + y;
      CommonPrefixAfter(p[1..], x, y);
    }
  }

  /** A context that is a prefix of another shares all of itself with it. */
  lemma {:induction false} CommonPrefixOfExtension(p: seq<ValueId>, x: seq<ValueId>)
    ensures CommonPrefix(p, p + x) == |p|
  {
    if |p| > 0 {
      assert (p + x)[1..] == p[1..] + x;
      CommonPrefixOfExtension(p[1..], x);
    }
  }

  /** The source asserts that contexts have odd length once both locations have
      one. */
  predicate OddWhenBoth(self: InstLoc, other: Option<InstLoc>)
  {
    HasCtx(self) && other.Some? && HasCtx(other.value) ==>
      |Ctx(self)| % 2 == 1 && |Ctx(other.value)| % 2 == 1
  }

  // ------------------------------------------------------------- reachable

  /** The pair of instructions, in the function where the contexts diverge, that
      `reachable` hands to the intra-procedural test (`src` from `other`, `end`
      from `this`); both None for a divergence between two callees of one call
      site. */
  function DivergencePair(o: Oracle, self: InstLoc, other: InstLoc, ip: nat): (p: (Option<ValueId>, Option<ValueId>))
    requires HasCtx(self) && HasCtx(other)
  {
    var a := Ctx(self);
    var b := Ctx(other);
    if ip >= |a| then (if ip < |b| then Some(b[ip]) else AsInst(o, other.inst), AsInst(o, self.inst))
    else if ip >= |b| then (AsInst(o, other.inst), Some(a[ip]))
    else if ip % 2 == 1 then (Some(b[ip]), Some(a[ip]))
    else (None, None)
  }

  /** `InstLoc::reachable(other)` with no blocklist: whether `other` can reach
      `this`. A location without context (a global) reaches everything; nothing
      with a context reaches a global; contexts with different top-level entries
      never reach each other; contexts diverging at an even index differ in the
      callee of one call site and never reach each other; otherwise the answer is
      intra-procedural reachability between the two instructions of the caller
      where the contexts part. */
  function Reachable(o: Oracle, self: InstLoc, other: Option<InstLoc>): (r: bool)
    requires OddWhenBoth(self, other)
    ensures other.None? ==> !r
    ensures other.Some? && !HasCtx(other.value) ==> r
    ensures other.Some? && HasCtx(other.value) && !HasCtx(self) ==> !r
    ensures other.Some? && HasCtx(other.value) && HasCtx(self) && Ctx(self)[0] != Ctx(other.value)[0] ==> !r
    ensures other.Some? && HasCtx(other.value) && HasCtx(self) ==>
      var ip := CommonPrefix(Ctx(self), Ctx(other.value));
      ip < |Ctx(self)| && ip < |Ctx(other.value)| && ip % 2 == 0 ==> !r
  {
    if other.None? then false
    else if !HasCtx(other.value) then true
    else if !HasCtx(self) then false
    else
      var ip := CommonPrefix(Ctx(self), Ctx(other.value));
      if ip == 0 then false
      else
        var (src, end) := DivergencePair(o, self, other.value, ip);
        src.Some? && end.Some? && o.funcOf(src.value) == o.funcOf(end.value) && o.reach(src.value, end.value)
  }

  /** Within one context, reachability is the intra-procedural question between
      the two instructions. */
  lemma ReachableSameContext(o: Oracle, a: ValueId, b: ValueId, ctx: seq<ValueId>)
    requires |ctx| % 2 == 1
    ensures Reachable(o, InstLoc(a, Some(ctx)), Some(InstLoc(b, Some(ctx))))
      <==> o.isInst(a) && o.isInst(b) && o.funcOf(b) == o.funcOf(a) && o.reach(b, a)
  {
    CommonPrefixOfExtension(ctx, []);
    assert ctx + [] == ctx;
  }

  /** Contexts that part at two different call sites of one caller: `other`
      reaches `this` exactly when its call site reaches `this`'s call site. */
  lemma ReachableSiblingCalls(o: Oracle, a: ValueId, b: ValueId, p: seq<ValueId>, x: seq<ValueId>, y: seq<ValueId>)
    requires |p| % 2 == 1 && |x| % 2 == 0 && |y| % 2 == 0 && |x| > 0 && |y| > 0 && x[0] != y[0]
    ensures Reachable(o, InstLoc(a, Some(p + x)), Some(InstLoc(b, Some(p + y))))
      <==> o.funcOf(y[0]) == o.funcOf(x[0]) && o.reach(y[0], x[0])
  {
    CommonPrefixAfter(p, x, y);
  }

  /** A location inside a callee is reached from the caller when the caller's
      instruction reaches the call site that leads to it. */
  lemma ReachableIntoCallee(o: Oracle, a: ValueId, b: ValueId, p: seq<ValueId>, x: seq<ValueId>)
    requires |p| % 2 == 1 && |x| % 2 == 0 && |x| > 0
    ensures Reachable(o, InstLoc(a, Some(p + x)), Some(InstLoc(b, Some(p))))
      <==> o.isInst(b) && o.funcOf(b) == o.funcOf(x[0]) && o.reach(b, x[0])
  {
    CommonPrefixOfExtension(p, x);
  }

  // ------------------------------------------------------------- postDom

  /** Outcome of a C++ routine that may stop on a failed `assert`. */
  datatype Verdict = Holds(value: bool) | AssertionFails

  /** `InstLoc::postDom(other)` as written: whether `this` post-dominates
      `other`. Part (1) locates the divergence; for a divergence inside both
      contexts it returns false at an odd index and compares the two entries at
      an even one. Part (2) walks the rest of `this` context one index at a time,
      after asserting that the walk starts at an even index. */
  function PostDomAsWritten(o: Oracle, self: InstLoc, other: Option<InstLoc>): (v: Verdict)
    requires OddWhenBoth(self, other)
    ensures other.None? || !HasCtx(self) ==> v == Holds(false)
    ensures v == AssertionFails ==> other.Some? && HasCtx(self)
  {
    if other.None? || !HasCtx(self) then Holds(false)
    else if !HasCtx(other.value) then TailAsWritten(o, Ctx(self), self.inst, 0)
    else
      var a := Ctx(self);
      var b := Ctx(other.value);
      var ip := CommonPrefix(a, b);
      if ip == 0 then Holds(false)
      else if ip >= |a| then
        var end := AsInst(o, self.inst);
        var src := if ip < |b| then Some(b[ip]) else AsInst(o, other.value.inst);
        Holds(InstPostDom(o, src, end))
      else if ip >= |b| then
        if !InstPostDom(o, AsInst(o, other.value.inst), Some(a[ip])) then Holds(false)
        else TailAsWritten(o, a, self.inst, ip + 1)
      else if ip % 2 == 1 then Holds(false)
      else if !InstPostDom(o, Some(b[ip]), Some(a[ip])) then Holds(false)
      else TailAsWritten(o, a, self.inst, ip + 1)
  }

  /** Part (2) as written: the two assertions, then the step-by-one walk. */
  function TailAsWritten(o: Oracle, a: seq<ValueId>, inst: ValueId, ip: nat): (v: Verdict)
    ensures v == AssertionFails <==> ip % 2 == 1 || ip >= |a|
  {
    if ip % 2 == 1 || ip >= |a| then AssertionFails else WalkByOne(o, a, inst, ip)
  }

  /** The loop of part (2) as written: each index is compared with the next one,
      then the last entry with `this` instruction. */
  function WalkByOne(o: Oracle, a: seq<ValueId>, inst: ValueId, ip: nat): (v: Verdict)
    requires ip < |a|
    ensures v == Holds((forall k :: ip <= k < |a| - 1 ==> InstPostDom(o, Some(a[k]), Some(a[k + 1])))
                       && (AsInst(o, inst).None? || InstPostDom(o, Some(a[|a| - 1]), AsInst(o, inst))))
    decreases |a| - ip
  {
    if ip + 1 < |a| then
      if !InstPostDom(o, Some(a[ip]), Some(a[ip + 1])) then Holds(false) else WalkByOne(o, a, inst, ip + 1)
    else
      Holds(!(AsInst(o, inst).Some? && !InstPostDom(o, Some(a[ip]), AsInst(o, inst))))
  }

  /** The frames of a context from entry index `k` on: in each function the
      entry is post-dominated by the call site taken, and in the last one by the
      instruction itself (when it is one). */
  predicate FramesPostDom(o: Oracle, a: seq<ValueId>, inst: ValueId, k: nat)
    requires |a| > 0
  {
    (forall j :: k <= j < |a| - 1 && j % 2 == 0 ==> InstPostDom(o, Some(a[j]), Some(a[j + 1])))
    && (AsInst(o, inst).Some? ==> InstPostDom(o, Some(a[|a| - 1]), AsInst(o, inst)))
  }

  /** Contexts of odd length, as the visitor builds them. */
  predicate OddCtx(l: InstLoc)
  {
    HasCtx(l) ==> |Ctx(l)| % 2 == 1
  }

  /** What `postDom` is documented to decide: `this` post-dominates `other`
      when, in the function where the contexts part, `this` side post-dominates
      `other` side (the two call sites of one caller, or a call site and an
      instruction), and every later frame of `this` context is entered and left
      through the call site taken. Contexts that part at the callees of one call
      site are unrelated. */
  function PostDomSpec(o: Oracle, self: InstLoc, other: Option<InstLoc>): bool
    requires OddCtx(self) && (other.Some? ==> OddCtx(other.value))
  {
    if other.None? || !HasCtx(self) then false
    else if !HasCtx(other.value) then FramesPostDom(o, Ctx(self), self.inst, 0)
    else
      var a := Ctx(self);
      var b := Ctx(other.value);
      var ip := CommonPrefix(a, b);
      if ip == 0 then false
      else if ip >= |a| then
        InstPostDom(o, if ip < |b| then Some(b[ip]) else AsInst(o, other.value.inst), AsInst(o, self.inst))
      else if ip >= |b| then
        InstPostDom(o, AsInst(o, other.value.inst), Some(a[ip])) && FramesPostDom(o, a, self.inst, ip + 1)
      else if ip % 2 == 1 then
        InstPostDom(o, Some(b[ip]), Some(a[ip])) && FramesPostDom(o, a, self.inst, ip + 1)
      else false
  }

  /** `postDom` with the parity test of part (1) the other way round, as in
      `reachable`, and the walk of part (2) moving from one entry to the next. */
  method PostDomCorrected(o: Oracle, self: InstLoc, other: Option<InstLoc>) returns (r: bool)
    requires OddCtx(self) && (other.Some? ==> OddCtx(other.value))
    ensures r == PostDomSpec(o, self, other)
  {
    if other.None? || !HasCtx(self) {
      return false;
    }
    var a := Ctx(self);
    var ip := 0;
    if HasCtx(other.value) {
      var b := Ctx(other.value);
      ip := CommonPrefix(a, b);
      if ip == 0 {
        return false;
      }
      if ip >= |a| {
        var src := if ip < |b| then Some(b[ip]) else AsInst(o, other.value.inst);
        return InstPostDom(o, src, AsInst(o, self.inst));
      }
      if ip >= |b| {
        if !InstPostDom(o, AsInst(o, other.value.inst), Some(a[ip])) {
          return false;
        }
      } else {
        if ip % 2 == 0 {
          return false;
        }
        if !InstPostDom(o, Some(b[ip]), Some(a[ip])) {
          return false;
        }
      }
      ip := ip + 1;
    }
    r := WalkFrames(o, a, self.inst, ip);
  }

  /** Part (2) of `postDom` from entry `k` on, two entries at a time: in each
      frame the call site taken post-dominates the frame's entry, and the
      instruction (when it is one) post-dominates the last frame's entry. */
  method WalkFrames(o: Oracle, a: seq<ValueId>, inst: ValueId, k: nat) returns (r: bool)
    requires |a| % 2 == 1 && k < |a| && k % 2 == 0
    ensures r == FramesPostDom(o, a, inst, k)
  {
    var ip := k;
    while ip + 1 < |a|
      invariant k <= ip < |a| && ip % 2 == 0
      invariant forall j :: k <= j < ip && j % 2 == 0 ==> InstPostDom(o, Some(a[j]), Some(a[j + 1]))
      decreases |a| - ip
    {
      if !InstPostDom(o, Some(a[ip]), Some(a[ip + 1])) {
        return false;
      }
      ip := ip + 2;
    }
    assert ip == |a| - 1;
    var end := AsInst(o, inst);
    if end.Some? && !InstPostDom(o, Some(a[ip]), end) {
      return false;
    }
    return true;
  }

  /** As written, contexts that part inside both at an odd index (two call sites
      of one caller) never post-dominate. */
  lemma AsWrittenFalseAtOddDivergence(o: Oracle, a: ValueId, b: ValueId, p: seq<ValueId>, x: seq<ValueId>, y: seq<ValueId>)
    requires |p| % 2 == 1 && |x| % 2 == 0 && |y| % 2 == 0 && |x| > 0 && |y| > 0 && x[0] != y[0]
    ensures PostDomAsWritten(o, InstLoc(a, Some(p + x)), Some(InstLoc(b, Some(p + y)))) == Holds(false)
  {
    CommonPrefixAfter(p, x, y);
  }

  /** As written, the walk of part (2) fails as soon as two frames remain: its
      second step asks whether a callee's entry post-dominates the call site in
      the caller, and instructions of different functions never do. */
  lemma {:induction false} WalkByOneFailsAcrossFrames(o: Oracle, a: seq<ValueId>, inst: ValueId, ip: nat)
    requires ip + 2 < |a| && o.funcOf(a[ip + 1]) != o.funcOf(a[ip + 2])
    ensures WalkByOne(o, a, inst, ip) == Holds(false)
  {
  }

  /** Concrete input for the parity reversal: `this` is in a callee entered from
      call site 2 of the entry function, `other` in a callee entered from call
      site 1 of the same function; call site 2 post-dominates call site 1 and the
      callee's instruction post-dominates its entry, so `this` post-dominates
      `other`, yet the code as written answers false. */
  lemma ParityCounterexample()
    ensures var o := CounterOracle();
      var self := InstLoc(5, Some([0, 2, 3]));
      var other := InstLoc(6, Some([0, 1, 4]));
      PostDomAsWritten(o, self, Some(other)) == Holds(false) && PostDomSpec(o, self, Some(other))
  {
    var o := CounterOracle();
    var self := InstLoc(5, Some([0, 2, 3]));
    var other := InstLoc(6, Some([0, 1, 4]));
    assert CommonPrefix([0, 2, 3], [0, 1, 4]) == 1 by {
      CommonPrefixAfter([0], [2, 3], [1, 4]);
      assert [0] + [2, 3] == [0, 2, 3] && [0] + [1, 4] == [0, 1, 4];
    }
    assert FramesPostDom(o, [0, 2, 3], 5, 2);
  }

  /** Concrete input for the step-by-one walk: `other` is a global, `this` is in a
      callee; each frame is entered and left through the call site, yet the code
      as written answers false. */
  lemma StepCounterexample()
    ensures var o := CounterOracle();
      var self := InstLoc(5, Some([0, 2, 3]));
      var other := InstLoc(7, None);
      PostDomAsWritten(o, self, Some(other)) == Holds(false) && PostDomSpec(o, self, Some(other))
  {
    var o := CounterOracle();
    assert FramesPostDom(o, [0, 2, 3], 5, 0);
  }

  /** Instructions 0, 1 and 2 form the one block of function 0, in that order;
      3 and 5 form the one block of function 1; 4 and 6 the one block of
      function 2; 7 is a global. */
  function CounterOracle(): Oracle
  {
    Oracle(
      v => v != 7,
      v => if v <= 2 then 0 else if v == 3 || v == 5 then 1 else 2,
      v => if v <= 2 then 0 else if v == 3 || v == 5 then 1 else 2,
      v => v,
      v => false,
      (x, y) => false,
      (x, y) => false)
  }

  /** A location post-dominates itself when it is a non-PHI instruction with a
      context: the contexts agree everywhere, so both the code as written and
      the documented decision compare the instruction with itself. */
  lemma PostDomOfItself(o: Oracle, self: InstLoc)
    requires OddCtx(self) && HasCtx(self) && o.isInst(self.inst) && !o.isPhi(self.inst)
    ensures PostDomAsWritten(o, self, Some(self)) == Holds(true)
    ensures PostDomSpec(o, self, Some(self))
  {
    CommonPrefixOfExtension(Ctx(self), []);
    assert Ctx(self) + [] == Ctx(self);
  }

  /** Where neither defect is met the code as written and the documented
      decision agree: `other` context is a prefix of `this` context and `this`
      has at most one frame beyond it (so no divergence inside both contexts,
      and at most one step of the walk). */
  lemma AsWrittenAgreesWithinOneFrame(o: Oracle, self: InstLoc, other: InstLoc)
    requires OddCtx(self) && OddCtx(other) && HasCtx(self) && HasCtx(other)
    requires |Ctx(other)| <= |Ctx(self)| <= |Ctx(other)| + 2 && Ctx(self)[..|Ctx(other)|] == Ctx(other)
    ensures PostDomAsWritten(o, self, Some(other)) == Holds(PostDomSpec(o, self, Some(other)))
  {
    var a := Ctx(self);
    var b := Ctx(other);
    if |a| == |b| {
      assert a == b;
      CommonPrefixOfExtension(a, []);
      assert a + [] == a;
    } else {
      assert a == b + a[|b|..];
      CommonPrefixOfExtension(b, a[|b|..]);
      var ip := |b|;
      assert ip + 1 == |a| - 1;
    }
  }
}

=== FILE: json_text.dfy ===
/** `InstructionUtils::escapeJsonString` and the JSON string reader that undoes it.
    The escaper turns each of backslash, double quote, slash, backspace, form feed,
    newline, carriage return and tab into a two-character backslash pair and copies
    every other character. It adds no surrounding quotes: the printers write those. */
module JsonText {
  import opened Seqs
  import opened Wrappers

  /** The eight characters the escaper rewrites. */
  predicate NeedsEscape(c: char)
  {
    c == '\\' || c == '"' || c == '/' || c == '\U{8}' || c == '\U{c}'
    || c == '\n' || c == '\r' || c == '\t'
  }

  /** The letter written after the backslash for a character that needs escaping. */
  function EscapeLetter(c: char): (e: char)
    requires NeedsEscape(c)
  {
    if c == '\U{8}' then 'b' else if c == '\U{c}' then 'f'
    else if c == '\n' then 'n' else if c == '\r' then 'r'
    else if c == '\t' then 't' else c
  }

  /** Inverse of EscapeLetter; None for a letter the escaper never writes. */
  function UnescapeLetter(e: char): (c: Option<char>)
    ensures c.Some? ==> NeedsEscape(c.value) && EscapeLetter(c.value) == e
  {
    if e == 'b' then Some('\U{8}') else if e == 'f' then Some('\U{c}')
    else if e == 'n' then Some('\n') else if e == 'r' then Some('\r')
    else if e == 't' then Some('\t')
    else if e == '\\' || e == '"' || e == '/' then Some(e)
    else None
  }

  /** Number of characters of `s` that the escaper rewrites. */
  function SpecialCount(s: string): (n: nat)
    ensures n <= |s|
  {
    if |s| == 0 then 0 else SpecialCount(s[..|s| - 1]) + (if NeedsEscape(s[|s| - 1]) then 1 else 0)
  }

  /** The escaping loop over the whole input. */
  function EscapeChars(s: string): string
  {
    if |s| == 0 then ""
    else
      var c := s[|s| - 1];
      EscapeChars(s[..|s| - 1]) + (if NeedsEscape(c) then ['\\', EscapeLetter(c)] else [c])
  }

  /** `escapeJsonString`. On an empty input the outer loop never runs and the C++
      function falls off its end without a `return`, so a non-empty input is
      required. The result is one character longer than the input for every
      character that needs escaping. */
  function EscapeJsonString(s: string): (r: string)
    requires |s| > 0
    ensures |r| == |s| + SpecialCount(s)
    ensures |r| > 0
  {
    EscapeLengthIsSpecialCount(s);
    EscapeChars(s)
  }

  lemma {:induction false} EscapeLengthIsSpecialCount(s: string)
    ensures |EscapeChars(s)| == |s| + SpecialCount(s)
  {
    if |s| > 0 {
      EscapeLengthIsSpecialCount(s[..|s| - 1]);
    }
  }

  /** Reads the body of a JSON string: decodes backslash pairs until the first
      unescaped double quote and returns the decoded text together with what
      follows the closing quote. None when no closing quote is found or a pair is
      not one the escaper produces. */
  function ReadJsonString(t: string): (r: Option<(string, string)>)
    ensures r.Some? ==> |r.value.1| < |t|
  {
    if |t| == 0 then None
    else if t[0] == '"' then Some(("", t[1..]))
    else if t[0] == '\\' then
      if |t| < 2 then None
      else
        match UnescapeLetter(t[1])
        case None => None
        case Some(c) =>
          match ReadJsonString(t[2..])
          case None => None
          case Some((body, rest)) => Some(([c] + body, rest))
    else
      match ReadJsonString(t[1..])
      case None => None
      case Some((body, rest)) => Some(([t[0]] + body, rest))
  }

  /** Escaping then reading back a JSON string recovers the text and the rest of
      the output: an escaped field never ends early at a quote inside it. */
  lemma {:induction false} ReadEscaped(s: string, rest: string)
    ensures ReadJsonString(EscapeChars(s) + "\"" + rest) == Some((s, rest))
  {
    if |s| > 0 {
      var c := s[0];
      var pre := if NeedsEscape(c) then ['\\', EscapeLetter(c)] else [c];
      EscapeChars_Cons(c, s[1..]);
      assert [c] + s[1..] == s;
      ReadEscaped(s[1..], rest);
      var tail := EscapeChars(s[1..]) + "\"" + rest;
      Assoc3(pre, EscapeChars(s[1..]), "\"", rest);
      DropPrefix(pre, tail);
      if NeedsEscape(c) {
        assert UnescapeLetter(EscapeLetter(c)) == Some(c);
      }
    } else {
      assert EscapeChars(s) + "\"" + rest == "\"" + rest;
    }
  }

  /** EscapeChars works character by character from the front as well. */
  lemma {:induction false} EscapeChars_Cons(c: char, s: string)
    ensures EscapeChars([c] + s) == (if NeedsEscape(c) then ['\\', EscapeLetter(c)] else [c]) + EscapeChars(s)
    decreases |s|
  {
    if |s| == 0 {
      assert ([c] + s)[..0] == [];
    } else {
      var init := s[..|s| - 1];
      assert ([c] + s)[..|[c] + s| - 1] == [c] + init;
      EscapeChars_Cons(c, init);
    }
  }

  /** Round trip of `escapeJsonString`: reading back its output, closed by a quote,
      yields the input. */
  lemma EscapeJsonStringReadsBack(s: string, rest: string)
    requires |s| > 0
    ensures ReadJsonString(EscapeJsonString(s) + "\"" + rest) == Some((s, rest))
  {
    ReadEscaped(s, rest);
  }

  /** Only characters that need escaping are followed by a backslash pair; an
      input without any of them is copied unchanged. */
  lemma {:induction false} EscapeIdentityWithoutSpecials(s: string)
    requires forall i :: 0 <= i < |s| ==> !NeedsEscape(s[i])
    ensures EscapeChars(s) == s
  {
    if |s| > 0 {
      EscapeIdentityWithoutSpecials(s[..|s| - 1]);
    }
  }
}

=== FILE: log_extract.dfy ===
/** `ext_warns.py`: the analyser brackets each warning it prints between lines that
    start with `@@@@@@`. The extractor reads the log line by line, flips a region
    flag on every such marker line and collects every other line read while the
    flag is set, with surrounding whitespace stripped. The collected lines go to a
    module-level list, so a second call appends to the first call's result; here
    that list is an explicit accumulator. */
module LogExtract {

  const Marker: string := "@@@@@@"

  /** A marker line: its raw text starts with the marker; leading whitespace
      prevents the toggle and trailing text does not matter. */
  predicate IsMarker(line: string)
  {
    |line| >= |Marker| && line[..|Marker|] == Marker
  }

  /** Whitespace as the Python 2 byte-string `strip()` sees it: space, tab,
      line feed, carriage return, vertical tab and form feed. The log is read
      as bytes, so no other character counts. */
  predicate IsPySpace(c: char)
  {
    c == ' ' || c == '\t' || c == '\n' || c == '\r' || c == '\U{b}' || c == '\U{c}'
  }

  /** `strip()`: drop leading and trailing whitespace. The result is a slice of
      `s` that neither starts nor ends with whitespace and everything cut away
      around it is whitespace. */
  function Strip(s: string): (r: string)
    ensures |r| <= |s|
    ensures |r| > 0 ==> !IsPySpace(r[0]) && !IsPySpace(r[|r| - 1])
    ensures exists a :: CutFromSpaces(s, a, r)
    ensures (forall i :: 0 <= i < |s| ==> !IsPySpace(s[i])) ==> r == s
  {
    var l := StripLeft(s);
    var r := StripRight(l);
    assert CutFromSpaces(s, |s| - |l|, r);
    r
  }

  /** `r` is the slice of `s` starting at `a`, and every character of `s`
      outside that slice is whitespace. */
  predicate CutFromSpaces(s: string, a: int, r: string)
  {
    0 <= a <= |s| - |r| && r == s[a..a + |r|]
    && (forall i :: 0 <= i < a ==> IsPySpace(s[i]))
    && (forall i :: a + |r| <= i < |s| ==> IsPySpace(s[i]))
  }

  function StripLeft(s: string): (r: string)
    ensures |r| <= |s| && r == s[|s| - |r|..]
    ensures |r| > 0 ==> !IsPySpace(r[0])
    ensures forall i :: 0 <= i < |s| - |r| ==> IsPySpace(s[i])
  {
    if |s| > 0 && IsPySpace(s[0]) then
      var t := StripLeft(s[1..]);
      assert forall i :: 1 <= i < |s| - |t| ==> s[i] == s[1..][i - 1];
      t
    else s
  }

  function StripRight(s: string): (r: string)
    ensures |r| <= |s| && r == s[..|r|]
    ensures |r| > 0 ==> !IsPySpace(r[|r| - 1])
    ensures |r| > 0 && |s| > 0 ==> (!IsPySpace(s[0]) ==> !IsPySpace(r[0]))
    ensures forall i :: |r| <= i < |s| ==> IsPySpace(s[i])
  {
    if |s| > 0 && IsPySpace(s[|s| - 1]) then StripRight(s[..|s| - 1]) else s
  }

  /** Number of marker lines among `lines`. */
  function MarkerCount(lines: seq<string>): (n: nat)
    ensures n <= |lines|
  {
    if |lines| == 0 then 0
    else (if IsMarker(lines[0]) then 1 else 0) + MarkerCount(lines[1..])
  }

  /** What the loop collects from `lines` when the region flag is `open` as it
      reads the first of them: a marker flips the flag and is dropped, any other
      line is kept, stripped, while the flag is set. */
  function ExtractFrom(open: bool, lines: seq<string>): (r: seq<string>)
    ensures |r| <= |lines|
    decreases |lines|
  {
    if |lines| == 0 then []
    else if IsMarker(lines[0]) then ExtractFrom(!open, lines[1..])
    else (if open then [Strip(lines[0])] else []) + ExtractFrom(open, lines[1..])
  }

  /** What one call collects: the flag starts false. */
  function Extracted(lines: seq<string>): (r: seq<string>)
    ensures |r| <= |lines|
  {
    ExtractFrom(false, lines)
  }

  /** The extraction loop of `ext_warns`, appending to the accumulator `prior`. */
  method ExtWarns(lines: seq<string>, prior: seq<string>) returns (warns: seq<string>)
    ensures warns == prior + Extracted(lines)
  {
    var isWarn := false;
    warns := prior;
    var i := 0;
    while i < |lines|
      invariant 0 <= i <= |lines|
      invariant prior + Extracted(lines) == warns + ExtractFrom(isWarn, lines[i..])
    {
      var l := lines[i];
      assert lines[i..][0] == l && lines[i..][1..] == lines[i + 1..];
      if IsMarker(l) {
        isWarn := !isWarn;
      } else if isWarn {
        warns := warns + [Strip(l)];
      }
      i := i + 1;
    }
    assert lines[i..] == [];
  }

  /** Whether a log holds an odd number of markers, so that the flag is set
      after reading it from a cleared start. */
  predicate OddMarkers(lines: seq<string>)
  {
    if |lines| == 0 then false else IsMarker(lines[0]) != OddMarkers(lines[1..])
  }

  /** `OddMarkers` is the parity of the marker count. */
  lemma {:induction false} OddMarkersIsOddCount(lines: seq<string>)
    ensures OddMarkers(lines) <==> MarkerCount(lines) % 2 == 1
  {
    if |lines| > 0 {
      OddMarkersIsOddCount(lines[1..]);
      ParityOfSucc(MarkerCount(lines[1..]));
    }
  }

  /** One more marker flips the parity. */
  lemma ParityOfSucc(x: nat)
    ensures ((x + 1) % 2 == 1) == !(x % 2 == 1)
  {
  }

  /** Reading `a` and then `b` collects what `a` gives and then what `b` gives
      with the flag flipped once per marker of `a`. */
  lemma {:induction false} ExtractFromAppend(open: bool, a: seq<string>, b: seq<string>)
    ensures ExtractFrom(open, a + b) == ExtractFrom(open, a) + ExtractFrom(open != OddMarkers(a), b)
    decreases |a|
  {
    if |a| == 0 {
      assert a + b == b;
    } else {
      var t := a[1..];
      assert (a + b)[0] == a[0] && (a + b)[1..] == t + b;
      if IsMarker(a[0]) {
        ExtractFromAppend(!open, t, b);
      } else {
        ExtractFromAppend(open, t, b);
        AppendAssoc(if open then [Strip(a[0])] else [], ExtractFrom(open, t), ExtractFrom(open != OddMarkers(t), b));
      }
    }
  }

  /** Concatenation regroups; stated generically so that no element equality is unfolded. */
  lemma AppendAssoc<T>(h: seq<T>, x: seq<T>, y: seq<T>)
    ensures h + (x + y) == (h + x) + y
  {
  }

  /** Markers of two logs read in sequence add up. */
  lemma {:induction false} MarkerCountAppend(a: seq<string>, b: seq<string>)
    ensures MarkerCount(a + b) == MarkerCount(a) + MarkerCount(b)
    decreases |a|
  {
    if |a| == 0 {
      assert a + b == b;
    } else {
      assert (a + b)[0] == a[0] && (a + b)[1..] == a[1..] + b;
      MarkerCountAppend(a[1..], b);
    }
  }

  /** Line `i` is collected, stripped, exactly when it is not a marker and an odd
      number of markers precede it: the output is what the lines before it give,
      then that line's contribution, then what the lines after it give. */
  lemma LineCollectedIffRegionOpen(lines: seq<string>, i: nat)
    requires i < |lines|
    ensures var before := lines[..i];
            var open := MarkerCount(before) % 2 == 1;
            var flips := open != IsMarker(lines[i]);
            Extracted(lines)
              == Extracted(before)
                 + (if !IsMarker(lines[i]) && open then [Strip(lines[i])] else [])
                 + ExtractFrom(flips, lines[i + 1..])
  {
    var before := lines[..i];
    var rest := lines[i..];
    assert lines == before + rest;
    ExtractFromAppend(false, before, rest);
    OddMarkersIsOddCount(before);
    assert rest[0] == lines[i] && rest[1..] == lines[i + 1..];
  }

  /** With no marker line, nothing is collected: the flag starts false. */
  lemma {:induction false} NoMarkersNothingCollected(lines: seq<string>)
    requires forall i :: 0 <= i < |lines| ==> !IsMarker(lines[i])
    ensures MarkerCount(lines) == 0
    ensures Extracted(lines) == []
  {
    if |lines| > 0 {
      assert forall j :: 0 <= j < |lines| - 1 ==> lines[1..][j] == lines[j + 1];
      NoMarkersNothingCollected(lines[1..]);
    }
  }

  /** Extraction distributes over concatenation of logs once the marker parity of
      the first part is taken into account. */
  lemma ExtractedAppend(a: seq<string>, b: seq<string>)
    requires MarkerCount(a) % 2 == 0
    ensures Extracted(a + b) == Extracted(a) + Extracted(b)
    ensures MarkerCount(a + b) == MarkerCount(a) + MarkerCount(b)
  {
    ExtractFromAppend(false, a, b);
    OddMarkersIsOddCount(a);
    MarkerCountAppend(a, b);
  }

  /** Every line stripped, in order. */
  function StripAll(b: seq<string>): (r: seq<string>)
    ensures |r| == |b|
    ensures forall i :: 0 <= i < |b| ==> r[i] == Strip(b[i])
  {
    if |b| == 0 then [] else [Strip(b[0])] + StripAll(b[1..])
  }

  /** Inside an open region without markers every line is collected. */
  lemma {:induction false} OpenCollectsAll(b: seq<string>)
    requires forall i :: 0 <= i < |b| ==> !IsMarker(b[i])
    ensures ExtractFrom(true, b) == StripAll(b)
    ensures MarkerCount(b) == 0
  {
    if |b| > 0 {
      assert forall j :: 0 <= j < |b| - 1 ==> b[1..][j] == b[j + 1];
      OpenCollectsAll(b[1..]);
    }
  }

  /** An odd number of markers leaves the last region open: every later line up
      to the end of the log is collected, stripped. */
  lemma OpenRegionCollectsRest(a: seq<string>, b: seq<string>)
    requires MarkerCount(a) % 2 == 1
    requires forall i :: 0 <= i < |b| ==> !IsMarker(b[i])
    ensures Extracted(a + b) == Extracted(a) + StripAll(b)
    ensures MarkerCount(a + b) == MarkerCount(a)
  {
    ExtractFromAppend(false, a, b);
    OddMarkersIsOddCount(a);
    MarkerCountAppend(a, b);
    OpenCollectsAll(b);
  }
}

=== FILE: module_state.dfy ===
/** Helpers of the analysis' global state (ModuleState.h): the registry of
    calling contexts with their points-to and taint maps, the taint and
    object-hierarchy histories used to cut cycles, the concatenation of the
    traces along a taint chain, the rendering of an object-hierarchy chain as
    text, the prefix test between two sets of such texts, and the per-instruction
    warning list. */
module GlobalStates {
  import opened Wrappers
  import opened Text
  import opened InstLocs
  import opened FieldDescs
  import opened AliasObjects
  import opened PointsToUtils
  import opened TaintUtils

  /** The registered contexts (`availableAnalysisContexts`, in registration
      order; a context is identified by its position) with the points-to and
      taint maps of each. */
  datatype Registry = Registry(contexts: seq<seq<ValueId>>, pointsTo: map<nat, PtoMap>, taint: map<nat, TaintMap>)

  /** The first registered context with call sites `cs`, from position `i` on. */
  function FindContext(contexts: seq<seq<ValueId>>, cs: seq<ValueId>, i: nat): (r: Option<nat>)
    requires i <= |contexts|
    ensures r.Some? ==> i <= r.value < |contexts| && contexts[r.value] == cs
    ensures r.Some? ==> forall j :: i <= j < r.value ==> contexts[j] != cs
    ensures r.None? <==> forall j :: i <= j < |contexts| ==> contexts[j] != cs
    decreases |contexts| - i
  {
    if i == |contexts| then None
    else if contexts[i] == cs then Some(i)
    else FindContext(contexts, cs, i + 1)
  }

  /** `getContext`: null for null call sites; otherwise the first registered
      context whose call-site list is equal, or null. */
  function GetContext(reg: Registry, callSites: Option<seq<ValueId>>): (r: Option<nat>)
    ensures callSites.None? ==> r.None?
    ensures r.Some? ==> r.value < |reg.contexts| && Some(reg.contexts[r.value]) == callSites
    ensures callSites.Some? && r.None? ==> callSites.value !in reg.contexts
  {
    if callSites.None? then None else FindContext(reg.contexts, callSites.value, 0)
  }

  /** Every registered context has both maps. */
  predicate WellFormed(reg: Registry)
  {
    forall i :: 0 <= i < |reg.contexts| ==> i in reg.pointsTo && i in reg.taint
  }

  /** `getOrCreateContext`: an existing context with equal call sites is
      returned as it is. Otherwise exactly one context is registered, its
      points-to map a copy of `targetInfo` (or of the globals' records when
      there is none) and its taint map a copy of `targetTaintInfo` (or empty). */
  function GetOrCreateContext(reg: Registry, callSites: seq<ValueId>, targetInfo: Option<PtoMap>,
                              targetTaintInfo: Option<TaintMap>, globals: PtoMap): (r: (Registry, nat))
    ensures callSites in reg.contexts ==> r.0 == reg && r.1 < |reg.contexts| && reg.contexts[r.1] == callSites
    ensures callSites !in reg.contexts ==>
      r.1 == |reg.contexts| && r.0.contexts == reg.contexts + [callSites] &&
      r.0.pointsTo == reg.pointsTo[r.1 := targetInfo.GetOr(globals)] &&
      r.0.taint == reg.taint[r.1 := targetTaintInfo.GetOr(map[])]
    ensures r.1 < |r.0.contexts| && r.0.contexts[r.1] == callSites
    ensures WellFormed(reg) ==> WellFormed(r.0)
  {
    match GetContext(reg, Some(callSites))
    case Some(i) => (reg, i)
    case None =>
      var n := |reg.contexts|;
      (Registry(reg.contexts + [callSites],
                reg.pointsTo[n := targetInfo.GetOr(globals)],
                reg.taint[n := targetTaintInfo.GetOr(map[])]), n)
  }

  /** No two registered contexts have equal call sites. */
  predicate ContextsDistinct(reg: Registry)
  {
    forall i, j :: 0 <= i < j < |reg.contexts| ==> reg.contexts[i] != reg.contexts[j]
  }

  /** A repeated `getOrCreateContext` finds the context the first one made or
      found, whatever maps it is given, and changes nothing; registering
      keeps contexts distinct. */
  lemma GetOrCreateIdempotent(reg: Registry, cs: seq<ValueId>, ti: Option<PtoMap>, tt: Option<TaintMap>,
                              ti2: Option<PtoMap>, tt2: Option<TaintMap>, globals: PtoMap)
    requires ContextsDistinct(reg)
    ensures var r := GetOrCreateContext(reg, cs, ti, tt, globals);
            ContextsDistinct(r.0) && GetOrCreateContext(r.0, cs, ti2, tt2, globals) == r
  {
    var r := GetOrCreateContext(reg, cs, ti, tt, globals);
    DistinctAfterCreate(reg, cs, ti, tt, globals);
    assert cs in r.0.contexts;
    var again := GetContext(r.0, Some(cs));
    assert again.value == r.1;
  }

  /** Registering a context keeps the call-site lists distinct. */
  lemma DistinctAfterCreate(reg: Registry, cs: seq<ValueId>, ti: Option<PtoMap>, tt: Option<TaintMap>, globals: PtoMap)
    requires ContextsDistinct(reg)
    ensures ContextsDistinct(GetOrCreateContext(reg, cs, ti, tt, globals).0)
  {
    var r := GetOrCreateContext(reg, cs, ti, tt, globals);
    if cs !in reg.contexts {
      forall i, j | 0 <= i < j < |r.0.contexts|
        ensures r.0.contexts[i] != r.0.contexts[j]
      {
        if j == |reg.contexts| {
          assert r.0.contexts[i] == reg.contexts[i];
        } else {
          assert r.0.contexts[i] == reg.contexts[i] && r.0.contexts[j] == reg.contexts[j];
        }
      }
    }
  }

  /** `getTaintInfo` of the global state: the taint map of the context with
      these call sites, or null when there is no such context. */
  function GetContextTaintInfo(reg: Registry, callSites: Option<seq<ValueId>>): (r: Option<TaintMap>)
    ensures GetContext(reg, callSites).None? ==> r.None?
    ensures r.Some? ==> GetContext(reg, callSites).value in reg.taint &&
                        r.value == reg.taint[GetContext(reg, callSites).value]
  {
    match GetContext(reg, callSites)
    case None => None
    case Some(i) => if i in reg.taint then Some(reg.taint[i]) else None
  }

  /** A freshly created context is found again with the taint map it was
      given. */
  lemma CreatedContextHasTaint(reg: Registry, cs: seq<ValueId>, ti: Option<PtoMap>, tt: TaintMap, globals: PtoMap)
    requires cs !in reg.contexts
    ensures GetContextTaintInfo(GetOrCreateContext(reg, cs, ti, Some(tt), globals).0, Some(cs)) == Some(tt)
  {
    var r := GetOrCreateContext(reg, cs, ti, Some(tt), globals);
    var i := GetContext(r.0, Some(cs));
    assert r.0.contexts[|reg.contexts|] == cs;
    assert i.Some?;
    assert i.value == |reg.contexts|;
  }

  /** Whether a non-null history entry has the same owner and field as `tf`. */
  predicate InTaintHistory(tf: TypeField, history: seq<Option<TypeField>>)
  {
    exists i :: 0 <= i < |history| && history[i].Some? &&
      history[i].value.priv == tf.priv && history[i].value.fid == tf.fid
  }

  /** `in_taint_history`: true for null and for an entry already there (same
      owner and field, whatever the type); otherwise false, and the entry is
      appended when `insert` is set. */
  function InTaintHistoryUpdate(tf: Option<TypeField>, history: seq<Option<TypeField>>, insert: bool): (r: (bool, seq<Option<TypeField>>))
    ensures tf.None? ==> r == (true, history)
    ensures tf.Some? ==> (r.0 <==> InTaintHistory(tf.value, history))
    ensures r.0 || !insert ==> r.1 == history
    ensures !r.0 && insert ==> r.1 == history + [tf]
  {
    if tf.None? then (true, history)
    else if InTaintHistory(tf.value, history) then (true, history)
    else (false, if insert then history + [tf] else history)
  }

  /** Once inserted, an entry is in the history. */
  lemma TaintHistoryRemembers(tf: TypeField, history: seq<Option<TypeField>>)
    ensures var r := InTaintHistoryUpdate(Some(tf), history, true);
            InTaintHistoryUpdate(Some(tf), r.1, true) == (true, r.1)
  {
    var r := InTaintHistoryUpdate(Some(tf), history, true);
    if !r.0 {
      assert r.1[|history|] == Some(tf);
    }
  }

  /** The traces of a taint chain's entries from the last down to the first,
      concatenated; an entry without a flag (None) contributes nothing. */
  function TracesDown(chain: seq<Option<seq<Option<InstLoc>>>>): seq<Option<InstLoc>>
  {
    if chain == [] then [] else TracesDown(chain[1..]) + chain[0].GetOr([])
  }

  /** `getFullTaintTrace`: null for an empty chain; otherwise the traces of the
      flags of entries `size-1` down to 1, concatenated (entry 0 is left out).
      `chain[i]` is the trace of the flag held by the i-th entry, None when the
      entry or its flag is null. */
  method GetFullTaintTrace(chain: seq<Option<seq<Option<InstLoc>>>>) returns (r: Option<seq<Option<InstLoc>>>)
    ensures chain == [] <==> r.None?
    ensures chain != [] ==> r == Some(TracesDown(chain[1..]))
  {
    if chain == [] {
      return None;
    }
    var tr: seq<Option<InstLoc>> := [];
    var i := |chain| - 1;
    while i > 0
      invariant 0 <= i < |chain|
      invariant tr == TracesDown(chain[i + 1..])
    {
      assert chain[i..][1..] == chain[i + 1..];
      if chain[i].Some? {
        tr := tr + chain[i].value;
      }
      i := i - 1;
    }
    assert chain[1..] == chain[i + 1..];
    r := Some(tr);
  }

  /** The trace grows with the chain: one more entry at the end puts its trace
      in front; the first entry never contributes. */
  lemma {:induction false} TracesDownAppend(chain: seq<Option<seq<Option<InstLoc>>>>, e: Option<seq<Option<InstLoc>>>)
    ensures TracesDown(chain + [e]) == e.GetOr([]) + TracesDown(chain)
  {
    if chain == [] {
      assert [e][1..] == [];
    } else {
      assert (chain + [e])[1..] == chain[1..] + [e];
      TracesDownAppend(chain[1..], e);
    }
  }

  /** The length of the full trace is the sum of the contributing traces'
      lengths. */
  function TraceLengths(chain: seq<Option<seq<Option<InstLoc>>>>): nat
  {
    if chain == [] then 0 else TraceLengths(chain[1..]) + |chain[0].GetOr([])|
  }

  lemma {:induction false} TracesDownLength(chain: seq<Option<seq<Option<InstLoc>>>>)
    ensures |TracesDown(chain)| == TraceLengths(chain)
  {
    if chain != [] {
      TracesDownLength(chain[1..]);
    }
  }

  /** A (field, object) entry of an object-hierarchy chain. */
  type HierarchyEntry = (int, Option<ObjId>)

  /** `in_hierarchy_history`: true when the (field, object) pair is in the
      history; otherwise false, and the pair is appended when `toAdd` is set. */
  function InHierarchyHistory(obj: Option<ObjId>, field: int, history: seq<HierarchyEntry>, toAdd: bool): (r: (bool, seq<HierarchyEntry>))
    ensures r.0 <==> (field, obj) in history
    ensures r.0 || !toAdd ==> r.1 == history
    ensures !r.0 && toAdd ==> r.1 == history + [(field, obj)]
  {
    if (field, obj) in history then (true, history)
    else (false, if toAdd then history + [(field, obj)] else history)
  }

  /** Adding a pair makes the next query answer true without a second copy. */
  lemma HierarchyHistoryRemembers(obj: Option<ObjId>, field: int, history: seq<HierarchyEntry>)
    ensures var r := InHierarchyHistory(obj, field, history, true);
            InHierarchyHistory(obj, field, r.1, true) == (true, r.1) &&
            |r.1| <= |history| + 1
  {
  }

  /** How the hierarchy printer names an object's type and finds its host. */
  datatype ObjView = ObjView(typeStr: ObjId -> string, parent: ObjId -> Option<ObjId>)

  /** The text of entries `chain[i]` down to `chain[0]`: each non-null object
      as `type:fid`, followed, unless it is entry 0, by `.` when the next entry's
      object is embedded in it and `->` otherwise. */
  function HierarchyItems(chain: seq<HierarchyEntry>, i: nat, v: ObjView): (r: string)
    requires i < |chain|
    ensures chain[i].1.Some? ==> v.typeStr(chain[i].1.value) + ":" + IntToString(chain[i].0) <= r
  {
    var (fid, obj) := chain[i];
    var item :=
      if obj.None? then ""
      else v.typeStr(obj.value) + ":" + IntToString(fid) +
           (if i == 0 then ""
            else if chain[i - 1].1.Some? && v.parent(chain[i - 1].1.value) == obj then "."
            else "->");
    var rest := if i == 0 then "" else HierarchyItems(chain, i - 1, v);
    if obj.Some? then
      var name := v.typeStr(obj.value) + ":" + IntToString(fid);
      assert (item + rest)[..|name|] == name;
      item + rest
    else item + rest
  }

  /** The text of entries `i` down to 0 is empty exactly when all their objects
      are null. */
  lemma {:induction false} HierarchyItemsEmpty(chain: seq<HierarchyEntry>, i: nat, v: ObjView)
    requires i < |chain|
    ensures HierarchyItems(chain, i, v) == "" <==> forall j :: 0 <= j <= i ==> chain[j].1.None?
  {
    if i > 0 {
      HierarchyItemsEmpty(chain, i - 1, v);
    }
  }

  /** `hierarchyStrCb`: for a non-empty chain, the text of the chain from its
      last entry to its first, prefixed with `<->` for a recursive chain, is
      added to the set when it is non-empty. An empty chain adds nothing. */
  function HierarchyStrCb(chain: seq<HierarchyEntry>, recur: bool, v: ObjView, hstrs: set<string>): (r: set<string>)
    ensures chain == [] ==> r == hstrs
    ensures chain != [] && recur ==> r == hstrs + {"<->" + HierarchyItems(chain, |chain| - 1, v)}
    ensures chain != [] && !recur ==>
              r == if exists j :: 0 <= j < |chain| && chain[j].1.Some?
                   then hstrs + {HierarchyItems(chain, |chain| - 1, v)} else hstrs
    ensures hstrs <= r && |r - hstrs| <= 1
  {
    if chain == [] then hstrs
    else
      var s := (if recur then "<->" else "") + HierarchyItems(chain, |chain| - 1, v);
      HierarchyItemsEmpty(chain, |chain| - 1, v);
      assert !recur ==> s == HierarchyItems(chain, |chain| - 1, v);
      if |s| > 0 then hstrs + {s} else hstrs
  }

  /** A chain of two non-null objects where the first entry is embedded in
      the second renders as `outer:f1.inner:f0`; when it is merely pointed to
      the separator is `->`. */
  lemma TwoEntryHierarchy(f0: int, o0: ObjId, f1: int, o1: ObjId, v: ObjView)
    ensures var s := HierarchyItems([(f0, Some(o0)), (f1, Some(o1))], 1, v);
            s == v.typeStr(o1) + ":" + IntToString(f1) + (if v.parent(o0) == Some(o1) then "." else "->") +
                 v.typeStr(o0) + ":" + IntToString(f0)
  {
  }

  /** A recursive chain of null objects still adds the bare `<->`. */
  lemma NullRecursiveChain(n: int, v: ObjView)
    ensures HierarchyStrCb([(n, None)], true, v, {}) == {"<->"}
  {
    assert HierarchyItems([(n, None)], 0, v) == "";
    assert "<->" + "" == "<->";
  }

  /** `s1.find(s0) == 0` holds exactly when `s0` is a prefix of `s1`. */
  lemma FindAtZeroIsPrefix(s0: string, s1: string)
    ensures Find(s1, s0) == Some(0) <==> s0 <= s1
  {
    if s0 <= s1 {
      assert s1[0..|s0|] == s0;
      assert OccursAt(s1, s0, 0);
    }
    if Find(s1, s0) == Some(0) {
      assert s1[0..|s0|] == s0;
    }
  }

  /** The test `is_prefix_hierarchy_str` applies to one pair of texts. */
  predicate PrefixPair(s0: string, s1: string)
  {
    Find(s1, s0) == Some(0) && s0 != s1
  }

  /** `is_prefix_hierarchy_str`: false when either set is null; otherwise true
      iff some text of the first set is a proper prefix of some text of the
      second. */
  function IsPrefixHierarchyStr(hs0: Option<set<string>>, hs1: Option<set<string>>): (r: bool)
    ensures hs0.None? || hs1.None? ==> !r
    ensures hs0.Some? && hs1.Some? ==> (r <==> exists s0, s1 :: s0 in hs0.value && s1 in hs1.value && s0 < s1)
  {
    if hs0.None? || hs1.None? then false
    else
      var r := exists s0, s1 :: s0 in hs0.value && s1 in hs1.value && PrefixPair(s0, s1);
      assert forall s0, s1 :: PrefixPair(s0, s1) <==> s0 < s1 by {
        forall s0, s1
          ensures PrefixPair(s0, s1) <==> s0 < s1
        {
          FindAtZeroIsPrefix(s0, s1);
        }
      }
      r
  }

  /** A text is never a proper prefix of itself, and proper prefixes chain. */
  lemma PrefixIrreflexive(s: string, t: string)
    ensures !IsPrefixHierarchyStr(Some({s}), Some({s}))
    ensures IsPrefixHierarchyStr(Some({s}), Some({s + t})) <==> t != []
  {
    if t != [] {
      assert s < s + t;
    } else {
      assert s + t == s;
    }
  }

  /** A recorded warning: an identity and the instruction it is about. */
  datatype Warning = Warning(id: nat, targetInstr: Option<ValueId>)

  /** `addVulnerabilityWarningByInstr`: the warning's instruction gets a list
      (empty if it had none); the warning is added to it unless a recorded
      one is the same vulnerability (`isSameVulWarning`, here `same`) or it
      is already there. */
  function AddVulnerabilityWarningByInstr(byInstr: map<Option<ValueId>, seq<Warning>>, w: Warning,
                                          same: (Warning, Warning) -> bool): (r: map<Option<ValueId>, seq<Warning>>)
    ensures w.targetInstr in r
    ensures forall k :: k != w.targetInstr ==> (k in r <==> k in byInstr) && (k in byInstr ==> r[k] == byInstr[k])
    ensures var prior := if w.targetInstr in byInstr then byInstr[w.targetInstr] else [];
            (exists a :: a in prior && same(a, w)) || w in prior ==> r[w.targetInstr] == prior
    ensures var prior := if w.targetInstr in byInstr then byInstr[w.targetInstr] else [];
            !(exists a :: a in prior && same(a, w)) && w !in prior ==> r[w.targetInstr] == prior + [w]
  {
    var list := if w.targetInstr in byInstr then byInstr[w.targetInstr] else [];
    if exists a :: a in list && same(a, w) then byInstr[w.targetInstr := list]
    else if w in list then byInstr[w.targetInstr := list]
    else byInstr[w.targetInstr := list + [w]]
  }
}

=== FILE: overflow.dfy ===
/** The integer-overflow detector (IntegerOverflowDetector.cpp): a binary
    operator of an overflow-prone kind with a tainted operand raises one
    warning, and an instruction that has been warned about is not looked at
    again. */
module OverflowDetector {
  import opened Wrappers
  import opened InstLocs
  import opened Taint
  import opened TaintUtils

  /** The LLVM 9 opcodes examined: Add (13) to FMul (18). */
  const BinOpStart: nat := 13
  const BinOpEnd: nat := 18

  const OverflowMsg: string := "Potential overflow, using tainted value in binary operation."

  /** A binary operator: the instruction, its opcode and its two operands. */
  datatype BinaryOperator = BinaryOperator(inst: ValueId, opcode: nat, op0: ValueId, op1: ValueId)

  /** A raised warning: the calling context, the trace of the tainted flag,
      the message and the instruction. */
  datatype OverflowWarning = OverflowWarning(callSites: seq<ValueId>, trace: seq<Option<InstLoc>>, msg: string, inst: ValueId)

  /** The detector's memory of warned instructions and the warnings handed to
      the global state, oldest first. */
  datatype DetectorState = DetectorState(warned: set<ValueId>, raised: seq<OverflowWarning>)

  /** The taint flags of the operands, each operand once, in the order they
      are examined. */
  function OperandFlags(m: TaintMap, i: BinaryOperator): seq<TaintFlag>
  {
    GetTaintInfo(m, i.op0).GetOr([]) + (if i.op1 == i.op0 then [] else GetTaintInfo(m, i.op1).GetOr([]))
  }

  /** The position of the first tainting flag. */
  function FirstTainted(fs: seq<TaintFlag>): (r: Option<nat>)
    ensures r.Some? ==> r.value < |fs| && fs[r.value].isTainted && forall j :: 0 <= j < r.value ==> !fs[j].isTainted
    ensures r.None? <==> forall j :: 0 <= j < |fs| ==> !fs[j].isTainted
  {
    if fs == [] then None
    else if fs[0].isTainted then Some(0)
    else match FirstTainted(fs[1..]) {
      case None => None
      case Some(k) => Some(k + 1)
    }
  }

  /** Whether the instruction is one this detector warns about. */
  predicate Warns(st: DetectorState, m: TaintMap, i: BinaryOperator)
  {
    i.inst !in st.warned && BinOpStart <= i.opcode <= BinOpEnd &&
    exists f :: f in OperandFlags(m, i) && f.isTainted
  }

  /** `visitBinaryOperator`: a warned instruction, or an opcode outside
      13..18, leaves everything as it is. Otherwise the first tainting flag of
      the operands raises a warning carrying its trace, and the instruction is
      remembered; with no tainting flag nothing happens. */
  function VisitBinaryOperator(st: DetectorState, callSites: seq<ValueId>, m: TaintMap, i: BinaryOperator): (r: DetectorState)
    ensures !Warns(st, m, i) ==> r == st
    ensures Warns(st, m, i) ==>
      r.warned == st.warned + {i.inst} && |r.raised| == |st.raised| + 1 && r.raised[..|st.raised|] == st.raised &&
      r.raised[|st.raised|].inst == i.inst && r.raised[|st.raised|].callSites == callSites &&
      r.raised[|st.raised|].msg == OverflowMsg
    ensures Warns(st, m, i) ==>
      exists f :: f in OperandFlags(m, i) && f.isTainted && r.raised[|st.raised|].trace == f.trace
  {
    if i.inst in st.warned || !(BinOpStart <= i.opcode <= BinOpEnd) then st
    else
      var fs := OperandFlags(m, i);
      match FirstTainted(fs) {
        case None => st
        case Some(k) =>
          assert fs[k] in fs;
          var w := OverflowWarning(callSites, fs[k].trace, OverflowMsg, i.inst);
          assert (st.raised + [w])[..|st.raised|] == st.raised;
          DetectorState(st.warned + {i.inst}, st.raised + [w])
      }
  }

  /** Every raised warning is about a remembered instruction, and no
      instruction has two. */
  predicate Consistent(st: DetectorState)
  {
    (forall k :: 0 <= k < |st.raised| ==> st.raised[k].inst in st.warned) &&
    (forall a, b :: 0 <= a < b < |st.raised| ==> st.raised[a].inst != st.raised[b].inst)
  }

  /** One visit: the calling context, the taint map seen and the instruction. */
  datatype Visit = Visit(callSites: seq<ValueId>, taint: TaintMap, inst: BinaryOperator)

  /** A run of visits by one detector. */
  function Run(st: DetectorState, vs: seq<Visit>): DetectorState
    decreases |vs|
  {
    if vs == [] then st
    else Run(VisitBinaryOperator(st, vs[0].callSites, vs[0].taint, vs[0].inst), vs[1..])
  }

  lemma VisitKeepsConsistent(st: DetectorState, v: Visit)
    requires Consistent(st)
    ensures Consistent(VisitBinaryOperator(st, v.callSites, v.taint, v.inst))
  {
    var r := VisitBinaryOperator(st, v.callSites, v.taint, v.inst);
    if Warns(st, v.taint, v.inst) {
      forall a, b | 0 <= a < b < |r.raised|
        ensures r.raised[a].inst != r.raised[b].inst
      {
        if b == |st.raised| {
          assert r.raised[a] == st.raised[a];
        } else {
          assert r.raised[a] == st.raised[a] && r.raised[b] == st.raised[b];
        }
      }
      forall k | 0 <= k < |r.raised|
        ensures r.raised[k].inst in r.warned
      {
        if k < |st.raised| {
          assert r.raised[k] == st.raised[k];
        }
      }
    }
  }

  /** However the visits and taint maps go, one detector warns about each
      instruction at most once, and only about instructions it remembers. */
  lemma {:induction false} AtMostOneWarningPerInstruction(st: DetectorState, vs: seq<Visit>)
    requires Consistent(st)
    ensures Consistent(Run(st, vs))
    ensures st.warned <= Run(st, vs).warned
    ensures |st.raised| <= |Run(st, vs).raised| && Run(st, vs).raised[..|st.raised|] == st.raised
    decreases |vs|
  {
    if vs != [] {
      var st1 := VisitBinaryOperator(st, vs[0].callSites, vs[0].taint, vs[0].inst);
      VisitKeepsConsistent(st, vs[0]);
      AtMostOneWarningPerInstruction(st1, vs[1..]);
      assert st.raised <= st1.raised;
    }
  }

  /** A detector for one function in one calling context. */
  datatype Detector = Detector(func: nat, callSites: seq<ValueId>, checker: nat)

  /** `visitCallInst`: a callee with a body gets a detector of its own, for
      the callee in the callee's context and reporting to the same checker; a
      declaration gets none. */
  function VisitCallInst(d: Detector, callee: nat, calleeIsDeclaration: bool, calleeCallSites: seq<ValueId>): (r: Option<Detector>)
    ensures r.Some? <==> !calleeIsDeclaration
    ensures r.Some? ==> r.value.func == callee && r.value.callSites == calleeCallSites && r.value.checker == d.checker
  {
    if calleeIsDeclaration then None else Some(Detector(callee, calleeCallSites, d.checker))
  }
}

=== FILE: points_to_utils.dfy ===
/** Queries over the points-to map of a calling context (PointsToUtils.cpp):
    whether a pointer has records, the objects it may point to, the distinct
    (destination field, object) pairs of a record set, and the type-based
    resolution of indirect call targets with its per-module cache. */
module PointsToUtils {
  import opened Wrappers
  import opened Text
  import opened InstLocs
  import opened TypeModel
  import opened AliasObjects

  /** The points-to map of one calling context: each pointer value's records. */
  type PtoMap = map<ValueId, seq<PointsTo>>

  /** A (destination field, target object) pair. */
  type Pair = (int, Option<ObjId>)

  function PairOf(p: PointsTo): Pair
  {
    (p.dstfieldId, p.target)
  }

  /** No element occurs twice. */
  predicate Distinct<T(==)>(s: seq<T>)
  {
    forall i, j :: 0 <= i < j < |s| ==> s[i] != s[j]
  }

  /** `hasPointsToObjects` of PointsToUtils: the pointer has an entry, even an
      empty one. */
  predicate HasPointsToObjects(m: PtoMap, v: ValueId)
  {
    v in m
  }

  /** The targets of the records in `s`. */
  function TargetsOf(s: seq<PointsTo>): set<Option<ObjId>>
  {
    set i | 0 <= i < |s| :: s[i].target
  }

  /** Inserting the targets of `s`, one record at a time, into `dst`: true iff
      one of them was not there yet. */
  function AddTargets(s: seq<PointsTo>, dst: set<Option<ObjId>>): (r: (bool, set<Option<ObjId>>))
    ensures r.1 == dst + TargetsOf(s)
    ensures r.0 <==> !(TargetsOf(s) <= dst)
  {
    if s == [] then (false, dst)
    else
      var init := s[..|s| - 1];
      var last := s[|s| - 1];
      var r := AddTargets(init, dst);
      assert TargetsOf(s) == TargetsOf(init) + {last.target} by {
        assert forall i :: 0 <= i < |init| ==> init[i] == s[i];
      }
      if last.target in r.1 then (r.0, r.1) else (true, r.1 + {last.target})
  }

  /** `getAllAliasObjects`: adds the targets of the pointer's records to `dst`
      and answers whether at least one was new. A pointer without an entry adds
      nothing. */
  function GetAllAliasObjects(m: PtoMap, v: ValueId, dst: set<Option<ObjId>>): (r: (bool, set<Option<ObjId>>))
    ensures v !in m ==> r == (false, dst)
    ensures v in m ==> r.1 == dst + TargetsOf(m[v])
    ensures r.0 <==> r.1 != dst
  {
    if v in m then AddTargets(m[v], dst) else (false, dst)
  }

  /** Collecting the pairs of `s` into `acc`, each pair only if absent. */
  function AddPairs(acc: seq<Pair>, s: seq<PointsTo>): (r: seq<Pair>)
    ensures |acc| <= |r| && r[..|acc|] == acc
    ensures forall x :: x in r <==> x in acc || exists p :: p in s && PairOf(p) == x
    ensures forall k :: |acc| <= k < |r| ==> r[k] !in acc
    ensures Distinct(acc) ==> Distinct(r)
  {
    if s == [] then acc
    else
      var init := s[..|s| - 1];
      var last := s[|s| - 1];
      var r := AddPairs(acc, init);
      assert forall p :: p in s <==> p in init || p == last;
      if PairOf(last) in r then r
      else
        var r' := r + [PairOf(last)];
        assert r'[..|acc|] == acc;
        r'
  }

  /** `getTargetObjects`: false for a null or empty record set; otherwise every
      pair of the set not yet collected is added. */
  function GetTargetObjects(dst: Option<seq<PointsTo>>, acc: seq<Pair>): (r: (bool, seq<Pair>))
    ensures dst.None? || dst.value == [] ==> r == (false, acc)
    ensures dst.Some? && dst.value != [] ==> r.0 && r.1 == AddPairs(acc, dst.value)
  {
    if dst.None? || dst.value == [] then (false, acc) else (true, AddPairs(acc, dst.value))
  }

  /** A set of pairs collected from scratch holds each pair of the records
      exactly once. */
  lemma TargetObjectsExactlyOnce(dst: seq<PointsTo>)
    requires dst != []
    ensures var r := GetTargetObjects(Some(dst), []).1;
            Distinct(r) && forall x :: x in r <==> exists p :: p in dst && PairOf(p) == x
  {
  }

  /** A function of the module as the type-based resolution sees it: whether
      it is only declared, its type, whether some non-call instruction uses
      it, and the source file of its entry instruction's debug location. */
  datatype FnInfo = FnInfo(id: nat, isDeclaration: bool, ty: Ty, usedOutsideCalls: bool, entryFile: Option<string>)

  /** The caller file's text before its last `/` (all of it when there is no
      `/`). */
  function ParentFolder(file: string): (r: string)
    ensures RFind(file, '/').None? ==> r == file
    ensures RFind(file, '/').Some? ==>
      |r| < |file| && file[..|r|] == r && file[|r|] == '/' && forall j :: |r| < j < |file| ==> file[j] != '/'
  {
    match RFind(file, '/')
    case None => file
    case Some(k) => file[..k]
  }

  /** Whether a candidate survives the location filter. */
  predicate NearCaller(f: FnInfo, folder: string)
  {
    f.entryFile.Some? && Contains(f.entryFile.value, folder)
  }

  /** `filterPossibleFunctionsByLoc` for a call whose debug location names
      `callFile` (None when it has none): without a location the list is
      cleared; otherwise only functions whose entry file contains the caller's
      folder are kept, in order. */
  function FilterPossibleFunctionsByLoc(callFile: Option<string>, fs: seq<FnInfo>): (r: seq<FnInfo>)
    ensures callFile.None? ==> r == []
    ensures |r| <= |fs|
    ensures callFile.Some? ==> forall f :: f in r <==> f in fs && NearCaller(f, ParentFolder(callFile.value))
  {
    if callFile.None? then [] else KeepNear(fs, ParentFolder(callFile.value))
  }

  /** The members of `fs` near `folder`, in order. */
  function KeepNear(fs: seq<FnInfo>, folder: string): (r: seq<FnInfo>)
    ensures |r| <= |fs|
    ensures forall f :: f in r <==> f in fs && NearCaller(f, folder)
  {
    if fs == [] then []
    else
      assert forall f :: f in fs <==> f == fs[0] || f in fs[1..];
      (if NearCaller(fs[0], folder) then [fs[0]] else []) + KeepNear(fs[1..], folder)
  }

  /** The module's defined functions of the call's type that some non-call
      instruction uses, in module order. */
  function Candidates(fns: seq<FnInfo>, fty: Ty): (r: seq<FnInfo>)
    ensures forall f :: f in r <==> f in fns && !f.isDeclaration &&
                                    SameTypes(Some(f.ty), Some(fty), false) && f.usedOutsideCalls
  {
    if fns == [] then []
    else
      assert forall f :: f in fns <==> f == fns[0] || f in fns[1..];
      var f := fns[0];
      (if !f.isDeclaration && SameTypes(Some(f.ty), Some(fty), false) && f.usedOutsideCalls then [f] else []) +
      Candidates(fns[1..], fty)
  }

  /** The per-module, per-call-type cache of resolved targets. */
  type TargetCache = map<(nat, Ty), seq<FnInfo>>

  /** `getPossibleFunctionTargets`: a (module, type) pair on file returns the
      cached list. Otherwise the candidates are appended to the caller's list,
      the whole list is filtered by location, and a non-empty result is cached
      and reported as success. */
  function GetPossibleFunctionTargets(cache: TargetCache, moduleId: nat, fns: seq<FnInfo>, fty: Ty,
                                      callFile: Option<string>, targets: seq<FnInfo>): (r: (TargetCache, seq<FnInfo>, bool))
    ensures (moduleId, fty) in cache ==> r == (cache, cache[(moduleId, fty)], true)
    ensures (moduleId, fty) !in cache ==>
      r.1 == FilterPossibleFunctionsByLoc(callFile, targets + Candidates(fns, fty)) &&
      (r.2 <==> r.1 != []) &&
      r.0 == if r.2 then cache[(moduleId, fty) := r.1] else cache
  {
    var key := (moduleId, fty);
    if key in cache then (cache, cache[key], true)
    else
      var found := FilterPossibleFunctionsByLoc(callFile, targets + Candidates(fns, fty));
      if found != [] then (cache[key := found], found, true) else (cache, found, false)
  }

  /** A repeated lookup for the same module and type returns what the first
      successful one returned, whatever the caller's list, and leaves the cache
      alone. */
  lemma RepeatedLookupIsCached(cache: TargetCache, moduleId: nat, fns: seq<FnInfo>, fty: Ty,
                               callFile: Option<string>, targets: seq<FnInfo>, later: seq<FnInfo>)
    requires GetPossibleFunctionTargets(cache, moduleId, fns, fty, callFile, targets).2
    ensures var r := GetPossibleFunctionTargets(cache, moduleId, fns, fty, callFile, targets);
            GetPossibleFunctionTargets(r.0, moduleId, fns, fty, callFile, later) == (r.0, r.1, true)
  {
  }

  /** Every resolved target, when computed fresh, is either from the caller's
      list or a same-typed defined function used outside calls, and lies near
      the caller. */
  lemma ResolvedTargetsAreCandidates(cache: TargetCache, moduleId: nat, fns: seq<FnInfo>, fty: Ty,
                                     file: string, targets: seq<FnInfo>)
    requires (moduleId, fty) !in cache
    ensures var r := GetPossibleFunctionTargets(cache, moduleId, fns, fty, Some(file), targets);
            forall f :: f in r.1 ==>
              NearCaller(f, ParentFolder(file)) &&
              (f in targets || (f in fns && !f.isDeclaration && f.usedOutsideCalls &&
                                SameTypes(Some(f.ty), Some(fty), false)))
  {
    var r := GetPossibleFunctionTargets(cache, moduleId, fns, fty, Some(file), targets);
    forall f | f in r.1
      ensures f in targets || f in Candidates(fns, fty)
    {
      assert f in targets + Candidates(fns, fty);
    }
  }
}

=== FILE: seqs.dfy ===
/** Small facts about sequences, stated for any element type so that a proof
    using them never unfolds the equality of the elements. */
module Seqs {
  lemma TailAt<T>(s: seq<T>, i: int)
    requires 1 <= i < |s|
    ensures s[1..][i - 1] == s[i]
  {
  }

  lemma SnocLast<T>(s: seq<T>, x: T)
    ensures (s + [x])[|s|] == x
  {
  }

  lemma TakeNext<T>(s: seq<T>, i: int)
    requires 0 <= i < |s|
    ensures s[..i + 1] == s[..i] + [s[i]]
  {
  }

  lemma HeadIn<T>(s: seq<T>)
    requires |s| > 0
    ensures s[0] in s
  {
  }

  lemma InTail<T>(s: seq<T>, x: T)
    requires |s| > 0 && x in s[1..]
    ensures x in s
  {
    var k :| 0 <= k < |s| - 1 && s[1..][k] == x;
    assert s[k + 1] == x;
  }

  lemma PrefixOfAppend<T>(a: seq<T>, b: seq<T>)
    ensures a <= a + b
  {
    assert (a + b)[..|a|] == a;
  }

  lemma PrefixOfNested<T>(a: seq<T>, b: seq<T>, c: seq<T>, d: seq<T>)
    ensures a + b + c <= a + (b + c + d)
  {
    assert a + (b + c + d) == (a + b + c) + d;
    PrefixOfAppend(a + b + c, d);
  }

  lemma PrefixTrans<T>(a: seq<T>, b: seq<T>, c: seq<T>)
    requires a <= b && b <= c
    ensures a <= c
  {
    assert c[..|a|] == b[..|a|];
  }

  lemma DropPrefix<T>(a: seq<T>, b: seq<T>)
    ensures (a + b)[|a|..] == b
  {
  }

  lemma ConsSplit<T>(a: seq<T>, p: seq<T>)
    requires |p| > 0
    ensures a + p == (a + [p[0]]) + p[1..]
  {
  }

  lemma Assoc3<T>(a: seq<T>, b: seq<T>, c: seq<T>, d: seq<T>)
    ensures ((a + b) + c) + d == a + ((b + c) + d)
  {
  }

  /** No element repeats: the first does not occur again and the rest has no
      repetition (`DistinctMeans` states it pairwise). */
  predicate Distinct<T(==)>(s: seq<T>)
    decreases |s|
  {
    |s| == 0 || (s[0] !in s[1..] && Distinct(s[1..]))
  }

  /** `Distinct` holds exactly when any two positions hold different elements. */
  lemma {:induction false} DistinctMeans<T>(s: seq<T>)
    ensures Distinct(s) <==> forall i, j :: 0 <= i < j < |s| ==> s[i] != s[j]
    decreases |s|
  {
    if |s| > 0 {
      var t := s[1..];
      DistinctMeans(t);
      if Distinct(s) {
        forall i, j | 0 <= i < j < |s|
          ensures s[i] != s[j]
        {
          assert s[j] == t[j - 1];
          if i > 0 {
            assert s[i] == t[i - 1];
          }
        }
      }
      if forall i, j :: 0 <= i < j < |s| ==> s[i] != s[j] {
        forall i, j | 0 <= i < j < |t|
          ensures t[i] != t[j]
        {
          assert t[i] == s[i + 1] && t[j] == s[j + 1];
        }
        forall j | 0 <= j < |t|
          ensures t[j] != s[0]
        {
          assert t[j] == s[j + 1];
        }
      }
    }
  }

  /** An element not in a repetition-free sequence can be pushed after it. */
  lemma {:induction false} DistinctPush<T>(s: seq<T>, x: T)
    requires Distinct(s) && x !in s
    ensures Distinct(s + [x])
    decreases |s|
  {
    if |s| > 0 {
      assert (s + [x])[1..] == s[1..] + [x];
      DistinctPush(s[1..], x);
    }
  }

  /** A sequence continued by one starting with an element it holds repeats that
      element. */
  lemma {:induction false} RepeatsHead<T>(s: seq<T>, q: seq<T>)
    requires |q| > 0 && q[0] in s
    ensures !Distinct(s + q)
    decreases |s|
  {
    if s[0] == q[0] {
      assert q[0] == (s + q)[|s|];
      assert q[0] in (s + q)[1..] by {
        assert (s + q)[1..][|s| - 1] == q[0];
      }
    } else {
      assert (s + q)[1..] == s[1..] + q;
      RepeatsHead(s[1..], q);
    }
  }
}

=== FILE: switch_cases.dfy ===
/** The switch-case analysis (SwitchAnalysisVisitor.cpp): for a switch on the
    `cmd` argument, every case value is recorded on its case block and on all
    blocks reachable from it, using a memoised closure of block successors. */
module SwitchCases {
  import opened Wrappers
  import opened InstLocs

  /** A basic block of the function, and its control-flow graph as the list
      of successors of each block. */
  type Block = int
  type Cfg = seq<seq<Block>>

  predicate ValidCfg(g: Cfg)
  {
    forall b, i :: 0 <= b < |g| && 0 <= i < |g[b]| ==> 0 <= g[b][i] < |g|
  }

  /** `x` is reached from `b` in exactly `k + 1` steps. */
  ghost predicate ReachIn(g: Cfg, b: Block, x: Block, k: nat)
    decreases k
  {
    0 <= b < |g| && if k == 0 then x in g[b] else exists y :: y in g[b] && ReachIn(g, y, x, k - 1)
  }

  /** `x` is reached from `b` in one or more steps. */
  ghost predicate Reachable(g: Cfg, b: Block, x: Block)
  {
    exists k: nat :: ReachIn(g, b, x, k)
  }

  /** No block reaches itself. */
  ghost predicate Acyclic(g: Cfg)
  {
    forall b, k: nat :: !ReachIn(g, b, b, k)
  }

  /** A successor's reachable blocks are reachable. */
  lemma StepFirst(g: Cfg, b: Block, y: Block, x: Block)
    requires 0 <= b < |g| && y in g[b] && Reachable(g, y, x)
    ensures Reachable(g, b, x)
  {
    var k: nat :| ReachIn(g, y, x, k);
    assert ReachIn(g, b, x, k + 1);
  }

  /** One more step at the end of a path. */
  lemma {:induction false} StepLastIn(g: Cfg, b: Block, y: Block, x: Block, k: nat)
    requires ReachIn(g, b, y, k) && 0 <= y < |g| && x in g[y]
    ensures ReachIn(g, b, x, k + 1)
    decreases k
  {
    if k == 0 {
      assert ReachIn(g, y, x, 0);
    } else {
      var z :| z in g[b] && ReachIn(g, z, y, k - 1);
      StepLastIn(g, z, y, x, k - 1);
    }
  }

  lemma StepLast(g: Cfg, b: Block, y: Block, x: Block)
    requires Reachable(g, b, y) && 0 <= y < |g| && x in g[y]
    ensures Reachable(g, b, x)
  {
    var k: nat :| ReachIn(g, b, y, k);
    StepLastIn(g, b, y, x, k);
  }

  /** The memo of `get_all_successors` (`succ_map`). */
  type Memo = map<Block, set<Block>>

  /** Every memoised successor is reachable from its block. */
  ghost predicate Sound(g: Cfg, memo: Memo)
  {
    forall b, x :: b in memo && x in memo[b] ==> Reachable(g, b, x)
  }

  /** The entry of `b` holds every successor of `b` and every successor's
      entry. */
  ghost predicate Closed(g: Cfg, memo: Memo, b: Block)
  {
    b in memo && 0 <= b < |g| && forall x :: x in g[b] ==> x in memo && x in memo[b] && memo[x] <= memo[b]
  }

  /** Every entry outside `stack` (the blocks whose closure is being
      computed) is closed. */
  ghost predicate ClosedBut(g: Cfg, memo: Memo, stack: set<Block>)
  {
    forall b :: b in memo && b !in stack ==> Closed(g, memo, b)
  }

  /** In a closed memo, an entry holds every block reachable from its block. */
  lemma {:induction false} ClosedComplete(g: Cfg, memo: Memo, b: Block, x: Block, k: nat)
    requires ClosedBut(g, memo, {}) && b in memo && ReachIn(g, b, x, k)
    ensures x in memo[b]
    decreases k
  {
    assert Closed(g, memo, b);
    if k > 0 {
      var y :| y in g[b] && ReachIn(g, y, x, k - 1);
      ClosedComplete(g, memo, y, x, k - 1);
    }
  }

  /** The blocks without an entry. */
  ghost function Unmemo(g: Cfg, memo: Memo): set<Block>
  {
    set b | 0 <= b < |g| && b !in memo
  }

  /** In an acyclic graph, changing the entry of the block being expanded
      keeps every other closed entry closed: no closed entry has that block
      as a successor. */
  lemma UpdateTopKeepsClosed(g: Cfg, memo: Memo, m: Memo, bb: Block, stack: set<Block>, s: set<Block>)
    requires Acyclic(g) && 0 <= bb < |g| && bb !in memo
    requires ClosedBut(g, memo, stack) && ClosedBut(g, m, stack + {bb})
    requires forall b :: b in m && b !in memo ==> b == bb || Reachable(g, bb, b)
    ensures ClosedBut(g, m[bb := s], stack + {bb})
  {
    var m' := m[bb := s];
    forall b | b in m' && b !in stack + {bb}
      ensures Closed(g, m', b)
    {
      assert Closed(g, m, b);
      if bb in g[b] && b !in memo {
        StepLast(g, bb, b, bb);
      }
    }
  }

  /** `get_all_successors`: a block with an entry gets that entry back and
      the memo is left alone. Otherwise each successor is added to the block's
      entry, expanded first when it has no entry of its own, and its entry
      merged in; a block without successors gets an empty entry. Entries that
      existed are never changed. Every returned block is reachable in one or
      more steps; on an acyclic graph, starting from a closed memo
      (`stack` empty), the result is exactly the set of reachable blocks.
      `stack` is the (ghost) set of blocks being expanded by the callers. */
  method GetAllSuccessors(g: Cfg, memo: Memo, bb: Block, ghost stack: set<Block>) returns (memo': Memo, r: set<Block>)
    requires ValidCfg(g) && 0 <= bb < |g| && Sound(g, memo)
    requires Acyclic(g) ==> ClosedBut(g, memo, stack) && bb !in stack && forall s :: s in stack ==> Reachable(g, s, bb)
    ensures bb in memo ==> memo' == memo && r == memo[bb]
    ensures bb in memo' && r == memo'[bb]
    ensures forall b :: b in memo ==> b in memo' && memo'[b] == memo[b]
    ensures Sound(g, memo')
    ensures forall x :: x in r ==> Reachable(g, bb, x)
    ensures bb !in memo ==> forall x :: x in g[bb] ==> x in r
    ensures Acyclic(g) ==> ClosedBut(g, memo', stack)
    ensures Acyclic(g) ==> forall b :: b in memo' && b !in memo ==> b == bb || Reachable(g, bb, b)
    ensures Acyclic(g) && stack == {} ==> forall x :: x in r <==> Reachable(g, bb, x)
    decreases Unmemo(g, memo)
  {
    if bb in memo {
      if Acyclic(g) && stack == {} {
        forall x | Reachable(g, bb, x)
          ensures x in memo[bb]
        {
          var k: nat :| ReachIn(g, bb, x, k);
          ClosedComplete(g, memo, bb, x, k);
        }
      }
      return memo, memo[bb];
    }
    var m := memo;
    var i := 0;
    while i < |g[bb]|
      invariant 0 <= i <= |g[bb]|
      invariant Sound(g, m)
      invariant forall b :: b in memo ==> b in m && m[b] == memo[b]
      invariant i > 0 ==> bb in m
      invariant forall j :: 0 <= j < i ==> g[bb][j] in m && g[bb][j] in m[bb] && m[g[bb][j]] <= m[bb]
      invariant Acyclic(g) ==> ClosedBut(g, m, stack + {bb})
      invariant Acyclic(g) ==> forall b :: b in m && b !in memo ==> b == bb || Reachable(g, bb, b)
    {
      var curr := g[bb][i];
      assert ReachIn(g, bb, curr, 0);
      var m1 := m[bb := (if bb in m then m[bb] else {}) + {curr}];
      if Acyclic(g) {
        UpdateTopKeepsClosed(g, memo, m, bb, stack, (if bb in m then m[bb] else {}) + {curr});
      }
      if curr !in m1 {
        ghost var stack' := stack + {bb};
        if Acyclic(g) {
          forall s | s in stack'
            ensures Reachable(g, s, curr)
          {
            if s != bb {
              StepLast(g, s, bb, curr);
            }
          }
          if curr in stack {
            StepLast(g, curr, bb, curr);
          }
        }
        assert Unmemo(g, m1) < Unmemo(g, memo) by {
          assert bb in Unmemo(g, memo) && bb !in Unmemo(g, m1);
        }
        var m2, _ := GetAllSuccessors(g, m1, curr, stack');
        if Acyclic(g) {
          forall b | b in m2 && b !in memo
            ensures b == bb || Reachable(g, bb, b)
          {
            if b !in m1 && b != curr {
              StepFirst(g, bb, curr, b);
            }
          }
        }
        m1 := m2;
      }
      forall x | x in m1[curr]
        ensures Reachable(g, bb, x)
      {
        StepFirst(g, bb, curr, x);
      }
      if Acyclic(g) {
        UpdateTopKeepsClosed(g, memo, m1, bb, stack, m1[bb] + m1[curr]);
      }
      m := m1[bb := m1[bb] + m1[curr]];
      i := i + 1;
    }
    if bb !in m {
      if Acyclic(g) {
        UpdateTopKeepsClosed(g, memo, m, bb, stack, {});
      }
      m := m[bb := {}];
    }
    assert Closed(g, m, bb) by {
      forall x | x in g[bb]
        ensures x in m && x in m[bb] && m[x] <= m[bb]
      {
        var j :| 0 <= j < |g[bb]| && g[bb][j] == x;
      }
    }
    memo', r := m, m[bb];
    if Acyclic(g) && stack == {} {
      forall x | Reachable(g, bb, x)
        ensures x in r
      {
        var k: nat :| ReachIn(g, bb, x, k);
        ClosedComplete(g, memo', bb, x, k);
      }
    }
  }

  /** A switch: the name of its condition value (None for a null or unnamed
      one) and its cases as (zero-extended case value, case block) pairs. */
  datatype SwitchInst = SwitchInst(condName: Option<string>, cases: seq<(nat, Block)>)

  /** `switchMap`: the case values that may hold in each block. */
  type SwitchMap = map<Block, set<nat>>

  function Values(sm: SwitchMap, b: Block): set<nat>
  {
    if b in sm then sm[b] else {}
  }

  /** Adding value `v` to the entry of every block of `blocks`. */
  function AddValue(sm: SwitchMap, blocks: set<Block>, v: nat): (r: SwitchMap)
    ensures forall b :: Values(r, b) == if b in blocks then Values(sm, b) + {v} else Values(sm, b)
  {
    map b | b in sm.Keys + blocks :: if b in blocks then Values(sm, b) + {v} else sm[b]
  }

  /** One of the first `n` cases has value `v` and block `b` is its case block
      or a memoised successor of it. */
  predicate CaseReaches(cases: seq<(nat, Block)>, n: nat, memo: Memo, v: nat, b: Block)
    requires n <= |cases|
  {
    exists j :: 0 <= j < n && cases[j].0 == v && (cases[j].1 == b || (cases[j].1 in memo && b in memo[cases[j].1]))
  }

  /** Entries of case blocks that do not change keep `CaseReaches`. */
  lemma CaseReachesFrame(cases: seq<(nat, Block)>, n: nat, m: Memo, m2: Memo, v: nat, b: Block)
    requires n <= |cases| && forall j :: 0 <= j < n ==> cases[j].1 in m
    requires forall x :: x in m ==> x in m2 && m2[x] == m[x]
    ensures CaseReaches(cases, n, m, v, b) <==> CaseReaches(cases, n, m2, v, b)
  {
    if CaseReaches(cases, n, m2, v, b) {
      var j :| 0 <= j < n && cases[j].0 == v && (cases[j].1 == b || (cases[j].1 in m2 && b in m2[cases[j].1]));
      assert cases[j].1 in m;
    }
  }

  /** One more case. */
  lemma CaseReachesNext(cases: seq<(nat, Block)>, i: nat, m: Memo, v: nat, b: Block)
    requires i < |cases| && cases[i].1 in m
    ensures CaseReaches(cases, i + 1, m, v, b) <==>
            CaseReaches(cases, i, m, v, b) || (v == cases[i].0 && b in {cases[i].1} + m[cases[i].1])
  {
    if CaseReaches(cases, i + 1, m, v, b) && !CaseReaches(cases, i, m, v, b) {
      var j :| 0 <= j < i + 1 && cases[j].0 == v && (cases[j].1 == b || (cases[j].1 in m && b in m[cases[j].1]));
      assert j == i;
    }
  }

  /** Whether a case value can hold in a block. */
  ghost predicate CaseCovers(g: Cfg, cases: seq<(nat, Block)>, v: nat, b: Block)
  {
    exists j :: 0 <= j < |cases| && cases[j].0 == v && (cases[j].1 == b || Reachable(g, cases[j].1, b))
  }

  /** `visitSwitchInst`: only a switch on a value named `cmd` changes
      `switchMap`. Then each case value is added to its case block and to every
      block of the case block's successor closure. A value recorded anew is
      always one a case can carry to that block; on an acyclic graph with a
      closed memo, every such value is recorded. */
  method VisitSwitchInst(g: Cfg, memo: Memo, sm: SwitchMap, sw: SwitchInst) returns (memo': Memo, sm': SwitchMap)
    requires ValidCfg(g) && Sound(g, memo)
    requires forall j :: 0 <= j < |sw.cases| ==> 0 <= sw.cases[j].1 < |g|
    requires Acyclic(g) ==> ClosedBut(g, memo, {})
    ensures sw.condName != Some("cmd") ==> memo' == memo && sm' == sm
    ensures Sound(g, memo') && forall b :: b in memo ==> b in memo' && memo'[b] == memo[b]
    ensures Acyclic(g) ==> ClosedBut(g, memo', {})
    ensures sw.condName == Some("cmd") ==>
      forall b, v :: v in Values(sm', b) <==> v in Values(sm, b) || CaseReaches(sw.cases, |sw.cases|, memo', v, b)
    ensures forall b, v :: v in Values(sm', b) && v !in Values(sm, b) ==> CaseCovers(g, sw.cases, v, b)
    ensures sw.condName == Some("cmd") && Acyclic(g) ==>
      forall b, v :: CaseCovers(g, sw.cases, v, b) ==> v in Values(sm', b)
  {
    if sw.condName != Some("cmd") {
      return memo, sm;
    }
    var m, s := memo, sm;
    var i := 0;
    while i < |sw.cases|
      invariant 0 <= i <= |sw.cases|
      invariant Sound(g, m) && forall b :: b in memo ==> b in m && m[b] == memo[b]
      invariant Acyclic(g) ==> ClosedBut(g, m, {})
      invariant forall j :: 0 <= j < i ==> sw.cases[j].1 in m
      invariant RecordsCases(s, sm, sw.cases, i, m)
    {
      var (val, bb) := sw.cases[i];
      var m2, succs := GetAllSuccessors(g, m, bb, {});
      var s2 := AddValue(s, {bb} + succs, val);
      AddCaseValues(sw.cases, i, sm, s, m, m2, succs);
      m, s := m2, s2;
      i := i + 1;
    }
    memo', sm' := m, s;
    CaseValuesFinal(g, sw.cases, sm, s, m);
  }

  /** Once every case is recorded, the values added are exactly those of the
      cases covering each block (all of them when the graph is acyclic). */
  lemma CaseValuesFinal(g: Cfg, cases: seq<(nat, Block)>, sm: SwitchMap, s: SwitchMap, m: Memo)
    requires Sound(g, m) && forall j :: 0 <= j < |cases| ==> cases[j].1 in m
    requires Acyclic(g) ==> ClosedBut(g, m, {})
    requires RecordsCases(s, sm, cases, |cases|, m)
    ensures forall b, v :: v in Values(s, b) && v !in Values(sm, b) ==> CaseCovers(g, cases, v, b)
    ensures Acyclic(g) ==> forall b, v :: CaseCovers(g, cases, v, b) ==> v in Values(s, b)
  {
    forall b, v | v in Values(s, b) && v !in Values(sm, b)
      ensures CaseCovers(g, cases, v, b)
    {
      CaseReachesCovers(g, cases, m, v, b);
    }
    if Acyclic(g) {
      forall b, v | CaseCovers(g, cases, v, b)
        ensures v in Values(s, b)
      {
        CaseCoversReaches(g, cases, m, v, b);
      }
    }
  }

  /** The values recorded over those of `sm` are exactly those of the first `n`
      cases, each for its case block and the blocks the memo lists after it. */
  ghost predicate RecordsCases(s: SwitchMap, sm: SwitchMap, cases: seq<(nat, Block)>, n: nat, m: Memo)
  {
    n <= |cases| && forall b, v :: v in Values(s, b) <==> v in Values(sm, b) || CaseReaches(cases, n, m, v, b)
  }

  /** Adding the value of case `i` to its block and its successors records
      exactly one more case. */
  lemma AddCaseValues(cases: seq<(nat, Block)>, i: nat, sm: SwitchMap, s: SwitchMap, m: Memo, m2: Memo, succs: set<Block>)
    requires i < |cases| && forall j :: 0 <= j < i ==> cases[j].1 in m
    requires forall x :: x in m ==> x in m2 && m2[x] == m[x]
    requires cases[i].1 in m2 && succs == m2[cases[i].1]
    requires RecordsCases(s, sm, cases, i, m)
    ensures RecordsCases(AddValue(s, {cases[i].1} + succs, cases[i].0), sm, cases, i + 1, m2)
    ensures forall j :: 0 <= j < i + 1 ==> cases[j].1 in m2
  {
    forall j | 0 <= j < i + 1
      ensures cases[j].1 in m2
    {
      var x := cases[j].1;
      if j < i {
        assert x in m;
      }
    }
    forall b, v
      ensures v in Values(AddValue(s, {cases[i].1} + succs, cases[i].0), b) <==>
              v in Values(sm, b) || CaseReaches(cases, i + 1, m2, v, b)
    {
      CaseReachesFrame(cases, i, m, m2, v, b);
      CaseReachesNext(cases, i, m2, v, b);
    }
  }

  /** A value recorded through the memo reaches its block in the CFG. */
  lemma CaseReachesCovers(g: Cfg, cases: seq<(nat, Block)>, m: Memo, v: nat, b: Block)
    requires Sound(g, m) && CaseReaches(cases, |cases|, m, v, b)
    ensures CaseCovers(g, cases, v, b)
  {
    var j :| 0 <= j < |cases| && cases[j].0 == v && (cases[j].1 == b || (cases[j].1 in m && b in m[cases[j].1]));
    if cases[j].1 != b {
      assert Reachable(g, cases[j].1, b);
    }
  }

  /** With every case block in a closed memo of an acyclic CFG, a value whose
      case block reaches `b` is recorded for `b`. */
  lemma CaseCoversReaches(g: Cfg, cases: seq<(nat, Block)>, m: Memo, v: nat, b: Block)
    requires Acyclic(g) && ClosedBut(g, m, {}) && forall j :: 0 <= j < |cases| ==> cases[j].1 in m
    requires CaseCovers(g, cases, v, b)
    ensures CaseReaches(cases, |cases|, m, v, b)
  {
    var j :| 0 <= j < |cases| && cases[j].0 == v && (cases[j].1 == b || Reachable(g, cases[j].1, b));
    if cases[j].1 != b {
      var k: nat :| ReachIn(g, cases[j].1, b, k);
      ClosedComplete(g, m, cases[j].1, b, k);
    }
  }

  /** Expanding blocks one after another from an empty memo on an acyclic
      graph gives each block exactly its reachable blocks, and the memo answers
      the second expansion of a block without change. */
  method SuccessorsTwice(g: Cfg, a: Block, b: Block) returns (ra: set<Block>, rb: set<Block>, ra2: set<Block>)
    requires ValidCfg(g) && 0 <= a < |g| && 0 <= b < |g| && Acyclic(g)
    ensures forall x :: x in ra <==> Reachable(g, a, x)
    ensures forall x :: x in rb <==> Reachable(g, b, x)
    ensures ra2 == ra
  {
    var m: Memo := map[];
    m, ra := GetAllSuccessors(g, m, a, {});
    m, rb := GetAllSuccessors(g, m, b, {});
    m, ra2 := GetAllSuccessors(g, m, a, {});
  }

  /** A switch visitor: the function it analyses and its calling context. */
  datatype SwitchVisitor = SwitchVisitor(func: nat, callSites: seq<ValueId>)

  /** `visitCallInst`: a callee with a body gets a switch visitor of its own,
      in the callee's calling context, so that nested `cmd` switches are seen;
      a declaration gets none. */
  function VisitCallInst(callee: nat, calleeIsDeclaration: bool, callSiteContext: seq<ValueId>): (r: Option<SwitchVisitor>)
    ensures r.Some? <==> !calleeIsDeclaration
    ensures r.Some? ==> r.value.func == callee && r.value.callSites == callSiteContext
  {
    if calleeIsDeclaration then None else Some(SwitchVisitor(callee, callSiteContext))
  }
}

=== FILE: taint.dfy ===
/** Taint tags, taint flags and the taint record of one object field
    (TaintInfo.h). A tag names a taint source; a flag says that a value or field
    is tainted (or, with `isTainted` false, that a taint is killed) at a location
    and records the trace of locations the taint travelled through; a field
    record keeps the flags that reached the field, activating and deactivating
    them as stronger flags and new top-level entry functions arrive.

    Flags and tags are compared by value. The C++ code also short-cuts on
    pointer identity, which can only agree with the value comparison. The set
    of flag pointers of a field is a sequence in the model, in the order the set
    iterates over them. */
module Taint {
  import opened Wrappers
  import opened Seqs
  import opened InstLocs

  // ------------------------------------------------------------------- tags

  /** `TaintTag`. The LLVM value, the type and the related `AliasObject`
      (`priv`) are opaque ids. `modInsts` maps an instruction to the contexts in
      which it may modify the source; a context is created once, so it is
      identified by its contents. */
  datatype TaintTag = TaintTag(
    fieldId: int,
    v: Option<ValueId>,
    ty: Option<nat>,
    modInsts: map<ValueId, set<seq<ValueId>>>,
    cmpConstants: map<ValueId, set<int>>,
    isGlobal: bool,
    priv: Option<nat>)

  /** The members of a tag that `isTagEquals` compares. */
  datatype TagKey = TagKey(fieldId: int, v: Option<ValueId>, ty: Option<nat>, isGlobal: bool, priv: Option<nat>)

  function KeyOfTag(t: TaintTag): TagKey
  {
    TagKey(t.fieldId, t.v, t.ty, t.isGlobal, t.priv)
  }

  /** `isTagEquals`: false for a null tag, true for the tag itself, otherwise
      field, value, type, scope and object must agree; the modifying
      instructions and comparison constants are not compared. */
  function TagEquals(t: TaintTag, other: Option<TaintTag>): (r: bool)
    ensures other.None? ==> !r
    ensures other == Some(t) ==> r
    ensures other.Some? ==> (r <==> KeyOfTag(t) == KeyOfTag(other.value))
  {
    if other.None? then false
    else if other.value == t then true
    else
      var d := other.value;
      t.fieldId == d.fieldId && t.v == d.v && t.ty == d.ty && t.isGlobal == d.isGlobal && t.priv == d.priv
  }

  /** Tags that differ only in the instructions that modify the source, or in
      the constants it is compared with, are equal. */
  lemma TagEqualsIgnoresRecords(t: TaintTag, m: map<ValueId, set<seq<ValueId>>>, c: map<ValueId, set<int>>)
    ensures TagEquals(t, Some(t.(modInsts := m, cmpConstants := c)))
  {
  }

  /** `isTagEquals` is symmetric and transitive. */
  lemma TagEqualsIsEquivalence(a: TaintTag, b: TaintTag, c: TaintTag)
    ensures TagEquals(a, Some(b)) == TagEquals(b, Some(a))
    ensures TagEquals(a, Some(b)) && TagEquals(b, Some(c)) ==> TagEquals(a, Some(c))
  {
  }

  /** `insertModInst`: a null instruction or context changes nothing; otherwise
      the context joins the contexts recorded for the instruction. */
  function InsertModInst(t: TaintTag, inst: Option<ValueId>, ctx: Option<seq<ValueId>>): (r: TaintTag)
    ensures inst.None? || ctx.None? ==> r == t
    ensures inst.Some? && ctx.Some? ==> inst.value in r.modInsts && ctx.value in r.modInsts[inst.value]
    ensures inst.Some? && ctx.Some? && inst.value in t.modInsts ==>
              r.modInsts[inst.value] == t.modInsts[inst.value] + {ctx.value}
    ensures inst.Some? && ctx.Some? && inst.value !in t.modInsts ==> r.modInsts[inst.value] == {ctx.value}
    ensures forall i :: i in t.modInsts ==> i in r.modInsts
    ensures forall i :: i in r.modInsts && Some(i) != inst ==> i in t.modInsts && r.modInsts[i] == t.modInsts[i]
    ensures KeyOfTag(r) == KeyOfTag(t) && r.cmpConstants == t.cmpConstants
  {
    if inst.None? || ctx.None? then t
    else
      var old_ := if inst.value in t.modInsts then t.modInsts[inst.value] else {};
      t.(modInsts := t.modInsts[inst.value := old_ + {ctx.value}])
  }

  /** Recording the same modification twice records it once. */
  lemma InsertModInstIdempotent(t: TaintTag, inst: Option<ValueId>, ctx: Option<seq<ValueId>>)
    ensures InsertModInst(InsertModInst(t, inst, ctx), inst, ctx) == InsertModInst(t, inst, ctx)
  {
    if inst.Some? && ctx.Some? {
      var r := InsertModInst(t, inst, ctx);
      var rr := InsertModInst(r, inst, ctx);
      assert rr.modInsts[inst.value] == r.modInsts[inst.value];
      assert rr.modInsts == r.modInsts;
    }
  }

  // ------------------------------------------------------------------ flags

  /** `TaintFlag`: the location it applies to (`targetInstr`), the trace of
      locations the taint went through, whether it taints or kills, the source
      tag, whether it was created with its value (`is_inherent`), whether it is
      in effect (`is_active`) and whether it comes from a may-point-to target
      (`is_weak`). */
  datatype TaintFlag = TaintFlag(
    targetInstr: Option<InstLoc>,
    trace: seq<Option<InstLoc>>,
    isTainted: bool,
    tag: Option<TaintTag>,
    isInherent: bool,
    isActive: bool,
    isWeak: bool)

  /** A trace with no null entry and no location repeated back to back. */
  ghost predicate CleanTrace(t: seq<Option<InstLoc>>)
    decreases |t|
  {
    |t| == 0 || (t[0].Some? && (|t| == 1 || t[0] != t[1]) && CleanTrace(t[1..]))
  }

  /** A clean trace stays clean when a location other than its last entry is
      appended. */
  lemma {:induction false} CleanTraceSnoc(t: seq<Option<InstLoc>>, x: Option<InstLoc>)
    requires x.Some? && (|t| > 0 ==> t[|t| - 1] != x)
    ensures CleanTrace(t) ==> CleanTrace(t + [x])
    decreases |t|
  {
    if |t| > 0 && CleanTrace(t) {
      assert (t + [x])[1..] == t[1..] + [x];
      CleanTraceSnoc(t[1..], x);
    }
  }

  /** What the constructors and copies keep true of a flag: a clean trace that
      ends with the flag's own location when it has one. */
  ghost predicate WellFormed(f: TaintFlag)
  {
    CleanTrace(f.trace) && (f.targetInstr.Some? ==> |f.trace| > 0 && f.trace[|f.trace| - 1] == f.targetInstr)
  }

  /** `addInstructionToTrace`: a null location is ignored, and so is a location
      `same` as the last entry; otherwise it is appended. */
  function AddToTrace(trace: seq<Option<InstLoc>>, toAdd: Option<InstLoc>): (r: seq<Option<InstLoc>>)
    ensures toAdd.None? ==> r == trace
    ensures toAdd.Some? ==> |r| > 0 && r[|r| - 1] == toAdd
    ensures r == trace || r == trace + [toAdd]
    ensures toAdd.Some? && |trace| > 0 && trace[|trace| - 1] == toAdd ==> r == trace
    ensures CleanTrace(trace) ==> CleanTrace(r)
  {
    if toAdd.None? then trace
    else if |trace| > 0 && Same(toAdd.value, trace[|trace| - 1]) then trace
    else
      CleanTraceSnoc(trace, toAdd);
      trace + [toAdd]
  }

  /** The first constructor: a flag at a (non-null) location whose trace is that
      location alone; it is active and not inherent. */
  function NewFlag(target: InstLoc, isTainted: bool, tag: Option<TaintTag>, isWeak: bool): (f: TaintFlag)
    ensures WellFormed(f) && |f.trace| == 1
    ensures f.isActive && !f.isInherent
  {
    TaintFlag(Some(target), [Some(target)], isTainted, tag, false, true, isWeak)
  }

  /** The copy constructor with a new location: the source's trace extended by
      the location, with the source's taint, tag, weakness and activity. */
  function CopyAt(src: TaintFlag, target: Option<InstLoc>): (f: TaintFlag)
    ensures f.targetInstr == target && f.isTainted == src.isTainted && f.tag == src.tag
    ensures f.isWeak == src.isWeak && f.isActive == src.isActive && !f.isInherent
    ensures |src.trace| <= |f.trace| <= |src.trace| + 1 && f.trace[..|src.trace|] == src.trace
    ensures CleanTrace(src.trace) ==> WellFormed(f)
  {
    TaintFlag(target, AddToTrace(src.trace, target), src.isTainted, src.tag, false, src.isActive, src.isWeak)
  }

  /** The copy constructor with a new tag: location and trace are kept. */
  function CopyWithTag(src: TaintFlag, tag: Option<TaintTag>): (f: TaintFlag)
    ensures f.targetInstr == src.targetInstr && f.trace == src.trace && f.tag == tag
    ensures f.isTainted == src.isTainted && f.isWeak == src.isWeak && f.isActive == src.isActive
    ensures WellFormed(src) ==> WellFormed(f)
  {
    TaintFlag(src.targetInstr, src.trace, src.isTainted, tag, false, src.isActive, src.isWeak)
  }

  /** The members of a flag that `isTaintEquals` compares. */
  datatype FlagKey = FlagKey(target: Option<InstLoc>, tainted: bool, tag: Option<TagKey>, trace: seq<Option<InstLoc>>)

  function KeyOf(f: TaintFlag): FlagKey
  {
    FlagKey(f.targetInstr, f.isTainted, if f.tag.Some? then Some(KeyOfTag(f.tag.value)) else None, f.trace)
  }

  /** One trace entry of `isTaintEquals`: both null, or `same`. */
  predicate EntrySame(x: Option<InstLoc>, y: Option<InstLoc>)
  {
    x.None? == y.None? && (x.Some? ==> Same(x.value, y))
  }

  /** `isTaintEquals`: false for a null flag; otherwise the locations must be
      both null or `same`, the taint/kill kind equal, the tags both null or
      `isTagEquals`, and the traces equally long and `same` entry by entry.
      Weakness, activity and inherence are not compared. */
  function TaintEquals(a: TaintFlag, other: Option<TaintFlag>): (r: bool)
    ensures other.None? ==> !r
    ensures other.Some? ==> (r <==> KeyOf(a) == KeyOf(other.value))
  {
    if other.None? then false
    else
      var b := other.value;
      if a.targetInstr.None? != b.targetInstr.None? then false
      else if a.targetInstr.Some? && !Same(a.targetInstr.value, b.targetInstr) then false
      else if a.isTainted != b.isTainted then false
      else if a.tag.None? != b.tag.None? then false
      else if a.tag.Some? && !TagEquals(a.tag.value, b.tag) then false
      else if |a.trace| != |b.trace| then false
      else
        var same := forall i :: 0 <= i < |a.trace| ==> EntrySame(a.trace[i], b.trace[i]);
        assert same ==> a.trace == b.trace;
        same
  }

  /** `isTaintEquals` is an equivalence on flags. */
  lemma TaintEqualsIsEquivalence(a: TaintFlag, b: TaintFlag, c: TaintFlag)
    ensures TaintEquals(a, Some(a))
    ensures TaintEquals(a, Some(b)) == TaintEquals(b, Some(a))
    ensures TaintEquals(a, Some(b)) && TaintEquals(b, Some(c)) ==> TaintEquals(a, Some(c))
  {
  }

  /** Weakness, activity and inherence do not affect `isTaintEquals`. */
  lemma TaintEqualsIgnoresState(f: TaintFlag, weak: bool, active: bool, inherent: bool)
    ensures TaintEquals(f, Some(f.(isWeak := weak, isActive := active, isInherent := inherent)))
  {
  }

  /** Copying equal flags to the same location gives equal flags. */
  lemma CopyAtRespectsTaintEquals(a: TaintFlag, b: TaintFlag, target: Option<InstLoc>)
    requires TaintEquals(a, Some(b))
    ensures TaintEquals(CopyAt(a, target), Some(CopyAt(b, target)))
  {
  }

  /** Copying a well-formed flag to the location it already has gives back an
      equal flag: the trace does not grow. */
  lemma CopyAtOwnLocation(f: TaintFlag)
    requires WellFormed(f) && f.targetInstr.Some?
    ensures CopyAt(f, f.targetInstr).trace == f.trace
    ensures TaintEquals(CopyAt(f, f.targetInstr), Some(f))
  {
  }

  /** A copy with the flag's own tag is equal to the flag. */
  lemma CopyWithOwnTag(f: TaintFlag)
    ensures TaintEquals(CopyWithTag(f, f.tag), Some(f))
  {
  }

  /** No two flags of a sequence are `isTaintEquals`. */
  predicate NoDup(fs: seq<TaintFlag>)
  {
    forall i, j {:trigger KeyOf(fs[i]), KeyOf(fs[j])} :: 0 <= i < j < |fs| ==> KeyOf(fs[i]) != KeyOf(fs[j])
  }

  /** Some flag of the sequence is `isTaintEquals` to `n`, that is, has the
      same compared members (`HasEqualIsTaintEquals`). */
  predicate HasEqual(fs: seq<TaintFlag>, n: TaintFlag)
  {
    exists i :: 0 <= i < |fs| && KeyOf(fs[i]) == KeyOf(n)
  }

  /** `HasEqual` is the search with `isTaintEquals` over the sequence. */
  lemma HasEqualIsTaintEquals(fs: seq<TaintFlag>, n: TaintFlag)
    ensures HasEqual(fs, n) <==> exists i :: 0 <= i < |fs| && TaintEquals(n, Some(fs[i]))
  {
    if HasEqual(fs, n) {
      var i :| 0 <= i < |fs| && KeyOf(fs[i]) == KeyOf(n);
      assert TaintEquals(n, Some(fs[i]));
    }
  }

  // ------------------------------------------------------------ field taint

  /** The inter-procedural questions a field record asks about locations:
      `postDom(l, m)` is `l->postDom(m)`, `reachable(l, m, blocked)` is
      `l->reachable(m, &blocked)`, `sameEntry(l, e)` is `l->sameEntry(e)`. */
  datatype Flow = Flow(
    postDom: (InstLoc, Option<InstLoc>) -> bool,
    reachable: (InstLoc, Option<InstLoc>, set<InstLoc>) -> bool,
    sameEntry: (InstLoc, ValueId) -> bool)

  /** `FieldTaint`: the flags of one field and the first instruction of the
      top-level entry function the flags were last reset for. */
  datatype FieldTaint = FieldTaint(fieldId: int, flags: seq<TaintFlag>, lastReset: Option<ValueId>)

  /** `hasActiveTaint`: some flag is active and taints. */
  predicate HasActiveTaint(fs: seq<TaintFlag>)
  {
    exists i :: 0 <= i < |fs| && fs[i].isActive && fs[i].isTainted
  }

  /** Two flags that differ at most in activity. */
  predicate OnlyActivityDiffers(f: TaintFlag, g: TaintFlag)
  {
    g == f.(isActive := g.isActive)
  }

  /** One flag on an entry switch: inherent and location-less flags come back
      into effect; an active flag from another entry function goes out of
      effect. */
  function ResetFlag(tf: TaintFlag, entry: ValueId, fl: Flow): (g: TaintFlag)
  {
    if tf.isInherent || tf.targetInstr.None? then tf.(isActive := true)
    else if tf.isActive && !fl.sameEntry(tf.targetInstr.value, entry) then tf.(isActive := false)
    else tf
  }

  /** `resetTfs(entry)`: the first entry seen is recorded, the same entry again
      changes nothing, and a new entry reactivates inherent and location-less
      flags and deactivates active flags of other entries. */
  function ResetTfs(ft: FieldTaint, entry: ValueId, fl: Flow): (r: FieldTaint)
    ensures r.lastReset == Some(entry) && r.fieldId == ft.fieldId && |r.flags| == |ft.flags|
    ensures ft.lastReset.None? || ft.lastReset == Some(entry) ==> r.flags == ft.flags
    ensures forall i :: 0 <= i < |r.flags| ==> OnlyActivityDiffers(ft.flags[i], r.flags[i])
    ensures ft.lastReset.Some? && ft.lastReset != Some(entry) ==>
              forall i :: 0 <= i < |r.flags| ==>
                var f := ft.flags[i];
                (f.isInherent || f.targetInstr.None? ==> r.flags[i].isActive)
                && (!f.isInherent && f.targetInstr.Some? && !fl.sameEntry(f.targetInstr.value, entry) ==> !r.flags[i].isActive)
                && (!f.isInherent && f.targetInstr.Some? && fl.sameEntry(f.targetInstr.value, entry) ==> r.flags[i] == f)
  {
    if ft.lastReset.None? then ft.(lastReset := Some(entry))
    else if ft.lastReset == Some(entry) then ft
    else
      var fs := ft.flags;
      FieldTaint(ft.fieldId, seq(|fs|, i requires 0 <= i < |fs| => ResetFlag(fs[i], entry, fl)), Some(entry))
  }

  /** A reset for the entry just reset to changes nothing. */
  lemma ResetTfsIdempotent(ft: FieldTaint, entry: ValueId, fl: Flow)
    ensures ResetTfs(ResetTfs(ft, entry, fl), entry, fl) == ResetTfs(ft, entry, fl)
  {
  }

  /** Resetting keeps the flags' identities (only activity changes), hence keeps
      a duplicate-free record duplicate-free. */
  lemma ResetTfsKeepsNoDup(ft: FieldTaint, entry: ValueId, fl: Flow)
    requires NoDup(ft.flags)
    ensures NoDup(ResetTfs(ft, entry, fl).flags)
  {
    var r := ResetTfs(ft, entry, fl);
    forall i | 0 <= i < |r.flags|
      ensures KeyOf(r.flags[i]) == KeyOf(ft.flags[i])
    {
      assert OnlyActivityDiffers(ft.flags[i], r.flags[i]);
    }
  }

  /** The entry-switch part of `addTf` and `getTf`: a location with a context
      resets the record for the context's entry instruction. */
  function ResetFor(ft: FieldTaint, loc: Option<InstLoc>, fl: Flow): (r: FieldTaint)
    ensures |r.flags| == |ft.flags| && r.fieldId == ft.fieldId
    ensures forall i :: 0 <= i < |r.flags| ==> OnlyActivityDiffers(ft.flags[i], r.flags[i])
    ensures loc.None? || !HasCtx(loc.value) ==> r == ft
  {
    if loc.Some? && HasCtx(loc.value) then ResetTfs(ft, Ctx(loc.value)[0], fl) else ft
  }

  /** Whether the new flag `n` deactivates an existing flag: `n` is strong and
      active, and its location post-dominates that of the active flag `tf`. */
  predicate Kills(n: TaintFlag, tf: TaintFlag, fl: Flow)
  {
    tf.isActive && n.isActive && !n.isWeak && n.targetInstr.Some? && fl.postDom(n.targetInstr.value, tf.targetInstr)
  }

  /** What `addTf` does to one existing flag `tf`. When `tf` is the duplicate of
      `n` (the first flag equal to it) it takes the stronger weakness and `n`'s
      activity. When `n` kills `tf` it is then deactivated; as written
      (`spareDup` false) that includes the duplicate, the corrected loop
      (`spareDup` true) leaves the duplicate in effect. */
  function Step(tf: TaintFlag, n: TaintFlag, fl: Flow, spareDup: bool, dup: bool): (g: TaintFlag)
    ensures g == tf.(isWeak := g.isWeak, isActive := g.isActive)
    ensures g.isWeak ==> tf.isWeak
    ensures Kills(n, tf, fl) && !(spareDup && dup) ==> !g.isActive
    ensures g.isActive ==> if dup then n.isActive else tf.isActive
  {
    var upd := if dup then tf.(isWeak := tf.isWeak && n.isWeak, isActive := n.isActive) else tf;
    if Kills(n, tf, fl) && !(spareDup && dup) then upd.(isActive := false) else upd
  }

  /** Flag `i` is the first one `isTaintEquals` to `n` (same compared members,
      as `TaintEquals` states). */
  predicate FirstEqual(fs: seq<TaintFlag>, n: TaintFlag, i: nat)
    requires i < |fs|
  {
    KeyOf(fs[i]) == KeyOf(n) && forall j :: 0 <= j < i ==> KeyOf(fs[j]) != KeyOf(n)
  }

  /** The loop of `addTf` over the existing flags, with the deactivation of the
      killed flags folded in (each flag is visited once); `found` records
      whether the duplicate was met before. */
  function Scan(fs: seq<TaintFlag>, n: TaintFlag, fl: Flow, spareDup: bool, found: bool): (r: seq<TaintFlag>)
    ensures |r| == |fs|
    decreases |fs|
  {
    if |fs| == 0 then []
    else
      var dupHere := !found && KeyOf(fs[0]) == KeyOf(n);
      [Step(fs[0], n, fl, spareDup, dupHere)] + Scan(fs[1..], n, fl, spareDup, found || dupHere)
  }

  /** The loop updates each flag on its own: only the first flag equal to `n`
      is treated as the duplicate. */
  lemma {:induction false} ScanPointwise(fs: seq<TaintFlag>, n: TaintFlag, fl: Flow, spareDup: bool, found: bool)
    ensures forall i :: 0 <= i < |fs| ==>
              Scan(fs, n, fl, spareDup, found)[i] == Step(fs[i], n, fl, spareDup, !found && FirstEqual(fs, n, i))
    decreases |fs|
  {
    if |fs| > 0 {
      var dupHere := !found && KeyOf(fs[0]) == KeyOf(n);
      var rest := fs[1..];
      var sc := Scan(fs, n, fl, spareDup, found);
      ScanPointwise(rest, n, fl, spareDup, found || dupHere);
      assert sc[1..] == Scan(rest, n, fl, spareDup, found || dupHere);
      forall i | 0 < i < |fs|
        ensures sc[i] == Step(fs[i], n, fl, spareDup, !found && FirstEqual(fs, n, i))
      {
        TailAt(fs, i);
        TailAt(sc, i);
        assert (!(found || dupHere) && FirstEqual(rest, n, i - 1)) == (!found && FirstEqual(fs, n, i)) by {
          if !found && !dupHere {
            forall j | 0 < j < i
              ensures rest[j - 1] == fs[j]
            {
              TailAt(fs, j);
            }
          }
        }
      }
    }
  }

  /** The scan changes the weakness and activity of the flags and nothing
      that `isTaintEquals` compares. */
  lemma {:induction false} ScanKeys(fs: seq<TaintFlag>, n: TaintFlag, fl: Flow, spareDup: bool, found: bool)
    ensures forall i :: 0 <= i < |fs| ==> KeyOf(Scan(fs, n, fl, spareDup, found)[i]) == KeyOf(fs[i])
    decreases |fs|
  {
    if |fs| > 0 {
      var dupHere := !found && KeyOf(fs[0]) == KeyOf(n);
      var rest := fs[1..];
      var sc := Scan(fs, n, fl, spareDup, found);
      ScanKeys(rest, n, fl, spareDup, found || dupHere);
      assert sc[1..] == Scan(rest, n, fl, spareDup, found || dupHere);
      forall i | 0 <= i < |fs|
        ensures KeyOf(sc[i]) == KeyOf(fs[i])
      {
        if i > 0 {
          TailAt(fs, i);
          TailAt(sc, i);
        }
      }
    }
  }

  /** `addTf` as written, or corrected (`spareDup`): the result is the new
      record and whether `n` was added. */
  function AddTfWith(ft: FieldTaint, ntf: Option<TaintFlag>, fl: Flow, spareDup: bool): (r: (FieldTaint, bool))
    ensures ntf.None? ==> r == (ft, false)
    ensures r.0.fieldId == ft.fieldId
    ensures |r.0.flags| == |ft.flags| + (if r.1 then 1 else 0)
    ensures r.1 ==> r.0.flags[|r.0.flags| - 1] == ntf.value
  {
    if ntf.None? then (ft, false)
    else
      var n := ntf.value;
      var ft1 := ResetFor(ft, n.targetInstr, fl);
      if !n.isTainted && !HasActiveTaint(ft1.flags) then (ft1, false)
      else
        var scanned := Scan(ft1.flags, n, fl, spareDup, false);
        var dup := HasEqual(ft1.flags, n);
        (ft1.(flags := if dup then scanned else scanned + [n]), !dup)
  }

  /** What `addTf` answers, as written or corrected: nothing is added for a
      null flag, or for a kill when no flag is in effect after the entry reset;
      the result is true iff no equal flag was there, and then the new flag is
      appended. */
  lemma AddTfWithResult(ft: FieldTaint, n: TaintFlag, fl: Flow, spareDup: bool)
    ensures AddTfWith(ft, Some(n), fl, spareDup).1 <==>
              (n.isTainted || HasActiveTaint(ResetFor(ft, n.targetInstr, fl).flags)) && !HasEqual(ResetFor(ft, n.targetInstr, fl).flags, n)
    ensures AddTfWith(ft, Some(n), fl, spareDup).0.fieldId == ft.fieldId
    ensures |AddTfWith(ft, Some(n), fl, spareDup).0.flags| == |ft.flags| + (if AddTfWith(ft, Some(n), fl, spareDup).1 then 1 else 0)
    ensures AddTfWith(ft, Some(n), fl, spareDup).1 ==> AddTfWith(ft, Some(n), fl, spareDup).0.flags[|ft.flags|] == n
    ensures !n.isTainted && !HasActiveTaint(ResetFor(ft, n.targetInstr, fl).flags) ==>
              AddTfWith(ft, Some(n), fl, spareDup).0 == ResetFor(ft, n.targetInstr, fl)
  {
  }

  /** The existing flags keep their identity through `addTf`: only their
      weakness and activity change. */
  lemma AddTfWithKeys(ft: FieldTaint, n: TaintFlag, fl: Flow, spareDup: bool)
    ensures |ft.flags| <= |AddTfWith(ft, Some(n), fl, spareDup).0.flags|
    ensures forall i :: 0 <= i < |ft.flags| ==> KeyOf(AddTfWith(ft, Some(n), fl, spareDup).0.flags[i]) == KeyOf(ft.flags[i])
  {
    var ft1 := ResetFor(ft, n.targetInstr, fl);
    var r := AddTfWith(ft, Some(n), fl, spareDup).0.flags;
    AddTfWithResult(ft, n, fl, spareDup);
    var sc := Scan(ft1.flags, n, fl, spareDup, false);
    ScanKeys(ft1.flags, n, fl, spareDup, false);
    var active := n.isTainted || HasActiveTaint(ft1.flags);
    assert active ==> r[..|ft.flags|] == sc;
    assert !active ==> r == ft1.flags;
    forall i | 0 <= i < |ft.flags|
      ensures KeyOf(r[i]) == KeyOf(ft.flags[i])
    {
      assert OnlyActivityDiffers(ft.flags[i], ft1.flags[i]);
      if active {
        assert r[i] == r[..|ft.flags|][i];
      }
    }
  }

  /** Unless nothing is added, a strong active flag deactivates the active
      flags not equal to it whose locations it post-dominates. */
  lemma AddTfWithKills(ft: FieldTaint, n: TaintFlag, fl: Flow, spareDup: bool, i: nat)
    requires i < |ft.flags| && (n.isTainted || HasActiveTaint(ResetFor(ft, n.targetInstr, fl).flags))
    requires Kills(n, ResetFor(ft, n.targetInstr, fl).flags[i], fl) && !TaintEquals(n, Some(ResetFor(ft, n.targetInstr, fl).flags[i]))
    ensures i < |AddTfWith(ft, Some(n), fl, spareDup).0.flags|
    ensures !AddTfWith(ft, Some(n), fl, spareDup).0.flags[i].isActive
  {
    var ft1 := ResetFor(ft, n.targetInstr, fl);
    ScanPointwise(ft1.flags, n, fl, spareDup, false);
    var sc := Scan(ft1.flags, n, fl, spareDup, false);
    assert !sc[i].isActive;
    var r := AddTfWith(ft, Some(n), fl, spareDup).0.flags;
    assert r[i] == sc[i];
  }

  /** `FieldTaint::addTf` as written. */
  function AddTfAsWritten(ft: FieldTaint, ntf: Option<TaintFlag>, fl: Flow): (r: (FieldTaint, bool))
    ensures ntf.None? ==> r == (ft, false)
    ensures r.1 <==> ntf.Some? && (ntf.value.isTainted || HasActiveTaint(ResetFor(ft, ntf.value.targetInstr, fl).flags))
                     && !HasEqual(ResetFor(ft, ntf.value.targetInstr, fl).flags, ntf.value)
  {
    AddTfWith(ft, ntf, fl, false)
  }

  /** `FieldTaint::addTf`, with the flag equal to the new one spared from the
      deactivation of the flags the new one overrides, so that after adding an
      active taint a flag equal to it is in effect. */
  function AddTf(ft: FieldTaint, ntf: Option<TaintFlag>, fl: Flow): (r: (FieldTaint, bool))
    ensures ntf.None? ==> r == (ft, false)
    ensures ntf.Some? && ntf.value.isTainted && ntf.value.isActive ==>
              exists i :: 0 <= i < |r.0.flags| && r.0.flags[i].isActive && TaintEquals(ntf.value, Some(r.0.flags[i]))
  {
    if ntf.None? then (ft, false)
    else
      SparedDupStaysActive(ft, ntf.value, fl);
      AddTfWith(ft, ntf, fl, true)
  }

  /** The corrected loop leaves an active taint in effect: either it was
      appended, or its duplicate took its activity and was spared. */
  lemma SparedDupStaysActive(ft: FieldTaint, n: TaintFlag, fl: Flow)
    ensures var r := AddTfWith(ft, Some(n), fl, true).0.flags;
            n.isTainted && n.isActive ==> exists i :: 0 <= i < |r| && r[i].isActive && TaintEquals(n, Some(r[i]))
  {
    var ft1 := ResetFor(ft, n.targetInstr, fl);
    var r := AddTfWith(ft, Some(n), fl, true).0.flags;
    AddTfWithResult(ft, n, fl, true);
    if !(n.isTainted && n.isActive) {
    } else if HasEqual(ft1.flags, n) {
      var k :| 0 <= k < |ft1.flags| && KeyOf(ft1.flags[k]) == KeyOf(n);
      var i := FirstIndex(ft1.flags, n, k);
      ScanPointwise(ft1.flags, n, fl, true, false);
      var sc := Scan(ft1.flags, n, fl, true, false);
      assert r == sc;
      assert sc[i] == Step(ft1.flags[i], n, fl, true, true);
      assert KeyOf(sc[i]) == KeyOf(ft1.flags[i]);
    } else {
      assert r[|ft.flags|] == n && TaintEquals(n, Some(n));
    }
  }

  /** The first flag equal to `n`, given some flag at or before `k` is. */
  function FirstIndex(fs: seq<TaintFlag>, n: TaintFlag, k: nat): (i: nat)
    requires k < |fs| && KeyOf(fs[k]) == KeyOf(n)
    ensures i <= k && FirstEqual(fs, n, i)
  {
    if exists j :: 0 <= j < k && KeyOf(fs[j]) == KeyOf(n) then
      var j :| 0 <= j < k && KeyOf(fs[j]) == KeyOf(n);
      FirstIndex(fs, n, j)
    else k
  }

  /** Both variants of `addTf` never let two equal flags into a record: a flag
      is appended only when no stored flag equals it. */
  lemma AddTfWithKeepsNoDup(ft: FieldTaint, ntf: Option<TaintFlag>, fl: Flow, spareDup: bool)
    requires NoDup(ft.flags)
    ensures NoDup(AddTfWith(ft, ntf, fl, spareDup).0.flags)
  {
    if ntf.Some? {
      var n := ntf.value;
      var ft1 := ResetFor(ft, n.targetInstr, fl);
      AddTfWithResult(ft, n, fl, spareDup);
      AddTfWithKeys(ft, n, fl, spareDup);
      var r := AddTfWith(ft, ntf, fl, spareDup).0.flags;
      if |r| > |ft.flags| {
        forall i | 0 <= i < |ft.flags|
          ensures KeyOf(r[i]) != KeyOf(n)
        {
          assert OnlyActivityDiffers(ft.flags[i], ft1.flags[i]);
          assert !TaintEquals(n, Some(ft1.flags[i]));
        }
      }
    }
  }

  /** `addTf` as the program runs it keeps a record free of equal flags. */
  lemma AddTfAsWrittenKeepsNoDup(ft: FieldTaint, ntf: Option<TaintFlag>, fl: Flow)
    requires NoDup(ft.flags)
    ensures NoDup(AddTfAsWritten(ft, ntf, fl).0.flags)
  {
    AddTfWithKeepsNoDup(ft, ntf, fl, false);
  }

  /** The corrected `addTf` keeps a record free of equal flags too. */
  lemma AddTfKeepsNoDup(ft: FieldTaint, ntf: Option<TaintFlag>, fl: Flow)
    requires NoDup(ft.flags)
    ensures NoDup(AddTf(ft, ntf, fl).0.flags)
  {
    AddTfWithKeepsNoDup(ft, ntf, fl, true);
  }

  /** A strong active flag deactivates every active flag not equal to it whose
      location it post-dominates (after the entry reset). */
  lemma AddTfKillsOverridden(ft: FieldTaint, n: TaintFlag, fl: Flow, i: nat)
    requires n.isTainted && n.isActive && !n.isWeak && n.targetInstr.Some?
    requires i < |ft.flags|
    requires var ft1 := ResetFor(ft, n.targetInstr, fl);
             ft1.flags[i].isActive && fl.postDom(n.targetInstr.value, ft1.flags[i].targetInstr)
             && !TaintEquals(n, Some(ft1.flags[i]))
    ensures !AddTf(ft, Some(n), fl).0.flags[i].isActive
  {
    AddTfWithKills(ft, n, fl, true, i);
  }

  /** Re-adding, as written, a strong active flag equal to the only flag of a
      field at a location that post-dominates itself (as `postDom` does for a
      non-PHI instruction, see `InterProc.PostDomOfItself`): the stored flag is
      first brought up to date and then deactivated as overridden, nothing is
      added, and the field ends with no taint in effect. The corrected `AddTf`
      keeps it in effect. */
  lemma ReAddDeactivatesCounterexample()
    ensures
      var loc := InstLoc(3, Some([0]));
      var f := NewFlag(loc, true, None, false);
      var fl := Flow((l, m) => m == Some(l), (l, m, b) => true, (l, e) => true);
      var ft := FieldTaint(0, [f], Some(0));
      var r := AddTfAsWritten(ft, Some(f), fl);
      !r.1 && |r.0.flags| == 1 && !HasActiveTaint(r.0.flags)
      && HasActiveTaint(AddTf(ft, Some(f), fl).0.flags)
  {
    var loc := InstLoc(3, Some([0]));
    var f := NewFlag(loc, true, None, false);
    var fl := Flow((l, m) => m == Some(l), (l, m, b) => true, (l, e) => true);
    var ft := FieldTaint(0, [f], Some(0));
    assert ResetFor(ft, f.targetInstr, fl) == ft;
    assert TaintEquals(f, Some(ft.flags[0]));
    var r := AddTfAsWritten(ft, Some(f), fl);
    assert r.0.flags == Scan([f], f, fl, false, false);
    assert !r.0.flags[0].isActive;
  }

  // ----------------------------------------------------------------- getTf

  /** The locations of the active strong flags: the blockers of `doGetTf`. */
  function Blockers(fs: seq<TaintFlag>): set<InstLoc>
  {
    set f | f in fs && f.isActive && !f.isWeak && f.targetInstr.Some? :: f.targetInstr.value
  }

  /** Whether `doGetTf` returns an active tainting flag at `loc`: for a null
      `loc` all of them, otherwise those `loc` is reachable from without
      passing the blockers. */
  predicate LiveAt(tf: TaintFlag, loc: Option<InstLoc>, blockers: set<InstLoc>, fl: Flow)
  {
    tf.isActive && tf.isTainted && (loc.None? || fl.reachable(loc.value, tf.targetInstr, blockers))
  }

  /** The filter of `doGetTf` over the flags. */
  function Live(fs: seq<TaintFlag>, loc: Option<InstLoc>, blockers: set<InstLoc>, fl: Flow): (r: seq<TaintFlag>)
    ensures forall f :: f in r <==> f in fs && LiveAt(f, loc, blockers, fl)
    ensures |r| <= |fs|
  {
    if |fs| == 0 then []
    else
      var rest := Live(fs[1..], loc, blockers, fl);
      assert forall f :: f in fs <==> f == fs[0] || f in fs[1..];
      if LiveAt(fs[0], loc, blockers, fl) then [fs[0]] + rest else rest
  }

  /** `doGetTf(loc)`: the active tainting flags live at `loc`; kill flags only
      act as blockers. */
  function DoGetTf(ft: FieldTaint, loc: Option<InstLoc>, fl: Flow): (r: seq<TaintFlag>)
    ensures forall f :: f in r ==> f in ft.flags && f.isActive && f.isTainted
    ensures loc.None? ==> forall f :: f in r <==> f in ft.flags && f.isActive && f.isTainted
    ensures forall f :: f in ft.flags && f.isActive && f.isTainted && (loc.Some? ==> fl.reachable(loc.value, f.targetInstr, Blockers(ft.flags))) ==> f in r
  {
    Live(ft.flags, loc, Blockers(ft.flags), fl)
  }

  /** `getTf(loc)`: the entry reset for `loc`, then `doGetTf`. */
  function GetTf(ft: FieldTaint, loc: Option<InstLoc>, fl: Flow): (r: (FieldTaint, seq<TaintFlag>))
    ensures r.0 == ResetFor(ft, loc, fl)
    ensures forall f :: f in r.1 ==> f in r.0.flags && f.isActive && f.isTainted
    ensures loc.None? ==> r.0 == ft
  {
    var ft1 := ResetFor(ft, loc, fl);
    (ft1, DoGetTf(ft1, loc, fl))
  }

  /** With no location, a field reports a taint iff it has an active taint. */
  lemma GetTfWithoutLocation(ft: FieldTaint, fl: Flow)
    ensures |GetTf(ft, None, fl).1| > 0 <==> HasActiveTaint(ft.flags)
  {
    var r := GetTf(ft, None, fl).1;
    if HasActiveTaint(ft.flags) {
      var i :| 0 <= i < |ft.flags| && ft.flags[i].isActive && ft.flags[i].isTainted;
      assert ft.flags[i] in r;
    }
    if |r| > 0 {
      assert r[0] in r;
      var i :| 0 <= i < |ft.flags| && ft.flags[i] == r[0];
    }
  }
}

=== FILE: taint_utils.dfy ===
/** The taint map of one calling context and its two updates (TaintUtils.cpp):
    looking up the flags of a value, adding one flag to a flag set unless an
    equal one is there, and merging new flags into a value's set. */
module TaintUtils {
  import opened Wrappers
  import opened InstLocs
  import opened Taint
  import opened Seqs

  /** The taint flags of the values of one calling context. */
  type TaintMap = map<ValueId, seq<TaintFlag>>

  /** `getTaintInfo`: the flag set of a value, or null when it has none. */
  function GetTaintInfo(m: TaintMap, v: ValueId): (r: Option<seq<TaintFlag>>)
    ensures r.None? <==> v !in m
    ensures r.Some? ==> r.value == m[v]
  {
    if v in m then Some(m[v]) else None
  }

  /** `addNewTaintFlag`: the flag is inserted, and 1 returned, iff no member of
      the set is `isTaintEquals` to it; otherwise the set is unchanged and 0 is
      returned. */
  function AddNewTaintFlag(s: seq<TaintFlag>, f: TaintFlag): (r: (seq<TaintFlag>, int))
    ensures r.1 == 1 <==> !HasEqual(s, f)
    ensures r.1 == 0 <==> HasEqual(s, f)
    ensures r.1 == 1 ==> r.0 == s + [f]
    ensures r.1 == 0 ==> r.0 == s
    ensures HasEqual(r.0, f)
  {
    if HasEqual(s, f) then (s, 0)
    else
      assert TaintEquals(f, Some((s + [f])[|s|]));
      (s + [f], 1)
  }

  /** A set built through `addNewTaintFlag` never holds two equal flags. */
  lemma AddNewTaintFlagKeepsNoDup(s: seq<TaintFlag>, f: TaintFlag)
    requires NoDup(s)
    ensures NoDup(AddNewTaintFlag(s, f).0)
  {
    var r := AddNewTaintFlag(s, f);
    if r.1 == 1 {
      forall i | 0 <= i < |s|
        ensures KeyOf(s[i]) != KeyOf(f)
      {
        assert !TaintEquals(f, Some(s[i]));
      }
      assert forall i :: 0 <= i < |s| ==> r.0[i] == s[i];
    }
  }

  /** A set that extends another keeps an equal of a flag the other had one
      of. */
  lemma HasEqualExtends(s: seq<TaintFlag>, t: seq<TaintFlag>, n: TaintFlag)
    requires |s| <= |t| && forall i :: 0 <= i < |s| ==> t[i] == s[i]
    requires HasEqual(s, n)
    ensures HasEqual(t, n)
  {
    var k :| 0 <= k < |s| && KeyOf(s[k]) == KeyOf(n);
    assert t[k] == s[k];
  }

  /** A set that extends another keeps an equal of every flag the other had one
      of. */
  lemma HasEqualGrows(s: seq<TaintFlag>, t: seq<TaintFlag>, fs: seq<TaintFlag>)
    requires |s| <= |t| && t[..|s|] == s
    requires forall i :: 0 <= i < |fs| ==> HasEqual(s, fs[i])
    ensures forall i :: 0 <= i < |fs| ==> HasEqual(t, fs[i])
  {
    forall i | 0 <= i < |fs|
      ensures HasEqual(t, fs[i])
    {
      var k :| 0 <= k < |s| && KeyOf(s[k]) == KeyOf(fs[i]);
      assert t[k] == s[k];
    }
  }

  /** Each flag of `fs` in turn added to `s0` with `addNewTaintFlag`: the
      flags of `s0` stay in place, every flag of `fs` ends with an equal in the
      set, the flags appended come from `fs`, and a set without equal flags
      stays so. */
  function AddNewTaintFlags(s0: seq<TaintFlag>, fs: seq<TaintFlag>): (s: seq<TaintFlag>)
    ensures |s0| <= |s| <= |s0| + |fs| && forall i :: 0 <= i < |s0| ==> s[i] == s0[i]
    ensures forall i :: 0 <= i < |fs| ==> HasEqual(s, fs[i])
    ensures forall j :: |s0| <= j < |s| ==> s[j] in fs
    ensures NoDup(s0) ==> NoDup(s)
    decreases |fs|
  {
    if |fs| == 0 then s0
    else
      var s1 := AddNewTaintFlag(s0, fs[0]).0;
      var s := AddNewTaintFlags(s1, fs[1..]);
      assert forall i :: 0 <= i < |fs| ==> HasEqual(s, fs[i]) by {
        forall i | 0 <= i < |fs|
          ensures HasEqual(s, fs[i])
        {
          if i == 0 {
            HasEqualExtends(s1, s, fs[0]);
          } else {
            TailAt(fs, i);
          }
        }
      }
      assert forall j :: |s0| <= j < |s| ==> s[j] in fs by {
        forall j | |s0| <= j < |s|
          ensures s[j] in fs
        {
          if j < |s1| {
            assert s[j] == s1[j];
            SnocLast(s0, fs[0]);
            HeadIn(fs);
          } else {
            InTail(fs, s[j]);
          }
        }
      }
      if NoDup(s0) then
        AddNewTaintFlagKeepsNoDup(s0, fs[0]);
        s
      else s
  }

  /** `updateTaintInfo`: a value without flags gets the new set as it is (not
      deduplicated); otherwise each new flag is added with `addNewTaintFlag`.
      Other values keep their flags; the existing flags of the value stay in
      place, the added ones are new flags each equal to no earlier one. */
  method UpdateTaintInfo(m: TaintMap, v: ValueId, newFlags: seq<TaintFlag>) returns (r: TaintMap)
    ensures v in r
    ensures v !in m ==> r[v] == newFlags
    ensures forall u :: u != v ==> (u in r <==> u in m)
    ensures forall u :: u in m && u != v ==> r[u] == m[u]
    ensures v in m ==> |m[v]| <= |r[v]| && r[v][..|m[v]|] == m[v]
    ensures v in m ==> forall i :: 0 <= i < |newFlags| ==> HasEqual(r[v], newFlags[i])
    ensures v in m ==> forall j :: |m[v]| <= j < |r[v]| ==> r[v][j] in newFlags
    ensures v in m && NoDup(m[v]) ==> NoDup(r[v])
  {
    var existing := GetTaintInfo(m, v);
    if existing.None? {
      return m[v := newFlags];
    }
    var s := AddNewTaintFlags(existing.value, newFlags);
    assert s[..|m[v]|] == m[v];
    r := m[v := s];
  }
}

=== FILE: taint_visitor.dfy ===
/** The decisions of the taint visitor (TaintAnalysisVisitor.cpp): which flags
    are copied to an instruction, how the flags of several operands are merged,
    which flags a store writes to its target fields and how weak they are, what
    tainting a user-supplied argument does, which GEP operands count, and how
    return-value taints are collected. The points-to lookups and the field
    records written to are inputs and outputs; `reach(loc, from)` is
    `loc->reachable(from)`. */
module TaintVisitor {
  import opened Wrappers
  import opened Seqs
  import opened InstLocs
  import opened Taint
  import opened TaintUtils

  /** Whether `makeTaintInfoCopy` copies a flag to `loc`: always for an
      inherent or location-less flag, otherwise only when `loc` is reachable
      from the flag's location. */
  predicate Passes(f: TaintFlag, loc: InstLoc, reach: (InstLoc, Option<InstLoc>) -> bool)
  {
    f.targetInstr.None? || f.isInherent || reach(loc, f.targetInstr)
  }

  /** The copies at `loc` of the flags of `src` that pass, in order. */
  function PassingCopies(src: seq<TaintFlag>, loc: InstLoc, reach: (InstLoc, Option<InstLoc>) -> bool): (cs: seq<TaintFlag>)
    ensures |cs| <= |src|
    decreases |src|
  {
    if |src| == 0 then []
    else (if Passes(src[0], loc, reach) then [CopyAt(src[0], Some(loc))] else []) + PassingCopies(src[1..], loc, reach)
  }

  /** Every member of `PassingCopies` is the copy of a passing flag. */
  lemma {:induction false} PassingCopiesSound(src: seq<TaintFlag>, loc: InstLoc, reach: (InstLoc, Option<InstLoc>) -> bool, c: TaintFlag)
    requires c in PassingCopies(src, loc, reach)
    ensures exists g :: g in src && Passes(g, loc, reach) && c == CopyAt(g, Some(loc))
    decreases |src|
  {
    var rest := PassingCopies(src[1..], loc, reach);
    if Passes(src[0], loc, reach) && c == CopyAt(src[0], Some(loc)) {
      assert src[0] in src;
    } else {
      assert c in rest;
      PassingCopiesSound(src[1..], loc, reach, c);
      var g :| g in src[1..] && Passes(g, loc, reach) && c == CopyAt(g, Some(loc));
      assert g in src;
    }
  }

  /** The copy of every passing flag is in `PassingCopies`. */
  lemma {:induction false} PassingCopiesComplete(src: seq<TaintFlag>, loc: InstLoc, reach: (InstLoc, Option<InstLoc>) -> bool, g: TaintFlag)
    requires g in src && Passes(g, loc, reach)
    ensures CopyAt(g, Some(loc)) in PassingCopies(src, loc, reach)
    decreases |src|
  {
    var rest := PassingCopies(src[1..], loc, reach);
    if g != src[0] {
      assert g in src[1..];
      PassingCopiesComplete(src[1..], loc, reach, g);
      assert CopyAt(g, Some(loc)) in rest;
    }
  }

  /** The copies at `loc` of the flags that pass, each added to a fresh set
      with `addNewTaintFlag`. */
  method CopyPassing(src: seq<TaintFlag>, loc: InstLoc, reach: (InstLoc, Option<InstLoc>) -> bool) returns (s: seq<TaintFlag>)
    ensures NoDup(s)
    ensures forall f :: f in s ==> exists g :: g in src && Passes(g, loc, reach) && f == CopyAt(g, Some(loc))
    ensures forall g :: g in src && Passes(g, loc, reach) ==> HasEqual(s, CopyAt(g, Some(loc)))
    ensures |s| == 0 <==> forall g :: g in src ==> !Passes(g, loc, reach)
  {
    var cs := PassingCopies(src, loc, reach);
    s := AddNewTaintFlags([], cs);
    forall f | f in s
      ensures exists g :: g in src && Passes(g, loc, reach) && f == CopyAt(g, Some(loc))
    {
      PassingCopiesSound(src, loc, reach, f);
    }
    forall g | g in src && Passes(g, loc, reach)
      ensures HasEqual(s, CopyAt(g, Some(loc)))
    {
      PassingCopiesComplete(src, loc, reach, g);
      var i :| 0 <= i < |cs| && cs[i] == CopyAt(g, Some(loc));
    }
    if |cs| > 0 {
      assert HasEqual(s, cs[0]);
      PassingCopiesSound(src, loc, reach, cs[0]);
    }
  }

  /** `makeTaintInfoCopy(I, src, dst)`: null for a null source; null when no
      flag passes; otherwise the copies, added to `dst` (by pointer, with no
      equality test) and `dst` returned when it is given. */
  method MakeTaintInfoCopy(loc: InstLoc, src: Option<seq<TaintFlag>>, dst: Option<seq<TaintFlag>>,
                           reach: (InstLoc, Option<InstLoc>) -> bool) returns (r: Option<seq<TaintFlag>>)
    ensures src.None? ==> r.None?
    ensures src.Some? ==> (r.None? <==> forall g :: g in src.value ==> !Passes(g, loc, reach))
    ensures r.Some? && dst.Some? ==> |dst.value| < |r.value| && r.value[..|dst.value|] == dst.value
    ensures r.Some? ==> forall f :: f in r.value ==>
              ((dst.Some? && f in dst.value) || exists g :: g in src.value && Passes(g, loc, reach) && f == CopyAt(g, Some(loc)))
    ensures r.Some? ==> forall g :: g in src.value && Passes(g, loc, reach) ==> HasEqual(r.value, CopyAt(g, Some(loc)))
  {
    if src.None? {
      return None;
    }
    var copies := CopyPassing(src.value, loc, reach);
    if |copies| == 0 {
      return None;
    }
    if dst.None? {
      return Some(copies);
    }
    var merged := dst.value + copies;
    forall g | g in src.value && Passes(g, loc, reach)
      ensures HasEqual(merged, CopyAt(g, Some(loc)))
    {
      var j :| 0 <= j < |copies| && KeyOf(copies[j]) == KeyOf(CopyAt(g, Some(loc)));
      assert merged[|dst.value| + j] == copies[j];
    }
    assert merged[..|dst.value|] == dst.value;
    return Some(merged);
  }

  /** A flag found in a prefix is found in the whole sequence. */
  lemma HasEqualInPrefix(p: seq<TaintFlag>, s: seq<TaintFlag>, n: TaintFlag)
    requires |p| <= |s| && s[..|p|] == p
    requires HasEqual(p, n)
    ensures HasEqual(s, n)
  {
    var i :| 0 <= i < |p| && KeyOf(p[i]) == KeyOf(n);
    assert s[i] == p[i];
  }

  /** The flags of an operand: its own, or else those of the operand with its
      pointer casts stripped. */
  function OperandTaint(m: TaintMap, v: ValueId, strip: ValueId -> ValueId): (r: Option<seq<TaintFlag>>)
    ensures v in m ==> r == Some(m[v])
    ensures v !in m ==> r == GetTaintInfo(m, strip(v))
  {
    if v in m then Some(m[v]) else GetTaintInfo(m, strip(v))
  }

  /** `g` is a flag of operand `v`, one of `vs`, that passes to `loc`. */
  ghost predicate PassingOperandFlag(m: TaintMap, vs: seq<ValueId>, strip: ValueId -> ValueId, loc: InstLoc,
                                     reach: (InstLoc, Option<InstLoc>) -> bool, v: ValueId, g: TaintFlag)
  {
    v in vs && OperandTaint(m, v, strip).Some? && g in OperandTaint(m, v, strip).value && Passes(g, loc, reach)
  }

  /** Every flag gathered is a copy of a passing operand flag. */
  ghost predicate GatherSound(m: TaintMap, vs: seq<ValueId>, strip: ValueId -> ValueId, loc: InstLoc,
                              reach: (InstLoc, Option<InstLoc>) -> bool, acc: seq<TaintFlag>)
  {
    forall f :: f in acc ==> exists v, g :: PassingOperandFlag(m, vs, strip, loc, reach, v, g) && f == CopyAt(g, Some(loc))
  }

  /** Every passing operand flag has an equal copy among those gathered. */
  ghost predicate GatherComplete(m: TaintMap, vs: seq<ValueId>, strip: ValueId -> ValueId, loc: InstLoc,
                                 reach: (InstLoc, Option<InstLoc>) -> bool, acc: seq<TaintFlag>)
  {
    forall v, g :: PassingOperandFlag(m, vs, strip, loc, reach, v, g) ==> HasEqual(acc, CopyAt(g, Some(loc)))
  }

  /** No flag of the operands `vs` passes. */
  ghost predicate NonePassing(m: TaintMap, vs: seq<ValueId>, strip: ValueId -> ValueId, loc: InstLoc,
                              reach: (InstLoc, Option<InstLoc>) -> bool)
  {
    forall v, g :: !PassingOperandFlag(m, vs, strip, loc, reach, v, g)
  }

  /** What `mergeTaintInfo` has gathered after the operands `vs`: sound and
      complete, and empty exactly when nothing passes. */
  ghost predicate Gathered(m: TaintMap, vs: seq<ValueId>, strip: ValueId -> ValueId, loc: InstLoc,
                           reach: (InstLoc, Option<InstLoc>) -> bool, acc: seq<TaintFlag>)
  {
    && (|acc| == 0 <==> NonePassing(m, vs, strip, loc, reach))
    && GatherSound(m, vs, strip, loc, reach, acc)
    && GatherComplete(m, vs, strip, loc, reach, acc)
  }

  /** An operand none of whose flags pass adds no passing flag. */
  lemma PassingUnchanged(m: TaintMap, vals: seq<ValueId>, k: nat, strip: ValueId -> ValueId, loc: InstLoc,
                         reach: (InstLoc, Option<InstLoc>) -> bool)
    requires k < |vals|
    requires OperandTaint(m, vals[k], strip).Some? ==> forall g :: g in OperandTaint(m, vals[k], strip).value ==> !Passes(g, loc, reach)
    ensures forall v, g :: PassingOperandFlag(m, vals[..k + 1], strip, loc, reach, v, g) <==> PassingOperandFlag(m, vals[..k], strip, loc, reach, v, g)
  {
    var pre, post := vals[..k], vals[..k + 1];
    assert post == pre + [vals[k]];
    forall v, g | PassingOperandFlag(m, post, strip, loc, reach, v, g)
      ensures PassingOperandFlag(m, pre, strip, loc, reach, v, g)
    {
    }
    forall v, g | PassingOperandFlag(m, pre, strip, loc, reach, v, g)
      ensures PassingOperandFlag(m, post, strip, loc, reach, v, g)
    {
    }
  }

  /** Gathering is unchanged by an operand none of whose flags pass. */
  lemma GatherNone(m: TaintMap, vals: seq<ValueId>, k: nat, strip: ValueId -> ValueId, loc: InstLoc,
                   reach: (InstLoc, Option<InstLoc>) -> bool, acc: seq<TaintFlag>)
    requires k < |vals|
    requires Gathered(m, vals[..k], strip, loc, reach, acc)
    requires OperandTaint(m, vals[k], strip).Some? ==> forall g :: g in OperandTaint(m, vals[k], strip).value ==> !Passes(g, loc, reach)
    ensures Gathered(m, vals[..k + 1], strip, loc, reach, acc)
  {
    var pre, post := vals[..k], vals[..k + 1];
    PassingUnchanged(m, vals, k, strip, loc, reach);
    forall f | f in acc
      ensures exists v, g :: PassingOperandFlag(m, post, strip, loc, reach, v, g) && f == CopyAt(g, Some(loc))
    {
      var v, g :| PassingOperandFlag(m, pre, strip, loc, reach, v, g) && f == CopyAt(g, Some(loc));
      assert PassingOperandFlag(m, post, strip, loc, reach, v, g);
    }
    forall v, g | PassingOperandFlag(m, post, strip, loc, reach, v, g)
      ensures HasEqual(acc, CopyAt(g, Some(loc)))
    {
      assert PassingOperandFlag(m, pre, strip, loc, reach, v, g);
    }
    if !NonePassing(m, pre, strip, loc, reach) {
      var v, g :| PassingOperandFlag(m, pre, strip, loc, reach, v, g);
      assert PassingOperandFlag(m, post, strip, loc, reach, v, g);
    }
  }

  /** The copies of an operand's passing flags, joined to a sound set, keep it
      sound. */
  lemma GatherSomeSound(m: TaintMap, vals: seq<ValueId>, k: nat, strip: ValueId -> ValueId, loc: InstLoc,
                        reach: (InstLoc, Option<InstLoc>) -> bool, acc: seq<TaintFlag>, res: seq<TaintFlag>)
    requires k < |vals| && OperandTaint(m, vals[k], strip).Some?
    requires GatherSound(m, vals[..k], strip, loc, reach, acc)
    requires forall f :: f in res ==>
               f in acc || exists g :: g in OperandTaint(m, vals[k], strip).value && Passes(g, loc, reach) && f == CopyAt(g, Some(loc))
    ensures GatherSound(m, vals[..k + 1], strip, loc, reach, res)
  {
    var pre, post := vals[..k], vals[..k + 1];
    assert post == pre + [vals[k]];
    forall f | f in res
      ensures exists v, g :: PassingOperandFlag(m, post, strip, loc, reach, v, g) && f == CopyAt(g, Some(loc))
    {
      if f in acc {
        var v, g :| PassingOperandFlag(m, pre, strip, loc, reach, v, g) && f == CopyAt(g, Some(loc));
        assert PassingOperandFlag(m, post, strip, loc, reach, v, g);
      } else {
        var g :| g in OperandTaint(m, vals[k], strip).value && Passes(g, loc, reach) && f == CopyAt(g, Some(loc));
        assert PassingOperandFlag(m, post, strip, loc, reach, vals[k], g);
      }
    }
  }

  /** The copies of an operand's passing flags, joined after a complete set,
      keep it complete. */
  lemma GatherSomeComplete(m: TaintMap, vals: seq<ValueId>, k: nat, strip: ValueId -> ValueId, loc: InstLoc,
                           reach: (InstLoc, Option<InstLoc>) -> bool, acc: seq<TaintFlag>, res: seq<TaintFlag>)
    requires k < |vals| && OperandTaint(m, vals[k], strip).Some?
    requires GatherComplete(m, vals[..k], strip, loc, reach, acc)
    requires |acc| < |res| && res[..|acc|] == acc
    requires forall g :: g in OperandTaint(m, vals[k], strip).value && Passes(g, loc, reach) ==> HasEqual(res, CopyAt(g, Some(loc)))
    ensures GatherComplete(m, vals[..k + 1], strip, loc, reach, res)
  {
    var pre, post := vals[..k], vals[..k + 1];
    assert post == pre + [vals[k]];
    forall v, g | PassingOperandFlag(m, post, strip, loc, reach, v, g)
      ensures HasEqual(res, CopyAt(g, Some(loc)))
    {
      if v != vals[k] {
        assert PassingOperandFlag(m, pre, strip, loc, reach, v, g);
        HasEqualInPrefix(acc, res, CopyAt(g, Some(loc)));
      }
    }
  }

  /** Gathering after an operand some of whose flags pass. */
  lemma GatherSome(m: TaintMap, vals: seq<ValueId>, k: nat, strip: ValueId -> ValueId, loc: InstLoc,
                   reach: (InstLoc, Option<InstLoc>) -> bool, acc: seq<TaintFlag>, res: seq<TaintFlag>)
    requires k < |vals| && OperandTaint(m, vals[k], strip).Some?
    requires Gathered(m, vals[..k], strip, loc, reach, acc)
    requires |acc| < |res| && res[..|acc|] == acc
    requires forall f :: f in res ==>
               f in acc || exists g :: g in OperandTaint(m, vals[k], strip).value && Passes(g, loc, reach) && f == CopyAt(g, Some(loc))
    requires forall g :: g in OperandTaint(m, vals[k], strip).value && Passes(g, loc, reach) ==> HasEqual(res, CopyAt(g, Some(loc)))
    ensures Gathered(m, vals[..k + 1], strip, loc, reach, res)
  {
    GatherSomeSound(m, vals, k, strip, loc, reach, acc, res);
    GatherSomeComplete(m, vals, k, strip, loc, reach, acc, res);
    assert res[0] in res;
    var v, g :| PassingOperandFlag(m, vals[..k + 1], strip, loc, reach, v, g) && res[0] == CopyAt(g, Some(loc));
  }

  /** `mergeTaintInfo(vals, I)`: the copies at `I` of every operand's passing
      flags, gathered into one set; null when there are none. */
  method MergeTaintInfo(m: TaintMap, vals: seq<ValueId>, strip: ValueId -> ValueId, loc: InstLoc,
                        reach: (InstLoc, Option<InstLoc>) -> bool) returns (r: Option<seq<TaintFlag>>)
    ensures r.None? <==> forall v, g :: v in vals && OperandTaint(m, v, strip).Some? && g in OperandTaint(m, v, strip).value ==> !Passes(g, loc, reach)
    ensures r.Some? ==> |r.value| > 0
    ensures r.Some? ==> forall f :: f in r.value ==>
              exists v, g :: v in vals && OperandTaint(m, v, strip).Some? && g in OperandTaint(m, v, strip).value
                             && Passes(g, loc, reach) && f == CopyAt(g, Some(loc))
    ensures r.Some? ==> forall v, g ::
              v in vals && OperandTaint(m, v, strip).Some? && g in OperandTaint(m, v, strip).value && Passes(g, loc, reach) ==>
                HasEqual(r.value, CopyAt(g, Some(loc)))
  {
    var acc: seq<TaintFlag> := [];
    var k := 0;
    while k < |vals|
      invariant 0 <= k <= |vals|
      invariant Gathered(m, vals[..k], strip, loc, reach, acc)
    {
      var info := OperandTaint(m, vals[k], strip);
      var res := None;
      if info.Some? {
        res := MakeTaintInfoCopy(loc, info, Some(acc), reach);
      }
      if res.Some? {
        GatherSome(m, vals, k, strip, loc, reach, acc, res.value);
        acc := res.value;
      } else {
        GatherNone(m, vals, k, strip, loc, reach, acc);
      }
      k := k + 1;
    }
    assert vals[..k] == vals;
    if |acc| == 0 {
      forall v, g | v in vals && OperandTaint(m, v, strip).Some? && g in OperandTaint(m, v, strip).value
        ensures !Passes(g, loc, reach)
      {
        assert !PassingOperandFlag(m, vals, strip, loc, reach, v, g);
      }
      return None;
    }
    forall v, g | v in vals && OperandTaint(m, v, strip).Some? && g in OperandTaint(m, v, strip).value && Passes(g, loc, reach)
      ensures HasEqual(acc, CopyAt(g, Some(loc)))
    {
      assert PassingOperandFlag(m, vals, strip, loc, reach, v, g);
    }
    ghost var v, g :| PassingOperandFlag(m, vals, strip, loc, reach, v, g);
    return Some(acc);
  }

  // ------------------------------------------------------------------ store

  /** The flags `visitStoreInst` writes to each of its `nTargets` distinct
      target fields: none when there is no target; the copies of a tainted
      source; for an untainted source one kill flag when there is exactly one
      target and none otherwise. Every flag is weak iff there are several
      targets. */
  method StoreFlags(src: Option<seq<TaintFlag>>, nTargets: nat, loc: InstLoc,
                    reach: (InstLoc, Option<InstLoc>) -> bool) returns (fs: seq<TaintFlag>)
    ensures nTargets == 0 ==> fs == []
    ensures forall f :: f in fs ==> f.isWeak == (nTargets > 1)
    ensures nTargets > 0 && src.Some? && |src.value| > 0 ==>
              forall f :: f in fs ==> exists g :: g in src.value && Passes(g, loc, reach) && f == CopyAt(g, Some(loc)).(isWeak := nTargets > 1)
    ensures nTargets > 0 && src.Some? && |src.value| > 0 ==>
              forall g :: g in src.value && Passes(g, loc, reach) ==> HasEqual(fs, CopyAt(g, Some(loc)))
    ensures nTargets == 1 && (src.None? || |src.value| == 0) ==> fs == [NewFlag(loc, false, None, false)]
    ensures nTargets > 1 && (src.None? || |src.value| == 0) ==> fs == []
  {
    if nTargets == 0 {
      return [];
    }
    var multi := nTargets > 1;
    if src.Some? && |src.value| > 0 {
      var copied := MakeTaintInfoCopy(loc, src, Some([]), reach);
      var base := if copied.Some? then copied.value else [];
      fs := WithWeakness(base, multi);
      forall g | g in src.value && Passes(g, loc, reach)
        ensures HasEqual(fs, CopyAt(g, Some(loc)))
      {
        WithWeaknessKeepsEquals(base, multi, CopyAt(g, Some(loc)));
      }
      forall f | f in fs
        ensures exists g :: g in src.value && Passes(g, loc, reach) && f == CopyAt(g, Some(loc)).(isWeak := multi)
      {
        WithWeaknessMember(base, multi, f);
        var b :| b in base && f == b.(isWeak := multi);
        assert copied.Some? && b in copied.value && b !in [];
      }
    } else if !multi {
      fs := WithWeakness([NewFlag(loc, false, None, false)], multi);
    } else {
      fs := [];
    }
  }

  /** The flags with their weakness set to `w`, as the store loop sets
      `is_weak` on each new flag. */
  function WithWeakness(base: seq<TaintFlag>, w: bool): (r: seq<TaintFlag>)
    ensures |r| == |base|
    ensures forall i :: 0 <= i < |base| ==> r[i] == base[i].(isWeak := w)
    ensures forall f :: f in r ==> f.isWeak == w
  {
    seq(|base|, i requires 0 <= i < |base| => base[i].(isWeak := w))
  }

  /** Weakness is not compared, so equals survive `WithWeakness`. */
  lemma WithWeaknessKeepsEquals(base: seq<TaintFlag>, w: bool, n: TaintFlag)
    requires HasEqual(base, n)
    ensures HasEqual(WithWeakness(base, w), n)
  {
    var r := WithWeakness(base, w);
    var j :| 0 <= j < |base| && KeyOf(base[j]) == KeyOf(n);
    assert KeyOf(r[j]) == KeyOf(base[j]);
  }

  /** Each member of `WithWeakness` comes from a member of the input. */
  lemma WithWeaknessMember(base: seq<TaintFlag>, w: bool, f: TaintFlag)
    requires f in WithWeakness(base, w)
    ensures exists b :: b in base && f == b.(isWeak := w)
  {
    var r := WithWeakness(base, w);
    var j :| 0 <= j < |r| && r[j] == f;
    assert base[j] in base;
  }

  // -------------------------------------------------------------- arguments

  /** What tainting one pointee of a user-supplied argument does: field 0
      taints every field of the object, any other field only itself. */
  datatype ArgTaint = TaintField(obj: nat, field: int, flag: TaintFlag) | TaintAllFields(obj: nat, flag: TaintFlag)

  /** The tag of user-supplied data: field 0, no value, type or object, and
      not global. */
  function UserTag(): (t: TaintTag)
    ensures !t.isGlobal && t.fieldId == 0 && t.priv.None? && t.v.None?
  {
    TaintTag(0, None, None, map[], map[], false, None)
  }

  /** The field and object one `ArgTaint` is about; taint of all fields is
      taint through field 0. */
  function TargetOf(a: ArgTaint): (int, nat)
  {
    match a
    case TaintField(o, f, _) => (f, o)
    case TaintAllFields(o, _) => (0, o)
  }

  /** The `targetObjects` set of `propagateTaintToArguments`: the (field,
      object) pairs of the argument's points-to records, null objects skipped,
      each pair once, in order of first appearance. */
  function TargetObjects(pointees: seq<(int, Option<nat>)>): (r: seq<(int, nat)>)
    ensures Distinct(r)
    ensures forall f, o :: (f, o) in r <==> (f, Some(o)) in pointees
  {
    if |pointees| == 0 then []
    else
      var init := pointees[..|pointees| - 1];
      var last := pointees[|pointees| - 1];
      var r := TargetObjects(init);
      assert pointees == init + [last];
      if last.1.None? || (last.0, last.1.value) in r then r
      else
        DistinctPush(r, (last.0, last.1.value));
        r + [(last.0, last.1.value)]
  }

  /** `propagateTaintToArguments` for one argument whose points-to records
      point to `pointees` (pairs of field and possibly null object): the
      distinct non-null pairs are the targets, and the source asserts there is
      at least one; each target gets a fresh tainting flag at the call, weak iff
      there are several targets, carrying a non-global user tag. Field 0 taints
      every field of the object, any other field only itself. */
  function ArgumentTaints(loc: InstLoc, pointees: seq<(int, Option<nat>)>): (r: Option<seq<ArgTaint>>)
    ensures r.None? <==> forall k :: 0 <= k < |pointees| ==> pointees[k].1.None?
    ensures r.Some? ==> forall f, o :: (f, Some(o)) in pointees <==>
              exists i :: 0 <= i < |r.value| && TargetOf(r.value[i]) == (f, o)
    ensures r.Some? ==> forall i, j :: 0 <= i < j < |r.value| ==> TargetOf(r.value[i]) != TargetOf(r.value[j])
    ensures r.Some? ==> forall i :: 0 <= i < |r.value| ==>
              (r.value[i].TaintAllFields? <==> TargetOf(r.value[i]).0 == 0)
              && r.value[i].flag.isTainted && r.value[i].flag.isWeak == (|r.value| > 1)
              && r.value[i].flag.tag == Some(UserTag()) && r.value[i].flag.targetInstr == Some(loc)
  {
    var targets := TargetObjects(pointees);
    if |targets| == 0 then
      assert forall k :: 0 <= k < |pointees| ==> pointees[k].1.None? by {
        forall k | 0 <= k < |pointees|
          ensures pointees[k].1.None?
        {
          assert pointees[k] in pointees;
        }
      }
      None
    else
      assert targets[0].1 == targets[0].1;
      assert (targets[0].0, Some(targets[0].1)) in pointees;
      var multi := |targets| > 1;
      var r := seq(|targets|, i requires 0 <= i < |targets| =>
        var tf := NewFlag(loc, true, Some(UserTag()), multi);
        if targets[i].0 != 0 then TaintField(targets[i].1, targets[i].0, tf) else TaintAllFields(targets[i].1, tf));
      assert forall i :: 0 <= i < |r| ==> TargetOf(r[i]) == targets[i];
      DistinctMeans(targets);
      Some(r)
  }

  // -------------------------------------------------------------- GEP, ret

  /** The operands of a GEP whose taint is merged: those whose value range is
      not bounded. */
  function GepSources(ops: seq<ValueId>, bounded: ValueId -> bool): (r: seq<ValueId>)
    ensures forall v :: v in r <==> v in ops && !bounded(v)
    ensures |r| <= |ops|
  {
    if |ops| == 0 then []
    else
      var rest := GepSources(ops[1..], bounded);
      assert forall v :: v in ops <==> v == ops[0] || v in ops[1..];
      if bounded(ops[0]) then rest else [ops[0]] + rest
  }

  /** `visitReturnInst`: the returned value's flags join the function's return
      taints, each only when no equal flag is there yet. */
  method AddReturnTaints(ret: seq<TaintFlag>, flags: seq<TaintFlag>) returns (r: seq<TaintFlag>)
    ensures |ret| <= |r| && r[..|ret|] == ret
    ensures forall f :: f in flags ==> HasEqual(r, f)
    ensures forall j :: |ret| <= j < |r| ==> r[j] in flags
    ensures NoDup(ret) ==> NoDup(r)
  {
    var m := UpdateTaintInfo(map[0 := ret], 0, flags);
    r := m[0];
    forall f | f in flags
      ensures HasEqual(r, f)
    {
      var i :| 0 <= i < |flags| && flags[i] == f;
    }
  }
}

=== FILE: text.dfy ===
/** Character-level helpers shared by the name utilities, the argument-role table
    and the printers: C++ `rfind`/`find`, decimal rendering of `long` values and the
    C++ `std::stoi` conversion (base 10). */
module Text {
  import opened Wrappers

  /** Index of the last occurrence of `c` in `s` (`std::string::rfind` of a
      one-character string), or None for `npos`. */
  function RFind(s: string, c: char): (r: Option<nat>)
    ensures r.Some? ==> r.value < |s| && s[r.value] == c
    ensures r.Some? ==> forall j :: r.value < j < |s| ==> s[j] != c
    ensures r.None? <==> forall j :: 0 <= j < |s| ==> s[j] != c
  {
    if |s| == 0 then None
    else if s[|s| - 1] == c then Some(|s| - 1)
    else RFind(s[..|s| - 1], c)
  }

  /** True iff `p` occurs in `s` at position `i`. */
  predicate OccursAt(s: string, p: string, i: nat)
  {
    i + |p| <= |s| && s[i..i + |p|] == p
  }

  /** Index of the first occurrence of `p` in `s` (`std::string::find`), or None. */
  function Find(s: string, p: string): (r: Option<nat>)
    ensures r.Some? ==> OccursAt(s, p, r.value)
    ensures r.Some? ==> forall j :: 0 <= j < r.value ==> !OccursAt(s, p, j)
    ensures r.None? ==> forall j :: 0 <= j <= |s| ==> !OccursAt(s, p, j)
  {
    FindFrom(s, p, 0)
  }

  function FindFrom(s: string, p: string, i: nat): (r: Option<nat>)
    requires i <= |s|
    ensures r.Some? ==> i <= r.value && OccursAt(s, p, r.value)
    ensures r.Some? ==> forall j :: i <= j < r.value ==> !OccursAt(s, p, j)
    ensures r.None? ==> forall j :: i <= j <= |s| ==> !OccursAt(s, p, j)
    decreases |s| - i
  {
    if OccursAt(s, p, i) then Some(i)
    else if i == |s| then None
    else FindFrom(s, p, i + 1)
  }

  /** `s.find(p) != npos`. */
  predicate Contains(s: string, p: string)
  {
    Find(s, p).Some?
  }

  predicate IsDigit(c: char)
  {
    '0' <= c <= '9'
  }

  function DigitChar(d: nat): (c: char)
    requires d < 10
    ensures IsDigit(c)
  {
    (d + '0' as int) as char
  }

  function DigitValue(c: char): (d: nat)
    requires IsDigit(c)
    ensures d < 10 && DigitChar(d) == c
  {
    c as int - '0' as int
  }

  predicate AllDigits(s: string)
  {
    forall i :: 0 <= i < |s| ==> IsDigit(s[i])
  }

  /** Value of a run of decimal digits, most significant first. */
  function DigitsValue(s: string): nat
    requires AllDigits(s)
  {
    if |s| == 0 then 0 else DigitsValue(s[..|s| - 1]) * 10 + DigitValue(s[|s| - 1])
  }

  /** Decimal rendering of a natural number without leading zeros (`operator<<`). */
  function NatToString(n: nat): (r: string)
    ensures |r| > 0 && AllDigits(r)
    ensures DigitsValue(r) == n
    ensures r[0] == '0' ==> n == 0
  {
    if n < 10 then
      DigitValueOfChar(n);
      assert [DigitChar(n)][..0] == [];
      [DigitChar(n)]
    else
      var p := NatToString(n / 10);
      var c := DigitChar(n % 10);
      DigitValueOfChar(n % 10);
      DigitsValueSnoc(p, c);
      p + [c]
  }

  /** A digit character reads back as the digit it renders. */
  lemma DigitValueOfChar(d: nat)
    requires d < 10
    ensures DigitValue(DigitChar(d)) == d
  {
    var c := DigitChar(d);
    assert c == ['0', '1', '2', '3', '4', '5', '6', '7', '8', '9'][d];
  }

  /** One more digit at the end: ten times the value so far, plus the digit. */
  lemma DigitsValueSnoc(p: string, c: char)
    requires AllDigits(p) && IsDigit(c)
    ensures AllDigits(p + [c])
    ensures DigitsValue(p + [c]) == DigitsValue(p) * 10 + DigitValue(c)
  {
    var q := p + [c];
    assert q[..|p|] == p;
    assert q[|p|] == c;
  }

  /** Decimal rendering of a signed `long` (`operator<<` / `std::to_string`). */
  function IntToString(i: int): (r: string)
    ensures |r| > 0
    ensures i >= 0 ==> r == NatToString(i)
    ensures i < 0 ==> r == "-" + NatToString(-i)
  {
    if i >= 0 then NatToString(i) else "-" + NatToString(-i)
  }

  const IntMin: int := -0x8000_0000
  const IntMax: int := 0x7fff_ffff

  /** Whitespace as C `isspace` sees it in the "C" locale. */
  predicate IsCSpace(c: char)
  {
    c == ' ' || c == '\t' || c == '\n' || c == '\U{b}' || c == '\U{c}' || c == '\r'
  }

  /** Number of leading `isspace` characters of `s`. */
  function LeadingSpaces(s: string): (n: nat)
    ensures n <= |s|
    ensures n < |s| ==> !IsCSpace(s[n])
  {
    if |s| == 0 || !IsCSpace(s[0]) then 0 else 1 + LeadingSpaces(s[1..])
  }

  /** Number of consecutive digits of `s` starting at `i`. */
  function DigitRun(s: string, i: nat): (n: nat)
    requires i <= |s|
    ensures i + n <= |s|
    ensures AllDigits(s[i..i + n])
    ensures i + n < |s| ==> !IsDigit(s[i + n])
    decreases |s| - i
  {
    if i == |s| || !IsDigit(s[i]) then 0
    else
      var n := 1 + DigitRun(s, i + 1);
      assert s[i..i + n] == [s[i]] + s[i + 1..i + n];
      n
  }

  /** Outcome of `std::stoi(s, &idx, 10)`: the value and the number of characters
      consumed, or one of the two exceptions it throws. */
  datatype StoiResult = StoiOk(value: int, consumed: nat) | InvalidArgument | OutOfRange

  /** `std::stoi`: skips leading whitespace, reads an optional sign and then the
      longest run of decimal digits; throws `invalid_argument` when there is no
      digit and `out_of_range` when the value does not fit a 32-bit `int`. */
  function Stoi(s: string): (r: StoiResult)
    ensures r.StoiOk? ==> 0 < r.consumed <= |s| && IntMin <= r.value <= IntMax
    ensures r.StoiOk? ==> r.consumed == |s| || !IsDigit(s[r.consumed])
    ensures (forall j :: 0 <= j < |s| ==> !IsDigit(s[j])) ==> r == InvalidArgument
  {
    var w := LeadingSpaces(s);
    var signed := w < |s| && (s[w] == '+' || s[w] == '-');
    StoiDigits(s, if signed then w + 1 else w, signed && s[w] == '-')
  }

  /** The digit part of `std::stoi`: the run of digits from `start`, negated
      when a minus sign preceded it. */
  function StoiDigits(s: string, start: nat, neg: bool): (r: StoiResult)
    requires start <= |s|
    ensures r.StoiOk? ==> start < r.consumed <= |s| && IntMin <= r.value <= IntMax
    ensures r.StoiOk? ==> r.consumed == |s| || !IsDigit(s[r.consumed])
    ensures start == |s| || !IsDigit(s[start]) ==> r == InvalidArgument
  {
    var d := DigitRun(s, start);
    if d == 0 then InvalidArgument
    else
      assert IsDigit(s[start..start + d][0]);
      var mag: int := DigitsValue(s[start..start + d]);
      var v: int := if neg then -mag else mag;
      if v < IntMin || v > IntMax then OutOfRange else StoiOk(v, start + d)
  }

  /** `std::stoi` reads back every `int` that `std::to_string` printed, consuming
      the whole text. */
  lemma StoiOfIntToString(i: int)
    requires IntMin <= i <= IntMax
    ensures Stoi(IntToString(i)) == StoiOk(i, |IntToString(i)|)
  {
    if i >= 0 {
      StoiOfNonNegative(i);
    } else {
      StoiOfNegative(i);
    }
  }

  /** The round trip for a number printed without a sign. */
  lemma StoiOfNonNegative(i: int)
    requires 0 <= i <= IntMax
    ensures Stoi(IntToString(i)) == StoiOk(i, |IntToString(i)|)
  {
    var s := NatToString(i);
    assert IsDigit(s[0]);
    assert LeadingSpaces(s) == 0;
    DigitRunAll(s, 0);
    assert s[0..|s|] == s;
  }

  /** The round trip for a number printed after a minus sign. */
  lemma StoiOfNegative(i: int)
    requires IntMin <= i < 0
    ensures Stoi(IntToString(i)) == StoiOk(i, |IntToString(i)|)
  {
    var t := NatToString(-i);
    var s := "-" + t;
    assert s[0] == '-';
    assert LeadingSpaces(s) == 0;
    assert s[1..] == t;
    DigitRunAll(s, 1);
    assert s[1..|s|] == t;
  }

  /** A digit run that reaches the end of the string covers all of it. */
  lemma DigitRunAll(s: string, i: nat)
    requires i <= |s| && AllDigits(s[i..])
    ensures DigitRun(s, i) == |s| - i
    decreases |s| - i
  {
    if i < |s| {
      assert IsDigit(s[i..][0]);
      assert s[i + 1..] == s[i..][1..];
      DigitRunAll(s, i + 1);
    }
  }

  /** `std::stoi` characterised by positions: when `s` starts with `w`
      white-space characters not followed by another, then an optional sign
      ending at `start`, then exactly `d` digits, the outcome is
      `invalid_argument` for no digit, and otherwise the signed value of the
      digits, or `out_of_range` when it does not fit a 32-bit `int`; a success
      consumes everything up to the end of the digits. */
  lemma {:induction false} StoiAt(s: string, w: nat, start: nat, d: nat)
    requires w <= start && start + d <= |s|
    requires forall j :: 0 <= j < w ==> IsCSpace(s[j])
    requires w < |s| ==> !IsCSpace(s[w])
    requires (start == w + 1 && (s[w] == '+' || s[w] == '-'))
      || (start == w && (w == |s| || (s[w] != '+' && s[w] != '-')))
    requires AllDigits(s[start..start + d]) && (start + d == |s| || !IsDigit(s[start + d]))
    ensures var mag: int := DigitsValue(s[start..start + d]);
      var v := if start == w + 1 && s[w] == '-' then -mag else mag;
      Stoi(s) == if d == 0 then InvalidArgument
        else if IntMin <= v <= IntMax then StoiOk(v, start + d) else OutOfRange
  {
    LeadingSpacesIs(s, w);
    DigitRunOf(s, start, d);
    StoiRead(s, w, start, start == w + 1 && s[w] == '-');
    StoiDigitsOf(s, start, d, start == w + 1 && s[w] == '-');
  }

  /** `std::stoi` once the white space and the sign it skips are known. */
  lemma StoiRead(s: string, w: nat, start: nat, neg: bool)
    requires LeadingSpaces(s) == w && w <= start <= |s|
    requires (start == w + 1 && (s[w] == '+' || s[w] == '-'))
      || (start == w && (w == |s| || (s[w] != '+' && s[w] != '-')))
    requires neg <==> start == w + 1 && s[w] == '-'
    ensures Stoi(s) == StoiDigits(s, start, neg)
  {
  }

  /** The digit part of `std::stoi` on a known run of digits. */
  lemma StoiDigitsOf(s: string, start: nat, d: nat, neg: bool)
    requires start <= |s| && DigitRun(s, start) == d
    ensures var mag: int := DigitsValue(s[start..start + d]);
      var v := if neg then -mag else mag;
      StoiDigits(s, start, neg)
      == if d == 0 then InvalidArgument
         else if IntMin <= v <= IntMax then StoiOk(v, start + d) else OutOfRange
  {
  }

  /** `w` white-space characters not followed by another are exactly what
      `LeadingSpaces` counts. */
  lemma {:induction false} LeadingSpacesIs(s: string, w: nat)
    requires w <= |s|
    requires forall j :: 0 <= j < w ==> IsCSpace(s[j])
    requires w < |s| ==> !IsCSpace(s[w])
    ensures LeadingSpaces(s) == w
  {
    if w > 0 {
      assert forall j :: 0 <= j < w - 1 ==> s[1..][j] == s[j + 1];
      LeadingSpacesIs(s[1..], w - 1);
    }
  }

  /** A run of `n` digits from `i` that the next character does not continue
      is exactly what `DigitRun` measures. */
  lemma {:induction false} DigitRunOf(s: string, i: nat, n: nat)
    requires i + n <= |s| && AllDigits(s[i..i + n])
    requires i + n == |s| || !IsDigit(s[i + n])
    ensures DigitRun(s, i) == n
    decreases n
  {
    if n > 0 {
      assert IsDigit(s[i..i + n][0]);
      assert s[i + 1..i + n] == s[i..i + n][1..];
      DigitRunOf(s, i + 1, n - 1);
    }
  }
}

=== FILE: types.dfy ===
/** LLVM types as the analyser sees them (InstructionUtils): a type id, the contained
    types, a struct name and an element count; a null `Type*` is `None`. The
    pointer comparison `ty0 == ty1` of `same_types` becomes equality of these
    values. That is exact for the types LLVM uniques by structure, but not for
    two unnamed identified structs with the same body, nor for a packed and a
    plain literal struct: LLVM keeps those apart, this datatype does not.
    Recursive types cannot be written as a value of it either. */
module TypeModel {
  import opened Wrappers
  import opened Text

  /** `Type::getTypeID()`, reduced to the ids the analyser distinguishes. */
  datatype TyKind = VoidTy | IntegerTy | PointerTy | StructTy | ArrayTy | VectorTy | FunctionTy | OtherTy(id: nat)

  /** A type: `bits` is the integer width, `contained` the contained types
      (pointee, element type, struct fields, return and parameter types),
      `name` the name of an identified struct, `numElements` the length of an
      array and `opaque` whether a struct has no body. */
  datatype Ty = Ty(kind: TyKind, bits: nat, contained: seq<Ty>, name: Option<string>, numElements: nat, isOpaque: bool)

  /** `CompositeType`: structs, arrays and vectors. */
  predicate IsComposite(t: Ty)
  {
    t.kind == StructTy || t.kind == ArrayTy || t.kind == VectorTy
  }

  /** A pointer to `i8`, the type C's `char *` and `void *` become. */
  predicate IsI8Ptr(t: Ty)
  {
    t.kind == PointerTy && |t.contained| > 0 && t.contained[0].kind == IntegerTy && t.contained[0].bits == 8
  }

  function Int(bits: nat): Ty
  {
    Ty(IntegerTy, bits, [], None, 0, false)
  }

  function PtrTo(t: Ty): Ty
  {
    Ty(PointerTy, 0, [t], None, 0, false)
  }

  /** `stripFuncNameSuffix`: erases from the last `.` to the end. */
  function StripFuncNameSuffix(fn: string): (r: string)
    ensures r <= fn
    ensures RFind(fn, '.').None? ==> r == fn
    ensures RFind(fn, '.').Some? ==>
      |r| < |fn| && fn[|r|] == '.' && (forall j :: |r| < j < |fn| ==> fn[j] != '.')
  {
    match RFind(fn, '.')
    case None => fn
    case Some(n) => fn[..n]
  }

  /** The last `.`-separated component is the whole remainder of `s` read as an
      `int` by `std::stoi`: the number must consume the entire suffix. An empty
      suffix also qualifies, because the failed conversion leaves the consumed
      count at 0. */
  predicate NumericSuffix(suffix: string)
  {
    |suffix| == 0 || (Stoi(suffix).StoiOk? && Stoi(suffix).consumed == |suffix|)
  }

  /** `trim_num_suffix`: erases the last `.` and what follows it when that
      suffix is numeric. */
  function TrimNumSuffix(s: string): (r: string)
    ensures r <= s
    ensures RFind(s, '.').None? ==> r == s
    ensures RFind(s, '.').Some? ==>
      var n := RFind(s, '.').value;
      (NumericSuffix(s[n + 1..]) ==> r == s[..n]) && (!NumericSuffix(s[n + 1..]) ==> r == s)
  {
    match RFind(s, '.')
    case None => s
    case Some(n) => if NumericSuffix(s[n + 1..]) then s[..n] else s
  }

  /** The string after the last dot of `s` + "." + `t`, for a `t` without dots. */
  lemma LastDotOf(s: string, t: string)
    requires forall j :: 0 <= j < |t| ==> t[j] != '.'
    ensures RFind(s + "." + t, '.') == Some(|s|)
    ensures (s + "." + t)[..|s|] == s && (s + "." + t)[|s| + 1..] == t
  {
    var u := s + "." + t;
    assert u[..|s|] == s && u[|s| + 1..] == t by {
      DotSplit(s, t);
    }
    assert RFind(u, '.') == Some(|s|) by {
      DotSplit(s, t);
      RFindLast(u, '.', |s|);
    }
  }

  /** The pieces of `s` + "." + `t`, with no dot after the one added. */
  lemma DotSplit(s: string, t: string)
    requires forall j :: 0 <= j < |t| ==> t[j] != '.'
    ensures var u := s + "." + t;
      u[..|s|] == s && u[|s|] == '.' && u[|s| + 1..] == t &&
      forall j :: |s| < j < |u| ==> u[j] != '.'
  {
    var u := s + "." + t;
    assert u[..|s|] == s && u[|s|] == '.';
    assert u[|s| + 1..] == t;
    forall j | |s| < j < |u|
      ensures u[j] != '.'
    {
      assert u[j] == t[j - |s| - 1];
    }
  }

  /** The last occurrence is the index where `c` sits with none after it. */
  lemma RFindLast(s: string, c: char, n: nat)
    requires n < |s| && s[n] == c
    requires forall j :: n < j < |s| ==> s[j] != c
    ensures RFind(s, c) == Some(n)
  {
    var r := RFind(s, c);
    assert r.Some?;
    if r.value < n {
    } else if r.value > n {
    }
  }

  /** `trim_num_suffix` removes the numeric suffix LLVM appends to a renamed
      struct (`struct.A.123` becomes `struct.A`) for every `int`-range number. */
  lemma TrimNumSuffixRemovesNumber(s: string, k: nat)
    requires k <= IntMax
    ensures TrimNumSuffix(s + "." + NatToString(k)) == s
  {
    var t := NatToString(k);
    assert forall j :: 0 <= j < |t| ==> t[j] != '.' by {
      forall j | 0 <= j < |t| ensures t[j] != '.' { assert IsDigit(t[j]); }
    }
    LastDotOf(s, t);
    StoiOfIntToString(k);
  }

  /** A name without a dot is left unchanged by both suffix strippers. */
  lemma NoDotUnchanged(s: string)
    requires forall j :: 0 <= j < |s| ==> s[j] != '.'
    ensures TrimNumSuffix(s) == s && StripFuncNameSuffix(s) == s
  {
  }

  /** `stripFuncNameSuffix` removes exactly the last component (`foo.cold.1`
      becomes `foo.cold`). */
  lemma StripFuncNameSuffixRemovesLast(s: string, t: string)
    requires forall j :: 0 <= j < |t| ==> t[j] != '.'
    ensures StripFuncNameSuffix(s + "." + t) == s
  {
    LastDotOf(s, t);
  }

  /** A suffix that starts with a letter is not numeric, so the name is kept
      (`struct.foo` stays `struct.foo`). */
  lemma TrimKeepsWordSuffix(s: string, t: string)
    requires |t| > 0 && 'a' <= t[0] <= 'z'
    requires forall j :: 0 <= j < |t| ==> t[j] != '.'
    ensures TrimNumSuffix(s + "." + t) == s + "." + t
  {
    LastDotOf(s, t);
    assert LeadingSpaces(t) == 0;
    assert DigitRun(t, 0) == 0;
  }

  /** `same_types(ty0, ty1, wild_intp)`, checked in the order of the C++ code:
      identical types; a null type; different type ids; different numbers of
      contained types; with `wild_intp`, an `i8*` on either side matches any
      pointer; identified structs match when their names agree after
      `trim_num_suffix` and unnamed structs only when identical; every other type
      matches when all contained types match (with `wild_intp` off). Integer
      widths and array lengths are never compared. */
  function SameTypes(t0: Option<Ty>, t1: Option<Ty>, wild: bool): (r: bool)
    ensures t0 == t1 ==> r
    ensures t0.None? != t1.None? ==> !r
    ensures r && t0.Some? && t1.Some? ==>
      t0.value.kind == t1.value.kind && |t0.value.contained| == |t1.value.contained|
    decreases if t0.Some? then t0.value else Int(0), 1
  {
    if t0 == t1 then true
    else if t0.None? || t1.None? then false
    else
      var a := t0.value;
      var b := t1.value;
      if a.kind != b.kind then false
      else if |a.contained| != |b.contained| then false
      else if wild && IsI8Ptr(a) then b.kind == PointerTy
      else if wild && IsI8Ptr(b) then a.kind == PointerTy
      else if a.kind == StructTy then
        a.name.Some? && b.name.Some? && TrimNumSuffix(a.name.value) == TrimNumSuffix(b.name.value)
      else SameContained(a, b, 0)
  }

  /** The contained types of `a` and `b` from index `i` on match pairwise. */
  function SameContained(a: Ty, b: Ty, i: nat): (r: bool)
    requires |a.contained| == |b.contained| && i <= |a.contained|
    ensures r <==> forall j :: i <= j < |a.contained| ==> SameTypes(Some(a.contained[j]), Some(b.contained[j]), false)
    decreases a, 0, |a.contained| - i
  {
    if i == |a.contained| then true
    else SameTypes(Some(a.contained[i]), Some(b.contained[i]), false) && SameContained(a, b, i + 1)
  }

  /** The two comparisons `same_types` makes once two distinct types pass the
      id, arity and `i8*` checks: identified structs compare their names with
      the numeric suffix trimmed, and any other kind compares every contained
      type in turn, without `wild_intp`. */
  lemma {:induction false} SameTypesCompares(a: Ty, b: Ty, wild: bool)
    requires a != b && a.kind == b.kind && |a.contained| == |b.contained|
    requires !(wild && (IsI8Ptr(a) || IsI8Ptr(b)))
    ensures a.kind == StructTy ==> (SameTypes(Some(a), Some(b), wild) <==>
      a.name.Some? && b.name.Some? && TrimNumSuffix(a.name.value) == TrimNumSuffix(b.name.value))
    ensures a.kind != StructTy ==> (SameTypes(Some(a), Some(b), wild) <==>
      forall j :: 0 <= j < |a.contained| ==> SameTypes(Some(a.contained[j]), Some(b.contained[j]), false))
  {
    if a.kind != StructTy {
      assert SameTypes(Some(a), Some(b), wild) == SameContained(a, b, 0);
    }
  }

  /** `same_types` is symmetric. */
  lemma {:induction false} SameTypesSymmetric(t0: Option<Ty>, t1: Option<Ty>, wild: bool)
    ensures SameTypes(t0, t1, wild) == SameTypes(t1, t0, wild)
    decreases if t0.Some? then t0.value else Int(0)
  {
    if t0 != t1 && t0.Some? && t1.Some? {
      var a := t0.value;
      var b := t1.value;
      if a.kind == b.kind && |a.contained| == |b.contained| && !(wild && (IsI8Ptr(a) || IsI8Ptr(b)))
        && a.kind != StructTy
      {
        forall j | 0 <= j < |a.contained|
          ensures SameTypes(Some(a.contained[j]), Some(b.contained[j]), false)
               == SameTypes(Some(b.contained[j]), Some(a.contained[j]), false)
        {
          SameTypesSymmetric(Some(a.contained[j]), Some(b.contained[j]), false);
        }
        assert SameContained(a, b, 0) == SameContained(b, a, 0);
      }
    }
  }

  /** Integer types of different widths are "the same": the type ids agree and
      neither has contained types. */
  lemma IntegerWidthsIgnored(m: nat, n: nat, wild: bool)
    ensures SameTypes(Some(Int(m)), Some(Int(n)), wild)
  {
  }

  /** Array lengths are not compared: arrays of the same element type match
      whatever their lengths. */
  lemma ArrayLengthsIgnored(elem: Ty, m: nat, n: nat)
    ensures SameTypes(Some(Ty(ArrayTy, 0, [elem], None, m, false)), Some(Ty(ArrayTy, 0, [elem], None, n, false)), false)
  {
    var a := Ty(ArrayTy, 0, [elem], None, m, false);
    var b := Ty(ArrayTy, 0, [elem], None, n, false);
    assert SameContained(a, b, 1);
  }

  /** With `wild_intp`, `i8*` matches every pointer type. */
  lemma WildI8PtrMatchesAnyPointer(t: Ty)
    requires t.kind == PointerTy && |t.contained| == 1
    ensures SameTypes(Some(PtrTo(Int(8))), Some(t), true)
  {
  }

  /** Identified structs renamed by LLVM with a numeric suffix are the same type
      as the original whenever the original name carries no numeric suffix of its
      own. */
  lemma RenamedStructsMatch(a: Ty, n: string, k: nat)
    requires a.kind == StructTy && a.name == Some(n) && TrimNumSuffix(n) == n && k <= IntMax
    ensures SameTypes(Some(a), Some(a.(name := Some(n + "." + NatToString(k)))), false)
  {
    TrimNumSuffixRemovesNumber(n, k);
  }

  /** Unnamed structs match only an equal value (pointer identity in LLVM, up to
      the representation gap noted at the top of this module). */
  lemma UnnamedStructsNeedIdentity(a: Ty, b: Ty, wild: bool)
    requires a.kind == StructTy && a.name.None? && a != b
    requires !(wild && (IsI8Ptr(a) || IsI8Ptr(b)))
    ensures !SameTypes(Some(a), Some(b), wild)
  {
  }

  /** `isIndexValid`: a struct accepts field ids below its field count, an array
      ids below its length, a vector any id; every other case, including an
      index past the end of a struct or array, accepts only id 0. Null accepts
      nothing. */
  function IsIndexValid(t: Option<Ty>, fid: nat): (r: bool)
    ensures t.None? ==> !r
    ensures t.Some? && fid == 0 ==> r
    ensures t.Some? && !IsComposite(t.value) ==> (r <==> fid == 0)
    ensures t.Some? && t.value.kind == StructTy ==> (r <==> fid == 0 || fid < |t.value.contained|)
    ensures t.Some? && t.value.kind == ArrayTy ==> (r <==> fid == 0 || fid < t.value.numElements)
    ensures t.Some? && t.value.kind == VectorTy ==> r
  {
    if t.None? then false
    else if t.value.kind == StructTy && fid < |t.value.contained| then true
    else if t.value.kind == ArrayTy && fid < t.value.numElements then true
    else if t.value.kind == VectorTy then true
    else fid == 0
  }

  /** A field id that `isIndexValid` accepts on a composite type with at least
      one contained type has a type at that index. */
  lemma ValidIndexHasType(t: Ty, fid: nat)
    requires IsComposite(t) && |t.contained| > 0 && IsIndexValid(Some(t), fid)
    ensures t.kind == StructTy ==> fid < |t.contained|
    ensures TypeAtIndex(t, fid) in t.contained
  {
  }

  /** `isPrimitiveTy`: void and integer types, and a null type. */
  predicate IsPrimitiveTy(t: Option<Ty>)
  {
    t.None? || t.value.kind == VoidTy || t.value.kind == IntegerTy
  }

  /** `isOpaqueSt`: a struct without a body. */
  predicate IsOpaqueSt(t: Option<Ty>)
  {
    t.Some? && t.value.kind == StructTy && t.value.isOpaque
  }

  /** `getTypeAtIndex` of a composite type: the field for a struct, the element
      type for an array or vector. */
  function TypeAtIndex(t: Ty, fid: nat): (r: Ty)
    requires IsComposite(t) && |t.contained| > 0
    requires t.kind == StructTy ==> fid < |t.contained|
    ensures r in t.contained
  {
    if t.kind == StructTy then t.contained[fid] else t.contained[0]
  }
}

=== FILE: warning_output.dfy ===
/** The warning printers of the bug detectors and the instruction-trace printer
    `printInstlocTraceJson` (CFGUtils.cpp). Each detector prints one line
    `"warn_data":{...}` per warning for the log post-processor, and a free-text
    "complete" form. LLVM's own renderings of a value (`getValueStr`), of an
    instruction as text (`printInst`) and as JSON members (`printInstJson`) are
    parameters of the printer. */
module WarningOutput {
  import opened Wrappers
  import opened Seqs
  import opened Text
  import opened JsonText
  import opened InstLocs

  /** LLVM's renderings: whether a value is an instruction, its printout, the JSON
      members and the text line (ending in a newline) describing an instruction. */
  datatype Printer = Printer(
    isInst: ValueId -> bool,
    valueStr: ValueId -> string,
    instJson: ValueId -> string,
    instText: ValueId -> string)

  /** LLVM prints every non-null value as non-empty text; `escapeValueString`
      relies on it, as `escapeJsonString` has no result for the empty string. */
  ghost predicate ValueStrsNonEmpty(p: Printer)
  {
    forall v :: |p.valueStr(v)| > 0
  }

  /** `escapeValueString`. */
  function EscapeValue(p: Printer, v: ValueId): string
    requires ValueStrsNonEmpty(p)
  {
    EscapeJsonString(p.valueStr(v))
  }

  /** Items separated by commas. */
  function Join(items: seq<string>): string
  {
    if |items| == 0 then ""
    else if |items| == 1 then items[0]
    else items[0] + "," + Join(items[1..])
  }

  /** `{` + the JSON members of each context instruction + `}`. */
  function CtxItems(p: Printer, ctx: seq<ValueId>): (r: seq<string>)
    ensures |r| == |ctx|
    ensures forall i :: 0 <= i < |ctx| ==> r[i] == "{" + p.instJson(ctx[i]) + "}"
  {
    if |ctx| == 0 then [] else CtxItems(p, ctx[..|ctx| - 1]) + ["{" + p.instJson(ctx[|ctx| - 1]) + "}"]
  }

  /** `printInstlocJson`: the instruction's members (or an `instr` member holding
      the escaped value text for a non-instruction), then, when the location has
      a context, a `ctx` array of its instructions. */
  function InstLocJson(p: Printer, l: InstLoc): (r: string)
    requires ValueStrsNonEmpty(p)
    ensures p.isInst(l.inst) ==> p.instJson(l.inst) <= r
    ensures !p.isInst(l.inst) ==> "\"instr\":\"" + EscapeValue(p, l.inst) + "\"" <= r
    ensures !HasCtx(l) && p.isInst(l.inst) ==> r == p.instJson(l.inst)
    ensures HasCtx(l) ==> |r| > 0 && r[|r| - 1] == ']'
  {
    var head := if p.isInst(l.inst) then p.instJson(l.inst) else "\"instr\":\"" + EscapeValue(p, l.inst) + "\"";
    var ctx := if HasCtx(l) then ",\"ctx\":[" + Join(CtxItems(p, Ctx(l))) + "]" else "";
    assert (head + ctx)[..|head|] == head;
    head + ctx
  }

  /** The loop of `printInstlocTraceJson` after the opening bracket: null entries
      are skipped and a comma is written before an item once one was written. */
  function TraceLoop(p: Printer, trace: seq<Option<InstLoc>>, comma: bool): (r: string)
    requires ValueStrsNonEmpty(p)
    ensures r == "" <==> forall i :: 0 <= i < |trace| ==> trace[i].None?
    ensures comma && r != "" ==> r[0] == ','
    ensures !comma && r != "" ==> r[0] == '{'
  {
    if |trace| == 0 then ""
    else match trace[0]
      case None => TraceLoop(p, trace[1..], comma)
      case Some(l) =>
        var item := "{" + InstLocJson(p, l) + "}";
        (if comma then "," + item else item) + TraceLoop(p, trace[1..], true)
  }

  /** `printInstlocTraceJson`. */
  function TraceJson(p: Printer, trace: seq<Option<InstLoc>>): (r: string)
    requires ValueStrsNonEmpty(p)
    ensures r == "[" + Join(TraceItems(p, trace)) + "]"
    ensures |trace| == 0 ==> r == "[]"
  {
    TraceLoopIsJoin(p, trace);
    if |trace| == 0 then "[]" else "[" + TraceLoop(p, trace, false) + "]"
  }

  /** Reference definition of the trace items: one `{...}` per non-null entry, in
      order. */
  function TraceItems(p: Printer, trace: seq<Option<InstLoc>>): (r: seq<string>)
    requires ValueStrsNonEmpty(p)
    ensures |r| <= |trace|
  {
    if |trace| == 0 then []
    else
      var head := match trace[0] case None => [] case Some(l) => ["{" + InstLocJson(p, l) + "}"];
      head + TraceItems(p, trace[1..])
  }

  /** Each item preceded by a comma. */
  function CommaEach(items: seq<string>): string
  {
    if |items| == 0 then "" else "," + items[0] + CommaEach(items[1..])
  }

  lemma {:induction false} TraceLoopAfterComma(p: Printer, trace: seq<Option<InstLoc>>)
    requires ValueStrsNonEmpty(p)
    ensures TraceLoop(p, trace, true) == CommaEach(TraceItems(p, trace))
  {
    if |trace| > 0 {
      TraceLoopAfterComma(p, trace[1..]);
      match trace[0]
      case None =>
        assert TraceItems(p, trace) == TraceItems(p, trace[1..]);
      case Some(l) =>
        var item := "{" + InstLocJson(p, l) + "}";
        var items := TraceItems(p, trace);
        assert items == [item] + TraceItems(p, trace[1..]);
        assert items[1..] == TraceItems(p, trace[1..]);
        assert CommaEach(items) == "," + item + CommaEach(items[1..]);
    }
  }

  lemma JoinCons(x: string, rest: seq<string>)
    ensures Join([x] + rest) == x + CommaEach(rest)
    decreases |rest|
  {
    if |rest| > 0 {
      assert ([x] + rest)[1..] == rest;
      assert rest == [rest[0]] + rest[1..];
      JoinCons(rest[0], rest[1..]);
    }
  }

  /** Whatever nulls the trace holds, the comma flag puts commas exactly between
      emitted items. */
  lemma {:induction false} TraceLoopIsJoin(p: Printer, trace: seq<Option<InstLoc>>)
    requires ValueStrsNonEmpty(p)
    ensures TraceLoop(p, trace, false) == Join(TraceItems(p, trace))
  {
    if |trace| > 0 {
      match trace[0]
      case None =>
        TraceLoopIsJoin(p, trace[1..]);
        assert TraceItems(p, trace) == TraceItems(p, trace[1..]);
      case Some(l) =>
        var x := "{" + InstLocJson(p, l) + "}";
        TraceLoopAfterComma(p, trace[1..]);
        JoinCons(x, TraceItems(p, trace[1..]));
        assert TraceItems(p, trace) == [x] + TraceItems(p, trace[1..]);
    }
  }

  /** A trace holding only null entries prints as an empty array, as does an
      empty trace. */
  lemma {:induction false} AllNullTraceIsEmptyArray(p: Printer, trace: seq<Option<InstLoc>>)
    requires ValueStrsNonEmpty(p)
    requires forall i :: 0 <= i < |trace| ==> trace[i].None?
    ensures TraceItems(p, trace) == []
    ensures TraceJson(p, trace) == "[]"
  {
    if |trace| > 0 {
      AllNullTraceIsEmptyArray(p, trace[1..]);
    }
  }

  // ---------------------------------------------------------------- readers

  /** Drops the literal `lit` from the front of `t`, or None if `t` does not start
      with it. */
  function Expect(t: string, lit: string): (r: Option<string>)
    ensures r.Some? ==> t == lit + r.value
  {
    if lit <= t then Some(t[|lit|..]) else None
  }

  /** Reads an optional minus sign and a non-empty run of digits. */
  function ReadInt(t: string): Option<(int, string)>
  {
    var neg := |t| > 0 && t[0] == '-';
    var start := if neg then 1 else 0;
    var d := DigitRun(t, start);
    if d == 0 then None
    else
      var mag: int := DigitsValue(t[start..start + d]);
      Some((if neg then -mag else mag, t[start + d..]))
  }

  lemma ReadIntOfIntToString(i: int, rest: string)
    requires |rest| == 0 || !IsDigit(rest[0])
    ensures ReadInt(IntToString(i) + rest) == Some((i, rest))
  {
    var s := IntToString(i);
    var t := s + rest;
    var start := if i < 0 then 1 else 0;
    var digits := NatToString(if i < 0 then -i else i);
    assert t == s[..start] + digits + rest;
    assert t[start..] == digits + rest;
    DigitRunOver(t, start, digits, rest);
    assert t[start..start + |digits|] == digits;
    assert t[start + |digits|..] == rest;
  }

  lemma DigitRunOver(t: string, start: nat, digits: string, rest: string)
    requires start <= |t| && t[start..] == digits + rest
    requires AllDigits(digits)
    requires |rest| == 0 || !IsDigit(rest[0])
    ensures DigitRun(t, start) == |digits|
    decreases |digits|
  {
    if |digits| > 0 {
      assert t[start] == digits[0];
      assert t[start + 1..] == digits[1..] + rest;
      DigitRunOver(t, start + 1, digits[1..], rest);
    } else {
      assert start == |t| || t[start] == rest[0];
    }
  }

  /** Reads a quoted JSON string body (the opening quote already consumed). */
  function ReadField(t: Option<string>): Option<(string, string)>
  {
    if t.None? then None else ReadJsonString(t.value)
  }

  // ------------------------------------------------------- invalid-cast warning

  datatype InvalidCast = InvalidCast(
    foundBy: string,
    srcObj: Option<ValueId>,
    srcObjectSize: int,
    srcSizeTainted: bool,
    dstObjectSize: int,
    target: ValueId,
    callSites: seq<ValueId>,
    trace: seq<Option<InstLoc>>)

  const CastWarnStr: string := "Trying to cast an object"
  const UnknownObject: string := "UNKNOWN OBJECT"
  const TaintMember: string := ", \"src_obj_taint\":\"tainted\""

  /** The escaped `src_obj` text. */
  function CastSrcText(p: Printer, w: InvalidCast): string
    requires ValueStrsNonEmpty(p)
  {
    if w.srcObj.Some? then EscapeValue(p, w.srcObj.value) else EscapeJsonString(UnknownObject)
  }

  /** The size members: the number, and after an unknown (-1) tainted size the
      `src_obj_taint` member. */
  function CastSizeJson(w: InvalidCast): string
  {
    if w.srcObjectSize != -1 then IntToString(w.srcObjectSize)
    else "-1" + (if w.srcSizeTainted then TaintMember else "")
  }

  /** The line from `dst_obj_size` on. */
  function CastAfterSize(p: Printer, w: InvalidCast): string
    requires ValueStrsNonEmpty(p)
  {
    ",\"dst_obj_size\":" + (IntToString(w.dstObjectSize) + ("," + CastTail(p, w)))
  }

  /** The instruction members, the trace and the closing brace. */
  function CastTail(p: Printer, w: InvalidCast): string
    requires ValueStrsNonEmpty(p)
  {
    p.instJson(w.target) + ",\"inst_trace\":" + TraceJson(p, w.trace) + "}\n"
  }

  function CastAfterSrc(p: Printer, w: InvalidCast): string
    requires ValueStrsNonEmpty(p)
  {
    ",\"src_obj_size\":" + (CastSizeJson(w) + CastAfterSize(p, w))
  }

  function CastAfterWarnStr(p: Printer, w: InvalidCast): string
    requires ValueStrsNonEmpty(p)
  {
    ",\"src_obj\":\"" + (CastSrcText(p, w) + "\"" + CastAfterSrc(p, w))
  }

  function CastAfterBy(p: Printer, w: InvalidCast): string
    requires ValueStrsNonEmpty(p)
  {
    ",\"warn_str\":\"" + (EscapeJsonString(CastWarnStr) + "\"" + CastAfterWarnStr(p, w))
  }

  /** `InvalidCastWarning::printWarning`: `by`, `warn_str`, `src_obj`,
      `src_obj_size` (with `src_obj_taint` after an unknown tainted size),
      `dst_obj_size`, the instruction members and `inst_trace`, then `}` and a
      newline. */
  function InvalidCastJson(p: Printer, w: InvalidCast): (r: string)
    requires ValueStrsNonEmpty(p) && |w.foundBy| > 0
    ensures ByPrefix + EscapeJsonString(w.foundBy) + "\"" <= r
  {
    PrefixOfNested(ByPrefix, EscapeJsonString(w.foundBy), "\"", CastAfterBy(p, w));
    ByPrefix + (EscapeJsonString(w.foundBy) + "\"" + CastAfterBy(p, w))
  }

  const ByPrefix: string := "\"warn_data\":{\"by\":\""

  /** The members a reader recovers from the front of an invalid-cast line. */
  datatype CastHead = CastHead(
    foundBy: string, warnStr: string, srcObj: string, srcSize: int, tainted: bool,
    dstSize: int, rest: string)

  /** A reader for the front of an invalid-cast line, up to the instruction
      members. */
  function ReadCastHead(r: string): Option<CastHead>
  {
    match ReadField(Expect(r, ByPrefix))
    case None => None
    case Some((fb, r1)) =>
      match ReadField(Expect(r1, ",\"warn_str\":\""))
      case None => None
      case Some((ws, r2)) =>
        match ReadField(Expect(r2, ",\"src_obj\":\""))
        case None => None
        case Some((so, r3)) =>
          match ReadSizes(r3)
          case None => None
          case Some((sz, tainted, dst, rest)) => Some(CastHead(fb, ws, so, sz, tainted, dst, rest))
  }

  /** Reads `src_obj_size`, the optional taint member and `dst_obj_size`. */
  function ReadSizes(r3: string): Option<(int, bool, int, string)>
  {
    match Expect(r3, ",\"src_obj_size\":")
    case None => None
    case Some(r4) =>
      match ReadInt(r4)
      case None => None
      case Some((sz, r5)) =>
        var tainted := TaintMember <= r5;
        match ReadDst(if tainted then r5[|TaintMember|..] else r5)
        case None => None
        case Some((dst, rest)) => Some((sz, tainted, dst, rest))
  }

  /** Reads `dst_obj_size` and the comma after it. */
  function ReadDst(r6: string): Option<(int, string)>
  {
    match Expect(r6, ",\"dst_obj_size\":")
    case None => None
    case Some(r7) =>
      match ReadInt(r7)
      case None => None
      case Some((dst, r8)) =>
        match Expect(r8, ",")
        case None => None
        case Some(rest) => Some((dst, rest))
  }

  lemma ExpectLit(lit: string, x: string)
    ensures Expect(lit + x, lit) == Some(x)
  {
    PrefixOfAppend(lit, x);
    DropPrefix(lit, x);
  }

  /** Reading a field closed by a quote, after the literal that opens it. */
  lemma ReadFieldAfter(lit: string, s: string, x: string)
    requires |s| > 0
    ensures ReadField(Expect(lit + (EscapeJsonString(s) + "\"" + x), lit)) == Some((s, x))
  {
    ExpectLit(lit, EscapeJsonString(s) + "\"" + x);
    EscapeJsonStringReadsBack(s, x);
  }

  lemma MinusOneText()
    ensures IntToString(-1) == "-1"
  {
    assert NatToString(1) == "1";
  }

  lemma ReadDstOf(dst: int, tail: string)
    ensures ReadDst(",\"dst_obj_size\":" + (IntToString(dst) + ("," + tail))) == Some((dst, tail))
    ensures !(TaintMember <= ",\"dst_obj_size\":" + (IntToString(dst) + ("," + tail)))
  {
    var after := ",\"dst_obj_size\":" + (IntToString(dst) + ("," + tail));
    ExpectLit(",\"dst_obj_size\":", IntToString(dst) + ("," + tail));
    ReadIntOfIntToString(dst, "," + tail);
    ExpectLit(",", tail);
    assert after[1] == '"';
  }

  /** Reading the size members when the number `text` was printed for `size`
      and `after` follows. */
  lemma ReadSizesCase(size: int, text: string, rest: string, tainted: bool, after: string, dst: int, tail: string)
    requires ReadInt(text) == Some((size, rest))
    requires tainted ==> rest == TaintMember + after
    requires !tainted ==> rest == after
    requires ReadDst(after) == Some((dst, tail)) && !(TaintMember <= after)
    ensures ReadSizes(",\"src_obj_size\":" + text) == Some((size, tainted, dst, tail))
  {
    ExpectLit(",\"src_obj_size\":", text);
    if tainted {
      PrefixOfAppend(TaintMember, after);
      DropPrefix(TaintMember, after);
    }
  }

  lemma ReadSizesKnown(size: int, after: string, dst: int, tail: string)
    requires size != -1
    requires ReadDst(after) == Some((dst, tail)) && !(TaintMember <= after)
    requires |after| > 0 && !IsDigit(after[0])
    ensures ReadSizes(",\"src_obj_size\":" + (IntToString(size) + after)) == Some((size, false, dst, tail))
  {
    ReadIntOfIntToString(size, after);
    ReadSizesCase(size, IntToString(size) + after, after, false, after, dst, tail);
  }

  lemma ReadSizesUnknown(tainted: bool, after: string, dst: int, tail: string)
    requires ReadDst(after) == Some((dst, tail)) && !(TaintMember <= after)
    requires |after| > 0 && !IsDigit(after[0])
    ensures ReadSizes(",\"src_obj_size\":" + (("-1" + (if tainted then TaintMember else "")) + after))
      == Some((-1, tainted, dst, tail))
  {
    var rest := (if tainted then TaintMember else "") + after;
    assert ("-1" + (if tainted then TaintMember else "")) + after == "-1" + rest;
    MinusOneReads(rest);
    ReadSizesCase(-1, "-1" + rest, rest, tainted, after, dst, tail);
  }

  lemma MinusOneReads(rest: string)
    requires |rest| > 0 && rest[0] == ','
    ensures ReadInt("-1" + rest) == Some((-1, rest))
  {
    MinusOneText();
    ReadIntOfIntToString(-1, rest);
  }

  lemma ReadSizesBack(p: Printer, w: InvalidCast)
    requires ValueStrsNonEmpty(p)
    ensures ReadSizes(CastAfterSrc(p, w)) == Some((w.srcObjectSize,
      w.srcObjectSize == -1 && w.srcSizeTainted, w.dstObjectSize, CastTail(p, w)))
  {
    var after := CastAfterSize(p, w);
    ReadDstOf(w.dstObjectSize, CastTail(p, w));
    assert after[0] == ',';
    if w.srcObjectSize != -1 {
      ReadSizesKnown(w.srcObjectSize, after, w.dstObjectSize, CastTail(p, w));
    } else {
      ReadSizesUnknown(w.srcSizeTainted, after, w.dstObjectSize, CastTail(p, w));
    }
  }

  /** The invalid-cast line reads back: `by` is the detector name, `warn_str` the
      fixed message, `src_obj` the value text or `UNKNOWN OBJECT`, the two sizes
      are the numbers printed, the `src_obj_taint` member is present exactly when
      the source size is unknown (-1) and tainted, and what follows is the
      instruction, the trace and the closing brace. */
  lemma InvalidCastReadsBack(p: Printer, w: InvalidCast)
    requires ValueStrsNonEmpty(p) && |w.foundBy| > 0
    ensures ReadCastHead(InvalidCastJson(p, w)) == Some(CastHead(
      w.foundBy, CastWarnStr,
      if w.srcObj.Some? then p.valueStr(w.srcObj.value) else UnknownObject,
      w.srcObjectSize, w.srcObjectSize == -1 && w.srcSizeTainted, w.dstObjectSize,
      p.instJson(w.target) + ",\"inst_trace\":" + TraceJson(p, w.trace) + "}\n"))
  {
    ReadFieldAfter(ByPrefix, w.foundBy, CastAfterBy(p, w));
    ReadFieldAfter(",\"warn_str\":\"", CastWarnStr, CastAfterWarnStr(p, w));
    ReadFieldAfter(",\"src_obj\":\"",
      if w.srcObj.Some? then p.valueStr(w.srcObj.value) else UnknownObject, CastAfterSrc(p, w));
    ReadSizesBack(p, w);
  }

  /** The call-context section of the complete forms: each call site's text line,
      indented, in order. */
  function CallSitesText(p: Printer, sites: seq<ValueId>): string
  {
    if |sites| == 0 then "" else CallSitesText(p, sites[..|sites| - 1]) + "   " + p.instText(sites[|sites| - 1])
  }

  /** The call-context section keeps the order of the call-site trace: the text
      of a concatenated trace is the concatenation of the texts. */
  lemma {:induction false} CallSitesTextAppend(p: Printer, a: seq<ValueId>, b: seq<ValueId>)
    ensures CallSitesText(p, a + b) == CallSitesText(p, a) + CallSitesText(p, b)
    decreases |b|
  {
    if |b| == 0 {
      assert a + b == a;
    } else {
      assert (a + b)[..|a + b| - 1] == a + b[..|b| - 1];
      CallSitesTextAppend(p, a, b[..|b| - 1]);
    }
  }

  /** Whatever precedes and follows the call-context section, the text of the
      first `k` call sites, after what precedes it, is a prefix of the whole:
      the sites are printed in trace order. */
  lemma SitesInOrder(pre: string, p: Printer, sites: seq<ValueId>, post: string)
    ensures forall k :: 0 <= k <= |sites| ==> pre + CallSitesText(p, sites[..k]) <= pre + CallSitesText(p, sites) + post
  {
    forall k | 0 <= k <= |sites|
      ensures pre + CallSitesText(p, sites[..k]) <= pre + CallSitesText(p, sites) + post
    {
      assert sites[..k] + sites[k..] == sites;
      CallSitesTextAppend(p, sites[..k], sites[k..]);
      var a, b := CallSitesText(p, sites[..k]), CallSitesText(p, sites[k..]);
      assert pre + CallSitesText(p, sites) + post == (pre + a) + (b + post);
      PrefixOfAppend(pre + a, b + post);
    }
  }

  /** The text of the sites up to the `k`-th ends with that site's indented
      line. */
  lemma CallSiteLine(p: Printer, sites: seq<ValueId>, k: nat)
    requires k < |sites|
    ensures CallSitesText(p, sites[..k + 1]) == CallSitesText(p, sites[..k]) + "   " + p.instText(sites[k])
  {
    assert sites[..k + 1][..k] == sites[..k];
  }

  /** The size slot of the complete form. */
  function CastSizeText(size: int, tainted: bool): string
  {
    if size != -1 then IntToString(size) else " Unknown" + (if tainted then " (Also TAINTED)" else "")
  }

  /** The complete cast warning up to its call-context section: the fixed
      message, the object, both sizes and the detector, then the instruction. */
  function CastPre(p: Printer, w: InvalidCast): (r: string)
    ensures "Trying to cast an object:" <= r
  {
    var rest := (if w.srcObj.Some? then p.valueStr(w.srcObj.value) else " UNKNOWN OBJECT.")
      + " of size:" + CastSizeText(w.srcObjectSize, w.srcSizeTainted)
      + " to object of size:" + IntToString(w.dstObjectSize)
      + " :" + w.foundBy + "\n"
      + "  at: " + p.instText(w.target)
      + "  Call Context:";
    PrefixOfAppend("Trying to cast an object:", rest);
    "Trying to cast an object:" + rest
  }

  /** `InvalidCastWarning::printCompleteWarning`: the text up to the call
      context, then the call sites in trace order, which end the text. */
  function InvalidCastText(p: Printer, w: InvalidCast): (r: string)
    ensures "Trying to cast an object:" <= r
    ensures forall k :: 0 <= k <= |w.callSites| ==> CastPre(p, w) + CallSitesText(p, w.callSites[..k]) <= r
    ensures |CastPre(p, w)| <= |r| && r[|CastPre(p, w)|..] == CallSitesText(p, w.callSites)
  {
    var pre := CastPre(p, w);
    SitesInOrder(pre, p, w.callSites, "");
    assert w.callSites[..0] == [];
    PrefixTrans("Trying to cast an object:", pre, pre + CallSitesText(p, w.callSites) + "");
    pre + CallSitesText(p, w.callSites) + ""
  }

  /** The size slot of the complete form says "Unknown" exactly for the unknown
      size -1, and adds "(Also TAINTED)" exactly when that size is tainted. */
  lemma CastSizeTextMeaning(size: int, tainted: bool)
    ensures " Unknown" <= CastSizeText(size, tainted) <==> size == -1
    ensures " Unknown (Also TAINTED)" <= CastSizeText(size, tainted) <==> size == -1 && tainted
  {
    var s := CastSizeText(size, tainted);
    if size != -1 {
      var t := IntToString(size);
      assert s == t;
      assert t[0] == '-' || IsDigit(t[0]);
      assert !(" Unknown" <= s) by { assert |s| > 0 && s[0] != ' '; }
      assert !(" Unknown (Also TAINTED)" <= s) by { assert s[0] != ' '; }
    } else if !tainted {
      assert s == " Unknown";
    } else {
      assert s == " Unknown (Also TAINTED)";
    }
  }

  /** The complete form and the JSON line agree on the size: the text prints
      "Unknown" exactly where the JSON reads back -1, and "(Also TAINTED)"
      exactly where the JSON carries the `src_obj_taint` member. */
  lemma CastSizeTextAgreesWithJson(p: Printer, w: InvalidCast, h: CastHead)
    requires ValueStrsNonEmpty(p) && |w.foundBy| > 0
    requires ReadCastHead(InvalidCastJson(p, w)) == Some(h)
    ensures " Unknown" <= CastSizeText(w.srcObjectSize, w.srcSizeTainted) <==> h.srcSize == -1
    ensures " Unknown (Also TAINTED)" <= CastSizeText(w.srcObjectSize, w.srcSizeTainted) <==> h.tainted
  {
    InvalidCastReadsBack(p, w);
    CastSizeTextMeaning(w.srcObjectSize, w.srcSizeTainted);
  }

  // ------------------------------------------ uninit-leak / tainted-use warnings

  /** A warning about one object: the uninitialised-memory leak and the improper
      use of tainted data carry the same members. */
  datatype ObjWarning = ObjWarning(
    foundBy: string,
    warningString: string,
    target: ValueId,
    callSites: seq<ValueId>,
    trace: seq<Option<InstLoc>>,
    obj: ValueId)

  /** The object member, last before the closing brace. */
  function ObjMember(p: Printer, w: ObjWarning, member: string): string
    requires ValueStrsNonEmpty(p)
  {
    ",\"" + member + "\":\"" + (EscapeValue(p, w.obj) + "\"" + "}\n")
  }

  /** What follows `warn_str`: the instruction members, the trace and the object
      member. */
  function ObjTail(p: Printer, w: ObjWarning, member: string): string
    requires ValueStrsNonEmpty(p)
  {
    p.instJson(w.target) + ",\"inst_trace\":" + TraceJson(p, w.trace) + ObjMember(p, w, member)
  }

  /** The JSON line shared by both object warnings; `member` is `leaked_struct`
      or `tainted_obj`. */
  function ObjWarningJson(p: Printer, w: ObjWarning, member: string): string
    requires ValueStrsNonEmpty(p) && |w.foundBy| > 0 && |w.warningString| > 0
  {
    ByPrefix + (EscapeJsonString(w.foundBy) + "\""
      + (",\"warn_str\":\"" + (EscapeJsonString(w.warningString) + "\"" + ("," + ObjTail(p, w, member)))))
  }

  /** `KernelUninitMemoryLeakWarning::printWarning`. */
  function UninitLeakJson(p: Printer, w: ObjWarning): (r: string)
    requires ValueStrsNonEmpty(p) && |w.foundBy| > 0 && |w.warningString| > 0
    ensures ReadObjHead(r) == Some((w.foundBy, w.warningString, ObjTail(p, w, "leaked_struct")))
  {
    ObjWarningReadsBack(p, w, "leaked_struct");
    ObjWarningJson(p, w, "leaked_struct")
  }

  /** `ImproperTaintedDataUseWarning::printWarning`. */
  function TaintedUseJson(p: Printer, w: ObjWarning): (r: string)
    requires ValueStrsNonEmpty(p) && |w.foundBy| > 0 && |w.warningString| > 0
    ensures ReadObjHead(r) == Some((w.foundBy, w.warningString, ObjTail(p, w, "tainted_obj")))
  {
    ObjWarningReadsBack(p, w, "tainted_obj");
    ObjWarningJson(p, w, "tainted_obj")
  }

  /** The two leading members of an object-warning line. */
  function ReadObjHead(r: string): Option<(string, string, string)>
  {
    match ReadField(Expect(r, ByPrefix))
    case None => None
    case Some((fb, r1)) =>
      match ReadField(Expect(r1, ",\"warn_str\":\""))
      case None => None
      case Some((ws, r2)) =>
        match Expect(r2, ",")
        case None => None
        case Some(rest) => Some((fb, ws, rest))
  }

  /** An object-warning line reads back: `by` is the detector name, `warn_str` the
      warning text; then come the instruction members and `inst_trace`, and the
      object member (`leaked_struct` or `tainted_obj`) is the last one before the
      closing brace, holding the object's value text. */
  lemma ObjWarningReadsBack(p: Printer, w: ObjWarning, member: string)
    requires ValueStrsNonEmpty(p) && |w.foundBy| > 0 && |w.warningString| > 0
    ensures ReadObjHead(ObjWarningJson(p, w, member)) == Some((w.foundBy, w.warningString,
      p.instJson(w.target) + ",\"inst_trace\":" + TraceJson(p, w.trace) + ObjMember(p, w, member)))
    ensures ReadField(Expect(ObjMember(p, w, member), ",\"" + member + "\":\""))
         == Some((p.valueStr(w.obj), "}\n"))
  {
    var tail := ObjTail(p, w, member);
    ReadFieldAfter(ByPrefix, w.foundBy,
      ",\"warn_str\":\"" + (EscapeJsonString(w.warningString) + "\"" + ("," + tail)));
    ReadFieldAfter(",\"warn_str\":\"", w.warningString, "," + tail);
    ExpectLit(",", tail);
    ReadFieldAfter(",\"" + member + "\":\"", p.valueStr(w.obj), "}\n");
  }

  /** The complete leak report up to its call-context section. */
  function LeakPre(p: Printer, w: ObjWarning): (r: string)
    ensures "Potential Kernel Uninitialized Memory Leak detected by:" + w.foundBy + "\n" <= r
  {
    var head := "Potential Kernel Uninitialized Memory Leak detected by:" + w.foundBy + "\n";
    var rest := "  at:" + p.instText(w.target) + "  Call Context:";
    PrefixOfAppend(head, rest);
    head + rest
  }

  /** `KernelUninitMemoryLeakWarning::printCompleteWarning`: the leak message
      naming the detector, the instruction, the call sites in trace order, and
      last the leaked structure. */
  function UninitLeakText(p: Printer, w: ObjWarning): (r: string)
    ensures "Potential Kernel Uninitialized Memory Leak detected by:" + w.foundBy + "\n" <= r
    ensures forall k :: 0 <= k <= |w.callSites| ==> LeakPre(p, w) + CallSitesText(p, w.callSites[..k]) <= r
    ensures var tail := "  Leaked Structure: " + p.valueStr(w.obj) + "\n";
            |tail| <= |r| && r[|r| - |tail|..] == tail
  {
    var pre := LeakPre(p, w);
    var post := "  Leaked Structure: " + p.valueStr(w.obj) + "\n";
    SitesInOrder(pre, p, w.callSites, post);
    assert w.callSites[..0] == [];
    PrefixTrans("Potential Kernel Uninitialized Memory Leak detected by:" + w.foundBy + "\n", pre,
                pre + CallSitesText(p, w.callSites) + post);
    pre + CallSitesText(p, w.callSites) + post
  }

  /** The complete tainted-use report up to its call-context section. */
  function TaintedUsePre(p: Printer, w: ObjWarning): (r: string)
    ensures w.warningString + ", detected by:" + w.foundBy + "\n" <= r
  {
    var head := w.warningString + ", detected by:" + w.foundBy + "\n";
    var rest := "  at: " + p.instText(w.target) + "  Call Context:";
    PrefixOfAppend(head, rest);
    head + rest
  }

  /** `ImproperTaintedDataUseWarning::printCompleteWarning`: the warning text
      and detector, the instruction, the call sites in trace order, and last
      the object holding the tainted data. */
  function TaintedUseText(p: Printer, w: ObjWarning): (r: string)
    ensures w.warningString + ", detected by:" + w.foundBy + "\n" <= r
    ensures forall k :: 0 <= k <= |w.callSites| ==> TaintedUsePre(p, w) + CallSitesText(p, w.callSites[..k]) <= r
    ensures var tail := "  Object containing tainted data: " + p.valueStr(w.obj) + "\n";
            |tail| <= |r| && r[|r| - |tail|..] == tail
  {
    var pre := TaintedUsePre(p, w);
    var post := "  Object containing tainted data: " + p.valueStr(w.obj) + "\n";
    SitesInOrder(pre, p, w.callSites, post);
    assert w.callSites[..0] == [];
    PrefixTrans(w.warningString + ", detected by:" + w.foundBy + "\n", pre, pre + CallSitesText(p, w.callSites) + post);
    pre + CallSitesText(p, w.callSites) + post
  }
}

=== FILE: wrappers.dfy ===
/** Option stands in for the nullable pointers of the analyser: `None` is a null
    pointer, `Some(v)` a pointer to `v`. */
module Wrappers {

  datatype Option<+T> = None | Some(value: T) {

    /** The pointee, or `default` for a null pointer. */
    function GetOr(default: T): T {
      match this
      case Some(v) => v
      case None => default
    }
  }
}
